=== FILE: README.md ===
# University repository: planarity, graph conversions, graph routines and OS-lab programs

This project models, in Dafny, the algorithmic core of a collection of university exercises and proves properties of that model.

- **The Left-Right planarity test** (`Graphs/planarity.py`) is the main part. It builds the half-edge rotation system `PlanarEmbedding`: a clockwise ring of out-neighbours at every vertex. It then runs the de Fraysseix–Rosenstiehl Left-Right planarity test in Brandes' formulation, in four phases:
  - the edge-count rejection;
  - the DFS orientation that computes `height`, `lowpt`, `lowpt2` and `nesting_depth`;
  - the testing pass over a stack of conflict pairs of return-edge intervals;
  - the `ref`-chain sign resolution and the embedding DFS that places the reverse half-edges.
- **The integer-matrix conversions of `Graph.cs`** (`hypergraphs/Graphs/ClassLibrary1/Graph.cs`). These convert between the degree vector, the adjacency matrix, the incidence matrix, the edge list and the staircase "signature" of a threshold graph. They include `CheckVectorGraphical`, a degree-vector test that pairs vertices greedily in index order. It is not the Havel–Hakimi test: it never re-sorts by remaining degree, and so it rejects some vectors that a simple graph has.
- **The textbook graph routines of `Graphs/Graphs.py`** over 1-based weighted adjacency lists:
  - the directedness check;
  - connected components;
  - the bipartiteness BFS;
  - bridges and cut vertices;
  - Kruskal's spanning tree;
  - the grid heuristics and grid BFS.
- **The operating-systems lab programs** (`OSLabs/...`). Each program works on in-memory values in place of files, pipes and the terminal:
  - the XOR/mask file statistics of Lab 1 task 4;
  - the login shell of Lab 1 task 2, with registration, PINs, request limits and `Howmuch`;
  - the pattern search with file de-duplication of Lab 2 task 3;
  - the depth-bounded directory listing of Lab 2 task 4;
  - the reduced-residue prime filter of Lab 3 task 3.

Modelling conventions:
- Graph vertices are `0..n-1` in the graph's node order. The 1-based lists of `Graphs.py` keep their 1-based entries.
- Python dictionaries whose iteration order matters, such as a vertex's out-half-edges, keep that order explicitly as a sequence of keys.
- Mutable Python objects become values. A conflict pair that Python compares by identity carries an explicit id.
- The exceptions and error returns the model handles are values:
  - a `Failure` of a `Result`, or `None` of an `Option`;
  - in the planarity test, a `Fault` for a missing key, an empty-stack pop or an unbounded chain.
- C's `int` and `unsigned` arithmetic is unbounded in the model unless stated below. The 64-bit `long` of the signature, the `unsigned char` and `unsigned int` of the XOR statistics, and the fixed `scanf` widths are written out.
- Files, pipes, processes, the clock and the terminal are not modelled as such:
  - a file becomes its contents as a sequence;
  - a terminal answer becomes one line of text;
  - a clock reading becomes a parameter;
  - `rand()` becomes a sequence of draws.

The comment at the top of `Graphs/planarity.py` calls the algorithm Hopcroft–Tarjan. The code is the Left-Right test, and the model follows the code.

Modules:
- `Wrappers`: `Option` and `Result`.
- `Seqs`: duplicate-free sequences.
- `Reach`: graph reachability closures.
- `Rotation`: one vertex's ring; `add_half_edge`, `neighbors_cw_order` and one side of `remove_edge`.
- `Embedding`: `PlanarEmbedding` over all vertices; faces and `check_structure` with its Euler count.
- `LrOrient`: preparation, the rejection and `_dfs_orientation`.
- `LrTest`: `_Interval`, `_ConflictPair`, `_dfs_testing`, `_add_constraints`, `_remove_back_edges` and `_get_side`.
- `Sorting`: Python's stable `sorted` with a key.
- `LrEmbed`: phase 3, `_dfs_embedding` and `lr_planarity`.
- `Degrees`: degree vectors of 0/1 matrices and the index-order greedy pairing test of `CheckVectorGraphical`.
- `Realise`: `VectorToAdjacencyMatrix`, building a simple graph with a given degree vector.
- `Incidence`: adjacency to incidence and back, and the edge list `GetRibs`.
- `Signature`: the staircase signature of threshold graphs, its inverse and `BaseToSignature`.
- `GraphLists`: the adjacency lists of `Graphs.py`, `_check_directed` and `connected_components`.
- `Bipartite`: `is_bipartite`.
- `Bridges`: `find_bridges_and_articulations`.
- `Kruskal`: `list_of_edges`, the union-find and `minimum_spanning_tree_kruskal`.
- `Grid`: the grid `neighbors`, the two heuristics, `distance` and `find_path_bfs`.
- `Numbers`: `is_prime`.
- `XorStream`: `xor8`, `xorodd` and `mask_count`.
- `Residues`: `__gcd`, the reduced-residue count and the parent loop of Lab 3 task 3.
- `CString`: the C library calls the labs use: `strstr`, `strrchr`, `strcspn` and `%d` printing.
- `Scan`: the `scanf` conversions the shell uses.
- `TextSearch`: `search_in_file`, the de-duplication and the search of Lab 2 task 3.
- `DirList`: `get_file_extension`, `list_directory` and `main` of Lab 2 task 4.
- `Howmuch`: `parse_datetime` and `howmuch_time`.
- `Shell`: the users table, registration, login, sanctions and the command loop of Lab 1 task 2.

## Model

In the rows below, a "graphical" vector or matrix is one that passes `CheckVectorGraphical`'s greedy test. It does not mean one that some simple graph realises.

| member | source | states |
|---|---|---|
| Rotation.AddHalfEdge | Graphs/planarity.py:369-400 | the raise cases of `add_half_edge`: a reference on an empty ring, no reference on a non-empty ring, a `cw` or `ccw` that is not a neighbour, and a `cw` given together with a `ccw` each fail with their own error |
| Rotation.AddToEmptyRing | Graphs/planarity.py:397-400 | the first out-half-edge of a vertex, added without a reference, is its own clockwise and counter-clockwise neighbour, and the ring reads `[v]` |
| Rotation.AddCwIsInsertion | Graphs/planarity.py:369-382 | on a well-formed ring with clockwise order `o`, `cw=o[j]` inserts v immediately before `o[j]`: the new order is `o[..j] + [v] + o[j..]`, and v becomes leftmost exactly when `o[j]` was |
| Rotation.AddCcwIsInsertion | Graphs/planarity.py:383-396 | `ccw=o[j]` inserts v immediately after `o[j]`: the new order is `o[..j+1] + [v] + o[j+1..]` with the same leftmost neighbour |
| Rotation.AddFirstPrepends | Graphs/planarity.py:461-464 | `add_half_edge_first(u, v)` prepends v to u's clockwise order |
| Rotation.AddKeepsLinks | Graphs/planarity.py:369-400 | a successful insertion adds the half-edge to v and no other neighbour |
| Rotation.CwOrderOfRing | Graphs/planarity.py:358-367 | `neighbors_cw_order` of a ring representing `o` yields exactly `o`: the leftmost neighbour first, then clockwise, each neighbour once, nothing for an empty ring |
| Rotation.WalkFollowsRing | Graphs/planarity.py:364-367 | the clockwise walk from any position of a well-formed ring returns to its start after visiting the rest of the order |
| Rotation.UnlinkIsDeletion | Graphs/planarity.py:442-445 | removing neighbour `o[j]` splices its two neighbours together; the remaining ring reads `o` without `o[j]`, rotated to start at the new leftmost neighbour |
| Rotation.RotateCyclic | Graphs/planarity.py:442-445 | a ring read from another start is the same cyclic order with the same members |
| Embedding.AddHalfEdgeAt | Graphs/planarity.py:369-400 | `add_half_edge(u, v, …)` changes only u's ring and adds exactly v to its neighbours; it raises exactly when the ring operation raises |
| Embedding.AddFirstAtVertex | Graphs/planarity.py:461-464 | at the embedding level, `add_half_edge_first(u, v)` prepends v to u's order and leaves every other ring unchanged |
| Embedding.RemoveEdge | Graphs/planarity.py:436-447 | `remove_edge(u, v)` raises when either half-edge is absent and otherwise changes only the rings of u and v |
| Embedding.RemoveEdgeIsDeletion | Graphs/planarity.py:436-447 | on well-formed rings, `remove_edge(u, v)` succeeds and deletes v from u's clockwise order and u from v's |
| Embedding.NextFaceOnRing | Graphs/planarity.py:466-467 | when w's ring reads `o`, the face step after `o[j]`->w is w->x, where x is the neighbour just before `o[j]` in w's clockwise order |
| Embedding.NextFaceStaysOnRing | Graphs/planarity.py:466-467 | a face step from v->w succeeds exactly when v is a neighbour of w, and it leads to another neighbour of w |
| Embedding.TraverseFace | Graphs/planarity.py:469-481 | a completed face walk starts with v->w and consecutive vertices follow face steps. It ends at the clockwise neighbour of w around v. Every half-edge on it was unmarked and is distinct, and it adds exactly those half-edges to the marks |
| Embedding.Components | Graphs/planarity.py:414 | each component the search yields is a non-empty set of vertices, disjoint from those already visited |
| Embedding.CountComponent | Graphs/planarity.py:417-425 | the half-edge count of a component is the sum of its vertices' out-degrees, at most one face is counted per half-edge, and the marks only grow |
| Embedding.EulerCheckEach | Graphs/planarity.py:413-428 | the Euler test accepts exactly when every component with more than one vertex has V − E + F = 2, with E half its half-edges and F its face count |
| Embedding.CheckStructure | Graphs/planarity.py:402-428 | `check_structure` raises when some ring does not read as its key set or some half-edge lacks its opposite; it accepts only embeddings with both properties |
| Embedding.CheckStructureIff | Graphs/planarity.py:402-428 | `check_structure` succeeds exactly when the rings are consistent, every half-edge has its opposite, and every component with more than one vertex satisfies Euler's formula |
| Reach.ComponentIsClosure | Graphs/planarity.py:414 | a component found by the search is closed under edges and is the least closed set containing its start |
| LrOrient.DropLoopsSimple | Graphs/planarity.py:85-86 | dropping self-loops leaves a simple undirected graph with the same edges between distinct vertices |
| LrOrient.SizeCountsEdges | Graphs/planarity.py:111-112 | on a simple graph the adjacency lists hold every undirected edge twice, so the size the rejection compares with 3n − 6 is the number of edges |
| LrOrient.LowpointsOrder | Graphs/planarity.py:176-183 | updating a parent edge's lowpoints from a child edge makes `lowpt` the minimum of the two and keeps `lowpt <= lowpt2 <=` the old `lowpt2` |
| LrOrient.OrientationFacts | Graphs/planarity.py:115-183 | after phase 1, every vertex has a height. Every undirected edge is oriented exactly once, and only edges of G are oriented. The out-lists list the oriented edges without repeats. Every oriented edge has `lowpt <= lowpt2 <= height(tail)` and `nesting_depth = 2·lowpt + [lowpt2 < height(tail)]` |
| LrOrient.OrientationTree | Graphs/planarity.py:163-166 | each parent edge is an oriented edge into its vertex from one level up, and every root is a vertex of G |
| LrTest.Lowest | Graphs/planarity.py:64-69 | the lowest lowpoint of a pair is the lowpoint of the low end of one non-empty side and at most that of each non-empty side |
| LrTest.SetRef | Graphs/planarity.py:223-246 | a `ref` write changes only its key; writing `None` reads back like no entry |
| LrTest.MergeRight | Graphs/planarity.py:213-229 | the first merge loop only pops the stack and leaves P's left interval alone. It reports non-planar only when the pair it stopped at has both sides non-empty after one swap; on success it stops exactly at the stack bottom recorded for ei |
| LrTest.MergeRightPops | Graphs/planarity.py:213-229 | every pair the first merge loop pops and merges has an empty side, so the loop fails exactly at the first pair with two non-empty sides |
| LrTest.MergeLeft | Graphs/planarity.py:232-247 | the second merge loop reports non-planar only when the pair it stopped at conflicts with ei on both sides; otherwise it leaves a top pair conflicting on neither side |
| LrTest.MergeLeftPops | Graphs/planarity.py:232-247 | every pair the second merge loop pops conflicts with ei on exactly one side |
| LrTest.AddConstraints | Graphs/planarity.py:210-251 | `_add_constraints` succeeds exactly when the two loops do and returns their verdict. It pushes the merged pair P exactly when that verdict is planar and P is non-empty, and leaves `side`, `lowpt_edge` and `stack_bottom` alone |
| LrTest.PopLowest | Graphs/planarity.py:255-258 | the first loop of `_remove_back_edges` stops at a top pair whose lowest return edge does not end at u |
| LrTest.PopLowestPops | Graphs/planarity.py:255-258 | every pair the first loop pops has its lowest return edge ending at u, and the left low end of each has side −1 afterwards |
| LrTest.SidesOnlyGrowLeft | Graphs/planarity.py:257-258 | popping the lowest pairs writes only −1 into `side` and leaves every other side as it was |
| LrTest.Chase | Graphs/planarity.py:263-271 | trimming an interval stops at the first edge in the `ref` chain that does not end at u, or at `None` |
| LrTest.ChaseFuel | Graphs/planarity.py:263-264 | the result of trimming does not depend on the step bound once it is enough |
| LrTest.TrimTop | Graphs/planarity.py:260-276 | trimming the top pair keeps the stack height and the pair's identity, leaves no high end of the top pair ending at u, and keeps every side a sign |
| LrTest.Align | Graphs/planarity.py:278-284 | the reference of the parent edge is the high end of the right interval when the left is empty, of the left when the right is empty, and otherwise the left one exactly when its lowpoint is higher |
| LrTest.RemoveBackEdges | Graphs/planarity.py:253-284 | `_remove_back_edges` changes only the stack, `ref` and `side`. It leaves a top pair with no high end at u, and when `lowpt[e] < height[u]` it sets `ref[e]` to the high end `Align` chooses |
| LrTest.RemoveBackEdgesPops | Graphs/planarity.py:255-258 | the pairs `_remove_back_edges` pops are exactly the top pairs whose lowest return edge ends at u |
| LrTest.TestRoots | Graphs/planarity.py:128-130 | the testing phase over all roots keeps every side ±1 |
| LrTest.GetSide | Graphs/planarity.py:301-305 | `_get_side(e)` clears e's `ref`, stores the returned sign as e's side, touches no other key, and returns ±1 when all sides are signs |
| LrTest.GetSideResolves | Graphs/planarity.py:301-305 | the returned sign is the product of the sides along e's `ref` chain; every edge on the chain loses its `ref`, and no edge off the chain changes |
| LrTest.GetSideIdempotent | Graphs/planarity.py:301-305 | asking again for the side of a resolved edge returns the same sign and changes nothing |
| LrTest.Signs | Graphs/planarity.py:133-134 | multiplying every nesting depth by its edge's side keeps the keys, flips each depth at most in sign, and leaves no oriented edge with a `ref` |
| Sorting.Sort | Graphs/planarity.py:123-126 | `sorted` returns a permutation of its input ordered by the key |
| Sorting.SortStable | Graphs/planarity.py:137-140 | the sort is stable: the elements of any one key keep their input order |
| LrEmbed.Ordered | Graphs/planarity.py:123-126 | every out-list sorted by nesting depth is a permutation of the original ordered by depth; the sort raises exactly when some out-edge has no depth |
| LrEmbed.InitRingOrder | Graphs/planarity.py:141-145 | the initial ring of a vertex reads its sorted out-list clockwise from its first element |
| LrEmbed.InitRingsOrder | Graphs/planarity.py:141-145 | with duplicate-free out-lists the initialisation succeeds and every ring reads its list |
| LrEmbed.RingFromNeighbours | Graphs/planarity.py:141-145 | the initial ring of a vertex holds exactly the neighbours of its list |
| LrEmbed.PlaceTreePrepends | Graphs/planarity.py:289-293 | a tree edge v->w makes v the leftmost neighbour of w, in front of w's order |
| LrEmbed.PlaceRight | Graphs/planarity.py:296-297 | a back edge on the right side places v immediately clockwise after `right_ref[w]` |
| LrEmbed.PlaceLeft | Graphs/planarity.py:298-300 | a back edge on the left side places v immediately clockwise before `left_ref[w]`, which becomes v |
| LrEmbed.PlaceBack | Graphs/planarity.py:295-300 | placing a back edge raises when the reference on its side is missing and never changes `right_ref` |
| LrEmbed.EmbedRoots | Graphs/planarity.py:147-148 | the embedding DFS from the roots never removes a vertex or a half-edge |
| LrEmbed.EmbedRootsWithin | Graphs/planarity.py:286-300 | the embedding DFS adds only reverse half-edges of oriented edges of the graph |
| LrEmbed.EdgesOf | Graphs/planarity.py:133 | `DG.edges` lists exactly the oriented edges |
| LrEmbed.BuildEmbeds | Graphs/planarity.py:132-148 | phase 3 yields one ring per vertex, only edges of the graph, and every oriented edge |
| LrEmbed.LrPlanarity | Graphs/planarity.py:109-112 | `lr_planarity` answers `None` before any search when the graph is too dense |
| LrEmbed.LrPlanarityEmbeds | Graphs/planarity.py:109-148 | a returned embedding has a ring for every vertex. Its half-edges are edges of the graph without self-loops, and every edge of the graph appears in at least one direction |
| Degrees.RowCounts | hypergraphs/Graphs/ClassLibrary1/Graph.cs:903-919 | the degree of row i is the number of ones in row i |
| Degrees.Sweep | hypergraphs/Graphs/ClassLibrary1/Graph.cs:54-61 | a sweep at row i from column j on keeps the length and every entry before j other than row i's |
| Degrees.SweepBounds | hypergraphs/Graphs/ClassLibrary1/Graph.cs:54-61 | a sweep lowers each later entry by at most one and row i by at most one per later column, and never raises any entry |
| Degrees.Settle | hypergraphs/Graphs/ClassLibrary1/Graph.cs:50-69 | a successful greedy run keeps the length and the entries already settled, and leaves every later entry at most 0 |
| Degrees.CheckVectorGraphical | hypergraphs/Graphs/ClassLibrary1/Graph.cs:25-73 | an accepted vector is non-null, has an even sum and entries below n, and the greedy run on it succeeds leaving every entry at most 0 |
| Degrees.AdjacencyToVector | hypergraphs/Graphs/ClassLibrary1/Graph.cs:893-927 | the conversion succeeds exactly when no entry exceeds 1 and the row counts have an even sum, and then each entry is its row's count of ones |
| Degrees.TryAdjacencyToVector | hypergraphs/Graphs/ClassLibrary1/Graph.cs:256-297 | a null matrix is refused, and otherwise the answer is that of the conversion |
| Degrees.CheckAdjacencyGraphical | hypergraphs/Graphs/ClassLibrary1/Graph.cs:112-137 | a matrix is graphical exactly when it has no bad entry and its row counts pass the vector test |
| Degrees.GreedyRejectsPath | hypergraphs/Graphs/ClassLibrary1/Graph.cs:50-69 | the path 0–2–1 is a simple graph with degrees [1, 1, 2], yet the index-order greedy fails on that vector at vertex 2, so the test rejects it |
| Degrees.GuardEquiv | hypergraphs/Graphs/ClassLibrary1/Graph.cs:42-69 | the greedy with the in-loop guard of the realisation succeeds exactly when the plain greedy does and every entry is below n, as the up-front range check demands |
| Degrees.TooBigFails | hypergraphs/Graphs/ClassLibrary1/Graph.cs:50-69 | a remaining degree at least the number of vertices not yet swept makes the greedy fail, with or without the guard |
| Degrees.GuardIdle | hypergraphs/Graphs/ClassLibrary1/Graph.cs:860-863 | while every remaining degree is below n, the in-loop guard never changes the outcome |
| Realise.VectorToAdjacency | hypergraphs/Graphs/ClassLibrary1/Graph.cs:839-884 | realisation succeeds exactly on graphical vectors, fails with `OddSum` on an odd sum, and otherwise fails as the greedy run does. A result is a square simple matrix whose row counts are the degrees, so converting it back gives the vector |
| Realise.PairAll | hypergraphs/Graphs/ClassLibrary1/Graph.cs:856-881 | the outer loop, on success, leaves a square simple matrix whose row counts are the degrees spent by a successful greedy run; on failure it fails as the greedy does |
| Realise.PairRow | hypergraphs/Graphs/ClassLibrary1/Graph.cs:865-874 | the inner loop links row i to the later rows with degree left, lowering the degrees exactly as a sweep does and keeping the matrix simple |
| Realise.TryVectorToAdjacency | hypergraphs/Graphs/ClassLibrary1/Graph.cs:182-236 | a null vector is refused; otherwise the matrix is produced exactly when the vector test accepts |
| Incidence.UpperEdgesShape | hypergraphs/Graphs/ClassLibrary1/Graph.cs:948-959 | the edges numbered are exactly the cells on or above the diagonal holding 1, in row-major order |
| Incidence.UpperEdgesTouch | hypergraphs/Graphs/ClassLibrary1/Graph.cs:948-959 | on a symmetric matrix each vertex is an end of as many numbered edges as its row has ones |
| Incidence.Handshake | hypergraphs/Graphs/ClassLibrary1/Graph.cs:943 | for a simple matrix the degree sum is twice the number of edges, and the degree conversion accepts it |
| Incidence.AdjacencyToIncidence | hypergraphs/Graphs/ClassLibrary1/Graph.cs:935-962 | a failing degree conversion is passed on; the incidence matrix is built exactly when the numbered edges fit in sum/2 columns. On a simple matrix it has one column per edge with both ends marked, and its row counts are the degrees |
| Incidence.NumberEdges | hypergraphs/Graphs/ClassLibrary1/Graph.cs:948-959 | the numbering loop marks, in column c, exactly the two ends of the c-th upper edge |
| Incidence.NumberRow | hypergraphs/Graphs/ClassLibrary1/Graph.cs:950-958 | one row of the numbering loop numbers that row's edges after those already numbered, and fails only when they overflow the columns |
| Incidence.IncidenceToVector | hypergraphs/Graphs/ClassLibrary1/Graph.cs:1027-1051 | the degree of vertex x is the number of ones in row x of the incidence matrix |
| Incidence.IncidenceCounts | hypergraphs/Graphs/ClassLibrary1/Graph.cs:1027-1051 | reading an incidence matrix back gives each vertex the number of numbered edges it is an end of |
| Incidence.TryIncidenceToVector | hypergraphs/Graphs/ClassLibrary1/Graph.cs:427-459 | a null matrix is refused; otherwise the vector is returned exactly when it passes the vector test |
| Incidence.IncidenceToAdjacency | hypergraphs/Graphs/ClassLibrary1/Graph.cs:1008-1019 | the conversion succeeds exactly when the incidence counts are graphical; the result is simple and has those counts as degrees |
| Incidence.TryIncidenceToAdjacency | hypergraphs/Graphs/ClassLibrary1/Graph.cs:479-500 | a null matrix is refused, and a non-graphical one is reported as such |
| Incidence.GetRibsShape | hypergraphs/Graphs/ClassLibrary1/Graph.cs:1059-1081 | the edge list holds exactly the ones strictly above the diagonal in rows below n/2 of a graphical matrix, ordered by row and then by descending column; the inverse listing flips every pair |
| Incidence.AllRibsShape | hypergraphs/Graphs/ClassLibrary1/Graph.cs:1059-1081 | walking every row lists exactly the ones strictly above the diagonal of a graphical matrix, which are the numbered edges without loops, in the same order |
| Incidence.GetRibsMissesLowerRows | hypergraphs/Graphs/ClassLibrary1/Graph.cs:1069 | on a graphical four-vertex graph with the single edge 2–3, the list as written is empty while the full walk lists that edge |
| Incidence.TryGetRibs | hypergraphs/Graphs/ClassLibrary1/Graph.cs:522-551 | a null matrix is refused, a matrix that is not graphical is refused as such, and otherwise the answer is the edge list |
| Signature.Long | hypergraphs/Graphs/ClassLibrary1/Graph.cs:1176-1181 | 64-bit arithmetic lands in the signed `long` range and keeps any value already in it |
| Signature.FoldValue | hypergraphs/Graphs/ClassLibrary1/Graph.cs:1176-1181 | the shift-and-add loop computes the binary value of the bits while it fits in a `long` |
| Signature.ValueBinary | hypergraphs/Graphs/ClassLibrary1/Graph.cs:1198-1211 | bits with a leading one are the binary digits of their value |
| Signature.BinaryValue | hypergraphs/Graphs/ClassLibrary1/Graph.cs:1198-1211 | the binary digits of s, from its first one, read back as s |
| Signature.ThresholdSimple | hypergraphs/Graphs/ClassLibrary1/Graph.cs:1213-1236 | the matrix built from any bit string is square, symmetric, 0/1 and has a zero diagonal |
| Signature.RowOkMeaning | hypergraphs/Graphs/ClassLibrary1/Graph.cs:1161-1172 | a row is rejected exactly when an off-diagonal zero is followed later by a one |
| Signature.ThresholdRowOk | hypergraphs/Graphs/ClassLibrary1/Graph.cs:1161-1172 | every row of a threshold matrix passes the row test |
| Signature.GetSignature | hypergraphs/Graphs/ClassLibrary1/Graph.cs:1152-1186 | the signature is a value of the `long` range |
| Signature.GetSignatureShape | hypergraphs/Graphs/ClassLibrary1/Graph.cs:1152-1186 | when every row passes, the walk succeeds and the signature is the fold of the n − 1 staircase bits; when the walk fails, the signature is −1 and some row fails the test |
| Signature.SignatureRoundTrip | hypergraphs/Graphs/ClassLibrary1/Graph.cs:1152-1239 | with the exact bit length, the signature of the matrix built from a non-negative signature s is s |
| Signature.ThresholdRoundTrip | hypergraphs/Graphs/ClassLibrary1/Graph.cs:1152-1239 | the signature of the threshold matrix of a bit string that starts with a one is the value of its bits, and building the matrix from that signature gives the same threshold matrix |
| Signature.SignatureToAdjacencySized | hypergraphs/Graphs/ClassLibrary1/Graph.cs:1195-1239 | for any bit count the caller's double computation yields, the matrix has that many vertices plus one. It is the simple threshold matrix of the binary digits of s, cut to the bit count or followed by zeros up to it, and `GetSignature` gives back exactly the value of those bits |
| Signature.PaddedDigits | hypergraphs/Graphs/ClassLibrary1/Graph.cs:1202-1211 | the padded string is as long as the bit count, or the digits when those are longer; it holds only zeros before the digits, and the skip loop stops where the digits of s begin |
| Signature.SignatureToAdjacency | hypergraphs/Graphs/ClassLibrary1/Graph.cs:1195-1239 | with the exact bit length, the matrix built from s is the threshold matrix of the bits of s, simple, and its signature is s |
| Signature.OneBitOverDoubles | hypergraphs/Graphs/ClassLibrary1/Graph.cs:1198 | a bit count one above the exact length adds a vertex, and the signature read back is 2s instead of s |
| Signature.OneBitShortHalves | hypergraphs/Graphs/ClassLibrary1/Graph.cs:1198 | a bit count one below the exact length drops the last digit, and the signature read back is s / 2 |
| Signature.TryGetSignature | hypergraphs/Graphs/ClassLibrary1/Graph.cs:653-697 | a null matrix is refused; the signature is returned exactly when every row the staircase walk visits passes the row test, and otherwise the failure is `NotExtreme` |
| Signature.MaxIndex | hypergraphs/Graphs/ClassLibrary1/Graph.cs:1255-1260 | the largest index is at least every listed index and, when positive, is one of them |
| Signature.BaseMatrixSimple | hypergraphs/Graphs/ClassLibrary1/Graph.cs:1263-1274 | the matrix built from bases is square, 0/1 and symmetric with a zero diagonal |
| Signature.BuildBaseMatrix | hypergraphs/Graphs/ClassLibrary1/Graph.cs:1263-1274 | the building loop fills exactly the matrix of the bases |
| Signature.BasesToSignature | hypergraphs/Graphs/ClassLibrary1/Graph.cs:1247-1294 | an empty list fails with `NoBases`, a negative index with `OutOfRange`, and a result is the fold of the bits the bases select |
| Signature.BasesAgree | hypergraphs/Graphs/ClassLibrary1/Graph.cs:1277-1291 | the signature from bases agrees with the signature of their matrix whenever that one is not −1 |
| Signature.BasesOfThreshold | hypergraphs/Graphs/ClassLibrary1/Graph.cs:1247-1294 | listing the edges of a threshold matrix rebuilds that matrix, so the signature from its bases is the value of its bits |
| Signature.TryBaseToSignature | hypergraphs/Graphs/ClassLibrary1/Graph.cs:778-826 | a null list is refused, an empty one gives 0, a negative index is out of range, and otherwise the answer is the fold of the bits the bases select |
| GraphLists.CheckDirected | Graphs/Graphs.py:69-80 | the lists are called directed exactly when some entry (u, v, w) has no answer (v, u, w), that is exactly when they are not mutual |
| GraphLists.FindReverse | Graphs/Graphs.py:72-76 | the inner search finds an answering entry exactly when one exists |
| GraphLists.NeighbourIff | Graphs/Graphs.py:116-125 | a vertex is a neighbour in the search exactly when an entry joins the two, in either direction when the lists are directed |
| GraphLists.UndirectedSymmetric | Graphs/Graphs.py:116-125 | the neighbour relation used for components is symmetric |
| GraphLists.SearchPartition | Graphs/Graphs.py:127-138 | on the symmetric neighbour relation the searches split the unvisited vertices into disjoint, non-empty, closed sets |
| GraphLists.SearchLeast | Graphs/Graphs.py:127-138 | each set a search finds lies inside every closed set that meets it |
| GraphLists.ConnectedComponents | Graphs/Graphs.py:112-156 | each listed component is sorted and within 1..n |
| GraphLists.ComponentsPartition | Graphs/Graphs.py:112-156 | the components partition 1..n |
| GraphLists.ComponentsClosed | Graphs/Graphs.py:112-156 | each component is closed under edges in either direction |
| GraphLists.ComponentsLeast | Graphs/Graphs.py:112-156 | each component lies inside every closed set that contains one of its members |
| GraphLists.ListingJoined | Graphs/Graphs.py:152-153 | listing a set closed under the neighbour relation as 1-based vertices gives a list closed under every entry of the lists, in either direction |
| Bipartite.BipartiteSound | Graphs/Graphs.py:159-176 | on a `Some` answer every vertex is in exactly one part, the parts are within 1..n, and every list entry joins the two parts |
| Bipartite.BipartiteComplete | Graphs/Graphs.py:159-176 | on mutual lists that have a proper 2-colouring the answer is `Some` |
| Bipartite.StartsComplete | Graphs/Graphs.py:160-173 | with mutual lists and a proper 2-colouring the loop over the starts never fails |
| Bipartite.DirectedMisses | Graphs/Graphs.py:159-176 | on the one-arc list 2->1 a proper 2-colouring exists but the answer is `None` |
| Bipartite.ScanSound | Graphs/Graphs.py:166-173 | a scan of u's list that gets through colours every target opposite to u and queues every vertex it colours |
| Bipartite.ScanComplete | Graphs/Graphs.py:166-173 | with mutual lists and a proper 2-colouring that agrees with the colours so far, the scan never meets a target of u's own colour |
| Bipartite.BfsSound | Graphs/Graphs.py:163-173 | a BFS that finishes leaves every coloured vertex with its whole list coloured opposite to it |
| Bipartite.StartsSound | Graphs/Graphs.py:160-173 | a successful loop over the starts colours every vertex, each list opposite to its vertex |
| Bridges.SearchReport | Graphs/Graphs.py:289-323 | after the DFS every vertex is visited and has `0 <= low <= tin`; the bridges listed are exactly the tree edges whose child's `low` exceeds its parent's `tin`, and the cut vertices are exactly the roots with two children and the non-roots with a child whose `low` reaches no higher than them |
| Bridges.RootRule | Graphs/Graphs.py:318-319 | a root is reported as a cut vertex exactly when it has more than one DFS child |
| Bridges.BridgesAdjacent | Graphs/Graphs.py:312-315 | every reported bridge joins two vertices adjacent in the lists |
| Bridges.FindBridgesReport | Graphs/Graphs.py:289-333 | the returned bridges are exactly the reported ones, sorted, and each is an edge of the lists; the returned cut vertices are exactly the reported ones in ascending order |
| Bridges.SortPairs | Graphs/Graphs.py:325 | sorting the bridges gives a lexicographically ordered permutation |
| Kruskal.EdgeListIff | Graphs/Graphs.py:97-106 | a triple is in `list_of_edges` exactly when it is (x, v, w) for an entry (v, w) of the list of vertex x |
| Kruskal.ScanOrder | Graphs/Graphs.py:375-376 | the scanned edges are a permutation of `list_of_edges`, in non-decreasing weight, keeping the list order among equal weights |
| Kruskal.Find | Graphs/Graphs.py:358-361 | `find` returns the root of u and leaves every vertex with the same root after path compression |
| Kruskal.UnionClasses | Graphs/Graphs.py:363-373 | after `union(u, v)` two vertices share a root exactly when they did before, or one was with u and the other with v |
| Kruskal.Union | Graphs/Graphs.py:363-373 | `union` reports a join exactly when u and v had different roots, keeps a forest, and afterwards two vertices share a root exactly when they did before or one was with u and the other with v |
| Kruskal.ForestClasses | Graphs/Graphs.py:378-385 | an acyclic edge list over n vertices leaves n minus its length classes |
| Kruskal.Grow | Graphs/Graphs.py:378-385 | the main loop keeps an acyclic list of scanned edges with its total weight, which either has n − 1 edges or leaves every scanned edge inside one class |
| Kruskal.MinimumSpanningTree | Graphs/Graphs.py:348-391 | non-mutual lists are refused as directed, an empty graph as empty, a disconnected one as such; otherwise the result is an acyclic list of n − 1 edges from the lists, with its total weight |
| Kruskal.OneClass | Graphs/Graphs.py:386-389 | on a connected graph the acyclic list in which every edge lies inside one class has exactly n − 1 edges |
| Grid.NeighborsSpec | Graphs/Graphs.py:868-876 | the neighbours of a cell are exactly the open in-bounds cells one step away, listed up, down, left, right, at most four |
| Grid.HeuristicOrder | Graphs/Graphs.py:879-884 | the Chebyshev heuristic is at most the Manhattan one, which is at most twice it; both vanish exactly at the target |
| Grid.ManhattanMetric | Graphs/Graphs.py:879-880 | Manhattan distance is symmetric and satisfies the triangle inequality |
| Grid.DistanceBound | Graphs/Graphs.py:891-892 | `distance` is at least the Manhattan distance of the cells, with equality exactly when the two values agree |
| Grid.PathLengthBound | Graphs/Graphs.py:879-884 | a path of m moves spans a Manhattan and a Chebyshev distance of at most m, so both heuristics never overestimate |
| Grid.Expand | Graphs/Graphs.py:910-914 | expanding a cell records every unrecorded neighbour with that cell as parent and queues it, keeping the parent tree |
| Grid.Visit | Graphs/Graphs.py:911-914 | one neighbour: an unrecorded one is recorded with the expanded cell as parent and queued, a recorded one changes nothing; either way the neighbour ends up recorded and the parent tree is kept |
| Grid.Trace | Graphs/Graphs.py:902-908 | following the parents from the goal gives a path from start to goal |
| Grid.FindPathBfs | Graphs/Graphs.py:895-916 | a returned path leads from start to goal through open neighbouring cells, and `None` is returned exactly when the goal cannot be reached |
| Numbers.IsPrime | OSLabs/Lab1/Task4/task4.c:6-15 | `is_prime(n)` answers exactly whether n is prime |
| XorStream.Xor8 | OSLabs/Lab1/Task4/task4.c:17-27 | `xor8` is the XOR of every byte of the file |
| XorStream.XorAllSwapAndCancel | OSLabs/Lab1/Task4/task4.c:17-27 | reordering two blocks of the file leaves `xor8` unchanged, and a file that repeats itself gives 0 |
| XorStream.WordAt | OSLabs/Lab1/Task4/task4.c:35 | word k of the file is made of bytes 4k to 4k+3 in little-endian order |
| XorStream.PartialWordIgnored | OSLabs/Lab1/Task4/task4.c:35 | a trailing partial word is never read |
| XorStream.PrimeByteIn | OSLabs/Lab1/Task4/task4.c:39-44 | the byte scan finds a prime byte in a word exactly when one of its four bytes is prime |
| XorStream.SelectedByFileBytes | OSLabs/Lab1/Task4/task4.c:35-49 | `xorodd` selects a word exactly when one of its four bytes in the file is prime |
| XorStream.XorOdd | OSLabs/Lab1/Task4/task4.c:29-52 | `xorodd` is the XOR of the whole words that hold a prime byte |
| XorStream.MaskCount | OSLabs/Lab1/Task4/task4.c:54-66 | `mask_count` is the number of whole words that have every bit of the mask set |
| XorStream.MaskMatchesBounds | OSLabs/Lab1/Task4/task4.c:59-63 | no more words match than are read, mask 0 matches every word, and a mask with more bits matches no more words |
| Residues.Gcd | OSLabs/Lab3/Task3/file.c:11-18 | the divisors of the result are exactly the common divisors, and the result is 0 only for gcd(0, 0) |
| Residues.GcdGreatest | OSLabs/Lab3/Task3/file.c:11-18 | the result is a common divisor that every common divisor is at most |
| Residues.GcdOneIsCoprime | OSLabs/Lab3/Task3/file.c:83 | the test `__gcd(i, n) == 1` is coprimality |
| Residues.ReducedResidues | OSLabs/Lab3/Task3/file.c:81-86 | the child's count is the number of i in 1..n−1 coprime to n |
| Residues.ResiduesCoincideIffPrime | OSLabs/Lab3/Task3/file.c:57 | the count equals n − 1 exactly when n is prime |
| Residues.Drawn | OSLabs/Lab3/Task3/file.c:44 | every drawn n lies in 2..1001 |
| Residues.Parent | OSLabs/Lab3/Task3/file.c:43-61 | the parent keeps exactly the primes among the draws it used, stops after the maximum number of values or when the draws run out, and every kept value is a prime in 2..1001 |
| CString.Find | OSLabs/Lab2/Task3/task3.c:22 | `strstr` returns the first match at or after its start, and none when no match exists |
| CString.LastIndex | OSLabs/Lab2/Task4/task4.c:9 | `strrchr` returns the position of the last occurrence, and none exactly when the character does not occur |
| CString.Before | OSLabs/Lab2/Task3/task3.c:86 | cutting at `strcspn` keeps the longest prefix without the character |
| CString.BeforeJoin | OSLabs/Lab1/Task2/task2.c:86 | cutting a line at its newline gives back the text before it, and a text without newline whole |
| CString.ValueDec | OSLabs/Lab2/Task3/task3.c:133 | a number printed with `%d` reads back as that number |
| Scan.ScanInt | OSLabs/Lab1/Task2/task2.c:50 | `%d` fails exactly when no digit follows the white space and optional sign, and stops at the first non-digit |
| Scan.ScanIntOf | OSLabs/Lab1/Task2/task2.c:186 | `%d` reads back a written numeral |
| Scan.ScanIntSigned | OSLabs/Lab1/Task2/task2.c:50 | `%d` on white space, an optional sign and digits followed by a non-digit or the end reads the numeral's value, negated after '-', and stops after the digits |
| Scan.ScanWord | OSLabs/Lab1/Task2/task2.c:166 | `%6s` fails exactly on an all-white-space input, and otherwise takes 1 to 6 non-space characters |
| Scan.WordFromOf | OSLabs/Lab1/Task2/task2.c:166 | a word that fits the width is read back whole |
| Scan.ScanLine | OSLabs/Lab1/Task2/task2.c:94 | `%49[^\n]` fails exactly at the end or at a newline, and otherwise takes 1 to 49 characters of the line |
| TextSearch.OccurrencesBound | OSLabs/Lab2/Task3/task3.c:20-25 | the matches counted do not overlap, and there are none exactly when the pattern occurs nowhere |
| TextSearch.OccurrencesOfChar | OSLabs/Lab2/Task3/task3.c:20-25 | for a one-character pattern the count is the number of times the character appears |
| TextSearch.CountInLine | OSLabs/Lab2/Task3/task3.c:21-25 | the `strstr` loop over a line counts the non-overlapping matches from left to right |
| TextSearch.FileCountAppend | OSLabs/Lab2/Task3/task3.c:20-26 | a file's count is the sum of its lines' counts |
| TextSearch.SearchInFile | OSLabs/Lab2/Task3/task3.c:11-30 | a file that cannot be opened gives −1, and otherwise the count over its lines |
| TextSearch.IsUnique | OSLabs/Lab2/Task3/task3.c:88-94 | the `strcmp` scan finds a name exactly when it was kept before |
| TextSearch.UniqueFiles | OSLabs/Lab2/Task3/task3.c:85-101 | the kept names are distinct, are exactly the non-empty names of the list, and keep the order of first occurrence |
| TextSearch.ReportParsed | OSLabs/Lab2/Task3/task3.c:152-163 | a report "name:count" splits into at least two tokens exactly when the name has a character other than ':' |
| TextSearch.ForkTreeSizeIs | OSLabs/Lab2/Task3/task3.c:33-60 | a fork tree of height h has 2^(h+1) − 2 processes below its root |
| TextSearch.Search | OSLabs/Lab2/Task3/task3.c:62-186 | the search never ends exactly when the pattern is empty and a listed file exists with at least one line, since `fgets` never reaches `strstr` in an empty file. Otherwise an empty pattern reports no file, and otherwise the reported files are exactly the listed files with a match, without repeats, and the fork tree is as high as the pattern is long when none is reported |
| TextSearch.EmptyFileEnds | OSLabs/Lab2/Task3/task3.c:20-25 | an empty pattern over a listed file with no lines ends with nothing reported and a fork tree of height 0 |
| DirList.Extension | OSLabs/Lab2/Task4/task4.c:8-14 | the extension is a suffix without '.', preceded by a '.' that is not the first character |
| DirList.ExtensionOfJoin | OSLabs/Lab2/Task4/task4.c:8-14 | `base.ext` has extension `ext` unless the base is empty, and a name without '.' has none |
| DirList.FilterDeep | OSLabs/Lab2/Task4/task4.c:45-46 | nothing below a depth beyond `recmax` is shown |
| DirList.ListShowsInRange | OSLabs/Lab2/Task4/task4.c:16-61 | the listing from a depth within range shows exactly the entries of the tree whose depth lies in the range |
| DirList.IndentKeptToLines | OSLabs/Lab2/Task4/task4.c:32-49 | with the indentation printed only for shown entries, a subdirectory is indented one level |
| DirList.PrintsAsWritten | OSLabs/Lab2/Task4/task4.c:16-61 | the lines `list_directory` prints as written, leaving aside the indentation, are the lines of the listing with indentation kept to printed lines |
| DirList.Program | OSLabs/Lab2/Task4/task4.c:63-81 | a negative or inverted depth range is refused; otherwise the lines printed, not their indentation, are exactly the in-range entries of the tree in walk order |
| Howmuch.ParseDatetime | OSLabs/Lab1/Task2/task2.c:364-390 | a parsed date-time passes the range checks; with fewer than six fields it is midnight, and with fewer than three it fails |
| Howmuch.ParseFormatted | OSLabs/Lab1/Task2/task2.c:364-390 | a written date-time parses back to itself exactly when it is in range, and its date alone parses to midnight of that day |
| Howmuch.HowmuchArgsOf | OSLabs/Lab1/Task2/task2.c:102-116 | "Howmuch <datetime> <flag>" splits at its last space into the date-time, when it fits the buffer, and the flag |
| Howmuch.HowmuchTime | OSLabs/Lab1/Task2/task2.c:264-297 | the report is a parse error exactly when the date-time fails to parse, "not yet" exactly when it lies in the future, and an elapsed time exactly when the flag is also known; that time is the seconds since the moment, in the flag's unit |
| Shell.AllAlnum | OSLabs/Lab1/Task2/task2.c:351-358 | the login test accepts exactly strings whose every character is a letter or a digit |
| Shell.Lookup | OSLabs/Lab1/Task2/task2.c:306-311 | the row found for a login is its first row, and none exactly when no row has it |
| Shell.Authenticate | OSLabs/Lab1/Task2/task2.c:225-236 | the row logged in is the first active one with that login and PIN, and none exactly when no such row exists |
| Shell.Register | OSLabs/Lab1/Task2/task2.c:156-208 | registration fails when the table is full, and succeeds exactly when the login is valid and new and the PIN valid, appending an active user without a limit; it reports a taken login exactly when the login exists |
| Shell.Login | OSLabs/Lab1/Task2/task2.c:210-241 | login succeeds exactly when the credentials match an active row; that row becomes current with no requests counted and the others are unchanged |
| Shell.Logout | OSLabs/Lab1/Task2/task2.c:243-248 | logging out leaves no one logged in and keeps the user table invariant: distinct valid logins, valid PINs, active rows, non-negative limits and counts |
| Shell.Menu | OSLabs/Lab1/Task2/task2.c:41-70 | choice 3 quits without changes; 1 gives the state `register_user` produces, or the old one when it refuses; 2 does the same with `login_user`; any other answer leaves the state unchanged |
| Shell.Sanctions | OSLabs/Lab1/Task2/task2.c:299-349 | sanctioning oneself fails; success needs an existing target, the code 52 and a non-negative limit, and changes only the target's limit |
| Shell.ParseCommand | OSLabs/Lab1/Task2/task2.c:94 | a command line splits into a word of at most 19 characters and a parameter of at most 49, and fails exactly when it is blank |
| Shell.Classify | OSLabs/Lab1/Task2/task2.c:86-149 | a line is understood as no command exactly when it is blank, and the Howmuch and Sanctions arguments are the ones the line holds |
| Shell.ClassifyHowmuch | OSLabs/Lab1/Task2/task2.c:98-116 | "Howmuch <datetime> <flag>" is understood as that command |
| Shell.ClassifySanctions | OSLabs/Lab1/Task2/task2.c:140-143 | "Sanctions <username>" is understood as that command |
| Shell.Count | OSLabs/Lab1/Task2/task2.c:120 | counting a request raises only the current user's count by one, and keeps the table invariant when that user was below a non-zero limit or had none |
| Shell.Execute | OSLabs/Lab1/Task2/task2.c:98-149 | a request is counted exactly for Howmuch, Time, Date and Sanctions with a name; the Howmuch answer is `howmuch_time`'s; limits change only on a successful Sanctions |
| Shell.Session | OSLabs/Lab1/Task2/task2.c:72-77 | a user over the limit is logged out exactly then, before any command runs |
| Shell.RequestLimit | OSLabs/Lab1/Task2/task2.c:72-77 | a user with a limit gets at most as many counted requests as the limit leaves |
| Shell.LoginThenLimit | OSLabs/Lab1/Task2/task2.c:72-77 | a user who logs in with a limit gets at most that many counted requests in the session |
| Shell.MenuKeepsGood | OSLabs/Lab1/Task2/task2.c:156-241 | registering and logging in keep the user table invariant, in particular distinct logins |
| Shell.SessionKeepsOwnLimit | OSLabs/Lab1/Task2/task2.c:72-149 | a turn never changes the logged-in user's own limit and counts at most one request |
| Shell.SessionKeepsGood | OSLabs/Lab1/Task2/task2.c:72-149 | a turn of the command loop keeps the user table invariant, the logged-in user staying within the limit |

## Left out

- Completeness and soundness of the planarity test itself are not proved: the theorem that the graph is planar exactly when an embedding is returned is out of reach.
- `Fault` outcomes are modelled as failures: a missing dictionary key, a pop from an empty stack, an unbounded `ref` chain. Proving that they never occur on a valid input is part of that theorem.
- Python's recursion limit is not modelled. `_dfs_orientation`, `_dfs_testing`, `_dfs_embedding` and `_get_side` (`Graphs/planarity.py:166, 192, 293, 303`) recurse. So do the DFS of `find_bridges_and_articulations`, the `dfs` of `connected_components` (`Graphs/Graphs.py:127-137`) and the `dfs` of `_is_connected` (`Graphs/Graphs.py:339-345`). Past about 1000 nested calls Python raises `RecursionError`, for example on a path of about 1000 vertices; the model succeeds there. The path-compressing `find` of the Kruskal routine (`Graphs/Graphs.py:358-361`) recurses too, but union by rank keeps its depth at most log2 of the vertex count.
- LrEmbed.LrPlanarityEmbeds: states only that every edge appears in at least one direction. On success phase 3 also adds the reverse of every oriented edge at each vertex the embedding DFS reaches; that is not proved here.
- LrTest.TestRoots: its contract states only that sides stay ±1. The increasing ids of the stack pairs (`IdsOk`), which make id comparison agree with Python's identity comparison, are not proved to be preserved.
- LrTest.Test: the recursion requires the DFS forest of phase 1 (`TreeOk`). `LrOrient.OrientationTree` proves that phase 1 provides it.
- LrTest.Chase and LrTest.GetSide follow `ref` chains with a step bound of one more than the number of `ref` entries. A longer chain has a cycle, which the source would follow forever; the model reports it as `Unbounded`.
- A `neighbors_cw_order` walk that never returns to its start loops forever in the source (`Graphs/planarity.py:365-367`). The model stops after one step per neighbour, answers `None`, and `check_structure` reports that as a bad embedding.
- The default argument `_Interval()` of `_ConflictPair.__init__` is one object shared by every pair created without arguments. The first write that can reach it is `P.right.low = Q.right.low` in the second merge loop, while `P.right` is still that default. After that every new `_ConflictPair()` starts with a non-empty right interval, the first merge loop writes a stale `ref` and writes the shared object again, and the trimming resets it. The model gives every pair its own empty intervals.
- A write `ref[None] = …` in the source stores an entry that is never read; the model skips it.
- `networkx` graph internals are not modelled: `DiGraph` views, `copy`, `to_undirected`, `get_data`/`set_data` and `connect_components`.
- Embedding.Grow: `add_edge` and `add_half_edge` create missing endpoint nodes. The model keeps vertices as `0..n-1`, so adding a half-edge at vertex v also creates every vertex below v that was missing. That is a vertex without half-edges, which no check counts.
- `get_counterexample` re-runs the whole test once per edge; it is left out.
- The set iteration order of a component in `check_structure` is modelled as ascending vertex order.
- `remove_edge` on a self-loop raises after deleting the only half-edge; the model reports the failure without the partial deletion.
- Kruskal.MinimumSpanningTree: the tree is proved spanning and acyclic with its weight, but not of minimum weight. An empty graph is refused as `NoVertices`, where the Python indexes an empty list.
- Bipartite.BipartiteComplete: completeness is stated for mutual (undirected) lists only. On directed lists the BFS misses colourings, as `Bipartite.DirectedMisses` shows.
- Grid.Rect: the grid operations require every row to be as long as the first. `Map` (`Graphs/Graphs.py:857-859`) accepts ragged rows, and `neighbors` (`Graphs/Graphs.py:873`) then raises `IndexError` on a row shorter than the first; that case is not modelled.
- `Graphs.py` outside the listed routines is left out: printing, the matrix readers, Dijkstra, Floyd, flows, A* and the other grid searches.
- `VectorToIncidence`, `TryVectorToIncidence` (`Graph.cs:370-407, 970-1000`), `CheckIncidenceGraphical` (`Graph.cs:144-158`), `GetBases` and `TryGetBases` (`Graph.cs:1091-1144`) and the `ToString` helpers are left out.
- The two-argument `TryAdjacencyToVector` overload (`Graph.cs:244-247`) calls itself without end; it is left out.
- The sums of `Graph.cs` are 32-bit `int`s; the model adds without overflow.
- Signature.SignatureRoundTrip: holds for the exact bit length only. The source sizes the matrix with a double `Math.Log` (Graph.cs:1198, and 719 in `TrySignatureToAdjacencyMatrix`), which is one off for some inputs. There the round trip fails: see `Signature.OneBitOverDoubles` and `Signature.OneBitShortHalves`, and the Findings table.
- Signature.SignatureToAdjacency: uses the exact bit length, not the source's double expression `Math.Ceiling(Math.Log(signature + 1, 2))`. The model does not evaluate IEEE doubles, so `Signature.SignatureToAdjacencySized` takes the bit count as a parameter. It states what the source builds for whatever count the double arithmetic gives.
- Degrees.CheckVectorGraphical: models the source's index-order greedy exactly, which rejects some realisable vectors such as [1, 1, 2] (`Degrees.GreedyRejectsPath`). A complete realisability test such as Havel–Hakimi or Erdős–Gallai is not modelled, so nothing here claims that a rejected vector has no graph.
- GraphLists.WellFormed: every target must be a vertex 1..n. The source accepts a target of 0 or below (Graphs.py:38, 55). Python then reads index −1 as the last vertex, so `connected_components` (Graphs.py:120-129) can list a vertex 0 or reach another vertex through a wrapped index. A target above n raises `IndexError` at those lines. Lists with out-of-range targets are not modelled.
- Degrees.Square: the matrix operations require a square matrix. A C# `int[,]` may be any rectangle: on one wider than tall, `CheckAdjacencyGraphical` (`hypergraphs/Graphs/ClassLibrary1/Graph.cs:82-88`) reads only the leading `GetLength(0)`-square block, and on one taller than wide it throws `IndexOutOfRangeException`. Neither case is modelled.
- `TrySignatureToAdjacencyMatrix` (`Graph.cs:717-758`) runs the same algorithm as `SignatureToAdjacencyMatrix` and always returns true, so `Signature.SignatureToAdjacencySized` covers it.
- Signature.SignatureToAdjacencySized and Signature.SignatureToAdjacency require a signature of at least 0: a negative `long` has no binary expansion for the source's loop, which throws on the conversion.
- Numbers.IsPrime requires n below 2^32, the range of `unsigned int`. The product `i * i` is a signed `int` in the source and overflows beyond 46340; the model multiplies without bound. Only byte values reach `is_prime` in the program.
- Lab 1 task 4: the argument dispatch of `main`, the hexadecimal mask read with `sscanf`, and `fopen`/`fread` are left out; a file is its bytes.
- Lab 1 task 2, left out:
  - the file `users.dat`;
  - `time`, `localtime` and `mktime`, whose result enters as the parameter `since`;
  - the floating-point unit conversions of `howmuch_time`;
  - `int` overflow;
  - `fgets` reading a long line in chunks.
- Lab 1 task 2, modelled in a simplified way:
  - each `scanf` answer is one line of text;
  - the `strcpy` of an over-long flag into its buffer and the behaviour on a command line of white space only are undefined in C, and the model gives the plain reading.
- Lab 2 task 3: pipes, `fork` and `wait` are left out; the results the children would send are computed in place. A file is given as the lines `fgets` returns; splitting a line longer than 1023 characters into chunks is left out, so a match across such a split is counted. An empty pattern makes the source loop forever in `strstr` on the first line of a listed file, and the model reports that as `Diverges`; an empty or missing file ends normally.
- Lab 2 task 4, left out:
  - a failing `opendir`;
  - `atoi` on malformed numbers;
  - the argument-count message;
  - `PATH_MAX`;
  - the entry order of `readdir`, which is the order of the modelled tree.
  
  An entry that `lstat` cannot read prints only its indentation.
- Lab 3 task 3: the pipes, `fork`, `srand`/`rand` and printing are left out. The draws of `rand()` enter as a sequence parameter.

## Findings

| source | as written | input that shows it | evidently intended | confidence | as-written member | corrected member |
|---|---|---|---|---|---|---|
| hypergraphs/Graphs/ClassLibrary1/Graph.cs:1059-1081 | `GetRibs` walks only the rows `i < n/2`, so edges between two vertices of the lower half are never listed | the four-vertex graph whose only edge is 2–3: the list is empty | every edge of the matrix listed once, walking every row | not executed | Incidence.GetRibsMissesLowerRows | Incidence.AllRibsShape |
| hypergraphs/Graphs/ClassLibrary1/Graph.cs:1198 | the bit count is `(int)Math.Ceiling(Math.Log(signature + 1, 2))` in doubles. `ln(2^k) / ln 2` exceeds k for k in {29, 31, 39, 47, 51, 55, 58, 59, 62}, and `signature + 1` rounds down to a power of two near 2^53, 2^54 and 2^60 | s = 2^29 − 1: the bit count is 30, not 29, so the matrix gets 31 vertices and its signature reads back as 2^30 − 2. For s = 2^53 the count is 53 instead of 54 and the last digit is lost | the exact bit length of s, so that the signature reads back as s | not executed; the double arithmetic was not evaluated by the model | Signature.OneBitOverDoubles | Signature.SignatureToAdjacency |
| OSLabs/Lab2/Task4/task4.c:32-34 | the indentation is printed before `lstat` and before the depth test, so an entry that is not shown still leaves its spaces on the next printed line | a directory `d` holding a file `x` and a directory `e`, listed with depths 2..2: `e/` is printed after four spaces instead of two | indentation printed only for entries that are shown | not executed | DirList.StrayIndentAsWritten | DirList.ListShowsInRange |

=== FILE: bipartite.dfy ===
/** `is_bipartite` of Graphs/Graphs.py: breadth-first 2-colouring along the
    adjacency lists, one search from each vertex still uncoloured.  Colours
    are -1 (none), 0 and 1, indexed from 0. */
module Bipartite {
  import opened Wrappers
  import opened GraphLists

  /** Every colour is -1, 0 or 1. */
  predicate Valid(c: seq<int>) {
    forall x :: 0 <= x < |c| ==> -1 <= c[x] <= 1
  }

  /** c' keeps every colour c has given. */
  predicate Extends(c: seq<int>, c': seq<int>) {
    |c'| == |c| && forall x :: 0 <= x < |c| && c[x] != -1 ==> c'[x] == c[x]
  }

  /** Every queued vertex is coloured. */
  predicate Queued(c: seq<int>, queue: seq<nat>) {
    forall i :: 0 <= i < |queue| ==> queue[i] < |c| && 0 <= c[queue[i]] <= 1
  }

  /** The number of uncoloured vertices. */
  function Blank(c: seq<int>): nat {
    if |c| == 0 then 0 else Blank(c[..|c| - 1]) + (if c[|c| - 1] == -1 then 1 else 0)
  }

  /** Colouring an uncoloured vertex leaves one fewer. */
  lemma {:induction false} BlankPaint(c: seq<int>, v: nat, col: int)
    requires v < |c| && c[v] == -1 && col != -1
    ensures Blank(c[v := col]) + 1 == Blank(c)
  {
    var c' := c[v := col];
    if v < |c| - 1 {
      assert c'[..|c| - 1] == c[..|c| - 1][v := col];
      BlankPaint(c[..|c| - 1], v, col);
    } else {
      assert c'[..|c| - 1] == c[..|c| - 1];
    }
  }

  /** The inner `for` loop for the popped vertex u, from its k-th entry on:
      an uncoloured target gets the other colour and is queued, a target of
      u's own colour ends the whole test. */
  function Scan(g: Lists, colour: seq<int>, u: nat, k: nat, queue: seq<nat>): (r: Option<(seq<int>, seq<nat>)>)
    requires WellFormed(g) && |colour| == |g| && u < |g| && k <= |g[u]| && 0 <= colour[u] <= 1
    ensures r.Some? ==> Extends(colour, r.value.0) && |r.value.1| >= |queue| && r.value.1[..|queue|] == queue
    ensures r.Some? ==> Blank(r.value.0) + |r.value.1| == Blank(colour) + |queue|
    decreases |g[u]| - k
  {
    if k == |g[u]| then Some((colour, queue))
    else
      var v := g[u][k].0 - 1;
      if colour[v] == -1 then
        BlankPaint(colour, v, 1 - colour[u]);
        var r := Scan(g, colour[v := 1 - colour[u]], u, k + 1, queue + [v]);
        assert r.Some? ==> r.value.1[..|queue|] == (r.value.1[..|queue| + 1])[..|queue|] == queue;
        r
      else if colour[v] == colour[u] then None
      else Scan(g, colour, u, k + 1, queue)
  }

  /** The `while queue` loop. */
  function Bfs(g: Lists, colour: seq<int>, queue: seq<nat>): (r: Option<seq<int>>)
    requires WellFormed(g) && |colour| == |g| && Queued(colour, queue)
    ensures r.Some? ==> Extends(colour, r.value)
    decreases Blank(colour), |queue|
  {
    if |queue| == 0 then Some(colour)
    else
      match Scan(g, colour, queue[0], 0, queue[1..])
      case None => None
      case Some((c', q')) =>
        ScanQueued(g, colour, queue[0], 0, queue[1..]);
        Bfs(g, c', q')
  }

  /** The outer `for start` loop from vertex s on. */
  function Starts(g: Lists, colour: seq<int>, s: nat): (r: Option<seq<int>>)
    requires WellFormed(g) && |colour| == |g| && s <= |g|
    ensures r.Some? ==> Extends(colour, r.value)
    decreases |g| - s
  {
    if s == |g| then Some(colour)
    else if colour[s] != -1 then Starts(g, colour, s + 1)
    else
      match Bfs(g, colour[s := 0], [s])
      case None => None
      case Some(c') => Starts(g, c', s + 1)
  }

  /** The vertices of colour `col` from lo on, numbered from 1, ascending. */
  function Part(c: seq<int>, col: int, lo: nat): (r: seq<nat>)
    requires lo <= |c|
    ensures forall v :: v in r <==> lo < v <= |c| && c[v - 1] == col
    ensures forall i, j :: 0 <= i < j < |r| ==> r[i] < r[j]
    decreases |c| - lo
  {
    if lo == |c| then []
    else
      var rest := Part(c, col, lo + 1);
      assert forall i :: 0 <= i < |rest| ==> rest[i] in rest;
      (if c[lo] == col then [lo + 1] else []) + rest
  }

  /** `is_bipartite`: the two colour classes, or `None` for `(False, None)`. */
  function IsBipartite(g: Lists): (r: Option<(seq<nat>, seq<nat>)>)
    requires WellFormed(g)
  {
    match Starts(g, seq(|g|, _ => -1), 0)
    case None => None
    case Some(c) => Some((Part(c, 0, 0), Part(c, 1, 0)))
  }

  // ---- what the searches keep

  lemma {:induction false} ScanQueued(g: Lists, colour: seq<int>, u: nat, k: nat, queue: seq<nat>)
    requires WellFormed(g) && |colour| == |g| && u < |g| && k <= |g[u]| && 0 <= colour[u] <= 1
    requires Queued(colour, queue)
    ensures Scan(g, colour, u, k, queue).Some? ==> Queued(Scan(g, colour, u, k, queue).value.0, Scan(g, colour, u, k, queue).value.1)
    decreases |g[u]| - k
  {
    if k < |g[u]| {
      var v := g[u][k].0 - 1;
      if colour[v] == -1 {
        ScanQueued(g, colour[v := 1 - colour[u]], u, k + 1, queue + [v]);
      } else if colour[v] != colour[u] {
        ScanQueued(g, colour, u, k + 1, queue);
      }
    }
  }

  /** Every target of u has the colour other than u's. */
  predicate Fine(g: Lists, c: seq<int>, u: nat)
    requires WellFormed(g) && |c| == |g| && u < |g|
  {
    forall k :: 0 <= k < |g[u]| ==> c[g[u][k].0 - 1] == 1 - c[u]
  }

  /** Every coloured vertex not waiting in the queue has been scanned. */
  predicate Done(g: Lists, c: seq<int>, queue: seq<nat>)
    requires WellFormed(g) && |c| == |g|
  {
    forall u :: 0 <= u < |g| && c[u] != -1 && u !in queue ==> Fine(g, c, u)
  }

  lemma FineExtends(g: Lists, c: seq<int>, c': seq<int>, u: nat)
    requires WellFormed(g) && |c| == |g| && u < |g| && 0 <= c[u] <= 1 && Fine(g, c, u) && Extends(c, c')
    ensures Fine(g, c', u)
  {
    forall k | 0 <= k < |g[u]| ensures c'[g[u][k].0 - 1] == 1 - c'[u] {
      assert c[g[u][k].0 - 1] != -1;
    }
  }

  /** A scan that gets through colours u's targets from k on properly, and
      queues every vertex it colours. */
  lemma {:induction false} ScanSound(g: Lists, colour: seq<int>, u: nat, k: nat, queue: seq<nat>)
    requires WellFormed(g) && |colour| == |g| && u < |g| && k <= |g[u]| && 0 <= colour[u] <= 1
    requires Valid(colour)
    requires forall k' :: 0 <= k' < k ==> colour[g[u][k'].0 - 1] == 1 - colour[u]
    ensures var r := Scan(g, colour, u, k, queue);
      r.Some? ==>
        && Valid(r.value.0) && Fine(g, r.value.0, u)
        && forall x :: 0 <= x < |g| && colour[x] == -1 && r.value.0[x] != -1 ==> x in r.value.1[|queue|..]
    decreases |g[u]| - k
  {
    if k < |g[u]| {
      var v := g[u][k].0 - 1;
      if colour[v] == -1 {
        var c' := colour[v := 1 - colour[u]];
        ScanSound(g, c', u, k + 1, queue + [v]);
        var r := Scan(g, c', u, k + 1, queue + [v]);
        if r.Some? {
          var q := r.value.1;
          assert q[..|queue| + 1] == queue + [v];
          assert q[|queue|] == v;
          forall x | 0 <= x < |g| && colour[x] == -1 && r.value.0[x] != -1 ensures x in q[|queue|..] {
            if x != v {
              assert q[|queue| + 1..] == q[|queue|..][1..];
            }
          }
        }
      } else if colour[v] != colour[u] {
        ScanSound(g, colour, u, k + 1, queue);
      }
    }
  }

  /** One pop of the queue keeps `Done`. */
  lemma PopDone(g: Lists, colour: seq<int>, queue: seq<nat>)
    requires WellFormed(g) && |colour| == |g| && Queued(colour, queue) && |queue| > 0
    requires Valid(colour) && Done(g, colour, queue)
    requires Scan(g, colour, queue[0], 0, queue[1..]).Some?
    ensures var r := Scan(g, colour, queue[0], 0, queue[1..]).value;
      Valid(r.0) && Done(g, r.0, r.1) && Queued(r.0, r.1)
  {
    var u := queue[0];
    var rest := queue[1..];
    ScanSound(g, colour, u, 0, rest);
    ScanQueued(g, colour, u, 0, rest);
    var (c', q') := Scan(g, colour, u, 0, rest).value;
    forall x | 0 <= x < |g| && c'[x] != -1 && x !in q' ensures Fine(g, c', x) {
      assert colour[x] != -1;
      if x != u {
        assert x !in rest;
        assert x !in queue;
        FineExtends(g, colour, c', x);
      }
    }
  }

  lemma {:induction false} BfsSound(g: Lists, colour: seq<int>, queue: seq<nat>)
    requires WellFormed(g) && |colour| == |g| && Queued(colour, queue)
    requires Valid(colour) && Done(g, colour, queue)
    ensures Bfs(g, colour, queue).Some? ==> Valid(Bfs(g, colour, queue).value) && Done(g, Bfs(g, colour, queue).value, [])
    decreases Blank(colour), |queue|
  {
    if |queue| > 0 && Scan(g, colour, queue[0], 0, queue[1..]).Some? {
      PopDone(g, colour, queue);
      var (c', q') := Scan(g, colour, queue[0], 0, queue[1..]).value;
      BfsSound(g, c', q');
    }
  }

  lemma {:induction false} StartsSound(g: Lists, colour: seq<int>, s: nat)
    requires WellFormed(g) && |colour| == |g| && s <= |g|
    requires Valid(colour) && Done(g, colour, []) && forall x :: 0 <= x < s ==> colour[x] != -1
    ensures var r := Starts(g, colour, s);
      r.Some? ==> Valid(r.value) && Done(g, r.value, []) && forall x :: 0 <= x < |g| ==> r.value[x] != -1
    decreases |g| - s
  {
    if s < |g| {
      if colour[s] != -1 {
        StartsSound(g, colour, s + 1);
      } else {
        var c0 := colour[s := 0];
        forall u | 0 <= u < |g| && c0[u] != -1 && u !in [s] ensures Fine(g, c0, u) {
          FineExtends(g, colour, c0, u);
        }
        BfsSound(g, c0, [s]);
        var b := Bfs(g, c0, [s]);
        if b.Some? {
          StartsSound(g, b.value, s + 1);
        }
      }
    }
  }

  /** The two lists are a proper 2-colouring of the list edges. */
  predicate Proper(g: Lists, c: seq<int>)
    requires WellFormed(g)
  {
    && |c| == |g|
    && (forall x :: 0 <= x < |c| ==> c[x] == 0 || c[x] == 1)
    && forall u, k :: 0 <= u < |g| && 0 <= k < |g[u]| ==> c[u] != c[g[u][k].0 - 1]
  }

  /** On `(True, (p1, p2))` every vertex is in exactly one part and every
      entry of every list joins the two parts. */
  lemma BipartiteSound(g: Lists)
    requires WellFormed(g) && IsBipartite(g).Some?
    ensures var (p1, p2) := IsBipartite(g).value;
      && (forall v :: 1 <= v <= |g| ==> (v in p1 <==> v !in p2))
      && (forall v :: v in p1 || v in p2 ==> 1 <= v <= |g|)
      && (forall u, k :: 0 <= u < |g| && 0 <= k < |g[u]| ==> (u + 1 in p1 <==> g[u][k].0 in p2))
  {
    var start := seq(|g|, _ => -1);
    StartsSound(g, start, 0);
    var c := Starts(g, start, 0).value;
    forall u, k | 0 <= u < |g| && 0 <= k < |g[u]| ensures c[u] != c[g[u][k].0 - 1] {
      assert Fine(g, c, u);
    }
    assert Proper(g, c);
  }

  // ---- a 2-colouring of an undirected graph is always found

  /** `chi` read through the flip f. */
  function Flip(col: int, f: bool): int {
    if f then 1 - col else col
  }

  /** The colours given outside `before` are `chi`'s, flipped by f. */
  ghost predicate Agree(chi: seq<int>, c: seq<int>, before: set<nat>, f: bool) {
    forall x :: 0 <= x < |c| && c[x] != -1 && x !in before ==> x < |chi| && chi[x] == Flip(c[x], f)
  }

  /** `before` is coloured and no list entry leaves it. */
  ghost predicate Sealed(g: Lists, c: seq<int>, before: set<nat>)
    requires WellFormed(g)
  {
    && (forall x :: x in before ==> x < |c| && c[x] != -1)
    && forall x, k :: x in before && x < |g| && 0 <= k < |g[x]| ==> g[x][k].0 - 1 in before
  }

  lemma SealedExtends(g: Lists, c: seq<int>, c': seq<int>, before: set<nat>)
    requires WellFormed(g) && Sealed(g, c, before) && Extends(c, c')
    ensures Sealed(g, c', before)
  {
  }

  /** Given a proper colouring chi of an undirected graph, the scan of u
      never meets a target of u's own colour. */
  lemma {:induction false} ScanComplete(g: Lists, chi: seq<int>, colour: seq<int>, u: nat, k: nat, queue: seq<nat>, before: set<nat>, f: bool)
    requires WellFormed(g) && Mutual(g) && Proper(g, chi)
    requires |colour| == |g| && u < |g| && k <= |g[u]| && 0 <= colour[u] <= 1 && u !in before
    requires Sealed(g, colour, before) && Agree(chi, colour, before, f)
    ensures var r := Scan(g, colour, u, k, queue);
      r.Some? && Agree(chi, r.value.0, before, f)
    decreases |g[u]| - k
  {
    if k < |g[u]| {
      var v := g[u][k].0 - 1;
      assert chi[u] != chi[v];
      if colour[v] == -1 {
        var c' := colour[v := 1 - colour[u]];
        assert Agree(chi, c', before, f);
        SealedExtends(g, colour, c', before);
        ScanComplete(g, chi, c', u, k + 1, queue + [v], before, f);
      } else {
        if v in before {
          MutualBack(g, u, k);
          assert false;
        }
        ScanComplete(g, chi, colour, u, k + 1, queue, before, f);
      }
    }
  }

  /** In an undirected graph the entry u -> v is answered by one v -> u. */
  lemma MutualBack(g: Lists, u: nat, k: nat)
    requires WellFormed(g) && Mutual(g) && u < |g| && k < |g[u]|
    ensures Points(g[g[u][k].0 - 1], u + 1)
  {
    var e := (u + 1, g[u][k].1);
    assert Answered(g, u, k);
    var j :| 0 <= j < |g[g[u][k].0 - 1]| && g[g[u][k].0 - 1][j] == e;
  }

  lemma {:induction false} BfsComplete(g: Lists, chi: seq<int>, colour: seq<int>, queue: seq<nat>, before: set<nat>, f: bool)
    requires WellFormed(g) && Mutual(g) && Proper(g, chi)
    requires |colour| == |g| && Queued(colour, queue) && Valid(colour)
    requires forall i :: 0 <= i < |queue| ==> queue[i] !in before
    requires Sealed(g, colour, before) && Agree(chi, colour, before, f)
    ensures Bfs(g, colour, queue).Some?
    decreases Blank(colour), |queue|
  {
    if |queue| > 0 {
      var u := queue[0];
      ScanComplete(g, chi, colour, u, 0, queue[1..], before, f);
      ScanQueued(g, colour, u, 0, queue[1..]);
      ScanSound(g, colour, u, 0, queue[1..]);
      var (c', q') := Scan(g, colour, u, 0, queue[1..]).value;
      SealedExtends(g, colour, c', before);
      forall i | 0 <= i < |q'| ensures q'[i] !in before {
        if i < |queue| - 1 {
          assert q'[..|queue| - 1][i] == queue[1..][i];
        } else {
          QueuedFresh(g, colour, u, 0, queue[1..]);
        }
      }
      BfsComplete(g, chi, c', q', before, f);
    }
  }

  /** What a scan queues was uncoloured before it. */
  lemma {:induction false} QueuedFresh(g: Lists, colour: seq<int>, u: nat, k: nat, queue: seq<nat>)
    requires WellFormed(g) && |colour| == |g| && u < |g| && k <= |g[u]| && 0 <= colour[u] <= 1
    requires Scan(g, colour, u, k, queue).Some?
    ensures var q := Scan(g, colour, u, k, queue).value.1;
      forall i :: |queue| <= i < |q| ==> q[i] < |g| && colour[q[i]] == -1
    decreases |g[u]| - k
  {
    if k < |g[u]| {
      var v := g[u][k].0 - 1;
      var q := Scan(g, colour, u, k, queue).value.1;
      if colour[v] == -1 {
        var c' := colour[v := 1 - colour[u]];
        QueuedFresh(g, c', u, k + 1, queue + [v]);
        assert q[..|queue| + 1] == queue + [v];
        assert q[|queue|] == v;
      } else {
        QueuedFresh(g, colour, u, k + 1, queue);
      }
    }
  }

  lemma {:induction false} StartsComplete(g: Lists, chi: seq<int>, colour: seq<int>, s: nat)
    requires WellFormed(g) && Mutual(g) && Proper(g, chi)
    requires |colour| == |g| && s <= |g| && Valid(colour) && Done(g, colour, [])
    ensures Starts(g, colour, s).Some?
    decreases |g| - s
  {
    if s < |g| {
      if colour[s] != -1 {
        StartsComplete(g, chi, colour, s + 1);
      } else {
        var before := set x | 0 <= x < |g| && colour[x] != -1;
        var c0 := colour[s := 0];
        var f := chi[s] == 1;
        forall x, k | x in before && x < |g| && 0 <= k < |g[x]| ensures g[x][k].0 - 1 in before {
          assert Fine(g, colour, x);
        }
        assert Sealed(g, c0, before);
        assert Agree(chi, c0, before, f);
        forall u | 0 <= u < |g| && c0[u] != -1 && u !in [s] ensures Fine(g, c0, u) {
          FineExtends(g, colour, c0, u);
        }
        BfsComplete(g, chi, c0, [s], before, f);
        BfsSound(g, c0, [s]);
        StartsComplete(g, chi, Bfs(g, c0, [s]).value, s + 1);
      }
    }
  }

  /** For an undirected graph `is_bipartite` answers True whenever the
      vertices have a proper 2-colouring: with `BipartiteSound`, its answer
      is exact. */
  lemma BipartiteComplete(g: Lists, chi: seq<int>)
    requires WellFormed(g) && Mutual(g) && Proper(g, chi)
    ensures IsBipartite(g).Some?
  {
    StartsComplete(g, chi, seq(|g|, _ => -1), 0);
  }

  /** The digraph with the single entry 2 -> 1. */
  function OneArc(): (g: Lists)
    ensures WellFormed(g)
  {
    [[], [(1, 1)]]
  }

  /** On a directed graph the answer can be False although the graph is
      2-colourable: with the single entry 2 -> 1, vertex 1 is coloured 0
      first, then vertex 2 is coloured 0 too and its entry fails. */
  lemma DirectedMisses()
    ensures !Mutual(OneArc()) && Proper(OneArc(), [0, 1]) && IsBipartite(OneArc()).None?
  {
    var g := OneArc();
    assert !Answered(g, 1, 0);
    MissesFirst();
    MissesSecond();
    assert seq(2, _ => -1) == [-1, -1];
    assert [-1, -1][0 := 0] == [0, -1] && [0, -1][1 := 0] == [0, 0];
    assert Starts(g, [-1, -1], 0) == Starts(g, [0, -1], 1);
  }

  lemma MissesFirst()
    ensures Bfs(OneArc(), [0, -1], [0]) == Some([0, -1])
  {
    assert Scan(OneArc(), [0, -1], 0, 0, []) == Some(([0, -1], []));
  }

  lemma MissesSecond()
    ensures Bfs(OneArc(), [0, 0], [1]) == None
  {
    assert Scan(OneArc(), [0, 0], 1, 0, []) == None;
  }
}

=== FILE: bridges.dfy ===
/** `find_bridges_and_articulations` of Graphs/Graphs.py: a depth-first
    search that stamps each vertex with its entry time `tin` and the lowest
    entry time `low` its subtree reaches, reports a tree edge (u, v) as a
    bridge when low[v] > tin[u], and a vertex as a cut vertex by the
    child rule (non-root) or the two-children rule (root).  Vertices are
    numbered from 0 inside the search and from 1 in its output, as in the
    source.  The DFS parent of each vertex, passed down as `parent` by the
    source, is kept in `pred` so that the rules can be stated afterwards. */
module Bridges {
  import opened GraphLists
  import Reach
  import Sorting

  /** The search state: the clock, `tin`, `low`, the DFS parent of each
      vertex (-1 for a root and for a vertex not yet reached), the visited
      vertices and the two outputs as they grow. */
  datatype Walk = Walk(time: nat, tin: seq<int>, low: seq<int>, pred: seq<int>, visited: set<nat>,
                       bridges: seq<(int, int)>, cuts: set<int>)

  /** The arrays have one entry per vertex and only vertices are visited. */
  predicate Shaped(n: nat, st: Walk) {
    && |st.tin| == n && |st.low| == n && |st.pred| == n
    && forall x :: x in st.visited ==> x < n
  }

  /** The state before the first `dfs`: every entry -1, nothing visited. */
  function Initial(n: nat): (st: Walk)
    ensures Shaped(n, st) && st.visited == {} && st.bridges == [] && st.cuts == {}
  {
    Walk(0, seq(n, _ => -1), seq(n, _ => -1), seq(n, _ => -1), {}, [], {})
  }

  function Min(a: int, b: int): int {
    if a <= b then a else b
  }

  /** The vertices not yet visited: the measure that ends the search. */
  function Unvisited(n: nat, st: Walk): set<nat> {
    Reach.Vertices(n) - st.visited
  }

  /** Entering u from p: u gets the clock as tin and low, p as DFS parent,
      and the clock ticks. */
  function Stamp(st: Walk, u: nat, p: int): (r: Walk)
    requires u < |st.tin| && u < |st.low| && u < |st.pred|
    ensures r.visited == st.visited + {u} && r.time == st.time + 1
  {
    st.(time := st.time + 1, tin := st.tin[u := st.time], low := st.low[u := st.time],
        pred := st.pred[u := p], visited := st.visited + {u})
  }

  /** `low[u] = min(low[u], a)`. */
  function Lower(st: Walk, u: nat, a: int): (r: Walk)
    requires u < |st.low|
    ensures r.visited == st.visited && r.time == st.time && r.tin == st.tin && r.pred == st.pred
  {
    st.(low := st.low[u := Min(st.low[u], a)])
  }

  /** Back from the tree edge (u, v): low[u] takes the smaller of the two
      lows, the edge is a bridge when low[v] > tin[u], and a non-root u is a
      cut vertex when low[v] >= tin[u]. */
  function Report(st: Walk, u: nat, v: nat, p: int): (r: Walk)
    requires u < |st.tin| && u < |st.low| && v < |st.low|
    ensures r.visited == st.visited && r.time == st.time && r.tin == st.tin && r.pred == st.pred
  {
    Lower(st, u, st.low[v]).(bridges := if st.low[v] > st.tin[u] then st.bridges + [(u + 1, v + 1)] else st.bridges,
                             cuts := if st.low[v] >= st.tin[u] && p != -1 then st.cuts + {u + 1} else st.cuts)
  }

  /** `dfs(u, parent)`: stamp u with the clock, run through its list, and
      on return from a root with more than one DFS child mark it a cut
      vertex. */
  function Visit(g: Lists, u: nat, p: int, st: Walk): (r: Walk)
    requires WellFormed(g) && Shaped(|g|, st) && u < |g| && u !in st.visited
    ensures Shaped(|g|, r) && st.visited + {u} <= r.visited
    decreases Unvisited(|g|, st), 0, 0
  {
    var st1 := Stamp(st, u, p);
    assert Unvisited(|g|, st) == Unvisited(|g|, st1) + {u};
    var (st2, children) := Edges(g, u, p, 0, 0, st1);
    if p == -1 && children > 1 then st2.(cuts := st2.cuts + {u + 1}) else st2
  }

  /** One pass of the `for` loop of `dfs(u, parent)`, at entry k of u's
      list: the parent is skipped, a visited neighbour lowers low[u] to its
      tin, and an unvisited one is searched, lowers low[u] to its low, is
      tested for the bridge and the non-root cut rule, and counts as a
      child. */
  function Step(g: Lists, u: nat, p: int, k: nat, children: nat, st: Walk): (r: (Walk, nat))
    requires WellFormed(g) && Shaped(|g|, st) && u in st.visited && k < |g[u]|
    ensures Shaped(|g|, r.0) && st.visited <= r.0.visited
    decreases Unvisited(|g|, st), 1, |g[u]| - k, 0
  {
    var v := g[u][k].0 - 1;
    if v == p then (st, children)
    else if v in st.visited then (Lower(st, u, st.tin[v]), children)
    else (Report(Visit(g, v, u, st), u, v, p), children + 1)
  }

  /** The `for` loop of `dfs(u, parent)` from entry k of u's list on, with
      `children` tree edges counted so far. */
  function Edges(g: Lists, u: nat, p: int, k: nat, children: nat, st: Walk): (r: (Walk, nat))
    requires WellFormed(g) && Shaped(|g|, st) && u in st.visited && k <= |g[u]|
    ensures Shaped(|g|, r.0) && st.visited <= r.0.visited
    decreases Unvisited(|g|, st), 1, |g[u]| - k
  {
    if k == |g[u]| then (st, children)
    else
      var st', c' := Step(g, u, p, k, children, st).0, Step(g, u, p, k, children, st).1;
      Reach.SubsetSize(Unvisited(|g|, st'), Unvisited(|g|, st));
      Edges(g, u, p, k + 1, c', st')
  }

  /** The outer loop: `dfs(i, -1)` for every vertex i from the given one on
      that is still unvisited. */
  function Roots(g: Lists, i: nat, st: Walk): (r: Walk)
    requires WellFormed(g) && Shaped(|g|, st) && i <= |g|
    ensures Shaped(|g|, r) && st.visited <= r.visited
    decreases |g| - i
  {
    if i == |g| then st
    else if i in st.visited then Roots(g, i + 1, st)
    else Roots(g, i + 1, Visit(g, i, -1, st))
  }

  // ---- what a search leaves in place

  /** Vertex x, once visited, has 0 <= low <= tin below the clock, and its
      DFS parent is -1 or a visited vertex. */
  predicate Settled(st: Walk, x: nat)
    requires x < |st.tin| && x < |st.low| && x < |st.pred|
  {
    && 0 <= st.low[x] <= st.tin[x] < st.time
    && (st.pred[x] == -1 || (0 <= st.pred[x] && st.pred[x] as nat in st.visited))
  }

  /** Every visited vertex is settled. */
  ghost predicate Sane(n: nat, st: Walk) {
    Shaped(n, st) && forall x :: x in st.visited ==> Settled(st, x)
  }

  /** From st to r no visited vertex changes its tin or DFS parent, and
      none but u its low. */
  ghost predicate Keeps(n: nat, st: Walk, r: Walk, u: nat)
    requires Shaped(n, st) && Shaped(n, r)
  {
    forall x :: x in st.visited ==> r.tin[x] == st.tin[x] && r.pred[x] == st.pred[x] && (x != u ==> r.low[x] == st.low[x])
  }

  /** Every vertex first visited between st and r has DFS parent a or
      another vertex first visited between them. */
  ghost predicate Fresh(n: nat, st: Walk, r: Walk, a: int)
    requires Shaped(n, r)
  {
    forall x :: x in r.visited && x !in st.visited ==> HungUnder(st, r, a, x)
  }

  /** x hangs under a, or under a vertex first visited after st. */
  predicate HungUnder(st: Walk, r: Walk, a: int, x: nat)
    requires x < |r.pred|
  {
    r.pred[x] == a || Below(st, r, x)
  }

  /** The DFS parent of x was first visited after st. */
  predicate Below(st: Walk, r: Walk, x: nat)
    requires x < |r.pred|
  {
    0 <= r.pred[x] && r.pred[x] as nat in r.visited && r.pred[x] as nat !in st.visited
  }

  /** Every vertex first visited between st and r, except u, hangs under
      another one. */
  ghost predicate Inner(n: nat, st: Walk, r: Walk, u: nat)
    requires Shaped(n, r)
  {
    forall x :: x in r.visited && x !in st.visited && x != u ==> Below(st, r, x)
  }

  lemma StampFrame(n: nat, st: Walk, u: nat, p: int)
    requires Sane(n, st) && u < n && u !in st.visited
    requires p == -1 || (0 <= p && p as nat in st.visited)
    ensures Sane(n, Stamp(st, u, p)) && Keeps(n, st, Stamp(st, u, p), u) && Stamp(st, u, p).pred[u] == p
  {
    var st1 := Stamp(st, u, p);
    forall x | x in st1.visited ensures Settled(st1, x) {
      if x != u {
        assert Settled(st, x);
      }
    }
  }

  lemma LowerFrame(n: nat, st: Walk, u: nat, a: int)
    requires Sane(n, st) && u in st.visited && 0 <= a
    ensures Sane(n, Lower(st, u, a)) && Keeps(n, st, Lower(st, u, a), u)
  {
    var st1 := Lower(st, u, a);
    forall x | x in st1.visited ensures Settled(st1, x) {
      assert Settled(st, x);
    }
  }

  lemma ReportFrame(n: nat, st: Walk, u: nat, v: nat, p: int)
    requires Sane(n, st) && u in st.visited && v in st.visited
    ensures Sane(n, Report(st, u, v, p)) && Keeps(n, st, Report(st, u, v, p), u)
  {
    assert Settled(st, v);
    LowerFrame(n, st, u, st.low[v]);
  }

  /** Keeps composes. */
  lemma KeepsChain(n: nat, a: Walk, b: Walk, c: Walk, u: nat)
    requires Shaped(n, a) && Shaped(n, b) && Shaped(n, c) && a.visited <= b.visited
    requires Keeps(n, a, b, u) && Keeps(n, b, c, u)
    ensures Keeps(n, a, c, u)
  {
  }

  /** Fresh composes when the later stretch keeps the earlier one's
      parents. */
  lemma FreshChain(n: nat, a: Walk, b: Walk, c: Walk, u: nat)
    requires Shaped(n, a) && Shaped(n, b) && Shaped(n, c) && a.visited <= b.visited <= c.visited
    requires Fresh(n, a, b, u) && Fresh(n, b, c, u) && Keeps(n, b, c, u)
    ensures Fresh(n, a, c, u)
  {
    forall x | x in c.visited && x !in a.visited
      ensures HungUnder(a, c, u, x)
    {
      if x in b.visited {
        assert c.pred[x] == b.pred[x];
        assert HungUnder(a, b, u, x);
      } else {
        assert HungUnder(b, c, u, x);
      }
    }
  }

  /** What the loop of `dfs(u, p)` hangs under u is hung under p together
      with u itself. */
  lemma FreshStamp(n: nat, st: Walk, st1: Walk, st2: Walk, u: nat, p: int)
    requires Shaped(n, st1) && Shaped(n, st2)
    requires st1.visited == st.visited + {u} && u !in st.visited && st1.visited <= st2.visited
    requires Fresh(n, st1, st2, u) && Keeps(n, st1, st2, u) && st1.pred[u] == p
    ensures Fresh(n, st, st2, p) && Inner(n, st, st2, u)
  {
    forall x | x in st2.visited && x !in st.visited
      ensures HungUnder(st, st2, p, x) && (x != u ==> Below(st, st2, x))
    {
      if x != u {
        assert x !in st1.visited;
        assert HungUnder(st1, st2, u, x);
      } else {
        assert st2.pred[u] == st1.pred[u];
      }
    }
  }

  /** `dfs(u, p)` settles every vertex it reaches, changes nothing it found
      visited, and hangs what it reaches under p. */
  lemma {:induction false} VisitFrame(g: Lists, u: nat, p: int, st: Walk)
    requires WellFormed(g) && Sane(|g|, st) && u < |g| && u !in st.visited
    requires p == -1 || (0 <= p && p as nat in st.visited)
    ensures Sane(|g|, Visit(g, u, p, st)) && Visit(g, u, p, st).time >= st.time
    ensures Keeps(|g|, st, Visit(g, u, p, st), u) && Fresh(|g|, st, Visit(g, u, p, st), p)
    ensures Inner(|g|, st, Visit(g, u, p, st), u) && Visit(g, u, p, st).pred[u] == p
    decreases Unvisited(|g|, st), 0, 0
  {
    var n := |g|;
    var st1 := Stamp(st, u, p);
    assert Unvisited(n, st) == Unvisited(n, st1) + {u};
    StampFrame(n, st, u, p);
    EdgesFrame(g, u, p, 0, 0, st1);
    var st2 := Edges(g, u, p, 0, 0, st1).0;
    KeepsChain(n, st, st1, st2, u);
    FreshStamp(n, st, st1, st2, u, p);
  }

  /** The loop of `dfs(u, p)` settles every vertex it reaches, changes
      nothing it found visited but low[u], and hangs what it reaches
      under u. */
  lemma {:induction false} EdgesFrame(g: Lists, u: nat, p: int, k: nat, children: nat, st: Walk)
    requires WellFormed(g) && Sane(|g|, st) && u in st.visited && k <= |g[u]|
    ensures Sane(|g|, Edges(g, u, p, k, children, st).0) && Edges(g, u, p, k, children, st).0.time >= st.time
    ensures Keeps(|g|, st, Edges(g, u, p, k, children, st).0, u) && Fresh(|g|, st, Edges(g, u, p, k, children, st).0, u)
    decreases Unvisited(|g|, st), 1, |g[u]| - k
  {
    if k < |g[u]| {
      var v := g[u][k].0 - 1;
      if v == p {
        EdgesFrame(g, u, p, k + 1, children, st);
      } else if v in st.visited {
        EdgesFrameBack(g, u, p, k, children, st);
      } else {
        EdgesFrameTree(g, u, p, k, children, st);
      }
    }
  }

  /** The back edge (u, v) lowers low[u] and nothing else. */
  lemma {:induction false} EdgesFrameBack(g: Lists, u: nat, p: int, k: nat, children: nat, st: Walk)
    requires WellFormed(g) && Sane(|g|, st) && u in st.visited && k < |g[u]|
    requires g[u][k].0 - 1 != p && (g[u][k].0 - 1) as nat in st.visited
    ensures Sane(|g|, Edges(g, u, p, k, children, st).0) && Edges(g, u, p, k, children, st).0.time >= st.time
    ensures Keeps(|g|, st, Edges(g, u, p, k, children, st).0, u) && Fresh(|g|, st, Edges(g, u, p, k, children, st).0, u)
    decreases Unvisited(|g|, st), 1, |g[u]| - k, 0
  {
    var n := |g|;
    var v: nat := g[u][k].0 - 1;
    var st' := Lower(st, u, st.tin[v]);
    assert Settled(st, v);
    LowerFrame(n, st, u, st.tin[v]);
    EdgesFrame(g, u, p, k + 1, children, st');
    var r := Edges(g, u, p, k + 1, children, st').0;
    KeepsChain(n, st, st', r, u);
    FreshChain(n, st, st', r, u);
  }

  /** The tree edge (u, v): the search from v, then the rest of the list. */
  lemma {:induction false} EdgesFrameTree(g: Lists, u: nat, p: int, k: nat, children: nat, st: Walk)
    requires WellFormed(g) && Sane(|g|, st) && u in st.visited && k < |g[u]|
    requires g[u][k].0 - 1 != p && (g[u][k].0 - 1) as nat !in st.visited
    ensures Sane(|g|, Edges(g, u, p, k, children, st).0) && Edges(g, u, p, k, children, st).0.time >= st.time
    ensures Keeps(|g|, st, Edges(g, u, p, k, children, st).0, u) && Fresh(|g|, st, Edges(g, u, p, k, children, st).0, u)
    decreases Unvisited(|g|, st), 1, |g[u]| - k, 1
  {
    var n := |g|;
    var v: nat := g[u][k].0 - 1;
    TreeFrame(g, u, v, p, k, st);
    var st3 := Report(Visit(g, v, u, st), u, v, p);
    Reach.SubsetSize(Unvisited(n, st3), Unvisited(n, st));
    EdgesFrame(g, u, p, k + 1, children + 1, st3);
    var r := Edges(g, u, p, k + 1, children + 1, st3).0;
    KeepsChain(n, st, st3, r, u);
    FreshChain(n, st, st3, r, u);
  }

  /** One pass of the loop of `dfs(u, p)` keeps the frame of `EdgesFrame`. */
  lemma {:induction false} StepFrame(g: Lists, u: nat, p: int, k: nat, children: nat, st: Walk)
    requires WellFormed(g) && Sane(|g|, st) && u in st.visited && k < |g[u]|
    ensures Sane(|g|, Step(g, u, p, k, children, st).0) && Step(g, u, p, k, children, st).0.time >= st.time
    ensures Keeps(|g|, st, Step(g, u, p, k, children, st).0, u) && Fresh(|g|, st, Step(g, u, p, k, children, st).0, u)
    decreases Unvisited(|g|, st), 1, |g[u]| - k, 1
  {
    var n := |g|;
    var v := g[u][k].0 - 1;
    if v == p {
    } else if v in st.visited {
      assert Settled(st, v);
      LowerFrame(n, st, u, st.tin[v]);
    } else {
      TreeFrame(g, u, v, p, k, st);
    }
  }

  /** One pass of the loop leaves the state sane. */
  lemma StepSane(g: Lists, u: nat, p: int, k: nat, children: nat, st: Walk)
    requires WellFormed(g) && Sane(|g|, st) && u in st.visited && k < |g[u]|
    ensures Sane(|g|, Step(g, u, p, k, children, st).0)
  {
    StepFrame(g, u, p, k, children, st);
  }

  /** The tree edge (u, v): the search from v and the report on return. */
  lemma {:induction false} TreeFrame(g: Lists, u: nat, v: nat, p: int, k: nat, st: Walk)
    requires WellFormed(g) && Sane(|g|, st) && u in st.visited && k < |g[u]|
    requires v == g[u][k].0 - 1 && v != p && v !in st.visited
    ensures Sane(|g|, Report(Visit(g, v, u, st), u, v, p)) && Report(Visit(g, v, u, st), u, v, p).time >= st.time
    ensures Keeps(|g|, st, Report(Visit(g, v, u, st), u, v, p), u) && Fresh(|g|, st, Report(Visit(g, v, u, st), u, v, p), u)
    decreases Unvisited(|g|, st), 1, |g[u]| - k, 0
  {
    var n := |g|;
    VisitFrame(g, v, u, st);
    var st2 := Visit(g, v, u, st);
    ReportFrame(n, st2, u, v, p);
    KeepsChain(n, st, st2, Report(st2, u, v, p), u);
  }

  // ---- the children count of the root rule

  /** The DFS children of a: the visited vertices whose parent it is. */
  function Children(n: nat, st: Walk, a: int): set<nat>
    requires Shaped(n, st)
  {
    set c: nat | c < n && c in st.visited && st.pred[c] == a
  }

  /** A search from v entered from u gives u exactly one new child, v. */
  lemma ChildrenTree(n: nat, st: Walk, st2: Walk, u: nat, v: nat)
    requires Shaped(n, st) && Shaped(n, st2) && st.visited <= st2.visited
    requires u in st.visited && v in st2.visited && v !in st.visited && st2.pred[v] == u
    requires Keeps(n, st, st2, v) && Inner(n, st, st2, v) && Sane(n, st)
    ensures Children(n, st2, u) == Children(n, st, u) + {v}
  {
    assert forall c :: c in Children(n, st2, u) && c != v ==> c in Children(n, st, u);
  }

  /** The loop of `dfs(u, p)` counts one child per tree edge it takes. */
  lemma {:induction false} EdgesCount(g: Lists, u: nat, p: int, k: nat, children: nat, st: Walk)
    requires WellFormed(g) && Sane(|g|, st) && u in st.visited && k <= |g[u]|
    ensures Edges(g, u, p, k, children, st).1 + |Children(|g|, st, u)|
            == children + |Children(|g|, Edges(g, u, p, k, children, st).0, u)|
    decreases |g[u]| - k
  {
    if k < |g[u]| {
      StepCount(g, u, p, k, children, st);
      StepSane(g, u, p, k, children, st);
      var st', c' := Step(g, u, p, k, children, st).0, Step(g, u, p, k, children, st).1;
      EdgesCount(g, u, p, k + 1, c', st');
    }
  }

  /** One pass of the loop counts a child exactly when it takes a tree
      edge, and that edge's end is the one new child. */
  lemma StepCount(g: Lists, u: nat, p: int, k: nat, children: nat, st: Walk)
    requires WellFormed(g) && Sane(|g|, st) && u in st.visited && k < |g[u]|
    ensures Step(g, u, p, k, children, st).1 + |Children(|g|, st, u)|
            == children + |Children(|g|, Step(g, u, p, k, children, st).0, u)|
  {
    var n := |g|;
    var v := g[u][k].0 - 1;
    if v == p {
    } else if v in st.visited {
      assert Children(n, Lower(st, u, st.tin[v]), u) == Children(n, st, u);
    } else {
      VisitFrame(g, v, u, st);
      var st2 := Visit(g, v, u, st);
      ChildrenTree(n, st, st2, u, v);
      assert Children(n, Report(st2, u, v, p), u) == Children(n, st2, u);
    }
  }

  // ---- the bridges reported

  /** The tree edge into b is a bridge by the rule: b has a DFS parent and
      low[b] > tin[parent]. */
  predicate Bridge(n: nat, st: Walk, b: nat)
    requires Shaped(n, st) && b < n
  {
    0 <= st.pred[b] < n && st.low[b] > st.tin[st.pred[b]]
  }

  /** e is the reported form (parent + 1, b + 1) of a bridge into a vertex
      b of F. */
  predicate BridgeOf(n: nat, st: Walk, F: set<nat>, e: (int, int))
    requires Shaped(n, st)
  {
    1 <= e.1 <= n && (e.1 - 1) as nat in F && e.0 == st.pred[e.1 - 1] + 1 && 0 <= st.pred[e.1 - 1] < n && st.low[e.1 - 1] > st.tin[st.pred[e.1 - 1]]
  }

  /** The bridges list holds exactly the bridges into the vertices of F. */
  ghost predicate BridgesOk(n: nat, st: Walk, F: set<nat>)
    requires Shaped(n, st)
  {
    && (forall i :: 0 <= i < |st.bridges| ==> BridgeOf(n, st, F, st.bridges[i]))
    && (forall b {:trigger Bridge(n, st, b)} :: b in F && b < n && Bridge(n, st, b) ==> (st.pred[b] + 1, b + 1) in st.bridges)
  }

  /** A step that keeps every vertex of F apart from u, and the list,
      keeps BridgesOk. */
  lemma BridgesKeep(n: nat, a: Walk, b: Walk, F: set<nat>, u: nat)
    requires Sane(n, a) && Shaped(n, b) && F <= a.visited && u !in F
    requires Keeps(n, a, b, u) && b.bridges == a.bridges && BridgesOk(n, a, F)
    ensures BridgesOk(n, b, F)
  {
    forall i | 0 <= i < |b.bridges| ensures BridgeOf(n, b, F, b.bridges[i]) {
      assert BridgeOf(n, a, F, a.bridges[i]);
      assert Settled(a, (a.bridges[i].1 - 1) as nat);
    }
    forall x | x in F && x < n && Bridge(n, b, x) ensures (b.pred[x] + 1, x + 1) in b.bridges {
      assert Settled(a, x);
      assert Bridge(n, a, x);
    }
  }

  /** BridgesOk reads only the arrays and the list. */
  lemma BridgesCopy(n: nat, a: Walk, b: Walk, F: set<nat>)
    requires Shaped(n, a) && BridgesOk(n, a, F)
    requires b.tin == a.tin && b.low == a.low && b.pred == a.pred && b.visited == a.visited && b.bridges == a.bridges
    ensures Shaped(n, b) && BridgesOk(n, b, F)
  {
    forall i | 0 <= i < |b.bridges| ensures BridgeOf(n, b, F, b.bridges[i]) {
      assert BridgeOf(n, a, F, a.bridges[i]);
    }
    forall x | x in F && x < n && Bridge(n, b, x) ensures (b.pred[x] + 1, x + 1) in b.bridges {
      assert Bridge(n, a, x);
    }
  }

  /** Back from the tree edge (u, v), v joins F with its bridge reported. */
  lemma BridgesReport(n: nat, st: Walk, F: set<nat>, u: nat, v: nat, p: int)
    requires Sane(n, st) && F <= st.visited && u !in F && v !in F && u != v
    requires u in st.visited && v in st.visited && st.pred[v] == u && BridgesOk(n, st, F)
    ensures BridgesOk(n, Report(st, u, v, p), F + {v})
  {
    ReportListed(n, st, F, u, v, p);
    ReportFound(n, st, F, u, v, p);
  }

  /** Every pair on the list after the report is a bridge into F + {v}. */
  lemma ReportListed(n: nat, st: Walk, F: set<nat>, u: nat, v: nat, p: int)
    requires Sane(n, st) && F <= st.visited && u !in F && v !in F && u != v
    requires u in st.visited && v in st.visited && st.pred[v] == u && BridgesOk(n, st, F)
    ensures forall i :: 0 <= i < |Report(st, u, v, p).bridges| ==> BridgeOf(n, Report(st, u, v, p), F + {v}, Report(st, u, v, p).bridges[i])
  {
    var r := Report(st, u, v, p);
    forall i | 0 <= i < |r.bridges| ensures BridgeOf(n, r, F + {v}, r.bridges[i]) {
      if i < |st.bridges| {
        assert r.bridges[i] == st.bridges[i];
        assert BridgeOf(n, st, F, st.bridges[i]);
        assert Settled(st, (st.bridges[i].1 - 1) as nat);
      }
    }
  }

  /** Every bridge into F + {v} is on the list after the report. */
  lemma ReportFound(n: nat, st: Walk, F: set<nat>, u: nat, v: nat, p: int)
    requires Sane(n, st) && F <= st.visited && u !in F && v !in F && u != v
    requires u in st.visited && v in st.visited && st.pred[v] == u && BridgesOk(n, st, F)
    ensures forall x :: x in F + {v} && x < n && Bridge(n, Report(st, u, v, p), x) ==>
      (Report(st, u, v, p).pred[x] + 1, x + 1) in Report(st, u, v, p).bridges
  {
    var r := Report(st, u, v, p);
    forall x | x in F + {v} && x < n && Bridge(n, r, x) ensures (r.pred[x] + 1, x + 1) in r.bridges {
      if x == v {
        assert r.bridges[|r.bridges| - 1] == (u + 1, v + 1);
      } else {
        assert Settled(st, x);
        assert Bridge(n, st, x);
      }
    }
  }

  /** `dfs(u, p)` reports the bridge into every vertex it finishes but u. */
  lemma {:induction false} VisitBridges(g: Lists, u: nat, p: int, st: Walk, F: set<nat>)
    requires WellFormed(g) && Sane(|g|, st) && u < |g| && u !in st.visited
    requires p == -1 || (0 <= p && p as nat in st.visited)
    requires F <= st.visited && BridgesOk(|g|, st, F)
    ensures BridgesOk(|g|, Visit(g, u, p, st), F + (Visit(g, u, p, st).visited - st.visited - {u}))
    decreases Unvisited(|g|, st), 0, 0
  {
    var n := |g|;
    var st1 := Stamp(st, u, p);
    assert Unvisited(n, st) == Unvisited(n, st1) + {u};
    StampFrame(n, st, u, p);
    BridgesKeep(n, st, st1, F, u);
    EdgesBridges(g, u, p, 0, 0, st1, F);
    var st2 := Edges(g, u, p, 0, 0, st1).0;
    var r := Visit(g, u, p, st);
    assert F + (st2.visited - st1.visited) == F + (r.visited - st.visited - {u});
    BridgesCopy(n, st2, r, F + (r.visited - st.visited - {u}));
  }

  /** The loop of `dfs(u, p)` reports the bridge into every vertex it
      finishes. */
  lemma {:induction false} EdgesBridges(g: Lists, u: nat, p: int, k: nat, children: nat, st: Walk, F: set<nat>)
    requires WellFormed(g) && Sane(|g|, st) && u in st.visited && k <= |g[u]|
    requires F <= st.visited && u !in F && BridgesOk(|g|, st, F)
    ensures BridgesOk(|g|, Edges(g, u, p, k, children, st).0, F + (Edges(g, u, p, k, children, st).0.visited - st.visited))
    decreases Unvisited(|g|, st), 1, |g[u]| - k
  {
    if k < |g[u]| {
      var v := g[u][k].0 - 1;
      if v == p {
        EdgesBridges(g, u, p, k + 1, children, st, F);
      } else if v in st.visited {
        EdgesBridgesBack(g, u, p, k, children, st, F);
      } else {
        EdgesBridgesTree(g, u, p, k, children, st, F);
      }
    } else {
      assert F + (st.visited - st.visited) == F;
    }
  }

  lemma {:induction false} EdgesBridgesBack(g: Lists, u: nat, p: int, k: nat, children: nat, st: Walk, F: set<nat>)
    requires WellFormed(g) && Sane(|g|, st) && u in st.visited && k < |g[u]|
    requires g[u][k].0 - 1 != p && (g[u][k].0 - 1) as nat in st.visited
    requires F <= st.visited && u !in F && BridgesOk(|g|, st, F)
    ensures BridgesOk(|g|, Edges(g, u, p, k, children, st).0, F + (Edges(g, u, p, k, children, st).0.visited - st.visited))
    decreases Unvisited(|g|, st), 1, |g[u]| - k, 0
  {
    var n := |g|;
    var v: nat := g[u][k].0 - 1;
    var st' := Lower(st, u, st.tin[v]);
    assert Settled(st, v);
    LowerFrame(n, st, u, st.tin[v]);
    BridgesKeep(n, st, st', F, u);
    EdgesBridges(g, u, p, k + 1, children, st', F);
  }

  lemma {:induction false} EdgesBridgesTree(g: Lists, u: nat, p: int, k: nat, children: nat, st: Walk, F: set<nat>)
    requires WellFormed(g) && Sane(|g|, st) && u in st.visited && k < |g[u]|
    requires g[u][k].0 - 1 != p && (g[u][k].0 - 1) as nat !in st.visited
    requires F <= st.visited && u !in F && BridgesOk(|g|, st, F)
    ensures BridgesOk(|g|, Edges(g, u, p, k, children, st).0, F + (Edges(g, u, p, k, children, st).0.visited - st.visited))
    decreases Unvisited(|g|, st), 1, |g[u]| - k, 1
  {
    var n := |g|;
    var v: nat := g[u][k].0 - 1;
    TreeBridges(g, u, v, p, k, st, F);
    var st3 := Report(Visit(g, v, u, st), u, v, p);
    Reach.SubsetSize(Unvisited(n, st3), Unvisited(n, st));
    EdgesBridges(g, u, p, k + 1, children + 1, st3, F + (st3.visited - st.visited));
    var r := Edges(g, u, p, k + 1, children + 1, st3).0;
    Splice(F, st.visited, st3.visited, r.visited);
  }

  /** The vertices a step finishes, added to those it found. */
  lemma Splice(F: set<nat>, a: set<nat>, b: set<nat>, c: set<nat>)
    requires a <= b <= c
    ensures F + (b - a) + (c - b) == F + (c - a)
  {
  }

  /** The tree edge (u, v): the search from v and the report on return. */
  lemma {:induction false} TreeBridges(g: Lists, u: nat, v: nat, p: int, k: nat, st: Walk, F: set<nat>)
    requires WellFormed(g) && Sane(|g|, st) && u in st.visited && k < |g[u]|
    requires v == g[u][k].0 - 1 && v != p && v !in st.visited
    requires F <= st.visited && u !in F && BridgesOk(|g|, st, F)
    ensures Sane(|g|, Report(Visit(g, v, u, st), u, v, p)) && st.visited <= Report(Visit(g, v, u, st), u, v, p).visited
    ensures BridgesOk(|g|, Report(Visit(g, v, u, st), u, v, p), F + (Report(Visit(g, v, u, st), u, v, p).visited - st.visited))
    decreases Unvisited(|g|, st), 1, |g[u]| - k, 0
  {
    var n := |g|;
    VisitFrame(g, v, u, st);
    VisitBridges(g, v, u, st, F);
    var st2 := Visit(g, v, u, st);
    var F2 := F + (st2.visited - st.visited - {v});
    BridgesReport(n, st2, F2, u, v, p);
    ReportFrame(n, st2, u, v, p);
    assert F2 + {v} == F + (st2.visited - st.visited);
  }

  // ---- the cut vertices reported

  /** The non-root rule has fired for a: some DFS child of a in F has
      low >= tin[a]. */
  ghost predicate Early(n: nat, st: Walk, F: set<nat>, a: nat)
    requires Shaped(n, st) && a < n
  {
    exists c :: c in F && c < n && st.pred[c] == a && st.low[c] >= st.tin[a]
  }

  /** x is a cut vertex by the rules: a non-root vertex by the child rule
      over the children in F, a root of D by the two-children rule. */
  ghost predicate Cut(n: nat, st: Walk, F: set<nat>, D: set<nat>, x: int)
    requires Shaped(n, st)
  {
    && 1 <= x <= n && (x - 1) as nat in st.visited
    && if st.pred[x - 1] != -1 then Early(n, st, F, (x - 1) as nat)
       else (x - 1) as nat in D && |Children(n, st, x - 1)| > 1
  }

  /** The cut set holds exactly the cut vertices by the rules. */
  ghost predicate CutsOk(n: nat, st: Walk, F: set<nat>, D: set<nat>)
    requires Shaped(n, st)
  {
    forall x :: x in st.cuts <==> Cut(n, st, F, D, x)
  }

  /** A step that adds only vertices hung under q, keeps the vertices of F
      apart from u, and leaves the cut set alone keeps CutsOk. */
  lemma CutsKeep(n: nat, a: Walk, b: Walk, F: set<nat>, D: set<nat>, u: nat, q: int)
    requires Sane(n, a) && Sane(n, b) && a.visited <= b.visited && F <= a.visited && D <= a.visited && u !in F
    requires Keeps(n, a, b, u) && Fresh(n, a, b, q) && (q < 0 || q as nat !in D)
    requires b.cuts == a.cuts && CutsOk(n, a, F, D)
    ensures CutsOk(n, b, F, D)
  {
    forall x ensures x in b.cuts <==> Cut(n, b, F, D, x) {
      if 1 <= x <= n {
        var y: nat := x - 1;
        assert x in a.cuts <==> Cut(n, a, F, D, x);
        if y in a.visited {
          if a.pred[y] != -1 {
            assert Early(n, b, F, y) ==> Early(n, a, F, y);
            assert Early(n, a, F, y) ==> Early(n, b, F, y);
          } else if y in D {
            assert y as int != q;
            assert Children(n, b, y) == Children(n, a, y);
          }
        }
      }
    }
  }

  /** Back from the tree edge (u, v): v's low is final, so the child rule
      for u is decided on it, and v joins F. */
  lemma CutsReport(n: nat, st: Walk, F: set<nat>, u: nat, v: nat, p: int)
    requires Sane(n, st) && F <= st.visited && u in st.visited && v in st.visited && u != v
    requires u !in F && v !in F && st.pred[v] == u && st.pred[u] == p && CutsOk(n, st, F, F + {v})
    ensures CutsOk(n, Report(st, u, v, p), F + {v}, F + {v})
  {
    var r := Report(st, u, v, p);
    var F3 := F + {v};
    forall x ensures x in r.cuts <==> Cut(n, r, F3, F3, x) {
      assert x in st.cuts <==> Cut(n, st, F, F3, x);
      if 1 <= x <= n {
        var y: nat := x - 1;
        assert Children(n, r, y) == Children(n, st, y);
        if y in st.visited && st.pred[y] != -1 {
          if y == u {
            assert st.low[v] >= st.tin[u] ==> Early(n, r, F3, u) by {
              if st.low[v] >= st.tin[u] {
                assert v in F3 && r.pred[v] == u && r.low[v] >= r.tin[u];
              }
            }
            assert Early(n, st, F, u) ==> Early(n, r, F3, u);
            assert Early(n, r, F3, u) ==> Early(n, st, F, u) || st.low[v] >= st.tin[u];
          } else {
            assert Early(n, st, F, y) ==> Early(n, r, F3, y);
            assert Early(n, r, F3, y) ==> Early(n, st, F, y);
          }
        }
      }
    }
  }

  /** On return from `dfs(u, p)` the two-children rule is decided for a
      root u, and u joins D. */
  lemma RootRule(n: nat, st: Walk, r: Walk, F: set<nat>, u: nat, p: int, children: nat)
    requires Sane(n, st) && u in st.visited && u !in F && F <= st.visited && st.pred[u] == p
    requires children == |Children(n, st, u)| && CutsOk(n, st, F, F)
    requires r == if p == -1 && children > 1 then st.(cuts := st.cuts + {u + 1}) else st
    ensures Shaped(n, r) && CutsOk(n, r, F, F + {u})
  {
    forall x ensures x in r.cuts <==> Cut(n, r, F, F + {u}, x) {
      assert x in st.cuts <==> Cut(n, st, F, F, x);
      if 1 <= x <= n {
        var y: nat := x - 1;
        assert Children(n, r, y) == Children(n, st, y);
        if y in st.visited && st.pred[y] != -1 {
          assert Early(n, st, F, y) <==> Early(n, r, F, y);
        }
      }
    }
  }

  /** Nothing hangs under a vertex just entered. */
  lemma NoChildrenYet(n: nat, st: Walk, u: nat, p: int)
    requires Sane(n, st) && u < n && u !in st.visited && (p == -1 || (0 <= p && p as nat in st.visited))
    ensures Shaped(n, Stamp(st, u, p)) && Children(n, Stamp(st, u, p), u) == {}
  {
    var st1 := Stamp(st, u, p);
    forall c | c in st1.visited && c != u ensures st1.pred[c] != u {
      assert Settled(st, c);
    }
  }

  /** `dfs(u, p)` reports the cut vertices among the vertices it finishes:
      by the child rule for all but u, and by the two-children rule for u
      too. */
  lemma {:induction false} VisitCuts(g: Lists, u: nat, p: int, st: Walk, F: set<nat>)
    requires WellFormed(g) && Sane(|g|, st) && u < |g| && u !in st.visited
    requires p == -1 || (0 <= p && p as nat in st.visited && p as nat !in F)
    requires F <= st.visited && CutsOk(|g|, st, F, F)
    ensures CutsOk(|g|, Visit(g, u, p, st), F + (Visit(g, u, p, st).visited - st.visited - {u}),
                   F + (Visit(g, u, p, st).visited - st.visited))
    decreases Unvisited(|g|, st), 0, 0
  {
    var n := |g|;
    var st1 := Stamp(st, u, p);
    assert Unvisited(n, st) == Unvisited(n, st1) + {u};
    StampFrame(n, st, u, p);
    assert Fresh(n, st, st1, p);
    CutsKeep(n, st, st1, F, F, u, p);
    EdgesCuts(g, u, p, 0, 0, st1, F);
    EdgesFrame(g, u, p, 0, 0, st1);
    EdgesCount(g, u, p, 0, 0, st1);
    NoChildrenYet(n, st, u, p);
    var (st2, children) := Edges(g, u, p, 0, 0, st1);
    var r := Visit(g, u, p, st);
    var F' := F + (st2.visited - st1.visited);
    RootRule(n, st2, r, F', u, p, children);
    assert F' == F + (r.visited - st.visited - {u});
    assert F' + {u} == F + (r.visited - st.visited);
  }

  /** The loop of `dfs(u, p)` reports the cut vertices among the vertices
      it finishes. */
  lemma {:induction false} EdgesCuts(g: Lists, u: nat, p: int, k: nat, children: nat, st: Walk, F: set<nat>)
    requires WellFormed(g) && Sane(|g|, st) && u in st.visited && k <= |g[u]| && st.pred[u] == p
    requires F <= st.visited && u !in F && CutsOk(|g|, st, F, F)
    ensures CutsOk(|g|, Edges(g, u, p, k, children, st).0, F + (Edges(g, u, p, k, children, st).0.visited - st.visited),
                   F + (Edges(g, u, p, k, children, st).0.visited - st.visited))
    decreases Unvisited(|g|, st), 1, |g[u]| - k
  {
    if k < |g[u]| {
      var v := g[u][k].0 - 1;
      if v == p {
        EdgesCuts(g, u, p, k + 1, children, st, F);
      } else if v in st.visited {
        EdgesCutsBack(g, u, p, k, children, st, F);
      } else {
        EdgesCutsTree(g, u, p, k, children, st, F);
      }
    }
  }

  lemma {:induction false} EdgesCutsBack(g: Lists, u: nat, p: int, k: nat, children: nat, st: Walk, F: set<nat>)
    requires WellFormed(g) && Sane(|g|, st) && u in st.visited && k < |g[u]| && st.pred[u] == p
    requires g[u][k].0 - 1 != p && (g[u][k].0 - 1) as nat in st.visited
    requires F <= st.visited && u !in F && CutsOk(|g|, st, F, F)
    ensures CutsOk(|g|, Edges(g, u, p, k, children, st).0, F + (Edges(g, u, p, k, children, st).0.visited - st.visited),
                   F + (Edges(g, u, p, k, children, st).0.visited - st.visited))
    decreases Unvisited(|g|, st), 1, |g[u]| - k, 0
  {
    var n := |g|;
    var v: nat := g[u][k].0 - 1;
    var st' := Lower(st, u, st.tin[v]);
    assert Settled(st, v);
    LowerFrame(n, st, u, st.tin[v]);
    CutsKeep(n, st, st', F, F, u, u);
    EdgesCuts(g, u, p, k + 1, children, st', F);
  }

  /** The tree edge (u, v): the search from v and the report on return. */
  lemma {:induction false} TreeCuts(g: Lists, u: nat, v: nat, p: int, k: nat, st: Walk, F: set<nat>)
    requires WellFormed(g) && Sane(|g|, st) && u in st.visited && k < |g[u]| && st.pred[u] == p
    requires v == g[u][k].0 - 1 && v != p && v !in st.visited
    requires F <= st.visited && u !in F && CutsOk(|g|, st, F, F)
    ensures Sane(|g|, Report(Visit(g, v, u, st), u, v, p)) && st.visited <= Report(Visit(g, v, u, st), u, v, p).visited
    ensures Report(Visit(g, v, u, st), u, v, p).pred[u] == p
    ensures CutsOk(|g|, Report(Visit(g, v, u, st), u, v, p), F + (Report(Visit(g, v, u, st), u, v, p).visited - st.visited),
                   F + (Report(Visit(g, v, u, st), u, v, p).visited - st.visited))
    decreases Unvisited(|g|, st), 1, |g[u]| - k, 0
  {
    var n := |g|;
    VisitFrame(g, v, u, st);
    VisitCuts(g, v, u, st, F);
    var st2 := Visit(g, v, u, st);
    var F2 := F + (st2.visited - st.visited - {v});
    assert F2 + {v} == F + (st2.visited - st.visited);
    CutsReport(n, st2, F2, u, v, p);
    ReportFrame(n, st2, u, v, p);
  }

  lemma {:induction false} EdgesCutsTree(g: Lists, u: nat, p: int, k: nat, children: nat, st: Walk, F: set<nat>)
    requires WellFormed(g) && Sane(|g|, st) && u in st.visited && k < |g[u]| && st.pred[u] == p
    requires g[u][k].0 - 1 != p && (g[u][k].0 - 1) as nat !in st.visited
    requires F <= st.visited && u !in F && CutsOk(|g|, st, F, F)
    ensures CutsOk(|g|, Edges(g, u, p, k, children, st).0, F + (Edges(g, u, p, k, children, st).0.visited - st.visited),
                   F + (Edges(g, u, p, k, children, st).0.visited - st.visited))
    decreases Unvisited(|g|, st), 1, |g[u]| - k, 1
  {
    var n := |g|;
    var v: nat := g[u][k].0 - 1;
    TreeCuts(g, u, v, p, k, st, F);
    var st3 := Report(Visit(g, v, u, st), u, v, p);
    Reach.SubsetSize(Unvisited(n, st3), Unvisited(n, st));
    EdgesCuts(g, u, p, k + 1, children + 1, st3, F + (st3.visited - st.visited));
    var r := Edges(g, u, p, k + 1, children + 1, st3).0;
    Splice(F, st.visited, st3.visited, r.visited);
  }

  // ---- the whole search

  /** A root joins F and D: it is the tail of no bridge and the child of
      no vertex. */
  lemma RootJoins(n: nat, st: Walk, F: set<nat>, D: set<nat>, i: nat)
    requires Shaped(n, st) && i < n && st.pred[i] == -1
    requires BridgesOk(n, st, F) && CutsOk(n, st, F, D)
    ensures BridgesOk(n, st, F + {i}) && CutsOk(n, st, F + {i}, D)
  {
    forall x ensures x in st.cuts <==> Cut(n, st, F + {i}, D, x) {
      assert x in st.cuts <==> Cut(n, st, F, D, x);
      if 1 <= x <= n {
        var y: nat := x - 1;
        assert Early(n, st, F, y) <==> Early(n, st, F + {i}, y);
      }
    }
  }

  /** Between searches from successive roots every visited vertex is
      finished, and its bridges and cut vertices are reported. */
  ghost predicate Between(n: nat, st: Walk)
  {
    Sane(n, st) && BridgesOk(n, st, st.visited) && CutsOk(n, st, st.visited, st.visited)
  }

  /** `dfs(i, -1)` from an unvisited vertex keeps `Between`. */
  lemma RootStep(g: Lists, i: nat, st: Walk)
    requires WellFormed(g) && i < |g| && i !in st.visited && Between(|g|, st)
    ensures Between(|g|, Visit(g, i, -1, st))
  {
    var n := |g|;
    var r := Visit(g, i, -1, st);
    VisitFrame(g, i, -1, st);
    VisitBridges(g, i, -1, st, st.visited);
    VisitCuts(g, i, -1, st, st.visited);
    var F := st.visited + (r.visited - st.visited - {i});
    RootJoins(n, r, F, F + {i}, i);
    assert F + {i} == r.visited;
  }

  /** The outer loop visits every vertex and keeps `Between`. */
  lemma {:induction false} RootsReport(g: Lists, i: nat, st: Walk)
    requires WellFormed(g) && i <= |g| && Between(|g|, st)
    requires forall j: nat :: j < i ==> j in st.visited
    ensures Between(|g|, Roots(g, i, st)) && Roots(g, i, st).visited == Reach.Vertices(|g|)
    decreases |g| - i
  {
    var n := |g|;
    if i == n {
      assert st.visited == Reach.Vertices(n);
    } else if i in st.visited {
      RootsReport(g, i + 1, st);
    } else {
      RootStep(g, i, st);
      RootsReport(g, i + 1, Visit(g, i, -1, st));
    }
  }

  /** The finished search of the outer loop from vertex 0. */
  function Search(g: Lists): (w: Walk)
    requires WellFormed(g)
    ensures Shaped(|g|, w)
  {
    Roots(g, 0, Initial(|g|))
  }

  /** The finished search: every vertex visited with 0 <= low <= tin, the
      bridge list holding the tree edges (parent + 1, b + 1) with
      low[b] > tin[parent], and the cut set holding the non-root vertices
      with a child of low >= tin and the roots with two children. */
  lemma SearchReport(g: Lists)
    requires WellFormed(g)
    ensures Search(g).visited == Reach.Vertices(|g|)
    ensures forall x :: 0 <= x < |g| ==> 0 <= Search(g).low[x] <= Search(g).tin[x]
    ensures forall e :: e in Search(g).bridges <==> IsBridge(|g|, Search(g), e)
    ensures forall x :: x in Search(g).cuts <==> IsCut(|g|, Search(g), x)
  {
    var n := |g|;
    var w := Search(g);
    RootsReport(g, 0, Initial(n));
    FinalLow(n, w);
    FinalBridges(n, w);
    FinalCuts(n, w);
  }

  lemma FinalLow(n: nat, w: Walk)
    requires Between(n, w) && w.visited == Reach.Vertices(n)
    ensures forall x :: 0 <= x < n ==> 0 <= w.low[x] <= w.tin[x]
  {
    forall x | 0 <= x < n ensures 0 <= w.low[x] <= w.tin[x] {
      assert Settled(w, x);
    }
  }

  lemma FinalBridges(n: nat, w: Walk)
    requires Between(n, w) && w.visited == Reach.Vertices(n)
    ensures forall e :: e in w.bridges <==> IsBridge(n, w, e)
  {
    forall e ensures e in w.bridges <==> IsBridge(n, w, e) {
      if e in w.bridges {
        var i :| 0 <= i < |w.bridges| && w.bridges[i] == e;
        assert BridgeOf(n, w, w.visited, e);
      }
      if IsBridge(n, w, e) {
        var b: nat := e.1 - 1;
        assert b in w.visited && Bridge(n, w, b);
      }
    }
  }

  lemma FinalCuts(n: nat, w: Walk)
    requires Between(n, w) && w.visited == Reach.Vertices(n)
    ensures forall x :: x in w.cuts <==> IsCut(n, w, x)
  {
    forall x ensures x in w.cuts <==> IsCut(n, w, x) {
      assert x in w.cuts <==> Cut(n, w, w.visited, w.visited, x);
      if 1 <= x <= n && w.pred[x - 1] != -1 {
        var y: nat := x - 1;
        assert Early(n, w, w.visited, y) <==> HasCutChild(n, w, y);
      }
    }
  }

  /** e is (parent + 1, b + 1) for the DFS tree edge into a vertex b with
      low[b] > tin[parent]. */
  predicate IsBridge(n: nat, w: Walk, e: (int, int))
    requires Shaped(n, w)
  {
    1 <= e.1 <= n && 0 <= w.pred[e.1 - 1] < n && e.0 == w.pred[e.1 - 1] + 1
    && w.low[e.1 - 1] > w.tin[w.pred[e.1 - 1]]
  }

  /** Some DFS child c of a has low[c] >= tin[a]. */
  ghost predicate HasCutChild(n: nat, w: Walk, a: nat)
    requires Shaped(n, w) && a < n
  {
    exists c :: 0 <= c < n && w.pred[c] == a && w.low[c] >= w.tin[a]
  }

  /** x - 1 is a non-root vertex with a child c of low[c] >= tin[x - 1], or
      a root with more than one DFS child. */
  ghost predicate IsCut(n: nat, w: Walk, x: int)
    requires Shaped(n, w)
  {
    && 1 <= x <= n
    && if w.pred[x - 1] != -1 then HasCutChild(n, w, (x - 1) as nat)
       else |Children(n, w, x - 1)| > 1
  }

  // ---- the DFS tree runs along edges of the graph

  /** x + 1 appears in the list of a. */
  predicate Adjacent(g: Lists, a: int, x: nat) {
    0 <= a < |g| && exists k :: 0 <= k < |g[a]| && g[a][k].0 == x + 1
  }

  /** Every visited vertex with a DFS parent is in its parent's list. */
  ghost predicate Parents(g: Lists, st: Walk)
    requires Shaped(|g|, st)
  {
    forall x :: x in st.visited && st.pred[x] != -1 ==> Adjacent(g, st.pred[x], x)
  }

  lemma {:induction false} VisitParents(g: Lists, u: nat, p: int, st: Walk)
    requires WellFormed(g) && Sane(|g|, st) && Parents(g, st) && u < |g| && u !in st.visited
    requires p == -1 || (0 <= p && p as nat in st.visited && Adjacent(g, p, u))
    ensures Parents(g, Visit(g, u, p, st))
    decreases Unvisited(|g|, st), 0, 0
  {
    var n := |g|;
    var st1 := Stamp(st, u, p);
    assert Unvisited(n, st) == Unvisited(n, st1) + {u};
    StampFrame(n, st, u, p);
    assert Parents(g, st1);
    EdgesParents(g, u, p, 0, 0, st1);
  }

  lemma {:induction false} EdgesParents(g: Lists, u: nat, p: int, k: nat, children: nat, st: Walk)
    requires WellFormed(g) && Sane(|g|, st) && Parents(g, st) && u in st.visited && k <= |g[u]|
    ensures Parents(g, Edges(g, u, p, k, children, st).0)
    decreases Unvisited(|g|, st), 1, |g[u]| - k
  {
    if k < |g[u]| {
      var v := g[u][k].0 - 1;
      if v == p {
        EdgesParents(g, u, p, k + 1, children, st);
      } else if v in st.visited {
        EdgesParentsBack(g, u, p, k, children, st);
      } else {
        EdgesParentsTree(g, u, p, k, children, st);
      }
    }
  }

  lemma {:induction false} EdgesParentsBack(g: Lists, u: nat, p: int, k: nat, children: nat, st: Walk)
    requires WellFormed(g) && Sane(|g|, st) && Parents(g, st) && u in st.visited && k < |g[u]|
    requires g[u][k].0 - 1 != p && (g[u][k].0 - 1) as nat in st.visited
    ensures Parents(g, Edges(g, u, p, k, children, st).0)
    decreases Unvisited(|g|, st), 1, |g[u]| - k, 0
  {
    var v: nat := g[u][k].0 - 1;
    assert Settled(st, v);
    LowerFrame(|g|, st, u, st.tin[v]);
    EdgesParents(g, u, p, k + 1, children, Lower(st, u, st.tin[v]));
  }

  lemma {:induction false} EdgesParentsTree(g: Lists, u: nat, p: int, k: nat, children: nat, st: Walk)
    requires WellFormed(g) && Sane(|g|, st) && Parents(g, st) && u in st.visited && k < |g[u]|
    requires g[u][k].0 - 1 != p && (g[u][k].0 - 1) as nat !in st.visited
    ensures Parents(g, Edges(g, u, p, k, children, st).0)
    decreases Unvisited(|g|, st), 1, |g[u]| - k, 1
  {
    var n := |g|;
    var v: nat := g[u][k].0 - 1;
    TreeParents(g, u, v, p, k, st);
    var st3 := Report(Visit(g, v, u, st), u, v, p);
    Reach.SubsetSize(Unvisited(n, st3), Unvisited(n, st));
    EdgesParents(g, u, p, k + 1, children + 1, st3);
  }

  /** The tree edge (u, v) hangs v under u, and u lists v. */
  lemma {:induction false} TreeParents(g: Lists, u: nat, v: nat, p: int, k: nat, st: Walk)
    requires WellFormed(g) && Sane(|g|, st) && Parents(g, st) && u in st.visited && k < |g[u]|
    requires v == g[u][k].0 - 1 && v != p && v !in st.visited
    ensures Sane(|g|, Report(Visit(g, v, u, st), u, v, p)) && st.visited <= Report(Visit(g, v, u, st), u, v, p).visited
    ensures Parents(g, Report(Visit(g, v, u, st), u, v, p))
    decreases Unvisited(|g|, st), 1, |g[u]| - k, 0
  {
    assert g[u][k].0 == v + 1;
    VisitFrame(g, v, u, st);
    VisitParents(g, v, u, st);
    ReportFrame(|g|, Visit(g, v, u, st), u, v, p);
  }

  lemma {:induction false} RootsParents(g: Lists, i: nat, st: Walk)
    requires WellFormed(g) && i <= |g| && Sane(|g|, st) && Parents(g, st)
    ensures Parents(g, Roots(g, i, st))
    decreases |g| - i
  {
    if i < |g| {
      if i in st.visited {
        RootsParents(g, i + 1, st);
      } else {
        VisitFrame(g, i, -1, st);
        VisitParents(g, i, -1, st);
        RootsParents(g, i + 1, Visit(g, i, -1, st));
      }
    }
  }

  // ---- the sorted outputs

  /** Python's order on pairs: by the first component, then the second. */
  predicate LexLe(a: (int, int), b: (int, int)) {
    a.0 < b.0 || (a.0 == b.0 && a.1 <= b.1)
  }

  /** A sort key that orders pairs with second component in 0..n as LexLe
      does. */
  function PairKey(n: nat, e: (int, int)): int {
    e.0 * (n + 1) + e.1
  }

  lemma KeyLex(n: nat, a: (int, int), b: (int, int))
    requires 0 <= a.1 <= n && 0 <= b.1 <= n
    ensures PairKey(n, a) <= PairKey(n, b) <==> LexLe(a, b)
  {
    if a.0 < b.0 {
      assert b.0 * (n + 1) >= (a.0 + 1) * (n + 1) == a.0 * (n + 1) + n + 1;
    } else if a.0 > b.0 {
      assert a.0 * (n + 1) >= (b.0 + 1) * (n + 1) == b.0 * (n + 1) + n + 1;
    }
  }

  /** `sorted(s)` of a set of integers, taken from lo up to hi. */
  function Ascending(c: set<int>, lo: int, hi: int): (r: seq<int>)
    ensures forall x :: x in r <==> lo <= x < hi && x in c
    ensures forall i, j :: 0 <= i < j < |r| ==> r[i] < r[j]
    decreases hi - lo
  {
    if lo >= hi then []
    else
      var rest := Ascending(c, lo + 1, hi);
      assert forall k :: 0 <= k < |rest| ==> rest[k] in rest;
      (if lo in c then [lo] else []) + rest
  }

  /** `list.sort()` on pairs whose second component lies in 0..n. */
  function SortPairsBy(n: nat, s: seq<(int, int)>): seq<(int, int)> {
    Sorting.Sort(s, e => PairKey(n, e))
  }

  /** Sorting pairs with second component in 0..n by PairKey keeps the
      pairs and puts them in Python's order. */
  lemma SortPairs(n: nat, s: seq<(int, int)>)
    requires forall e :: e in s ==> 0 <= e.1 <= n
    ensures forall e :: e in SortPairsBy(n, s) <==> e in s
    ensures forall i, j :: 0 <= i < j < |SortPairsBy(n, s)| ==> LexLe(SortPairsBy(n, s)[i], SortPairsBy(n, s)[j])
  {
    var b := SortPairsBy(n, s);
    assert multiset(b) == multiset(s);
    forall e ensures e in b <==> e in s {
      assert e in b <==> e in multiset(b);
      assert e in s <==> e in multiset(s);
    }
    forall i, j | 0 <= i < j < |b| ensures LexLe(b[i], b[j]) {
      assert b[i] in b && b[j] in b;
      KeyLex(n, b[i], b[j]);
    }
  }

  /** Every bridge of the finished search is an edge of the graph. */
  lemma BridgesAdjacent(g: Lists, w: Walk)
    requires WellFormed(g) && Shaped(|g|, w) && Parents(g, w) && w.visited == Reach.Vertices(|g|)
    ensures forall e :: IsBridge(|g|, w, e) ==> 1 <= e.1 && Adjacent(g, e.0 - 1, (e.1 - 1) as nat)
  {
    forall e | IsBridge(|g|, w, e) ensures 1 <= e.1 && Adjacent(g, e.0 - 1, (e.1 - 1) as nat) {
      assert (e.1 - 1) as nat in w.visited;
    }
  }

  /** `find_bridges_and_articulations`: the bridge list sorted, and the
      cut set sorted into a list. */
  function FindBridges(g: Lists): (r: (seq<(int, int)>, seq<int>))
    requires WellFormed(g)
  {
    var w := Search(g);
    (SortPairsBy(|g|, w.bridges), Ascending(w.cuts, 1, |g| + 1))
  }

  /** The two lists returned hold exactly the bridges and the cut vertices
      of the finished search, the first in Python's pair order and the
      second strictly increasing. */
  lemma FindBridgesReport(g: Lists)
    requires WellFormed(g)
    ensures forall e :: e in FindBridges(g).0 <==> IsBridge(|g|, Search(g), e)
    ensures forall i, j :: 0 <= i < j < |FindBridges(g).0| ==> LexLe(FindBridges(g).0[i], FindBridges(g).0[j])
    ensures forall e :: e in FindBridges(g).0 ==> 1 <= e.1 && Adjacent(g, e.0 - 1, (e.1 - 1) as nat)
    ensures forall x :: x in FindBridges(g).1 <==> IsCut(|g|, Search(g), x)
    ensures forall i, j :: 0 <= i < j < |FindBridges(g).1| ==> FindBridges(g).1[i] < FindBridges(g).1[j]
  {
    var n := |g|;
    var w := Search(g);
    SearchReport(g);
    RootsParents(g, 0, Initial(n));
    BridgesAdjacent(g, w);
    SortPairs(n, w.bridges);
  }
}

=== FILE: cstring.dfy ===
/** The C library string searches the labs rely on, over `seq<char>`
    (a C string without its terminating NUL). */
module CString {
  import opened Wrappers

  /** pat occurs in s starting at position i. */
  predicate MatchAt(s: string, pat: string, i: nat) {
    i + |pat| <= |s| && s[i..i + |pat|] == pat
  }

  /** `strstr(s + from, pat)`: the first position at or after `from` where
      pat occurs, as an offset into s; an empty pat matches at once. */
  function Find(s: string, pat: string, from: nat): (r: Option<nat>)
    requires from <= |s|
    ensures r.Some? ==> from <= r.value && MatchAt(s, pat, r.value)
    ensures r.Some? ==> forall j :: from <= j < r.value ==> !MatchAt(s, pat, j)
    ensures r.None? ==> forall j :: from <= j <= |s| ==> !MatchAt(s, pat, j)
    decreases |s| - from
  {
    if MatchAt(s, pat, from) then Some(from)
    else if from == |s| then None
    else Find(s, pat, from + 1)
  }

  /** `strrchr(s, c)`: the position of the last c in s. */
  function LastIndex(s: string, c: char): (r: Option<nat>)
    ensures r.Some? ==> r.value < |s| && s[r.value] == c && c !in s[r.value + 1..]
    ensures r.None? <==> c !in s
  {
    if |s| == 0 then None
    else if s[|s| - 1] == c then Some(|s| - 1)
    else
      var r := LastIndex(s[..|s| - 1], c);
      assert s == s[..|s| - 1] + [s[|s| - 1]];
      r
  }

  /** `s[strcspn(s, [c])] = '\0'`: s cut at its first c. */
  function Before(s: string, c: char): (r: string)
    ensures |r| <= |s| && r == s[..|r|] && c !in r
    ensures |r| < |s| ==> s[|r|] == c
  {
    if |s| == 0 || s[0] == c then []
    else [s[0]] + Before(s[1..], c)
  }

  /** Cutting at c keeps a string without c whole, and cuts a string at
      the c that follows a c-free prefix. */
  lemma BeforeJoin(a: string, c: char, b: string)
    requires c !in a
    ensures Before(a, c) == a
    ensures Before(a + [c] + b, c) == a
  {
    var t := Before(a + [c] + b, c);
    assert (a + [c] + b)[|a|] == c;
    assert t == (a + [c] + b)[..|t|] == a[..|t|];
  }

  // ---------------------------------------------------------------------
  // Decimal numerals, as `printf("%d")` writes and `scanf("%d")` reads them
  // ---------------------------------------------------------------------

  predicate IsDigit(c: char) {
    '0' <= c <= '9'
  }

  predicate AllDigits(s: string) {
    forall i :: 0 <= i < |s| ==> IsDigit(s[i])
  }

  /** The character of a decimal digit. */
  function DigitChar(d: nat): (c: char)
    requires d < 10
    ensures IsDigit(c)
  {
    (('0' as int) + d) as char
  }

  /** The shortest decimal numeral of n. */
  function Dec(n: nat): (s: string)
    ensures 1 <= |s| && AllDigits(s)
    ensures n >= 10 ==> s[0] != '0'
    decreases n
  {
    if n < 10 then [DigitChar(n)] else Dec(n / 10) + [DigitChar(n % 10)]
  }

  /** The value of a string of decimal digits, most significant first. */
  function Value(ds: string): nat
    requires AllDigits(ds)
  {
    if |ds| == 0 then 0
    else Value(ds[..|ds| - 1]) * 10 + (ds[|ds| - 1] as int - '0' as int)
  }

  /** Reading back a written numeral gives the number. */
  lemma {:induction false} ValueDec(n: nat)
    ensures Value(Dec(n)) == n
    decreases n
  {
    if n >= 10 {
      var s := Dec(n);
      assert s[..|s| - 1] == Dec(n / 10);
      ValueDec(n / 10);
    }
  }

  /** A leading zero does not change a numeral's value. */
  lemma {:induction false} ValueLeadingZero(ds: string)
    requires AllDigits(ds)
    ensures Value(['0'] + ds) == Value(ds)
    decreases |ds|
  {
    if |ds| > 0 {
      assert (['0'] + ds)[..|ds|] == ['0'] + ds[..|ds| - 1];
      ValueLeadingZero(ds[..|ds| - 1]);
    } else {
      assert ['0'] + ds == ['0'];
      assert (['0'])[..0] == [];
    }
  }
}

=== FILE: degrees.dfy ===
/** Degree vectors and adjacency matrices of
    hypergraphs/Graphs/ClassLibrary1/Graph.cs: the ones counted in each row, and
    the greedy realisation of a degree vector that both the validity check and
    the conversion to an adjacency matrix run.  A C# `int[,]` is a sequence of
    rows; `null` is `None` where the source tests for it. */
module Degrees {
  import opened Wrappers

  /** Why a conversion gives up: the exception of a throwing routine and the
      `false` of its `Try` twin (the message text is not modelled). */
  datatype Error =
    | NullArgument
    | OddSum
    | TooLarge(row: nat)
    | NotEnough(row: nat)
    | BadEntry
    | NotGraphical
    | OutOfRange
    | NotExtreme
    | NoBases

  type Matrix = seq<seq<int>>

  /** `m` is an n-by-n array. */
  predicate Square(m: Matrix) {
    forall i :: 0 <= i < |m| ==> |m[i]| == |m|
  }

  /** `m` is the adjacency matrix of a simple undirected graph: symmetric,
      0/1 entries, empty diagonal. */
  predicate Simple(m: Matrix)
    requires Square(m)
  {
    && (forall i, j :: 0 <= i < |m| && 0 <= j < |m| ==> m[i][j] == m[j][i])
    && (forall i, j :: 0 <= i < |m| && 0 <= j < |m| ==> m[i][j] == 0 || m[i][j] == 1)
    && (forall i :: 0 <= i < |m| ==> m[i][i] == 0)
  }

  /** LINQ's `Sum()` (its overflow check is not modelled). */
  function Sum(s: seq<int>): int {
    if |s| == 0 then 0 else Sum(s[..|s| - 1]) + s[|s| - 1]
  }

  /** The entries of row[lo..hi] equal to 1. */
  function CountOnes(row: seq<int>, lo: nat, hi: nat): (c: nat)
    requires lo <= hi <= |row|
    ensures c <= hi - lo
    decreases hi - lo
  {
    if lo == hi then 0 else CountOnes(row, lo, hi - 1) + (if row[hi - 1] == 1 then 1 else 0)
  }

  function Ones(row: seq<int>): nat {
    CountOnes(row, 0, |row|)
  }

  /** Setting a zero entry to 1 adds one to the count. */
  lemma {:induction false} CountOnesSet(row: seq<int>, lo: nat, hi: nat, y: nat)
    requires lo <= hi <= |row| && y < |row| && row[y] == 0
    ensures CountOnes(row[y := 1], lo, hi) == CountOnes(row, lo, hi) + (if lo <= y < hi then 1 else 0)
    decreases hi - lo
  {
    if lo < hi {
      CountOnesSet(row, lo, hi - 1, y);
    }
  }

  lemma OnesSet(row: seq<int>, y: nat)
    requires y < |row| && row[y] == 0
    ensures Ones(row[y := 1]) == Ones(row) + 1
  {
    CountOnesSet(row, 0, |row|, y);
  }

  /** The degree vector the conversions count: entry i is the number of ones
      in row i. */
  function RowCounts(m: Matrix): (d: seq<int>)
    ensures |d| == |m| && forall i :: 0 <= i < |m| ==> d[i] == Ones(m[i])
  {
    seq(|m|, i requires 0 <= i < |m| => Ones(m[i]))
  }

  /** Some entry exceeds 1: the counting loops give up on it. */
  predicate HasBadEntry(m: Matrix)
    requires Square(m)
  {
    exists i, j :: 0 <= i < |m| && 0 <= j < |m| && m[i][j] > 1
  }

  /** The inner `for` loop of the greedy at row i from column j on: i is paired
      with each later vertex that still has degree left, while i has any. */
  function Sweep(t: seq<int>, i: nat, j: nat): (r: seq<int>)
    requires i < j <= |t|
    ensures |r| == |t|
    ensures forall x :: 0 <= x < j && x != i ==> r[x] == t[x]
    decreases |t| - j
  {
    if j == |t| then t
    else if t[i] > 0 && t[j] > 0 then Sweep(t[i := t[i] - 1][j := t[j] - 1], i, j + 1)
    else Sweep(t, i, j + 1)
  }

  /** The greedy over rows i, i+1, ...: row i with degree left is swept once;
      degree still left afterwards is `NotEnough`.  With `guard`, a row whose
      remaining degree is at least the vertex count is `TooLarge` first, as
      in the conversion routines. */
  function Settle(t: seq<int>, i: nat, guard: bool): (r: Result<seq<int>, Error>)
    requires i <= |t|
    ensures r.Success? ==> |r.value| == |t|
    ensures r.Success? ==> forall x :: 0 <= x < i ==> r.value[x] == t[x]
    ensures r.Success? ==> forall x :: i <= x < |t| ==> r.value[x] <= 0
    decreases |t| - i
  {
    if i == |t| then Success(t)
    else if t[i] <= 0 then Settle(t, i + 1, guard)
    else if guard && t[i] >= |t| then Failure(TooLarge(i))
    else
      var t' := Sweep(t, i, i + 1);
      if t'[i] > 0 then Failure(NotEnough(i)) else Settle(t', i + 1, guard)
  }

  /** `CheckVectorGraphical` on a non-null vector: even sum, every degree
      below the vertex count, and the greedy uses every degree up. */
  predicate VectorGraphical(d: seq<int>) {
    && Sum(d) % 2 == 0
    && (forall i :: 0 <= i < |d| ==> d[i] < |d|)
    && Settle(d, 0, false).Success?
  }

  /** The greedy pairs vertices in index order and never re-sorts them by
      remaining degree, so it rejects some degree vectors a simple graph has:
      the path 0 - 2 - 1 has degrees [1, 1, 2], but the greedy pairs 0 with 1
      first and leaves vertex 2 without a partner. */
  lemma GreedyRejectsPath()
    ensures var path := [[0, 0, 1], [0, 0, 1], [1, 1, 0]];
      Square(path) && Simple(path) && RowCounts(path) == [1, 1, 2]
    ensures Settle([1, 1, 2], 0, false) == Failure(NotEnough(2)) && !VectorGraphical([1, 1, 2])
  {
    var path := [[0, 0, 1], [0, 0, 1], [1, 1, 0]];
    assert CountOnes(path[2], 0, 1) == 1 && CountOnes(path[2], 0, 2) == 2;
    assert Ones(path[0]) == 1 && Ones(path[1]) == 1 && Ones(path[2]) == 2;
    assert Sweep([1, 1, 2], 0, 1) == [0, 0, 2];
  }

  /** `CheckVectorGraphical`: false for `null`, an odd sum, an entry not below
      the length, or a greedy that leaves degree over. */
  function CheckVectorGraphical(d: Option<seq<int>>): (ok: bool)
    ensures ok ==> d.Some? && Sum(d.value) % 2 == 0
    ensures ok ==> forall i :: 0 <= i < |d.value| ==> d.value[i] < |d.value|
    ensures ok ==> Settle(d.value, 0, false).Success?
    ensures ok ==> forall i :: 0 <= i < |d.value| ==> Settle(d.value, 0, false).value[i] <= 0
  {
    d.Some? && VectorGraphical(d.value)
  }

  /** `AdjacencyToVector` (and its `Try` twin on non-null input): the row
      counts, rejected when an entry exceeds 1 or the counts sum to an odd
      number. */
  function AdjacencyToVector(m: Matrix): (r: Result<seq<int>, Error>)
    requires Square(m)
    ensures r.Success? <==> !HasBadEntry(m) && Sum(RowCounts(m)) % 2 == 0
    ensures r.Success? ==> |r.value| == |m| && forall i :: 0 <= i < |m| ==> r.value[i] == Ones(m[i])
  {
    if HasBadEntry(m) then Failure(BadEntry)
    else if Sum(RowCounts(m)) % 2 != 0 then Failure(OddSum)
    else Success(RowCounts(m))
  }

  /** `TryAdjacencyToVector`: `null` is refused, otherwise as `AdjacencyToVector`. */
  function TryAdjacencyToVector(m: Option<Matrix>): (r: Result<seq<int>, Error>)
    requires m.Some? ==> Square(m.value)
    ensures m.None? ==> r == Failure(NullArgument)
    ensures m.Some? ==> r == AdjacencyToVector(m.value)
  {
    if m.None? then Failure(NullArgument) else AdjacencyToVector(m.value)
  }

  /** `CheckAdjacencyGraphical`: no entry above 1 and a graphical row-count
      vector. */
  function CheckAdjacencyGraphical(m: Matrix): (ok: bool)
    requires Square(m)
    ensures ok <==> !HasBadEntry(m) && CheckVectorGraphical(Some(RowCounts(m)))
  {
    !HasBadEntry(m) && VectorGraphical(RowCounts(m))
  }

  // ---- what a sweep does to the degrees

  /** A sweep lowers each later vertex by at most one and row i by at most one
      per later column, and never raises anything. */
  lemma {:induction false} SweepBounds(t: seq<int>, i: nat, j: nat)
    requires i < j <= |t|
    ensures Sweep(t, i, j)[i] >= t[i] - (|t| - j)
    ensures forall x :: j <= x < |t| ==> Sweep(t, i, j)[x] >= t[x] - 1
    ensures forall x :: 0 <= x < |t| ==> Sweep(t, i, j)[x] <= t[x]
    decreases |t| - j
  {
    if j < |t| {
      if t[i] > 0 && t[j] > 0 {
        var t2 := t[i := t[i] - 1][j := t[j] - 1];
        SweepBounds(t2, i, j + 1);
      } else {
        SweepBounds(t, i, j + 1);
      }
    }
  }

  /** While every remaining degree is below the vertex count, the guard of the
      conversion routines never fires. */
  lemma {:induction false} GuardIdle(t: seq<int>, i: nat)
    requires i <= |t|
    requires forall x :: i <= x < |t| ==> t[x] < |t|
    ensures Settle(t, i, true) == Settle(t, i, false)
    decreases |t| - i
  {
    if i < |t| {
      if t[i] <= 0 {
        GuardIdle(t, i + 1);
      } else {
        SweepBounds(t, i, i + 1);
        var t' := Sweep(t, i, i + 1);
        if t'[i] <= 0 {
          GuardIdle(t', i + 1);
        }
      }
    }
  }

  /** A vertex whose remaining degree is at least the number of vertices not
      yet swept can never be used up. */
  lemma {:induction false} TooBigFails(t: seq<int>, i: nat, x: nat, guard: bool)
    requires i <= x < |t| && t[x] >= |t| - i
    ensures Settle(t, i, guard).Failure?
    decreases |t| - i
  {
    if t[i] <= 0 {
      TooBigFails(t, i + 1, x, guard);
    } else if guard && t[i] >= |t| {
    } else {
      SweepBounds(t, i, i + 1);
      var t' := Sweep(t, i, i + 1);
      if t'[i] <= 0 {
        TooBigFails(t', i + 1, x, guard);
      }
    }
  }

  /** The conversions test "degree >= length" inside the greedy, on the
      remaining degree, while `CheckVectorGraphical` tests it up front on the
      given degrees; both accept exactly the same vectors. */
  lemma GuardEquiv(d: seq<int>)
    ensures Settle(d, 0, true).Success? <==>
      Settle(d, 0, false).Success? && forall x :: 0 <= x < |d| ==> d[x] < |d|
  {
    if forall x :: 0 <= x < |d| ==> d[x] < |d| {
      GuardIdle(d, 0);
    } else {
      var x :| 0 <= x < |d| && d[x] >= |d|;
      TooBigFails(d, 0, x, true);
    }
  }
}

=== FILE: dir_list.dfy ===
/** OSLabs/Lab2/Task4/task4.c over an in-memory directory tree: list the
    tree recursively, descending no deeper than recmax and showing files
    only at depths from recmin to recmax, each with its extension and
    inode number. */
module DirList {
  import opened Wrappers
  import opened CString

  // ---------------------------------------------------------------------
  // get_file_extension
  // ---------------------------------------------------------------------

  /** `get_file_extension`: what follows the last '.', or "" when there is
      no '.' or the only candidate starts the name (a hidden file). */
  function Extension(name: string): (ext: string)
    ensures |ext| <= |name| && ext == name[|name| - |ext|..]
    ensures '.' !in ext
    ensures ext != [] ==> |ext| + 2 <= |name| && name[|name| - |ext| - 1] == '.'
  {
    match LastIndex(name, '.')
    case None => []
    case Some(i) => if i == 0 then [] else name[i + 1..]
  }

  /** Every name without '.', or made of a base and an extension joined by
      the last '.', gets back that extension, except that an empty base
      (a hidden file) has none. */
  lemma ExtensionOfJoin(base: string, ext: string)
    requires '.' !in ext
    ensures Extension(base + ['.'] + ext) == if base == [] then [] else ext
    ensures '.' !in base ==> Extension(base) == []
  {
    var name := base + ['.'] + ext;
    var i := |base|;
    assert name[i] == '.';
    assert name[i + 1..] == ext;
  }

  // ---------------------------------------------------------------------
  // list_directory
  // ---------------------------------------------------------------------

  /** A directory entry as `readdir` and `lstat` see it: a directory with
      its entries, any other file with its inode number, or an entry
      `lstat` fails on. */
  datatype Entry =
    | File(name: string, inode: nat)
    | Dir(name: string, children: seq<Entry>)
    | Unstatable(name: string)

  /** A line of the listing, at the depth of its entry. */
  datatype Line =
    | DirLine(depth: nat, name: string)
    | FileLine(depth: nat, name: string, ext: string, inode: nat)

  /** What `list_directory` writes as written: the indentation and the
      text of a line are written separately. */
  datatype Event = Indent(depth: nat) | Print(line: Line)

  /** `readdir` also returns the entries "." and "..", which are skipped. */
  predicate Skipped(e: Entry) {
    e.name == "." || e.name == ".."
  }

  /** A file at this depth is shown. */
  predicate FileShown(depth: nat, recmin: int, recmax: int) {
    recmin <= depth <= recmax
  }

  /** The line for a file. */
  function FileLineOf(depth: nat, name: string, inode: nat): Line {
    FileLine(depth, name, Extension(name), inode)
  }

  /** The events of one entry as written: the indentation is written
      before `lstat` and before the depth test, so also for entries that
      print nothing. */
  function EntryAsWritten(e: Entry, depth: nat, recmin: int, recmax: int): seq<Event>
    decreases e
  {
    if Skipped(e) then []
    else
      [Indent(depth)] +
      match e
      case Unstatable(_) => []
      case Dir(name, children) =>
        [Print(DirLine(depth, name))] +
        (if depth + 1 <= recmax then ListAsWritten(children, depth + 1, recmin, recmax) else [])
      case File(name, inode) =>
        if FileShown(depth, recmin, recmax) then [Print(FileLineOf(depth, name, inode))] else []
  }

  /** `list_directory` as written, entry by entry. */
  function ListAsWritten(es: seq<Entry>, depth: nat, recmin: int, recmax: int): seq<Event>
    decreases es
  {
    if |es| == 0 then []
    else EntryAsWritten(es[0], depth, recmin, recmax) + ListAsWritten(es[1..], depth, recmin, recmax)
  }

  /** The lines of one entry, each written with its own indentation. */
  function EntryLines(e: Entry, depth: nat, recmin: int, recmax: int): seq<Line>
    decreases e
  {
    if Skipped(e) then []
    else
      match e
      case Unstatable(_) => []
      case Dir(name, children) =>
        [DirLine(depth, name)] +
        (if depth + 1 <= recmax then List(children, depth + 1, recmin, recmax) else [])
      case File(name, inode) =>
        if FileShown(depth, recmin, recmax) then [FileLineOf(depth, name, inode)] else []
  }

  /** `list_directory` with the indentation written only together with
      the line it indents. */
  function List(es: seq<Entry>, depth: nat, recmin: int, recmax: int): seq<Line>
    decreases es
  {
    if |es| == 0 then []
    else EntryLines(es[0], depth, recmin, recmax) + List(es[1..], depth, recmin, recmax)
  }

  /** A line's text after its indentation. */
  function Text(l: Line): string {
    match l
    case DirLine(_, name) => name + "/\n"
    case FileLine(_, name, ext, inode) =>
      name + " (Extension: " + ext + ", Disk Address: " + Dec(inode) + ")\n"
  }

  function Spaces(n: nat): (s: string)
    ensures |s| == n && forall i :: 0 <= i < n ==> s[i] == ' '
  {
    if n == 0 then [] else [' '] + Spaces(n - 1)
  }

  /** Standard output for one event as written. */
  function RenderEvent(e: Event): string {
    match e
    case Indent(d) => Spaces(2 * d)
    case Print(l) => Text(l)
  }

  /** Standard output for the events as written. */
  function RenderEvents(ev: seq<Event>): string {
    if |ev| == 0 then [] else RenderEvent(ev[0]) + RenderEvents(ev[1..])
  }

  /** Standard output for lines each indented two spaces per level. */
  function RenderLines(ls: seq<Line>): string {
    if |ls| == 0 then [] else Spaces(2 * ls[0].depth) + Text(ls[0]) + RenderLines(ls[1..])
  }

  lemma RenderEventsCons(e: Event, rest: seq<Event>)
    ensures RenderEvents([e] + rest) == RenderEvent(e) + RenderEvents(rest)
  {
    assert ([e] + rest)[1..] == rest;
  }

  /** A subdirectory listed after a file that is not shown: as written, its
      line comes out indented two levels deep although it is one level
      down. */
  lemma StrayIndentAsWritten()
    ensures RenderEvents(ListAsWritten([Dir("d", [File("x", 7), Dir("e", [])])], 0, 2, 2)) == "d/\n    e/\n"
  {
    var inner := [File("x", 7), Dir("e", [])];
    assert inner[1..] == [Dir("e", [])];
    assert ListAsWritten(inner, 1, 2, 2) == [Indent(1), Indent(1), Print(DirLine(1, "e"))];
    var ev := [Indent(0), Print(DirLine(0, "d")), Indent(1), Indent(1), Print(DirLine(1, "e"))];
    assert ListAsWritten([Dir("d", inner)], 0, 2, 2) == ev;
    assert Spaces(2) == "  ";
    RenderEventsCons(Print(DirLine(1, "e")), []);
    RenderEventsCons(Indent(1), [Print(DirLine(1, "e"))]);
    RenderEventsCons(Indent(1), [Indent(1), Print(DirLine(1, "e"))]);
    RenderEventsCons(Print(DirLine(0, "d")), [Indent(1), Indent(1), Print(DirLine(1, "e"))]);
    RenderEventsCons(Indent(0), [Print(DirLine(0, "d")), Indent(1), Indent(1), Print(DirLine(1, "e"))]);
  }

  /** With the indentation kept to printed lines, the same subdirectory is
      indented one level. */
  lemma IndentKeptToLines()
    ensures RenderLines(List([Dir("d", [File("x", 7), Dir("e", [])])], 0, 2, 2)) == "d/\n  e/\n"
  {
    var inner := [File("x", 7), Dir("e", [])];
    assert inner[1..] == [Dir("e", [])];
    assert List(inner, 1, 2, 2) == [DirLine(1, "e")];
    var ls := [DirLine(0, "d"), DirLine(1, "e")];
    assert List([Dir("d", inner)], 0, 2, 2) == ls;
    assert ls[1..] == [DirLine(1, "e")];
    assert Spaces(2) == "  ";
  }

  // ---------------------------------------------------------------------
  // What the listing shows
  // ---------------------------------------------------------------------

  /** The line of every entry of the tree in the order `readdir` walks it,
      each directory before its contents, "." and ".." and unstatable
      entries left out, nothing pruned. */
  function EntryWalk(e: Entry, depth: nat): seq<Line>
    decreases e
  {
    if Skipped(e) then []
    else
      match e
      case Unstatable(_) => []
      case Dir(name, children) => [DirLine(depth, name)] + Walk(children, depth + 1)
      case File(name, inode) => [FileLineOf(depth, name, inode)]
  }

  function Walk(es: seq<Entry>, depth: nat): seq<Line>
    decreases es
  {
    if |es| == 0 then [] else EntryWalk(es[0], depth) + Walk(es[1..], depth)
  }

  /** Directories are shown down to depth recmax, files from recmin to
      recmax. */
  predicate Shown(l: Line, recmin: int, recmax: int) {
    if l.DirLine? then l.depth <= recmax else FileShown(l.depth, recmin, recmax)
  }

  function Filter(ls: seq<Line>, recmin: int, recmax: int): seq<Line> {
    if |ls| == 0 then []
    else (if Shown(ls[0], recmin, recmax) then [ls[0]] else []) + Filter(ls[1..], recmin, recmax)
  }

  lemma {:induction false} FilterAppend(a: seq<Line>, b: seq<Line>, recmin: int, recmax: int)
    ensures Filter(a + b, recmin, recmax) == Filter(a, recmin, recmax) + Filter(b, recmin, recmax)
    decreases |a|
  {
    if |a| > 0 {
      assert (a + b)[1..] == a[1..] + b;
      FilterAppend(a[1..], b, recmin, recmax);
    } else {
      assert a + b == b;
    }
  }

  /** Nothing below a depth beyond recmax is shown. */
  lemma {:induction false} FilterDeep(es: seq<Entry>, depth: nat, recmin: int, recmax: int)
    requires depth > recmax
    ensures Filter(Walk(es, depth), recmin, recmax) == []
    decreases es
  {
    if |es| > 0 {
      var e := es[0];
      FilterDeep(es[1..], depth, recmin, recmax);
      if !Skipped(e) && e.Dir? {
        FilterDeep(e.children, depth + 1, recmin, recmax);
        FilterAppend([DirLine(depth, e.name)], Walk(e.children, depth + 1), recmin, recmax);
      }
      FilterAppend(EntryWalk(e, depth), Walk(es[1..], depth), recmin, recmax);
    }
  }

  /** The listing shows exactly the entries whose depth is in range, in
      walk order: pruning the descent at recmax only drops subtrees with
      nothing left to show. */
  lemma {:induction false} ListShowsInRange(es: seq<Entry>, depth: nat, recmin: int, recmax: int)
    requires depth <= recmax
    ensures List(es, depth, recmin, recmax) == Filter(Walk(es, depth), recmin, recmax)
    decreases es
  {
    if |es| > 0 {
      var e := es[0];
      ListShowsInRange(es[1..], depth, recmin, recmax);
      if !Skipped(e) && e.Dir? {
        if depth + 1 <= recmax {
          ListShowsInRange(e.children, depth + 1, recmin, recmax);
        } else {
          FilterDeep(e.children, depth + 1, recmin, recmax);
        }
        FilterAppend([DirLine(depth, e.name)], Walk(e.children, depth + 1), recmin, recmax);
      }
      FilterAppend(EntryWalk(e, depth), Walk(es[1..], depth), recmin, recmax);
    }
  }

  // ---------------------------------------------------------------------
  // main
  // ---------------------------------------------------------------------

  /** The lines printed, in order, without the indentation written
      before them. */
  function Prints(ev: seq<Event>): seq<Line> {
    if |ev| == 0 then []
    else (if ev[0].Print? then [ev[0].line] else []) + Prints(ev[1..])
  }

  lemma {:induction false} PrintsAppend(a: seq<Event>, b: seq<Event>)
    ensures Prints(a + b) == Prints(a) + Prints(b)
    decreases |a|
  {
    if |a| > 0 {
      assert (a + b)[1..] == a[1..] + b;
      PrintsAppend(a[1..], b);
    } else {
      assert a + b == b;
    }
  }

  /** The stray indentation is the only difference: the lines printed as
      written are the lines of the listing with the indentation kept to
      printed lines. */
  lemma {:induction false} PrintsAsWritten(es: seq<Entry>, depth: nat, recmin: int, recmax: int)
    ensures Prints(ListAsWritten(es, depth, recmin, recmax)) == List(es, depth, recmin, recmax)
    decreases es
  {
    if |es| > 0 {
      var e := es[0];
      PrintsAsWritten(es[1..], depth, recmin, recmax);
      PrintsAppend(EntryAsWritten(e, depth, recmin, recmax), ListAsWritten(es[1..], depth, recmin, recmax));
      if !Skipped(e) {
        var body := EntryAsWritten(e, depth, recmin, recmax)[1..];
        assert EntryAsWritten(e, depth, recmin, recmax) == [Indent(depth)] + body;
        PrintsAppend([Indent(depth)], body);
        assert Prints([Indent(depth)]) == [];
        if e.Dir? {
          var sub := if depth + 1 <= recmax then ListAsWritten(e.children, depth + 1, recmin, recmax) else [];
          assert body == [Print(DirLine(depth, e.name))] + sub;
          PrintsAppend([Print(DirLine(depth, e.name))], sub);
          if depth + 1 <= recmax {
            PrintsAsWritten(e.children, depth + 1, recmin, recmax);
          }
        }
      }
    }
  }

  /** `main` after `atoi`: refuse a negative or inverted depth range, else
      list the tree from depth 0; the lines printed are exactly its
      in-range entries. */
  function Program(recmin: int, recmax: int, root: seq<Entry>): (r: Option<seq<Line>>)
    ensures r.None? <==> recmin < 0 || recmax < 0 || recmin > recmax
    ensures r.Some? ==> r.value == Filter(Walk(root, 0), recmin, recmax)
    ensures r.Some? ==> forall k :: 0 <= k < |r.value| ==> Shown(r.value[k], recmin, recmax)
  {
    if recmin < 0 || recmax < 0 || recmin > recmax then None
    else
      PrintsAsWritten(root, 0, recmin, recmax);
      ListShowsInRange(root, 0, recmin, recmax);
      FilterShown(Walk(root, 0), recmin, recmax);
      Some(Prints(ListAsWritten(root, 0, recmin, recmax)))
  }

  lemma {:induction false} FilterShown(ls: seq<Line>, recmin: int, recmax: int)
    ensures forall k :: 0 <= k < |Filter(ls, recmin, recmax)| ==> Shown(Filter(ls, recmin, recmax)[k], recmin, recmax)
    decreases |ls|
  {
    if |ls| > 0 {
      FilterShown(ls[1..], recmin, recmax);
    }
  }
}

=== FILE: embedding.dfy ===
/** PlanarEmbedding (Graphs/planarity.py): a directed graph whose vertices
    0..|emb|-1 each carry a ring of out-half-edges, with the face walk and the
    structural self-check built on it. */
module Embedding {
  import opened Wrappers
  import opened Seqs
  import opened Rotation
  import Reach

  type Embedding = seq<Rotation>

  /** A half-edge u->w. */
  type HalfEdge = (nat, nat)

  /** networkx adds a missing end point as a vertex with no half-edges. */
  function Grow(emb: Embedding, x: nat): (r: Embedding)
    ensures |r| == if x < |emb| then |emb| else x + 1
    ensures r[..|emb|] == emb
    ensures forall y :: |emb| <= y < |r| ==> r[y] == Empty()
  {
    if x < |emb| then emb else emb + seq(x + 1 - |emb|, _ => Empty())
  }

  function RingOf(emb: Embedding, u: nat): Rotation {
    if u < |emb| then emb[u] else Empty()
  }

  /** `add_half_edge(u, v, cw=…, ccw=…)`: only u's ring changes; u and v become
      vertices if they were not. */
  function AddHalfEdgeAt(emb: Embedding, u: nat, v: nat, cw: Option<nat>, ccw: Option<nat>): (r: Result<Embedding, EmbError>)
    ensures r.Success? <==> AddHalfEdge(RingOf(emb, u), v, cw, ccw).Success?
    ensures r.Success? ==>
      && u < |r.value| && v < |r.value| && |emb| <= |r.value|
      && r.value[u] == AddHalfEdge(RingOf(emb, u), v, cw, ccw).value
      && Neighbours(r.value[u]) == Neighbours(RingOf(emb, u)) + {v}
      && (forall x :: 0 <= x < |emb| && x != u ==> r.value[x] == emb[x])
      && (forall x :: |emb| <= x < |r.value| && x != u ==> r.value[x] == Empty())
      && (u < |emb| && v < |emb| ==> |r.value| == |emb|)
  {
    AddKeepsLinks(RingOf(emb, u), v, cw, ccw);
    var ring :- AddHalfEdge(RingOf(emb, u), v, cw, ccw);
    var grown := Grow(Grow(emb, u), v);
    assert forall x :: 0 <= x < |emb| ==> grown[x] == emb[x] by {
      assert Grow(emb, u)[..|emb|] == emb;
    }
    Success(grown[u := ring])
  }

  /** No vertex and no half-edge of `a` is missing from `b`. */
  predicate Grows(a: Embedding, b: Embedding) {
    |a| <= |b| && forall u :: 0 <= u < |a| ==> Neighbours(a[u]) <= Neighbours(b[u])
  }

  lemma GrowsTrans(a: Embedding, b: Embedding, c: Embedding)
    requires Grows(a, b) && Grows(b, c)
    ensures Grows(a, c)
  {
  }

  /** `add_half_edge_first(u, v)`. */
  function AddHalfEdgeFirstAt(emb: Embedding, u: nat, v: nat): Result<Embedding, EmbError> {
    var ring := RingOf(emb, u);
    AddHalfEdgeAt(emb, u, v, if |ring.keys| > 0 then Some(Last(ring.keys)) else None, None)
  }

  /** Every ring of the embedding reads as some clockwise order. */
  ghost predicate WellFormed(emb: Embedding) {
    forall u :: 0 <= u < |emb| ==> exists o :: Represents(emb[u], o)
  }

  /** add_half_edge_first(u, v) prepends v to u's clockwise order and touches no other ring. */
  lemma AddFirstAtVertex(emb: Embedding, u: nat, o: seq<nat>, v: nat)
    requires u < |emb| && Represents(emb[u], o) && v !in o
    ensures AddHalfEdgeFirstAt(emb, u, v).Success?
    ensures Represents(AddHalfEdgeFirstAt(emb, u, v).value[u], [v] + o)
    ensures forall x :: 0 <= x < |emb| && x != u ==> AddHalfEdgeFirstAt(emb, u, v).value[x] == emb[x]
  {
    AddFirstPrepends(emb[u], o, v);
  }

  function AsEdgeError<T>(r: Result<T, EmbError>): Result<T, EmbError> {
    if r.Success? then r else Failure(EdgeMissing)
  }

  /** `remove_edge(u, v)`: deletes both half-edges u->v and v->u and splices
      each ring.  Any missing key is reported as a missing edge (the source
      re-raises its KeyError so).  A self-loop raises after deleting its only
      half-edge; that partial deletion is not modelled. */
  function RemoveEdge(emb: Embedding, u: nat, v: nat): (r: Result<Embedding, EmbError>)
    ensures u >= |emb| || v >= |emb| || u == v ==> r == Failure(EdgeMissing)
    ensures u < |emb| && v < |emb| && (v !in emb[u].links || u !in emb[v].links) ==> r == Failure(EdgeMissing)
    ensures r.Success? ==> |r.value| == |emb| && forall x :: 0 <= x < |emb| && x != u && x != v ==> r.value[x] == emb[x]
  {
    if u >= |emb| || v >= |emb| || v !in emb[u].links || u !in emb[v].links || u == v then
      Failure(EdgeMissing)
    else
      var ru :- AsEdgeError(Unlink(emb[u], v));
      var rv :- AsEdgeError(Unlink(emb[v], u));
      Success(emb[u := ru][v := rv])
  }

  /** On well-formed rings, remove_edge deletes v from u's clockwise order and
      u from v's (read from the new leftmost neighbour when the removed one was
      leftmost). */
  lemma RemoveEdgeIsDeletion(emb: Embedding, u: nat, v: nat, ou: seq<nat>, i: nat, ov: seq<nat>, k: nat)
    requires u < |emb| && v < |emb| && u != v
    requires Represents(emb[u], ou) && i < |ou| && ou[i] == v
    requires Represents(emb[v], ov) && k < |ov| && ov[k] == u
    ensures RemoveEdge(emb, u, v).Success?
    ensures
      var e := RemoveEdge(emb, u, v).value;
      && e[u] == Unlink(emb[u], v).value
      && e[v] == Unlink(emb[v], u).value
      && (i > 0 ==> Represents(e[u], ou[..i] + ou[i + 1..]))
      && (k > 0 ==> Represents(e[v], ov[..k] + ov[k + 1..]))
  {
    assert v in emb[u].links && u in emb[v].links;
    UnlinkIsDeletion(emb[u], ou, i);
    UnlinkIsDeletion(emb[v], ov, k);
  }

  // ---------------------------------------------------------------------
  // Faces
  // ---------------------------------------------------------------------

  /** `next_face_half_edge(v, w)`: the half-edge after v->w on its face is
      w->x, where x is the counter-clockwise neighbour of v around w. */
  function NextFaceHalfEdge(emb: Embedding, he: HalfEdge): (r: Result<HalfEdge, EmbError>)
    ensures r.Success? <==> he.1 < |emb| && he.0 in emb[he.1].links
    ensures r.Success? ==> r.value.0 == he.1 && r.value.1 == emb[he.1].links[he.0].ccw
  {
    var (v, w) := he;
    if w < |emb| && v in emb[w].links then Success((w, emb[w].links[v].ccw))
    else Failure(MissingKey)
  }

  /** On a well-formed ring around w, the face after v->w leaves w towards
      the neighbour just counter-clockwise of v, that is, the one before v
      in w's clockwise order. */
  lemma NextFaceOnRing(emb: Embedding, w: nat, o: seq<nat>, j: nat)
    requires w < |emb| && Represents(emb[w], o) && j < |o|
    ensures NextFaceHalfEdge(emb, (o[j], w)) == Success((w, o[Pv(j, |o|)]))
  {
  }

  /** On a well-formed ring around w, the face step from v->w exists
      exactly when w->v is a half-edge, and it moves along a half-edge
      leaving w. */
  lemma NextFaceStaysOnRing(emb: Embedding, he: HalfEdge, o: seq<nat>)
    requires he.1 < |emb| && Represents(emb[he.1], o)
    ensures NextFaceHalfEdge(emb, he).Success? <==> he.0 in Neighbours(emb[he.1])
    ensures NextFaceHalfEdge(emb, he).Success? ==> NextFaceHalfEdge(emb, he).value.1 in Neighbours(emb[he.1])
  {
    var w := he.1;
    if he.0 in emb[w].links {
      var j :| 0 <= j < |o| && o[j] == he.0;
      assert emb[w].links[o[j]].ccw == o[Pv(j, |o|)];
    }
  }

  /** Every half-edge a face walk can reach. */
  ghost function Targets(r: Rotation): set<nat> {
    r.links.Keys + set l | l in r.links.Values :: l.ccw
  }

  ghost function HalfEdges(emb: Embedding): set<HalfEdge> {
    set a, b | 0 <= a < |emb| && b in Targets(emb[a]) :: (a, b)
  }

  lemma NextInHalfEdges(emb: Embedding, he: HalfEdge)
    requires NextFaceHalfEdge(emb, he).Success?
    ensures NextFaceHalfEdge(emb, he).value in HalfEdges(emb)
  {
    var (v, w) := he;
    var l := emb[w].links[v];
    assert l in emb[w].links.Values;
    assert l.ccw in Targets(emb[w]);
  }

  lemma MarkShrinks<T>(all: set<T>, marks: set<T>, x: T)
    requires x in all && x !in marks
    ensures |all - (marks + {x})| < |all - marks|
  {
    assert all - marks == (all - (marks + {x})) + {x};
  }

  /** The half-edge s[i]->s[i+1]. */
  function PairAt(s: seq<nat>, i: nat): HalfEdge
    requires i + 1 < |s|
  {
    (s[i], s[i + 1])
  }

  /** Consecutive pairs of `s` follow next_face_half_edge. */
  predicate Walked(emb: Embedding, s: seq<nat>) {
    forall i, j {:trigger PairAt(s, i), PairAt(s, j)} :: 0 <= i < |s| - 1 && 0 <= j < |s| - 1 && j == i + 1 ==>
      NextFaceHalfEdge(emb, PairAt(s, i)) == Success(PairAt(s, j))
  }

  /** The half-edges s[i]->s[i+1] for lo <= i < |s| - 1. */
  function Pairs(s: seq<nat>, lo: nat): set<HalfEdge> {
    set i | lo <= i < |s| - 1 :: PairAt(s, i)
  }

  /** The half-edges s[i]->s[i+1], lo <= i < |s| - 1, are pairwise different. */
  predicate DistinctPairs(s: seq<nat>, lo: nat) {
    forall i, j :: lo <= i < j < |s| - 1 ==> PairAt(s, i) != PairAt(s, j)
  }

  /** None of the half-edges s[i]->s[i+1], lo <= i < |s| - 1, is in `marks`. */
  predicate Unmarked(s: seq<nat>, lo: nat, marks: set<HalfEdge>) {
    forall i :: lo <= i < |s| - 1 ==> PairAt(s, i) !in marks
  }

  lemma PairShift(h: nat, t: seq<nat>)
    ensures forall i :: 0 <= i < |t| - 1 ==> PairAt([h] + t, i + 1) == PairAt(t, i)
  {
    forall i | 0 <= i < |t| - 1 ensures PairAt([h] + t, i + 1) == PairAt(t, i) {
      assert ([h] + t)[i + 1] == t[i] && ([h] + t)[i + 2] == t[i + 1];
    }
  }

  /** Putting one vertex in front of a walk. */
  lemma WalkCons(emb: Embedding, h: nat, t: seq<nat>, marks: set<HalfEdge>)
    requires |t| >= 2
    requires NextFaceHalfEdge(emb, (h, t[0])) == Success((t[0], t[1]))
    requires Walked(emb, t) && DistinctPairs(t, 0) && Unmarked(t, 0, marks)
    requires (t[0], t[1]) !in Pairs(t, 1)
    ensures Walked(emb, [h] + t)
    ensures Pairs([h] + t, 1) == Pairs(t, 0)
    ensures DistinctPairs([h] + t, 1) && Unmarked([h] + t, 1, marks)
  {
    var s := [h] + t;
    PairShift(h, t);
    assert PairAt(s, 0) == (h, t[0]);
    forall i, j | 0 <= i < |s| - 1 && 0 <= j < |s| - 1 && j == i + 1
      ensures NextFaceHalfEdge(emb, PairAt(s, i)) == Success(PairAt(s, j))
    {
      if i > 0 {
        assert NextFaceHalfEdge(emb, PairAt(t, i - 1)) == Success(PairAt(t, i));
      }
    }
    assert Pairs(s, 1) == Pairs(t, 0) by {
      forall p | p in Pairs(s, 1) ensures p in Pairs(t, 0) {
        var i :| 1 <= i < |s| - 1 && p == PairAt(s, i);
        assert p == PairAt(t, i - 1);
      }
      forall p | p in Pairs(t, 0) ensures p in Pairs(s, 1) {
        var i :| 0 <= i < |t| - 1 && p == PairAt(t, i);
        assert p == PairAt(s, i + 1);
      }
    }
    forall i, j | 1 <= i < j < |s| - 1 ensures PairAt(s, i) != PairAt(s, j) {
      assert PairAt(s, i) == PairAt(t, i - 1) && PairAt(s, j) == PairAt(t, j - 1);
    }
    forall i | 1 <= i < |s| - 1 ensures PairAt(s, i) !in marks {
      assert PairAt(s, i) == PairAt(t, i - 1);
    }
  }

  /** The first pair of a walk and the rest. */
  lemma PairsSplit(t: seq<nat>)
    requires |t| >= 2
    ensures Pairs(t, 0) == {(t[0], t[1])} + Pairs(t, 1)
  {
    assert PairAt(t, 0) == (t[0], t[1]);
  }

  /** What the face loop promises from half-edge `he` on: with
      s = [he.0] + rest + [v], the walk s starts with he, follows
      next_face_half_edge, ends with incoming->v, and `m` adds exactly its
      half-edges after he, each unmarked before and different from the others. */
  predicate TraceFacts(emb: Embedding, v: nat, incoming: nat, he: HalfEdge, marks: set<HalfEdge>,
                       rest: seq<nat>, m: set<HalfEdge>) {
    var s := [he.0] + rest + [v];
    && s[1] == he.1
    && s[|s| - 2] == incoming
    && Walked(emb, s)
    && m == marks + Pairs(s, 1)
    && Unmarked(s, 1, marks)
    && DistinctPairs(s, 1)
  }

  /** The loop of traverse_face from the half-edge `he` on: appends the head of
      each half-edge until the half-edge incoming->v closes the face, marking
      each new half-edge and raising on one already marked. */
  function Trace(emb: Embedding, v: nat, incoming: nat, he: HalfEdge, marks: set<HalfEdge>)
    : (r: Result<(seq<nat>, set<HalfEdge>), EmbError>)
    ensures r.Success? ==> TraceFacts(emb, v, incoming, he, marks, r.value.0, r.value.1)
    decreases |HalfEdges(emb) - marks|
  {
    if he == (incoming, v) then Success(([], marks))
    else
      match NextFaceHalfEdge(emb, he)
      case Failure(e) => Failure(e)
      case Success(nx) =>
        if nx in marks then Failure(ImpossibleFace)
        else
          NextInHalfEdges(emb, he);
          MarkShrinks(HalfEdges(emb), marks, nx);
          var r := Trace(emb, v, incoming, nx, marks + {nx});
          if r.Failure? then Failure(r.error)
          else
            TraceStep(emb, v, incoming, he, nx, r.value.0, marks, r.value.1);
            Success(([he.1] + r.value.0, r.value.1))
  }

  /** One more step in front of a traced walk. */
  lemma TraceStep(emb: Embedding, v: nat, incoming: nat, he: HalfEdge, nx: HalfEdge, rest: seq<nat>,
                  marks: set<HalfEdge>, m: set<HalfEdge>)
    requires NextFaceHalfEdge(emb, he) == Success(nx) && nx !in marks
    requires TraceFacts(emb, v, incoming, nx, marks + {nx}, rest, m)
    ensures TraceFacts(emb, v, incoming, he, marks, [he.1] + rest, m)
  {
    var t := [nx.0] + rest + [v];
    var s := [he.0] + ([he.1] + rest) + [v];
    assert s == [he.0] + t;
    assert nx == (t[0], t[1]);
    PairsSplit(t);
    assert (t[0], t[1]) !in Pairs(t, 1);
    assert Unmarked(t, 0, marks) by {
      forall i | 0 <= i < |t| - 1 ensures PairAt(t, i) !in marks {
        if i == 0 { assert PairAt(t, 0) == nx; }
      }
    }
    assert DistinctPairs(t, 0) by {
      forall i, j | 0 <= i < j < |t| - 1 ensures PairAt(t, i) != PairAt(t, j) {
        if i == 0 { assert PairAt(t, 0) == nx; }
      }
    }
    WalkCons(emb, he.0, t, marks);
  }

  /** `traverse_face(v, w, marks)`: the vertices of the face left of v->w, in
      walk order from v, and the marks with every half-edge of the face added.
      Each half-edge after v->w was unmarked before the walk reached it, and
      the last vertex is the one clockwise-after w around v. */
  function TraverseFace(emb: Embedding, v: nat, w: nat, marks: set<HalfEdge>)
    : (r: Result<(seq<nat>, set<HalfEdge>), EmbError>)
    ensures r.Success? ==>
      var (face, m) := r.value;
      var s := face + [v];
      && |face| >= 1 && face[0] == v && s[1] == w
      && v < |emb| && w in emb[v].links && face[|face| - 1] == emb[v].links[w].cw
      && Walked(emb, s)
      && m == marks + Pairs(s, 0)
      && Unmarked(s, 1, marks + {(v, w)})
      && DistinctPairs(s, 1)
  {
    if v < |emb| && w in emb[v].links then
      var incoming := emb[v].links[w].cw;
      match Trace(emb, v, incoming, (v, w), marks + {(v, w)})
      case Failure(e) => Failure(e)
      case Success((rest, m)) =>
        var s := [v] + rest + [v];
        PairsSplit(s);
        Success(([v] + rest, m))
    else Failure(MissingKey)
  }

  // ---------------------------------------------------------------------
  // check_structure
  // ---------------------------------------------------------------------

  /** Every ring reads clockwise without a fault and lists exactly its keys. */
  predicate RingsConsistent(emb: Embedding) {
    forall v :: 0 <= v < |emb| ==>
      CwOrder(emb[v]).Some? && Reach.Elems(CwOrder(emb[v]).value) == Reach.Elems(emb[v].keys)
  }

  /** Every half-edge v->w has its opposite w->v. */
  predicate Reciprocal(emb: Embedding) {
    forall v, i :: 0 <= v < |emb| && 0 <= i < |emb[v].keys| ==>
      emb[v].keys[i] < |emb| && v in emb[emb[v].keys[i]].links
  }

  /** The underlying graph: neighbours of v are the keys of its ring. */
  function Adj(emb: Embedding): (adj: seq<seq<nat>>)
    ensures |adj| == |emb| && forall v :: 0 <= v < |emb| ==> adj[v] == emb[v].keys
  {
    seq(|emb|, v requires 0 <= v < |emb| => emb[v].keys)
  }

  /** The members of `c` below n, ascending. */
  function Ascending(c: set<nat>, lo: nat, n: nat): (r: seq<nat>)
    ensures forall x :: x in r <==> x in c && lo <= x < n
    ensures forall i, j :: 0 <= i < j < |r| ==> r[i] < r[j]
    decreases n - lo
  {
    if lo >= n then []
    else
      var rest := Ascending(c, lo + 1, n);
      if lo in c then
        assert forall j :: 0 <= j < |rest| ==> rest[j] in rest;
        [lo] + rest
      else rest
  }

  /** Connected components in the order nx.connected_components yields them:
      one search from each vertex not yet reached, in vertex order. */
  function Components(adj: seq<seq<nat>>, i: nat, visited: set<nat>): (r: seq<set<nat>>)
    requires Reach.InRange(adj) && visited <= Reach.Vertices(|adj|)
    ensures forall k :: 0 <= k < |r| ==> r[k] !! visited && r[k] <= Reach.Vertices(|adj|) && r[k] != {}
    decreases |adj| - i
  {
    if i >= |adj| then []
    else if i in visited then Components(adj, i + 1, visited)
    else
      var c := Reach.Component(adj, visited, i);
      [c] + Components(adj, i + 1, visited + c)
  }

  /** The clockwise order check_structure's inner loop walks at v (empty
      when it cannot be read, which RingsConsistent rules out). */
  function Order(emb: Embedding, v: nat): seq<nat> {
    if v < |emb| && CwOrder(emb[v]).Some? then CwOrder(emb[v]).value else []
  }

  /** The number of out-half-edges of the vertices vs, read clockwise. */
  function OutDegrees(emb: Embedding, vs: seq<nat>): nat {
    if |vs| == 0 then 0 else |Order(emb, vs[0])| + OutDegrees(emb, vs[1..])
  }

  /** The half-edge and face counts of check_structure's inner loops over the
      out-half-edges `ws` of v, then over the remaining vertices `vs`: every
      half-edge is counted, and a face is counted for each half-edge not yet
      marked, whose face is then walked and marked. */
  function CountOut(emb: Embedding, v: nat, ws: seq<nat>, marks: set<HalfEdge>)
    : (r: Result<(nat, nat, set<HalfEdge>), EmbError>)
    ensures r.Success? ==> r.value.0 == |ws| && r.value.1 <= |ws| && marks <= r.value.2
    ensures r.Success? && r.value.2 == marks ==> r.value.1 == 0
    ensures r.Success? ==> forall k :: 0 <= k < |ws| ==> (v, ws[k]) in r.value.2
  {
    if |ws| == 0 then Success((0, 0, marks))
    else
      var w := ws[0];
      if (v, w) !in marks then
        var (_, m1) :- TraverseFace(emb, v, w, marks);
        var (h, f, m2) :- CountOut(emb, v, ws[1..], m1);
        assert (v, w) in m1 by {
          assert PairAt(TraverseFace(emb, v, w, marks).value.0 + [v], 0) == (v, w);
        }
        Success((h + 1, f + 1, m2))
      else
        var (h, f, m2) :- CountOut(emb, v, ws[1..], marks);
        Success((h + 1, f, m2))
  }

  function CountComponent(emb: Embedding, vs: seq<nat>, marks: set<HalfEdge>)
    : (r: Result<(nat, nat, set<HalfEdge>), EmbError>)
    ensures r.Success? ==> r.value.0 == OutDegrees(emb, vs) && r.value.1 <= r.value.0 && marks <= r.value.2
  {
    if |vs| == 0 then Success((0, 0, marks))
    else
      var (h1, f1, m1) :- CountOut(emb, vs[0], Order(emb, vs[0]), marks);
      var (h2, f2, m2) :- CountComponent(emb, vs[1..], m1);
      Success((h1 + h2, f1 + f2, m2))
  }

  /** Euler's formula V - E + F = 2 on each component of two or more vertices. */
  function EulerCheck(emb: Embedding, comps: seq<set<nat>>, marks: set<HalfEdge>): Result<(), EmbError> {
    if |comps| == 0 then Success(())
    else if |comps[0]| == 1 then EulerCheck(emb, comps[1..], marks)
    else
      var (halves, faces, m) :- CountComponent(emb, Ascending(comps[0], 0, |emb|), marks);
      if |comps[0]| - halves / 2 + faces != 2 then Failure(BadEmbedding)
      else EulerCheck(emb, comps[1..], m)
  }

  /** The half-edges marked once the first k components have been counted,
      starting from `marks` (the loop goes on only while counting succeeds). */
  function MarksBefore(emb: Embedding, comps: seq<set<nat>>, marks: set<HalfEdge>, k: nat): set<HalfEdge>
    requires k <= |comps|
    decreases k
  {
    if k == 0 then marks
    else if |comps[0]| == 1 then MarksBefore(emb, comps[1..], marks, k - 1)
    else
      var c := CountComponent(emb, Ascending(comps[0], 0, |emb|), marks);
      MarksBefore(emb, comps[1..], if c.Success? then c.value.2 else marks, k - 1)
  }

  /** Component k of two or more vertices satisfies V - E + F = 2, with E
      half its out-half-edges and F the faces first met in it. */
  predicate EulerAt(emb: Embedding, comps: seq<set<nat>>, marks: set<HalfEdge>, k: nat)
    requires k < |comps|
  {
    var c := CountComponent(emb, Ascending(comps[k], 0, |emb|), MarksBefore(emb, comps, marks, k));
    c.Success? && |comps[k]| - c.value.0 / 2 + c.value.1 == 2
  }

  /** The Euler test accepts exactly when every component of two or more
      vertices satisfies the formula. */
  lemma {:induction false} EulerCheckEach(emb: Embedding, comps: seq<set<nat>>, marks: set<HalfEdge>)
    ensures EulerCheck(emb, comps, marks).Success? <==>
      forall k :: 0 <= k < |comps| && |comps[k]| != 1 ==> EulerAt(emb, comps, marks, k)
    decreases |comps|
  {
    if |comps| > 0 {
      var c := CountComponent(emb, Ascending(comps[0], 0, |emb|), marks);
      var next := if |comps[0]| != 1 && c.Success? then c.value.2 else marks;
      EulerCheckEach(emb, comps[1..], next);
      forall k | 1 <= k < |comps|
        ensures MarksBefore(emb, comps, marks, k) == MarksBefore(emb, comps[1..], next, k - 1)
        ensures comps[k] == comps[1..][k - 1]
      {
      }
      forall k | 1 <= k < |comps| && |comps[k]| != 1
        ensures EulerAt(emb, comps, marks, k) == EulerAt(emb, comps[1..], next, k - 1)
      {
      }
      if |comps[0]| != 1 && !EulerAt(emb, comps, marks, 0) {
        assert EulerCheck(emb, comps, marks).Failure?;
      }
    }
  }

  /** `check_structure()`. */
  function CheckStructure(emb: Embedding): (r: Result<(), EmbError>)
    ensures !RingsConsistent(emb) || !Reciprocal(emb) ==> r == Failure(BadEmbedding)
    ensures r.Success? ==> RingsConsistent(emb) && Reciprocal(emb)
  {
    if !RingsConsistent(emb) || !Reciprocal(emb) then Failure(BadEmbedding)
    else
      var adj := Adj(emb);
      EulerCheck(emb, Components(adj, 0, {}), {})
  }

  /** check_structure accepts exactly the embeddings whose rings read
      consistently, whose half-edges all have their opposites, and whose
      components of two or more vertices all satisfy Euler's formula. */
  lemma CheckStructureIff(emb: Embedding)
    ensures CheckStructure(emb).Success? <==>
      RingsConsistent(emb) && Reciprocal(emb) &&
      var comps := Components(Adj(emb), 0, {});
      forall k :: 0 <= k < |comps| && |comps[k]| != 1 ==> EulerAt(emb, comps, {}, k)
  {
    if RingsConsistent(emb) && Reciprocal(emb) {
      var comps := Components(Adj(emb), 0, {});
      CheckStructureIsEuler(emb, comps);
      EulerCheckEach(emb, comps, {});
    }
  }

  lemma CheckStructureIsEuler(emb: Embedding, comps: seq<set<nat>>)
    requires RingsConsistent(emb) && Reciprocal(emb) && comps == Components(Adj(emb), 0, {})
    ensures CheckStructure(emb) == EulerCheck(emb, comps, {})
  {
  }
}

=== FILE: graph_lists.dfy ===
/** The adjacency-list graph of Graphs/Graphs.py: vertex u (numbered from 1
    in the input) has the list g[u-1] of (target, weight) pairs, targets
    numbered from 1.  The directedness test and the weakly connected
    components built on it. */
module GraphLists {
  import opened Reach

  type Entry = (int, int)
  type Lists = seq<seq<Entry>>

  /** Every listed target is a vertex 1..n. */
  predicate WellFormed(g: Lists) {
    forall u, k :: 0 <= u < |g| && 0 <= k < |g[u]| ==> 1 <= g[u][k].0 <= |g|
  }

  /** Some entry of `list` names target v. */
  predicate Points(list: seq<Entry>, v: int) {
    exists k :: 0 <= k < |list| && list[k].0 == v
  }

  /** Every entry (v, w) in the list of u is answered by (u, w) in the list
      of v: the graph is undirected. */
  predicate Mutual(g: Lists)
    requires WellFormed(g)
  {
    forall u, k {:trigger Answered(g, u, k)} :: 0 <= u < |g| && 0 <= k < |g[u]| ==> Answered(g, u, k)
  }

  /** The k-th entry (v, w) of u's list has the reverse entry (u, w) in v's
      list. */
  predicate Answered(g: Lists, u: nat, k: nat)
    requires WellFormed(g) && u < |g| && k < |g[u]|
  {
    (u + 1, g[u][k].1) in g[g[u][k].0 - 1]
  }

  /** `_check_directed`: true as soon as an entry has no reverse entry of the
      same weight. */
  method CheckDirected(g: Lists) returns (directed: bool)
    requires WellFormed(g)
    ensures directed <==> exists u, k :: 0 <= u < |g| && 0 <= k < |g[u]| && !Answered(g, u, k)
    ensures directed <==> !Mutual(g)
  {
    var u := 0;
    while u < |g|
      invariant u <= |g|
      invariant forall x, k :: 0 <= x < u && 0 <= k < |g[x]| ==> Answered(g, x, k)
    {
      var k := 0;
      while k < |g[u]|
        invariant k <= |g[u]|
        invariant forall x, k' :: 0 <= x < u && 0 <= k' < |g[x]| ==> Answered(g, x, k')
        invariant forall k' :: 0 <= k' < k ==> Answered(g, u, k')
      {
        var found := FindReverse(g[g[u][k].0 - 1], u + 1, g[u][k].1);
        if !found {
          assert !Answered(g, u, k);
          return true;
        }
        k := k + 1;
      }
      u := u + 1;
    }
    return false;
  }

  /** The inner search of `_check_directed`, stopping at the first match. */
  method FindReverse(list: seq<Entry>, v: int, w: int) returns (found: bool)
    ensures found <==> (v, w) in list
  {
    var i := 0;
    while i < |list|
      invariant i <= |list|
      invariant (v, w) !in list[..i]
    {
      if list[i].0 == v && list[i].1 == w {
        return true;
      }
      i := i + 1;
    }
    assert list[..i] == list;
    return false;
  }

  // ---- connected_components

  /** The targets of vertex x's list, numbered from 0. */
  function Targets(g: Lists, x: nat): (r: seq<nat>)
    requires WellFormed(g) && x < |g|
    ensures forall i :: 0 <= i < |r| ==> r[i] < |g|
    ensures forall y :: y in r <==> 0 <= y < |g| && Points(g[x], y + 1)
  {
    var r := seq(|g[x]|, k requires 0 <= k < |g[x]| => (g[x][k].0 - 1) as nat);
    assert forall y :: 0 <= y < |g| && Points(g[x], y + 1) ==> y in r by {
      forall y | 0 <= y < |g| && Points(g[x], y + 1) ensures y in r {
        var k :| 0 <= k < |g[x]| && g[x][k].0 == y + 1;
        assert r[k] == y;
      }
    }
    r
  }

  /** The vertices from u on whose lists name x (numbered from 0). */
  function Sources(g: Lists, x: nat, u: nat): (r: seq<nat>)
    requires WellFormed(g) && u <= |g|
    ensures forall i :: 0 <= i < |r| ==> u <= r[i] < |g|
    ensures forall y :: y in r <==> u <= y < |g| && Points(g[y], x + 1)
    decreases |g| - u
  {
    if u == |g| then []
    else (if Points(g[u], x + 1) then [u] else []) + Sources(g, x, u + 1)
  }

  /** The `adjacency` lists of `connected_components`, numbered from 0: the
      targets of each list, and for a directed graph also the vertices whose
      lists name it.  The order and repetitions of the source's lists are not
      kept; the search finds the same set of vertices whatever the order. */
  function Neighbours(g: Lists, directed: bool): (adj: seq<seq<nat>>)
    requires WellFormed(g)
    ensures |adj| == |g| && InRange(adj)
  {
    seq(|g|, x requires 0 <= x < |g| => if directed then Targets(g, x) + Sources(g, x, 0) else Targets(g, x))
  }

  /** y is a neighbour of x when x's list names y or, for a directed graph,
      y's list names x. */
  lemma NeighbourIff(g: Lists, directed: bool, x: nat, y: nat)
    requires WellFormed(g) && x < |g| && y < |g|
    ensures y in Neighbours(g, directed)[x] <==> Points(g[x], y + 1) || (directed && Points(g[y], x + 1))
  {
  }

  /** x and y (numbered from 1) are joined by an edge in either direction. */
  predicate Linked(g: Lists, x: nat, y: nat)
    requires 1 <= x <= |g| && 1 <= y <= |g|
  {
    Points(g[x - 1], y) || Points(g[y - 1], x)
  }

  /** A set of vertices (numbered from 1) with no edge, in either direction,
      leaving it. */
  ghost predicate Joined(g: Lists, c: set<nat>) {
    forall x, y :: x in c && 1 <= x <= |g| && 1 <= y <= |g| && Linked(g, x, y) ==> y in c
  }

  /** For an undirected graph an entry naming y in x's list is answered by
      one naming x in y's list. */
  lemma MutualReverse(g: Lists, x: nat, y: nat)
    requires WellFormed(g) && Mutual(g) && 1 <= x <= |g| && 1 <= y <= |g| && Points(g[y - 1], x)
    ensures Points(g[x - 1], y)
  {
    var u := y - 1;
    var k :| 0 <= k < |g[u]| && g[u][k].0 == x;
    var e := (u + 1, g[u][k].1);
    assert Answered(g, u, k);
    var j :| 0 <= j < |g[x - 1]| && g[x - 1][j] == e;
    assert g[x - 1][j].0 == y;
  }

  /** The lists the search runs over: the edges taken in both directions,
      for an undirected graph because each entry has its reverse, for a
      directed one because it is symmetrised. */
  function Undirected(g: Lists): (adj: seq<seq<nat>>)
    requires WellFormed(g)
    ensures |adj| == |g| && InRange(adj)
  {
    Neighbours(g, !Mutual(g))
  }

  lemma UndirectedLinked(g: Lists, x: nat, y: nat)
    requires WellFormed(g) && 1 <= x <= |g| && 1 <= y <= |g|
    ensures y - 1 in Undirected(g)[x - 1] <==> Linked(g, x, y)
  {
    NeighbourIff(g, !Mutual(g), x - 1, y - 1);
    if Mutual(g) && Points(g[y - 1], x) {
      MutualReverse(g, x, y);
    }
  }

  lemma UndirectedSymmetric(g: Lists)
    requires WellFormed(g)
    ensures Symmetric(Undirected(g))
  {
    var adj := Undirected(g);
    forall u, i | 0 <= u < |adj| && 0 <= i < |adj[u]| && adj[u][i] < |adj| ensures u in adj[adj[u][i]] {
      var v := adj[u][i];
      UndirectedLinked(g, u + 1, v + 1);
      UndirectedLinked(g, v + 1, u + 1);
    }
  }

  /** The outer loop of `connected_components`: each vertex from i on that
      no earlier search reached starts a new one. */
  function ComponentSearch(adj: seq<seq<nat>>, i: nat, visited: set<nat>): (cs: seq<set<nat>>)
    requires InRange(adj) && visited <= Vertices(|adj|) && i <= |adj|
    decreases |adj| - i
  {
    if i == |adj| then []
    else if i in visited then ComponentSearch(adj, i + 1, visited)
    else
      var c := Component(adj, visited, i);
      [c] + ComponentSearch(adj, i + 1, visited + c)
  }

  /** With a symmetric edge relation the vertices outside a closed set form a
      closed set too. */
  lemma ComplementClosed(adj: seq<seq<nat>>, c: set<nat>)
    requires InRange(adj) && Symmetric(adj) && Closed(adj, c)
    ensures Closed(adj, Vertices(|adj|) - c)
  {
    forall x, y | x in Vertices(|adj|) - c && 0 <= x < |adj| && y in adj[x] ensures y in Vertices(|adj|) - c {
      var i :| 0 <= i < |adj[x]| && adj[x][i] == y;
      assert x in adj[y];
    }
  }

  /** A component lies inside every closed set that meets it. */
  lemma ComponentInside(adj: seq<seq<nat>>, visited: set<nat>, s: nat, c: set<nat>, y: nat)
    requires InRange(adj) && Symmetric(adj) && visited <= Vertices(|adj|) && s < |adj| && s !in visited
    requires Closed(adj, visited) && Closed(adj, c) && y in c && y in Component(adj, visited, s)
    ensures Component(adj, visited, s) <= c
  {
    if s in c {
      ComponentIsClosure(adj, visited, s, c);
    } else {
      ComplementClosed(adj, c);
      ComponentIsClosure(adj, visited, s, Vertices(|adj|) - c);
    }
  }

  /** `cs` splits the vertices outside `visited` into disjoint, non-empty,
      closed sets. */
  ghost predicate CoversAll(adj: seq<seq<nat>>, visited: set<nat>, cs: seq<set<nat>>) {
    && ClosedParts(adj, cs)
    && InRangeAll(|adj|, visited, cs)
    && Disjoint(cs)
    && Complete(|adj|, visited, cs)
  }

  /** Every vertex below n outside `visited` lies in some part. */
  predicate Complete(n: nat, visited: set<nat>, cs: seq<set<nat>>) {
    forall x :: 0 <= x < n && x !in visited ==> exists j :: 0 <= j < |cs| && x in cs[j]
  }

  ghost predicate ClosedParts(adj: seq<seq<nat>>, cs: seq<set<nat>>) {
    forall j :: 0 <= j < |cs| ==> cs[j] != {} && Closed(adj, cs[j])
  }

  /** Every part lies in 0..n-1 and outside `visited`. */
  predicate InRangeAll(n: nat, visited: set<nat>, cs: seq<set<nat>>) {
    forall j :: 0 <= j < |cs| ==> cs[j] <= Vertices(n) && cs[j] !! visited
  }

  predicate Disjoint(cs: seq<set<nat>>) {
    forall j, k, x :: 0 <= j < k < |cs| && x in cs[j] ==> x !in cs[k]
  }

  lemma CoversCons(adj: seq<seq<nat>>, visited: set<nat>, c: set<nat>, rest: seq<set<nat>>)
    requires c != {} && Closed(adj, c) && c <= Vertices(|adj|) && c !! visited
    requires CoversAll(adj, visited + c, rest)
    ensures CoversAll(adj, visited, [c] + rest)
  {
    ClosedPartsCons(adj, c, rest);
    DisjointCons(|adj|, visited, c, rest);
    InsideCons(adj, visited, c, rest);
    CompleteCons(adj, visited, c, rest);
  }

  lemma ClosedPartsCons(adj: seq<seq<nat>>, c: set<nat>, rest: seq<set<nat>>)
    requires c != {} && Closed(adj, c) && ClosedParts(adj, rest)
    ensures ClosedParts(adj, [c] + rest)
  {
    var cs := [c] + rest;
    forall j | 0 <= j < |cs| ensures cs[j] != {} && Closed(adj, cs[j]) {
      if j > 0 {
        assert cs[j] == rest[j - 1];
      }
    }
  }

  lemma DisjointCons(n: nat, visited: set<nat>, c: set<nat>, rest: seq<set<nat>>)
    requires Disjoint(rest) && InRangeAll(n, visited + c, rest)
    ensures Disjoint([c] + rest)
  {
    var cs := [c] + rest;
    forall j, k, x | 0 <= j < k < |cs| && x in cs[j] ensures x !in cs[k] {
      assert cs[k] == rest[k - 1];
      if j > 0 {
        assert cs[j] == rest[j - 1];
      } else {
        assert cs[k] !! visited + c;
      }
    }
  }

  lemma InsideCons(adj: seq<seq<nat>>, visited: set<nat>, c: set<nat>, rest: seq<set<nat>>)
    requires c <= Vertices(|adj|) && c !! visited
    requires InRangeAll(|adj|, visited + c, rest)
    ensures InRangeAll(|adj|, visited, [c] + rest)
  {
    var cs := [c] + rest;
    forall j | 0 <= j < |cs| ensures cs[j] <= Vertices(|adj|) && cs[j] !! visited {
      if j > 0 {
        assert cs[j] == rest[j - 1];
      }
    }
  }

  lemma CompleteCons(adj: seq<seq<nat>>, visited: set<nat>, c: set<nat>, rest: seq<set<nat>>)
    requires Complete(|adj|, visited + c, rest)
    ensures Complete(|adj|, visited, [c] + rest)
  {
    var cs := [c] + rest;
    forall x | 0 <= x < |adj| && x !in visited ensures exists j :: 0 <= j < |cs| && x in cs[j] {
      if x in c {
        assert cs[0] == c;
      } else {
        assert x !in visited + c;
        var j :| 0 <= j < |rest| && x in rest[j];
        assert cs[j + 1] == rest[j];
      }
    }
  }

  /** The searches split the unvisited vertices into disjoint, non-empty,
      closed sets. */
  lemma {:induction false} SearchPartition(adj: seq<seq<nat>>, i: nat, visited: set<nat>)
    requires InRange(adj) && Symmetric(adj) && visited <= Vertices(|adj|) && i <= |adj|
    requires Closed(adj, visited) && forall x :: 0 <= x < i ==> x in visited
    ensures CoversAll(adj, visited, ComponentSearch(adj, i, visited))
    decreases |adj| - i
  {
    if i == |adj| {
      assert forall x :: 0 <= x < |adj| ==> x in visited;
    } else if i in visited {
      assert ComponentSearch(adj, i, visited) == ComponentSearch(adj, i + 1, visited);
      SearchPartition(adj, i + 1, visited);
    } else {
      var c := Component(adj, visited, i);
      ComponentIsClosure(adj, visited, i, c);
      var v' := visited + c;
      assert Closed(adj, v');
      SearchPartition(adj, i + 1, v');
      assert ComponentSearch(adj, i, visited) == [c] + ComponentSearch(adj, i + 1, v');
      CoversCons(adj, visited, c, ComponentSearch(adj, i + 1, v'));
    }
  }

  /** Each found set lies inside every closed set that meets it. */
  lemma {:induction false} SearchLeast(adj: seq<seq<nat>>, i: nat, visited: set<nat>, j: nat, c: set<nat>, y: nat)
    requires InRange(adj) && Symmetric(adj) && visited <= Vertices(|adj|) && i <= |adj|
    requires Closed(adj, visited) && forall x :: 0 <= x < i ==> x in visited
    requires j < |ComponentSearch(adj, i, visited)| && Closed(adj, c) && y in c && y in ComponentSearch(adj, i, visited)[j]
    ensures ComponentSearch(adj, i, visited)[j] <= c
    decreases |adj| - i
  {
    if i < |adj| {
      if i in visited {
        assert ComponentSearch(adj, i, visited) == ComponentSearch(adj, i + 1, visited);
        SearchLeast(adj, i + 1, visited, j, c, y);
      } else {
        var comp := Component(adj, visited, i);
        ComponentIsClosure(adj, visited, i, comp);
        var v' := visited + comp;
        assert Closed(adj, v');
        var cs := ComponentSearch(adj, i, visited);
        assert cs == [comp] + ComponentSearch(adj, i + 1, v');
        if j == 0 {
          ComponentInside(adj, visited, i, c, y);
        } else {
          SearchLeast(adj, i + 1, v', j - 1, c, y);
        }
      }
    }
  }

  /** The members of c below n, numbered from 1 and in ascending order:
      a component after `comp.sort()`. */
  function Listing(c: set<nat>, lo: nat, n: nat): (r: seq<nat>)
    requires lo <= n
    ensures forall v :: v in r <==> lo < v <= n && v - 1 in c
    ensures forall i, j :: 0 <= i < j < |r| ==> r[i] < r[j]
    decreases n - lo
  {
    if lo == n then []
    else
      var rest := Listing(c, lo + 1, n);
      assert forall i :: 0 <= i < |rest| ==> rest[i] in rest;
      (if lo in c then [lo + 1] else []) + rest
  }

  /** Each part as a sorted list numbered from 1. */
  function Listings(sets: seq<set<nat>>, n: nat): (cs: seq<seq<nat>>)
    ensures |cs| == |sets|
    ensures forall j :: 0 <= j < |sets| ==> cs[j] == Listing(sets[j], 0, n)
  {
    seq(|sets|, j requires 0 <= j < |sets| => Listing(sets[j], 0, n))
  }

  /** `connected_components`: the sorted vertex lists of the components, in
      the order of their least vertices. */
  function ConnectedComponents(g: Lists): (cs: seq<seq<nat>>)
    requires WellFormed(g)
    ensures forall i, a, b :: 0 <= i < |cs| && 0 <= a < b < |cs[i]| ==> cs[i][a] < cs[i][b]
    ensures forall i, v :: 0 <= i < |cs| && v in cs[i] ==> 1 <= v <= |g|
  {
    Listings(ComponentSearch(Undirected(g), 0, {}), |g|)
  }

  /** Vertex v is in one of the lists. */
  predicate Placed(cs: seq<seq<nat>>, v: nat) {
    exists i :: 0 <= i < |cs| && v in cs[i]
  }

  /** Listing disjoint non-empty parts that cover 0..n-1 gives lists that
      cover 1..n, once each. */
  lemma ListingsPartition(sets: seq<set<nat>>, n: nat)
    requires InRangeAll(n, {}, sets) && Disjoint(sets) && Complete(n, {}, sets)
    requires forall j :: 0 <= j < |sets| ==> sets[j] != {}
    ensures var cs := Listings(sets, n);
      && (forall i :: 0 <= i < |cs| ==> |cs[i]| > 0)
      && (forall v :: 1 <= v <= n ==> Placed(cs, v))
      && (forall i, j, v :: 0 <= i < j < |cs| && v in cs[i] ==> v !in cs[j])
  {
    var cs := Listings(sets, n);
    forall i | 0 <= i < |cs| ensures |cs[i]| > 0 {
      ListingNonEmpty(sets, n, i);
    }
    ListingsCover(sets, n);
    ListingsDisjoint(sets, n);
  }

  lemma ListingsCover(sets: seq<set<nat>>, n: nat)
    requires Complete(n, {}, sets)
    ensures forall v :: 1 <= v <= n ==> Placed(Listings(sets, n), v)
  {
    var cs := Listings(sets, n);
    forall v | 1 <= v <= n ensures Placed(cs, v) {
      var none: set<nat> := {};
      assert v - 1 !in none;
      var i :| 0 <= i < |sets| && v - 1 in sets[i];
      assert v in cs[i];
    }
  }

  lemma ListingsDisjoint(sets: seq<set<nat>>, n: nat)
    requires Disjoint(sets)
    ensures forall i, j, v :: 0 <= i < j < |sets| && v in Listings(sets, n)[i] ==> v !in Listings(sets, n)[j]
  {
    var cs := Listings(sets, n);
    forall i, j, v | 0 <= i < j < |cs| && v in cs[i] ensures v !in cs[j] {
      assert v - 1 in sets[i];
    }
  }

  lemma ListingNonEmpty(sets: seq<set<nat>>, n: nat, i: nat)
    requires InRangeAll(n, {}, sets) && i < |sets| && sets[i] != {}
    ensures |Listing(sets[i], 0, n)| > 0
  {
    var x :| x in sets[i];
    assert sets[i] <= Vertices(n);
    assert x + 1 in Listing(sets[i], 0, n);
  }

  /** The components partition the vertices 1..n: none is empty, every vertex
      lies in one, and no vertex in two. */
  lemma ComponentsPartition(g: Lists)
    requires WellFormed(g)
    ensures var cs := ConnectedComponents(g);
      && (forall i :: 0 <= i < |cs| ==> |cs[i]| > 0)
      && (forall v :: 1 <= v <= |g| ==> Placed(cs, v))
      && (forall i, j, v :: 0 <= i < j < |cs| && v in cs[i] ==> v !in cs[j])
  {
    var adj := Undirected(g);
    UndirectedSymmetric(g);
    SearchPartition(adj, 0, {});
    var sets := ComponentSearch(adj, 0, {});
    assert forall j :: 0 <= j < |sets| ==> sets[j] != {};
    ListingsPartition(sets, |g|);
  }

  /** Each component is closed under the edges in either direction. */
  lemma ComponentsClosed(g: Lists, i: nat)
    requires WellFormed(g) && i < |ConnectedComponents(g)|
    ensures Joined(g, set x | x in ConnectedComponents(g)[i])
  {
    var adj := Undirected(g);
    UndirectedSymmetric(g);
    SearchPartition(adj, 0, {});
    var sets := ComponentSearch(adj, 0, {});
    assert ConnectedComponents(g)[i] == Listing(sets[i], 0, |g|);
    assert ClosedParts(adj, sets);
    ListingJoined(g, sets[i]);
  }

  /** A component lies inside every set closed under the edges that shares a
      vertex with it: with `ComponentsClosed`, it is exactly a weakly
      connected component. */
  lemma ComponentsLeast(g: Lists, i: nat, c: set<nat>, v: nat)
    requires WellFormed(g) && i < |ConnectedComponents(g)|
    requires Joined(g, c) && v in c && v in ConnectedComponents(g)[i]
    ensures forall y :: y in ConnectedComponents(g)[i] ==> y in c
  {
    var adj := Undirected(g);
    UndirectedSymmetric(g);
    var sets := ComponentSearch(adj, 0, {});
    assert ConnectedComponents(g)[i] == Listing(sets[i], 0, |g|);
    var c0 := ZeroBased(c, |g|);
    BelowClosed(g, c);
    SearchLeast(adj, 0, {}, i, c0, v - 1);
  }

  /** The members of c in 1..n, numbered from 0. */
  function ZeroBased(c: set<nat>, n: nat): (r: set<nat>)
    ensures forall x: nat :: x in r <==> x < n && x + 1 in c
  {
    set x | x in Vertices(n) && x + 1 in c
  }

  lemma BelowClosed(g: Lists, c: set<nat>)
    requires WellFormed(g) && Joined(g, c)
    ensures Closed(Undirected(g), ZeroBased(c, |g|))
  {
    var adj := Undirected(g);
    forall x, y | x in ZeroBased(c, |g|) && 0 <= x < |adj| && y in adj[x] ensures y in ZeroBased(c, |g|) {
      UndirectedLinked(g, x + 1, y + 1);
    }
  }

  /** A closed set of the searched lists, listed from 1, is closed under the
      edges of the graph. */
  lemma ListingJoined(g: Lists, s: set<nat>)
    requires WellFormed(g) && Closed(Undirected(g), s)
    ensures Joined(g, set x | x in Listing(s, 0, |g|))
  {
    var comp := Listing(s, 0, |g|);
    forall x, y | x in (set z | z in comp) && 1 <= x <= |g| && 1 <= y <= |g| && Linked(g, x, y)
      ensures y in (set z | z in comp)
    {
      ListedNeighbour(g, s, x, y);
    }
  }

  lemma ListedNeighbour(g: Lists, s: set<nat>, x: nat, y: nat)
    requires WellFormed(g) && Closed(Undirected(g), s)
    requires 1 <= x <= |g| && 1 <= y <= |g| && Linked(g, x, y) && x in Listing(s, 0, |g|)
    ensures y in Listing(s, 0, |g|)
  {
    UndirectedLinked(g, x, y);
  }
}

=== FILE: grid.dfy ===
/** The grid maze `Map` of Graphs/Graphs.py: a rectangular matrix of
    integers whose positive cells are open, four-way moves between open
    cells, the integer heuristics and the breadth-first path search. */
module Grid {
  import opened Wrappers

  type Cell = (int, int)
  type Grid = seq<seq<int>>

  function Rows(g: Grid): nat { |g| }

  /** The width is the length of the first row, 0 for an empty map. */
  function Cols(g: Grid): nat { if |g| == 0 then 0 else |g[0]| }

  /** Every row is as long as the first. */
  predicate Rect(g: Grid) {
    forall r :: 0 <= r < |g| ==> |g[r]| == Cols(g)
  }

  predicate InBounds(g: Grid, c: Cell) {
    0 <= c.0 < Rows(g) && 0 <= c.1 < Cols(g)
  }

  /** A cell a path may enter: inside the map and holding a positive value. */
  predicate Open(g: Grid, c: Cell)
    requires Rect(g)
  {
    InBounds(g, c) && g[c.0][c.1] > 0
  }

  function Abs(x: int): nat { if x < 0 then -x else x }

  function Max(a: nat, b: nat): nat { if a < b then b else a }

  // ---------------------------------------------------------------------
  // Heuristics
  // ---------------------------------------------------------------------

  /** `heuristic_manhattan(i, j, s, p)`. */
  function Manhattan(i: int, j: int, s: int, p: int): nat {
    Abs(s - i) + Abs(p - j)
  }

  /** `heuristic_chebyshev(i, j, s, p)`. */
  function Chebyshev(i: int, j: int, s: int, p: int): nat {
    Max(Abs(s - i), Abs(p - j))
  }

  /** `distance(aij, akl, i, j, k, l)`: the Manhattan step plus the change
      of value. */
  function Distance(aij: int, akl: int, i: int, j: int, k: int, l: int): nat {
    Abs(k - i) + Abs(l - j) + Abs(akl - aij)
  }

  /** Chebyshev never exceeds Manhattan, which never exceeds twice Chebyshev;
      both vanish exactly at the target. */
  lemma HeuristicOrder(i: int, j: int, s: int, p: int)
    ensures Chebyshev(i, j, s, p) <= Manhattan(i, j, s, p) <= 2 * Chebyshev(i, j, s, p)
    ensures Manhattan(i, j, s, p) == 0 <==> i == s && j == p
    ensures Chebyshev(i, j, s, p) == 0 <==> i == s && j == p
  {
  }

  /** `distance` is at least the Manhattan step between the two cells, with
      equality exactly when the two values agree. */
  lemma DistanceBound(aij: int, akl: int, i: int, j: int, k: int, l: int)
    ensures Distance(aij, akl, i, j, k, l) >= Manhattan(i, j, k, l)
    ensures Distance(aij, akl, i, j, k, l) == Manhattan(i, j, k, l) <==> aij == akl
  {
  }

  /** Manhattan distance is a metric on cells. */
  lemma ManhattanMetric(a: Cell, b: Cell, c: Cell)
    ensures Manhattan(a.0, a.1, b.0, b.1) == Manhattan(b.0, b.1, a.0, a.1)
    ensures Manhattan(a.0, a.1, c.0, c.1) <= Manhattan(a.0, a.1, b.0, b.1) + Manhattan(b.0, b.1, c.0, c.1)
  {
  }

  // ---------------------------------------------------------------------
  // Moves
  // ---------------------------------------------------------------------

  /** n is one of the four cells next to c. */
  predicate Step(c: Cell, n: Cell) {
    Manhattan(c.0, c.1, n.0, n.1) == 1
  }

  /** The position of a neighbour in the scan order up, down, left, right. */
  function Dir(c: Cell, n: Cell): nat {
    if n == (c.0 - 1, c.1) then 0
    else if n == (c.0 + 1, c.1) then 1
    else if n == (c.0, c.1 - 1) then 2
    else 3
  }

  /** The cell if it is open, else nothing. */
  function Probe(g: Grid, n: Cell): seq<Cell>
    requires Rect(g)
  {
    if Open(g, n) then [n] else []
  }

  /** `neighbors(i, j)`. */
  function Neighbors(g: Grid, c: Cell): seq<Cell>
    requires Rect(g)
  {
    Probe(g, (c.0 - 1, c.1)) + Probe(g, (c.0 + 1, c.1)) + Probe(g, (c.0, c.1 - 1)) + Probe(g, (c.0, c.1 + 1))
  }

  /** The four cells one step away are the ones up, down, left and right. */
  lemma StepCases(c: Cell, n: Cell)
    ensures Step(c, n) <==> n == (c.0 - 1, c.1) || n == (c.0 + 1, c.1) || n == (c.0, c.1 - 1) || n == (c.0, c.1 + 1)
  {
  }

  /** A cell is a neighbour of c exactly when it is open and one step away. */
  lemma NeighborsMembers(g: Grid, c: Cell, n: Cell)
    requires Rect(g)
    ensures n in Neighbors(g, c) <==> Open(g, n) && Step(c, n)
  {
    var up, down, left, right := (c.0 - 1, c.1), (c.0 + 1, c.1), (c.0, c.1 - 1), (c.0, c.1 + 1);
    var a, b, d, e := Probe(g, up), Probe(g, down), Probe(g, left), Probe(g, right);
    assert Neighbors(g, c) == a + b + d + e;
    assert n in Neighbors(g, c) <==> n in a || n in b || n in d || n in e;
    StepCases(c, n);
  }

  /** The neighbours of c are exactly the open cells one step away, listed
      up, down, left, right, so none twice and at most four. */
  lemma NeighborsSpec(g: Grid, c: Cell)
    requires Rect(g)
    ensures forall n {:trigger n in Neighbors(g, c)} :: n in Neighbors(g, c) <==> Open(g, n) && Step(c, n)
    ensures forall k, l :: 0 <= k < l < |Neighbors(g, c)| ==> Dir(c, Neighbors(g, c)[k]) < Dir(c, Neighbors(g, c)[l])
    ensures |Neighbors(g, c)| <= 4
  {
    var up, down, left, right := (c.0 - 1, c.1), (c.0 + 1, c.1), (c.0, c.1 - 1), (c.0, c.1 + 1);
    var a, b, d, e := Probe(g, up), Probe(g, down), Probe(g, left), Probe(g, right);
    var r := Neighbors(g, c);
    assert r == a + b + d + e;
    forall n {:trigger n in r} ensures n in r <==> Open(g, n) && Step(c, n) {
      NeighborsMembers(g, c, n);
    }
    forall k, l | 0 <= k < l < |r| ensures Dir(c, r[k]) < Dir(c, r[l]) {
      DirsRise(c, a, b, d, e, k, l);
    }
  }

  /** Positions in a + b + d + e, each part holding at most the cell of one
      direction, rise in direction order. */
  lemma DirsRise(c: Cell, a: seq<Cell>, b: seq<Cell>, d: seq<Cell>, e: seq<Cell>, k: nat, l: nat)
    requires a == [] || a == [(c.0 - 1, c.1)]
    requires b == [] || b == [(c.0 + 1, c.1)]
    requires d == [] || d == [(c.0, c.1 - 1)]
    requires e == [] || e == [(c.0, c.1 + 1)]
    requires k < l < |a + b + d + e|
    ensures Dir(c, (a + b + d + e)[k]) < Dir(c, (a + b + d + e)[l])
  {
    var s := a + b + d + e;
    var dirs := (if a == [] then [] else [0]) + (if b == [] then [] else [1]) + (if d == [] then [] else [2]) + (if e == [] then [] else [3]);
    assert |dirs| == |s|;
    forall x | 0 <= x < |s| ensures Dir(c, s[x]) == dirs[x] {
    }
  }

  // ---------------------------------------------------------------------
  // Paths
  // ---------------------------------------------------------------------

  /** Consecutive cells of p are neighbours in the maze. */
  ghost predicate IsPath(g: Grid, p: seq<Cell>)
    requires Rect(g)
  {
    |p| >= 1 && forall k :: 0 <= k < |p| - 1 ==> p[k + 1] in Neighbors(g, p[k])
  }

  ghost predicate Reachable(g: Grid, a: Cell, b: Cell)
    requires Rect(g)
  {
    exists p :: IsPath(g, p) && p[0] == a && p[|p| - 1] == b
  }

  /** A path of m moves covers a Manhattan distance of at most m, so both
      heuristics are admissible for the number of moves. */
  lemma {:induction false} PathLengthBound(g: Grid, p: seq<Cell>)
    requires Rect(g) && IsPath(g, p)
    ensures Manhattan(p[0].0, p[0].1, p[|p| - 1].0, p[|p| - 1].1) <= |p| - 1
    ensures Chebyshev(p[0].0, p[0].1, p[|p| - 1].0, p[|p| - 1].1) <= |p| - 1
    decreases |p|
  {
    var a, z := p[0], p[|p| - 1];
    if |p| > 1 {
      var q := p[..|p| - 1];
      assert IsPath(g, q) by {
        forall k | 0 <= k < |q| - 1 ensures q[k + 1] in Neighbors(g, q[k]) {
          assert q[k + 1] == p[k + 1] && q[k] == p[k];
        }
      }
      PathLengthBound(g, q);
      var y := q[|q| - 1];
      assert z in Neighbors(g, y) by {
        assert y == p[|p| - 2];
      }
      NeighborsSpec(g, y);
      ManhattanMetric(a, y, z);
    }
    HeuristicOrder(a.0, a.1, z.0, z.1);
  }

  /** A set that contains the start of a path and every neighbour of each
      of its cells contains the whole path. */
  lemma {:induction false} PathStaysIn(g: Grid, s: set<Cell>, p: seq<Cell>, k: nat)
    requires Rect(g) && IsPath(g, p) && p[0] in s && k < |p|
    requires forall c, n {:trigger n in Neighbors(g, c), c in s} :: c in s && n in Neighbors(g, c) ==> n in s
    ensures p[k] in s
  {
    if k > 0 {
      PathStaysIn(g, s, p, k - 1);
      assert p[k] in Neighbors(g, p[k - 1]);
    }
  }

  // ---------------------------------------------------------------------
  // find_path_bfs
  // ---------------------------------------------------------------------

  function AllCells(g: Grid): set<Cell> {
    set i, j | 0 <= i < Rows(g) && 0 <= j < Cols(g) :: (i, j)
  }

  /** What `came_from` records: the start has no predecessor, and every other
      cell was reached from a recorded neighbour one BFS level up. */
  ghost predicate Tree(g: Grid, start: Cell, came: map<Cell, Option<Cell>>, level: map<Cell, nat>)
    requires Rect(g)
  {
    && start in came && came[start] == None && level.Keys == came.Keys && level[start] == 0
    && (forall c {:trigger came[c]} :: c in came && c != start ==>
          && came[c].Some? && came[c].value in came && c in Neighbors(g, came[c].value)
          && level[c] == level[came[c].value] + 1)
  }

  /** Cells not yet recorded, all in the map, are the search's fuel. */
  ghost predicate Recorded(g: Grid, start: Cell, came: map<Cell, Option<Cell>>)
  {
    forall c {:trigger c in came} :: c in came && c != start ==> c in AllCells(g)
  }

  /** Every recorded cell that left the queue had all its neighbours
      recorded and was not the goal. */
  ghost predicate Expanded(g: Grid, goal: Cell, came: map<Cell, Option<Cell>>, queue: seq<Cell>)
    requires Rect(g)
  {
    forall c {:trigger c in came} :: c in came && c !in queue ==>
      c != goal && forall n {:trigger n in Neighbors(g, c)} :: n in Neighbors(g, c) ==> n in came
  }

  lemma InAllCells(g: Grid, n: Cell)
    requires InBounds(g, n)
    ensures n in AllCells(g)
  {
    var (i, j) := n;
    assert (i, j) in AllCells(g);
  }

  /** Recording an unrecorded neighbour of a recorded cell keeps the tree. */
  lemma TreeAdd(g: Grid, start: Cell, came: map<Cell, Option<Cell>>, level: map<Cell, nat>, current: Cell, n: Cell)
    requires Rect(g) && Tree(g, start, came, level) && current in came
    requires n !in came && n in Neighbors(g, current)
    ensures Tree(g, start, came[n := Some(current)], level[n := level[current] + 1])
  {
    var came2, level2 := came[n := Some(current)], level[n := level[current] + 1];
    forall c | c in came2 && c != start
      ensures came2[c].Some? && came2[c].value in came2 && c in Neighbors(g, came2[c].value)
      ensures level2[c] == level2[came2[c].value] + 1
    {
      if c != n {
        assert came2[c] == came[c];
        assert came[c].Some? && came[c].value in came;
        assert came[c].value != n;
      }
    }
  }

  /** One step of the expansion loop of `find_path_bfs`: a neighbour `n`
      of `current` not seen before is recorded with `current` as its parent
      and enqueued; a seen one changes nothing. */
  method Visit(g: Grid, start: Cell, current: Cell, n: Cell, came: map<Cell, Option<Cell>>, queue: seq<Cell>,
               came2: map<Cell, Option<Cell>>, ghost level2: map<Cell, nat>, queue2: seq<Cell>, ghost added: Cell)
    returns (came3: map<Cell, Option<Cell>>, ghost level3: map<Cell, nat>, queue3: seq<Cell>, ghost added3: Cell)
    requires Rect(g) && n in Neighbors(g, current)
    requires Tree(g, start, came2, level2) && current in came2
    requires came.Keys <= came2.Keys && came2.Keys - came.Keys <= AllCells(g)
    requires forall c {:trigger c in queue2} :: c in queue2 ==> c in came2
    requires forall c {:trigger c in came2} :: c in came2 && c !in came ==> c in queue2
    requires forall c {:trigger c in queue} :: c in queue ==> c in queue2
    requires came2.Keys == came.Keys ==> queue2 == queue
    requires came2.Keys != came.Keys ==> added in came2 && added !in came && added in AllCells(g)
    ensures n in came3 && came2.Keys <= came3.Keys
    ensures n in came2 ==> came3 == came2 && queue3 == queue2
    ensures n !in came2 ==> came3[n] == Some(current) && queue3 == queue2 + [n]
    ensures Tree(g, start, came3, level3) && current in came3
    ensures came.Keys <= came3.Keys && came3.Keys - came.Keys <= AllCells(g)
    ensures forall c {:trigger c in queue3} :: c in queue3 ==> c in came3
    ensures forall c {:trigger c in came3} :: c in came3 && c !in came ==> c in queue3
    ensures forall c {:trigger c in queue} :: c in queue ==> c in queue3
    ensures came3.Keys == came.Keys ==> queue3 == queue
    ensures came3.Keys != came.Keys ==> added3 in came3 && added3 !in came && added3 in AllCells(g)
  {
    came3, level3, queue3, added3 := came2, level2, queue2, added;
    if n !in came2 {
      InAllCells(g, n);
      TreeAdd(g, start, came2, level2, current, n);
      level3 := level2[n := level2[current] + 1];
      came3 := came2[n := Some(current)];
      queue3 := queue2 + [n];
      added3 := n;
    }
  }

  /** The expansion loop of `find_path_bfs`: record and enqueue every
      neighbour of `current` not seen before, with `current` as its parent. */
  method Expand(g: Grid, start: Cell, current: Cell, came: map<Cell, Option<Cell>>, ghost level: map<Cell, nat>, queue: seq<Cell>)
    returns (came2: map<Cell, Option<Cell>>, ghost level2: map<Cell, nat>, queue2: seq<Cell>)
    requires Rect(g) && Tree(g, start, came, level) && Recorded(g, start, came) && current in came
    requires forall c {:trigger c in queue} :: c in queue ==> c in came
    ensures Tree(g, start, came2, level2) && Recorded(g, start, came2)
    ensures came.Keys <= came2.Keys
    ensures forall n {:trigger n in Neighbors(g, current)} :: n in Neighbors(g, current) ==> n in came2
    ensures forall c {:trigger c in queue2} :: c in queue2 ==> c in came2
    ensures forall c {:trigger c in came2} :: c in came2 && c !in came ==> c in queue2
    ensures forall c {:trigger c in queue} :: c in queue ==> c in queue2
    ensures came2.Keys == came.Keys ==> queue2 == queue
    ensures came2.Keys != came.Keys ==> AllCells(g) - came2.Keys < AllCells(g) - came.Keys
  {
    var nbrs := Neighbors(g, current);
    came2, level2, queue2 := came, level, queue;
    ghost var added := current;
    var i := 0;
    while i < |nbrs|
      invariant 0 <= i <= |nbrs|
      invariant Tree(g, start, came2, level2) && current in came2
      invariant came.Keys <= came2.Keys && came2.Keys - came.Keys <= AllCells(g)
      invariant forall k :: 0 <= k < i ==> nbrs[k] in came2
      invariant forall c {:trigger c in queue2} :: c in queue2 ==> c in came2
      invariant forall c {:trigger c in came2} :: c in came2 && c !in came ==> c in queue2
      invariant forall c {:trigger c in queue} :: c in queue ==> c in queue2
      invariant came2.Keys == came.Keys ==> queue2 == queue
      invariant came2.Keys != came.Keys ==> added in came2 && added !in came && added in AllCells(g)
    {
      assert nbrs[i] in nbrs;
      ghost var before := came2;
      came2, level2, queue2, added := Visit(g, start, current, nbrs[i], came, queue, came2, level2, queue2, added);
      forall k | 0 <= k <= i ensures nbrs[k] in came2 {
        if k < i { assert nbrs[k] in before; }
      }
      i := i + 1;
    }
    forall n | n in nbrs ensures n in came2 {
      var k :| 0 <= k < |nbrs| && nbrs[k] == n;
    }
    if came2.Keys != came.Keys {
      assert added in AllCells(g) - came.Keys && added !in AllCells(g) - came2.Keys;
    }
  }

  /** After expanding `current`, every recorded cell out of the new queue
      still had all its neighbours recorded. */
  lemma ExpandedStep(g: Grid, goal: Cell, current: Cell, came: map<Cell, Option<Cell>>, queue: seq<Cell>,
                     came2: map<Cell, Option<Cell>>, queue2: seq<Cell>)
    requires Rect(g) && Expanded(g, goal, came, queue) && |queue| > 0 && current == queue[0] && current != goal
    requires came.Keys <= came2.Keys
    requires forall n {:trigger n in Neighbors(g, current)} :: n in Neighbors(g, current) ==> n in came2
    requires forall c {:trigger c in came2} :: c in came2 && c !in came ==> c in queue2
    requires forall c {:trigger c in queue[1..]} :: c in queue[1..] ==> c in queue2
    ensures Expanded(g, goal, came2, queue2)
  {
    forall c | c in came2 && c !in queue2
      ensures c != goal && forall n {:trigger n in Neighbors(g, c)} :: n in Neighbors(g, c) ==> n in came2
    {
      assert c in came;
      if c != current {
        assert c !in queue[1..];
        assert queue == [current] + queue[1..];
      }
    }
  }

  /** `find_path_bfs(start, goal)`: the breadth-first search over open cells
      with a `came_from` map and a FIFO queue; `None` when the queue runs
      out. */
  method FindPathBfs(g: Grid, start: Cell, goal: Cell) returns (r: Option<seq<Cell>>)
    requires Rect(g)
    ensures r.Some? ==> IsPath(g, r.value) && r.value[0] == start && r.value[|r.value| - 1] == goal
    ensures r.None? <==> !Reachable(g, start, goal)
  {
    var queue := [start];
    var came: map<Cell, Option<Cell>> := map[start := None];
    ghost var level: map<Cell, nat> := map[start := 0];
    while |queue| > 0
      invariant Tree(g, start, came, level) && Recorded(g, start, came)
      invariant forall c {:trigger c in queue} :: c in queue ==> c in came
      invariant Expanded(g, goal, came, queue)
      decreases AllCells(g) - came.Keys, |queue|
    {
      var current := queue[0];
      assert current in queue;
      if current == goal {
        var path := Trace(g, start, came, level, current);
        return Some(path);
      }
      var rest := queue[1..];
      assert forall c {:trigger c in rest} :: c in rest ==> c in queue;
      var came2, level2, queue2 := Expand(g, start, current, came, level, rest);
      ExpandedStep(g, goal, current, came, queue, came2, queue2);
      came, level, queue := came2, level2, queue2;
    }
    r := None;
    forall p | IsPath(g, p) && p[0] == start ensures p[|p| - 1] != goal {
      PathStaysIn(g, came.Keys, p, |p| - 1);
    }
  }

  /** The reconstruction loop of `find_path_bfs`: follow `came_from` from the
      goal back to the start. The model prepends each cell, which gives the
      reversed list directly. */
  method Trace(g: Grid, start: Cell, came: map<Cell, Option<Cell>>, ghost level: map<Cell, nat>, goal: Cell) returns (path: seq<Cell>)
    requires Rect(g) && Tree(g, start, came, level) && goal in came
    ensures IsPath(g, path) && path[0] == start && path[|path| - 1] == goal
  {
    var cur := goal;
    path := [goal];
    while came[cur].Some?
      invariant cur in came && |path| >= 1 && path[0] == cur && path[|path| - 1] == goal
      invariant IsPath(g, path)
      decreases level[cur]
    {
      var prev := came[cur].value;
      path := [prev] + path;
      cur := prev;
    }
  }
}

=== FILE: howmuch.dfy ===
/** The `Howmuch` command of the shell in OSLabs/Lab1/Task2/task2.c: split
    the command line into a date-time and a flag, parse the date-time with
    `sscanf`, and choose the unit the elapsed time is reported in. */
module Howmuch {
  import opened Wrappers
  import opened CString
  import opened Scan

  /** The size of the `datetime_part` buffer. */
  const DatetimeBuffer: nat := 50

  // ---------------------------------------------------------------------
  // parse_datetime
  // ---------------------------------------------------------------------

  datatype DateTime = DateTime(day: int, month: int, year: int, hour: int, minute: int, second: int)

  /** The range checks of `parse_datetime`; the day is not checked against
      the month. */
  predicate InRange(dt: DateTime) {
    1 <= dt.day <= 31 && 1 <= dt.month <= 12 && dt.year >= 1900 &&
    0 <= dt.hour <= 23 && 0 <= dt.minute <= 59 && 0 <= dt.second <= 59
  }

  /** What the format "%d:%d:%d %d:%d:%d" expects before conversion k: ':'
      between the fields of the date and of the time, white space between
      date and time. */
  function Sep(k: nat): string {
    if k == 0 then [] else if k == 3 then " " else ":"
  }

  /** The values `sscanf` converts with the first n directives of the
      format, starting at position i with directive k, up to the first one
      that fails; its return value is their number. */
  function Conversions(s: string, i: nat, k: nat, n: nat): (vs: seq<int>)
    requires i <= |s| && k <= n
    ensures |vs| <= n - k
    decreases n - k
  {
    if k == n then []
    else
      var p := Start(s, i, k);
      if p.None? then []
      else
        var r := ScanInt(s, p.value);
        if r.None? then [] else [r.value.0] + Conversions(s, r.value.1, k + 1, n)
  }

  /** Where directive k's conversion starts, after matching what the
      format has before it: nothing, white space, or one ':'. */
  function Start(s: string, i: nat, k: nat): (p: Option<nat>)
    requires i <= |s|
    ensures p.Some? ==> i <= p.value <= |s|
  {
    if k == 0 then Some(i)
    else if k == 3 then Some(SkipSpace(s, i))
    else if i < |s| && s[i] == ':' then Some(i + 1)
    else None
  }

  /** `parse_datetime` up to `mktime`: all six fields, else the date alone
      at midnight, and then the range checks. */
  function ParseDatetime(s: string): (r: Option<DateTime>)
    ensures r.Some? ==> InRange(r.value)
    ensures r.Some? && |Conversions(s, 0, 0, 6)| < 6 ==> r.value.hour == 0 && r.value.minute == 0 && r.value.second == 0
    ensures |Conversions(s, 0, 0, 3)| < 3 ==> r.None?
  {
    FieldsDatetime(Conversions(s, 0, 0, 6), Conversions(s, 0, 0, 3))
  }

  /** The date-time made of what the six-field and the three-field scans
      converted: the six fields, else the date at midnight, then the range
      checks. */
  function FieldsDatetime(six: seq<int>, three: seq<int>): (r: Option<DateTime>)
    ensures r.Some? ==> InRange(r.value)
    ensures r.Some? && |six| != 6 ==> r.value.hour == 0 && r.value.minute == 0 && r.value.second == 0
    ensures |six| != 6 && |three| != 3 ==> r.None?
  {
    var fs := if |six| == 6 then six else if |three| == 3 then three + [0, 0, 0] else [];
    if |fs| != 6 then None
    else
      var dt := DateTime(fs[0], fs[1], fs[2], fs[3], fs[4], fs[5]);
      if InRange(dt) then Some(dt) else None
  }

  /** The text of fields k and on, each after what the format expects
      before it. */
  function Tail(dss: seq<string>, k: nat): string
    requires k <= |dss|
    decreases |dss| - k
  {
    if k == |dss| then [] else Sep(k) + dss[k] + Tail(dss, k + 1)
  }

  /** A numeral after what the format expects before directive k is
      converted, and scanning goes on after it. */
  lemma ConversionStep(s: string, i: nat, k: nat, n: nat, ds: string)
    requires k < n && 1 <= |ds| && AllDigits(ds)
    requires i + |Sep(k)| + |ds| <= |s|
    requires s[i..i + |Sep(k)|] == Sep(k) && s[i + |Sep(k)|..i + |Sep(k)| + |ds|] == ds
    requires i + |Sep(k)| + |ds| == |s| || !IsDigit(s[i + |Sep(k)| + |ds|])
    ensures Conversions(s, i, k, n) == [Value(ds)] + Conversions(s, i + |Sep(k)| + |ds|, k + 1, n)
  {
    var p := i + |Sep(k)|;
    StartAt(s, i, k, ds);
    ScanIntOf(s, p, ds);
    ConversionsUnfold(s, i, k, n, Value(ds), p + |ds|);
  }

  lemma ConversionsUnfold(s: string, i: nat, k: nat, n: nat, v: int, e: nat)
    requires k < n && i <= |s| && e <= |s| && Start(s, i, k).Some?
    requires ScanInt(s, Start(s, i, k).value) == Some((v, e))
    ensures Conversions(s, i, k, n) == [v] + Conversions(s, e, k + 1, n)
  {
  }

  /** A directive's conversion starts right after the text the format
      expects before it, when a digit follows. */
  lemma StartAt(s: string, i: nat, k: nat, ds: string)
    requires 1 <= |ds| && AllDigits(ds) && i + |Sep(k)| + |ds| <= |s|
    requires s[i..i + |Sep(k)|] == Sep(k) && s[i + |Sep(k)|..i + |Sep(k)| + |ds|] == ds
    ensures Start(s, i, k) == Some(i + |Sep(k)|)
  {
    var p := i + |Sep(k)|;
    if k == 3 {
      assert s[i] == ' ' && s[p] == ds[0];
      assert SkipSpace(s, p) == p;
    } else if k != 0 {
      assert s[i] == ':';
    }
  }

  /** At the end of the text, every directive after the first fails. */
  lemma ConversionsAtEnd(s: string, k: nat, n: nat)
    requires 1 <= k <= n
    ensures Conversions(s, |s|, k, n) == []
  {
  }

  /** Numerals laid out with their separators from position i on are
      converted back one by one, up to directive n or the end of the text,
      whichever comes first. */
  lemma {:induction false} ConversionsOfTail(s: string, i: nat, dss: seq<string>, vs: seq<int>, k: nat, n: nat)
    requires Written(dss, vs) && 1 <= |dss| && k <= n && Laid(s, i, dss, k)
    ensures Conversions(s, i, k, n) == vs[k..Min(n, |dss|)]
    decreases n - k
  {
    if k < n && k < |dss| {
      WrittenAt(dss, vs, k);
      var e := LaidStep(s, i, dss, k, n);
      ConversionsOfTail(s, e, dss, vs, k + 1, n);
      Glue(Conversions(s, i, k, n), vs, k, Min(n, |dss|), Conversions(s, e, k + 1, n));
    } else if k < n {
      ConversionsAtEnd(s, k, n);
    }
  }

  function Min(a: nat, b: nat): nat {
    if a < b then a else b
  }

  /** Each of the numerals dss is written in decimal and has the value at
      the same place in vs. */
  ghost predicate Written(dss: seq<string>, vs: seq<int>) {
    |dss| == |vs| &&
    forall j :: 0 <= j < |dss| ==> 1 <= |dss[j]| && AllDigits(dss[j]) && Value(dss[j]) == vs[j]
  }

  lemma WrittenAt(dss: seq<string>, vs: seq<int>, k: nat)
    requires Written(dss, vs) && k < |dss|
    ensures 1 <= |dss[k]| && AllDigits(dss[k]) && Value(dss[k]) == vs[k]
  {
  }

  /** The text from position i on is the fields from k on, each after its
      separator. */
  ghost predicate TailAt(s: string, i: nat, dss: seq<string>, k: nat) {
    k <= |dss| && i <= |s| && s[i..] == Tail(dss, k)
  }

  /** The same layout, field by field: from position i on, each field's
      separator and numeral, not followed by a digit, and then the end. */
  ghost predicate Laid(s: string, i: nat, dss: seq<string>, k: nat)
    decreases |dss| - k
  {
    k <= |dss| && i <= |s| &&
    if k == |dss| then i == |s|
    else
      var p := i + |Sep(k)|;
      var e := p + |dss[k]|;
      e <= |s| && s[i..p] == Sep(k) && s[p..e] == dss[k] && (e == |s| || !IsDigit(s[e])) &&
      Laid(s, e, dss, k + 1)
  }

  /** Field k laid out at position i is converted, and the scan goes on
      at e, where the layout of the next fields starts. */
  lemma LaidStep(s: string, i: nat, dss: seq<string>, k: nat, n: nat) returns (e: nat)
    requires Laid(s, i, dss, k) && k < n && k < |dss| && 1 <= |dss[k]| && AllDigits(dss[k])
    ensures e <= |s| && Laid(s, e, dss, k + 1)
    ensures Conversions(s, i, k, n) == [Value(dss[k])] + Conversions(s, e, k + 1, n)
  {
    e := LaidNext(s, i, dss, k);
    FieldStep(s, i, e, k, n, dss[k]);
  }

  /** Where the layout of field k ends and that of field k + 1 starts. */
  lemma LaidNext(s: string, i: nat, dss: seq<string>, k: nat) returns (e: nat)
    requires Laid(s, i, dss, k) && k < |dss|
    ensures FieldAt(s, i, e, k, dss[k]) && Laid(s, e, dss, k + 1)
  {
    e := i + |Sep(k)| + |dss[k]|;
  }

  /** Field k's separator and the numeral ds run from i to e, and no digit
      follows. */
  ghost predicate FieldAt(s: string, i: nat, e: nat, k: nat, ds: string) {
    e == i + |Sep(k)| + |ds| && e <= |s| &&
    s[i..i + |Sep(k)|] == Sep(k) && s[i + |Sep(k)|..e] == ds && (e == |s| || !IsDigit(s[e]))
  }

  lemma FieldStep(s: string, i: nat, e: nat, k: nat, n: nat, ds: string)
    requires FieldAt(s, i, e, k, ds) && k < n && 1 <= |ds| && AllDigits(ds)
    ensures Conversions(s, i, k, n) == [Value(ds)] + Conversions(s, e, k + 1, n)
  {
    ConversionStep(s, i, k, n, ds);
  }

  /** Text made of the fields is laid out field by field. */
  lemma {:induction false} TailLaid(s: string, i: nat, dss: seq<string>, k: nat)
    requires TailAt(s, i, dss, k)
    ensures Laid(s, i, dss, k)
    decreases |dss| - k
  {
    if k == |dss| {
      assert |s[i..]| == 0;
    } else {
      TailAtNext(s, i, dss, k);
      TailLaid(s, i + |Sep(k)| + |dss[k]|, dss, k + 1);
    }
  }

  /** Past field k's separator and numeral the text holds the fields from
      k + 1 on, and it does not go on with a digit. */
  lemma TailAtNext(s: string, i: nat, dss: seq<string>, k: nat)
    requires TailAt(s, i, dss, k) && k < |dss|
    ensures var p := i + |Sep(k)|; var e := p + |dss[k]|;
      e <= |s| && s[i..p] == Sep(k) && s[p..e] == dss[k] && TailAt(s, e, dss, k + 1) &&
      (e == |s| || !IsDigit(s[e]))
  {
    var t := s[i..];
    var a, b := |Sep(k)|, |Sep(k)| + |dss[k]|;
    TailJoin(dss, k);
    SliceParts([], Sep(k), dss[k], Tail(dss, k + 1));
    assert [] + Sep(k) + dss[k] + Tail(dss, k + 1) == t;
    SuffixSlices(s, i, a, b);
  }

  /** Slices of a suffix are slices of the whole. */
  lemma SuffixSlices(s: string, i: nat, a: nat, b: nat)
    requires i <= |s| && a <= b <= |s| - i
    ensures s[i..][..a] == s[i..i + a] && s[i..][a..b] == s[i + a..i + b] && s[i..][b..] == s[i + b..]
    ensures b < |s| - i ==> s[i..][b] == s[i + b]
  {
  }

  /** The text from field k on is field k's separator and numeral followed
      by the text from field k + 1, which does not start with a digit. */
  lemma TailJoin(dss: seq<string>, k: nat)
    requires k < |dss|
    ensures Tail(dss, k) == Sep(k) + dss[k] + Tail(dss, k + 1)
    ensures |Tail(dss, k + 1)| == 0 || !IsDigit(Tail(dss, k + 1)[0])
  {
    if k + 1 < |dss| {
      var rest := Tail(dss, k + 1);
      assert rest == Sep(k + 1) + dss[k + 1] + Tail(dss, k + 2);
      assert rest[0] == Sep(k + 1)[0];
    }
  }

  lemma Glue(c: seq<int>, vs: seq<int>, k: nat, n: nat, t: seq<int>)
    requires k < n <= |vs| && t == vs[k + 1..n] && c == [vs[k]] + t
    ensures c == vs[k..n]
  {
  }

  lemma SliceParts(a: string, b: string, c: string, d: string)
    ensures var s := a + b + c + d;
      s[|a|..|a| + |b|] == b && s[|a| + |b|..|a| + |b| + |c|] == c &&
      (|d| > 0 ==> s[|a| + |b| + |c|] == d[0])
  {
  }

  /** A number written with at least two digits. */
  function Pad2(n: nat): (s: string)
    ensures 2 <= |s| && AllDigits(s) && Value(s) == n
  {
    ValueDec(n);
    if n < 10 then
      ValueLeadingZero(Dec(n));
      ['0'] + Dec(n)
    else
      assert |Dec(n)| >= 2;
      Dec(n)
  }

  /** The fields of a date-time written as "dd:MM:yyyy hh:mm:ss". */
  function Numerals(dt: DateTime): seq<string>
    requires dt.day >= 0 && dt.month >= 0 && dt.year >= 0 && dt.hour >= 0 && dt.minute >= 0 && dt.second >= 0
  {
    [Pad2(dt.day), Pad2(dt.month), Dec(dt.year), Pad2(dt.hour), Pad2(dt.minute), Pad2(dt.second)]
  }

  /** A date-time written in the documented form is read back when it is in
      range and refused otherwise; written without its time it is read as
      midnight of that day. */
  lemma ParseFormatted(dt: DateTime)
    requires dt.day >= 0 && dt.month >= 0 && dt.year >= 0 && dt.hour >= 0 && dt.minute >= 0 && dt.second >= 0
    ensures ParseDatetime(Tail(Numerals(dt), 0)) == if InRange(dt) then Some(dt) else None
    ensures var date := DateTime(dt.day, dt.month, dt.year, 0, 0, 0);
      ParseDatetime(Tail(Numerals(dt)[..3], 0)) == if InRange(date) then Some(date) else None
  {
    var dss := Numerals(dt);
    var vs := [dt.day, dt.month, dt.year, dt.hour, dt.minute, dt.second];
    NumeralsWritten(dt, vs);
    WrittenPrefix(dss, vs, 3);
    ParsedFrom(dss, vs);
    ParsedFrom(dss[..3], vs[..3]);
  }

  lemma NumeralsWritten(dt: DateTime, vs: seq<int>)
    requires dt.day >= 0 && dt.month >= 0 && dt.year >= 0 && dt.hour >= 0 && dt.minute >= 0 && dt.second >= 0
    requires vs == [dt.day, dt.month, dt.year, dt.hour, dt.minute, dt.second]
    ensures Written(Numerals(dt), vs)
  {
    ValueDec(dt.year);
    var dss := Numerals(dt);
    forall j | 0 <= j < |dss|
      ensures 1 <= |dss[j]| && AllDigits(dss[j]) && Value(dss[j]) == vs[j]
    {
    }
  }

  /** The first m numerals are written as the first m values. */
  lemma WrittenPrefix(dss: seq<string>, vs: seq<int>, m: nat)
    requires Written(dss, vs) && m <= |dss|
    ensures Written(dss[..m], vs[..m])
  {
    forall j | 0 <= j < m
      ensures 1 <= |dss[..m][j]| && AllDigits(dss[..m][j]) && Value(dss[..m][j]) == vs[..m][j]
    {
      WrittenAt(dss, vs, j);
    }
  }

  /** The six-field and three-field scans of written numerals. */
  lemma ParsedFrom(dss: seq<string>, vs: seq<int>)
    requires Written(dss, vs) && 1 <= |dss|
    ensures Conversions(Tail(dss, 0), 0, 0, 6) == vs[..Min(6, |dss|)]
    ensures Conversions(Tail(dss, 0), 0, 0, 3) == vs[..Min(3, |dss|)]
  {
    var s := Tail(dss, 0);
    assert TailAt(s, 0, dss, 0) by {
      assert s[0..] == s;
    }
    TailLaid(s, 0, dss, 0);
    ConversionsOfTail(s, 0, dss, vs, 0, 6);
    ConversionsOfTail(s, 0, dss, vs, 0, 3);
  }

  // ---------------------------------------------------------------------
  // The command line
  // ---------------------------------------------------------------------

  /** The first position at or after i that is not a blank (only ' ' is
      skipped here, as in the command loop). */
  function SkipBlanks(s: string, i: nat): (j: nat)
    requires i <= |s|
    ensures i <= j <= |s| && (j == |s| || s[j] != ' ')
    ensures forall k :: i <= k < j ==> s[k] == ' '
    decreases |s| - i
  {
    if i == |s| || s[i] != ' ' then i else SkipBlanks(s, i + 1)
  }

  /** The date-time and the flag of a `Howmuch` line: the flag follows the
      last space, the date-time runs from after "Howmuch" and its blanks to
      that space and is dropped unless 1 to 49 characters long; both are ""
      when the line has no space. */
  function HowmuchArgs(line: string): (r: (string, string))
    ensures |r.0| < DatetimeBuffer && ' ' !in r.1
  {
    match LastIndex(line, ' ')
    case None => ([], [])
    case Some(last) =>
      var flag := line[last + 1..];
      match Find(line, "Howmuch", 0)
      case None => ([], flag)
      case Some(h) =>
        var start := SkipBlanks(line, h + 7);
        if start < last && last - start < DatetimeBuffer then (line[start..last], flag) else ([], flag)
  }

  /** A line "Howmuch <datetime> <flag>" yields its date-time, when it fits
      the buffer, and its flag, whatever spaces the date-time holds. */
  lemma HowmuchArgsOf(dt: string, flag: string)
    requires |dt| >= 1 && dt[0] != ' ' && ' ' !in flag
    ensures HowmuchArgs("Howmuch " + dt + " " + flag) == (if |dt| < DatetimeBuffer then dt else [], flag)
  {
    var line := "Howmuch " + dt + " " + flag;
    var last := 8 + |dt|;
    assert line[last] == ' ' && line[last + 1..] == flag;
    assert LastIndex(line, ' ') == Some(last);
    assert MatchAt(line, "Howmuch", 0);
    assert line[7] == ' ' && line[8] == dt[0];
    assert SkipBlanks(line, 7) == 8 by {
      assert SkipBlanks(line, 8) == 8;
    }
    assert line[8..last] == dt;
  }

  // ---------------------------------------------------------------------
  // howmuch_time
  // ---------------------------------------------------------------------

  /** The unit a flag asks for. */
  datatype Unit = Seconds | Minutes | Hours | Years

  /** What `howmuch_time` answers: the elapsed seconds and the unit they
      are printed in, or why there is no answer. */
  datatype Report = BadDatetime | NotYet | Elapsed(unit: Unit, seconds: int) | BadFlag

  function FlagUnit(flag: string): Option<Unit> {
    if flag == "-s" then Some(Seconds)
    else if flag == "-m" then Some(Minutes)
    else if flag == "-h" then Some(Hours)
    else if flag == "-y" then Some(Years)
    else None
  }

  /** `howmuch_time`, with `since(dt)` the seconds from the local time dt
      to now (the clock and `mktime`). A bad date-time and a moment still
      to come are reported before the flag is looked at. */
  function HowmuchTime(datetime: string, flag: string, since: DateTime -> int): (r: Report)
    ensures r == BadDatetime <==> ParseDatetime(datetime).None?
    ensures r == NotYet <==> ParseDatetime(datetime).Some? && since(ParseDatetime(datetime).value) < 0
    ensures r.Elapsed? <==> ParseDatetime(datetime).Some? && since(ParseDatetime(datetime).value) >= 0 && FlagUnit(flag).Some?
    ensures r.Elapsed? ==> r.seconds >= 0 && r.seconds == since(ParseDatetime(datetime).value) && Some(r.unit) == FlagUnit(flag)
  {
    match ParseDatetime(datetime)
    case None => BadDatetime
    case Some(dt) =>
      var diff := since(dt);
      if diff < 0 then NotYet
      else
        match FlagUnit(flag)
        case None => BadFlag
        case Some(u) => Elapsed(u, diff)
  }
}

=== FILE: incidence.dfy ===
/** Incidence matrices and edge lists of
    hypergraphs/Graphs/ClassLibrary1/Graph.cs: `AdjacencyToIncidence` numbers
    the ones of the upper triangle row by row and gives each a column,
    `IncidenceToVector` counts the ones of each row, `IncidenceToAdjacency`
    realises those counts again, and `GetRibs` lists the pairs of the upper
    triangle. */
module Incidence {
  import opened Wrappers
  import opened Degrees
  import Realise
  import Seqs

  type Edge = (nat, nat)

  /** The ones of row i from column j on, as pairs (i, y), in column order. */
  function RowEdges(m: Matrix, i: nat, j: nat): seq<Edge>
    requires Square(m) && i < |m| && j <= |m|
    decreases |m| - j
  {
    if j == |m| then [] else (if m[i][j] == 1 then [(i, j)] else []) + RowEdges(m, i, j + 1)
  }

  /** The ones of the upper triangle (diagonal included) of rows i, i+1, ... */
  function EdgesFrom(m: Matrix, i: nat): seq<Edge>
    requires Square(m) && i <= |m|
    decreases |m| - i
  {
    if i == |m| then [] else RowEdges(m, i, i) + EdgesFrom(m, i + 1)
  }

  /** The edges `AdjacencyToIncidence` numbers, in the order it numbers them. */
  function UpperEdges(m: Matrix): seq<Edge>
    requires Square(m)
  {
    EdgesFrom(m, 0)
  }

  /** Row-major order of cells. */
  predicate Before(a: Edge, b: Edge) {
    a.0 < b.0 || (a.0 == b.0 && a.1 < b.1)
  }

  lemma {:induction false} RowEdgesShape(m: Matrix, i: nat, j: nat)
    requires Square(m) && i < |m| && j <= |m|
    ensures forall e {:trigger e in RowEdges(m, i, j)} :: e in RowEdges(m, i, j) <==> e.0 == i && j <= e.1 < |m| && m[i][e.1] == 1
    ensures forall k, l :: 0 <= k < l < |RowEdges(m, i, j)| ==> Before(RowEdges(m, i, j)[k], RowEdges(m, i, j)[l])
    decreases |m| - j
  {
    if j < |m| {
      RowEdgesShape(m, i, j + 1);
      var head: seq<Edge> := if m[i][j] == 1 then [(i, j)] else [];
      var rest := RowEdges(m, i, j + 1);
      var all := head + rest;
      assert RowEdges(m, i, j) == all;
      forall e {:trigger e in all} ensures e in all <==> e.0 == i && j <= e.1 < |m| && m[i][e.1] == 1 {
        assert e in all <==> e in head || e in rest;
      }
      forall k, l | 0 <= k < l < |head + rest| ensures Before((head + rest)[k], (head + rest)[l]) {
        assert (head + rest)[l] == rest[l - |head|] && rest[l - |head|] in rest;
        if |head| <= k {
          assert (head + rest)[k] == rest[k - |head|];
        }
      }
    }
  }

  lemma {:induction false} EdgesFromMembers(m: Matrix, i: nat)
    requires Square(m) && i <= |m|
    ensures forall e {:trigger e in EdgesFrom(m, i)} :: e in EdgesFrom(m, i) <==> i <= e.0 <= e.1 < |m| && m[e.0][e.1] == 1
    decreases |m| - i
  {
    if i < |m| {
      RowEdgesShape(m, i, i);
      EdgesFromMembers(m, i + 1);
      assert EdgesFrom(m, i) == RowEdges(m, i, i) + EdgesFrom(m, i + 1);
    }
  }

  /** Two row-major runs, the first inside row i and the second below it,
      join into one. */
  lemma JoinBefore(a: seq<Edge>, b: seq<Edge>, i: nat)
    requires forall k, l :: 0 <= k < l < |a| ==> Before(a[k], a[l])
    requires forall k, l :: 0 <= k < l < |b| ==> Before(b[k], b[l])
    requires forall e {:trigger e in a} :: e in a ==> e.0 == i
    requires forall e {:trigger e in b} :: e in b ==> e.0 > i
    ensures forall k, l :: 0 <= k < l < |a + b| ==> Before((a + b)[k], (a + b)[l])
  {
    forall k, l | 0 <= k < l < |a + b| ensures Before((a + b)[k], (a + b)[l]) {
      if l < |a| {
        assert (a + b)[k] == a[k] && (a + b)[l] == a[l];
      } else if k < |a| {
        assert (a + b)[k] == a[k] && a[k] in a;
        assert (a + b)[l] == b[l - |a|] && b[l - |a|] in b;
      } else {
        assert (a + b)[k] == b[k - |a|] && (a + b)[l] == b[l - |a|];
      }
    }
  }

  lemma {:induction false} EdgesFromOrder(m: Matrix, i: nat)
    requires Square(m) && i <= |m|
    ensures forall k, l :: 0 <= k < l < |EdgesFrom(m, i)| ==> Before(EdgesFrom(m, i)[k], EdgesFrom(m, i)[l])
    decreases |m| - i
  {
    if i < |m| {
      RowEdgesShape(m, i, i);
      EdgesFromMembers(m, i + 1);
      EdgesFromOrder(m, i + 1);
      JoinBefore(RowEdges(m, i, i), EdgesFrom(m, i + 1), i);
    }
  }

  /** The numbered edges are exactly the ones on or above the diagonal, in
      row-major order, so no edge is numbered twice. */
  lemma UpperEdgesShape(m: Matrix)
    requires Square(m)
    ensures forall e {:trigger e in UpperEdges(m)} :: e in UpperEdges(m) <==> e.0 <= e.1 < |m| && m[e.0][e.1] == 1
    ensures forall k, l :: 0 <= k < l < |UpperEdges(m)| ==> Before(UpperEdges(m)[k], UpperEdges(m)[l])
  {
    EdgesFromMembers(m, 0);
    EdgesFromOrder(m, 0);
  }

  // ---- counting edge ends

  /** The edges of `es` that have x as an end. */
  function Touches(es: seq<Edge>, x: nat): nat {
    if |es| == 0 then 0 else (if es[0].0 == x || es[0].1 == x then 1 else 0) + Touches(es[1..], x)
  }

  lemma {:induction false} TouchesConcat(a: seq<Edge>, b: seq<Edge>, x: nat)
    ensures Touches(a + b, x) == Touches(a, x) + Touches(b, x)
  {
    if |a| > 0 {
      assert (a + b)[1..] == a[1..] + b;
      TouchesConcat(a[1..], b, x);
    } else {
      assert a + b == b;
    }
  }

  /** The ones of column x of rows lo..hi. */
  function ColOnes(m: Matrix, x: nat, lo: nat, hi: nat): nat
    requires Square(m) && x < |m| && lo <= hi <= |m|
    decreases hi - lo
  {
    if lo == hi then 0 else (if m[lo][x] == 1 then 1 else 0) + ColOnes(m, x, lo + 1, hi)
  }

  /** `CountOnes` read from the front. */
  lemma {:induction false} CountOnesFront(row: seq<int>, lo: nat, hi: nat)
    requires lo < hi <= |row|
    ensures CountOnes(row, lo, hi) == (if row[lo] == 1 then 1 else 0) + CountOnes(row, lo + 1, hi)
    decreases hi - lo
  {
    if lo + 1 < hi {
      CountOnesFront(row, lo, hi - 1);
    }
  }

  lemma {:induction false} CountOnesSplit(row: seq<int>, lo: nat, mid: nat, hi: nat)
    requires lo <= mid <= hi <= |row|
    ensures CountOnes(row, lo, hi) == CountOnes(row, lo, mid) + CountOnes(row, mid, hi)
    decreases hi - mid
  {
    if mid < hi {
      CountOnesSplit(row, lo, mid, hi - 1);
    }
  }

  lemma {:induction false} ColOnesSymmetric(m: Matrix, x: nat, lo: nat, hi: nat)
    requires Square(m) && x < |m| && lo <= hi <= |m|
    requires forall a, b :: 0 <= a < |m| && 0 <= b < |m| ==> m[a][b] == m[b][a]
    ensures ColOnes(m, x, lo, hi) == CountOnes(m[x], lo, hi)
    decreases hi - lo
  {
    if lo < hi {
      CountOnesFront(m[x], lo, hi);
      ColOnesSymmetric(m, x, lo + 1, hi);
    }
  }

  lemma {:induction false} RowEdgesTouch(m: Matrix, i: nat, j: nat, x: nat)
    requires Square(m) && i < |m| && j <= |m| && x < |m|
    ensures Touches(RowEdges(m, i, j), x) ==
      if x == i then CountOnes(m[i], j, |m|)
      else if j <= x && m[i][x] == 1 then 1
      else 0
    decreases |m| - j
  {
    if j < |m| {
      var head: seq<Edge> := if m[i][j] == 1 then [(i, j)] else [];
      TouchesConcat(head, RowEdges(m, i, j + 1), x);
      RowEdgesTouch(m, i, j + 1, x);
      CountOnesFront(m[i], j, |m|);
    }
  }

  lemma {:induction false} EdgesFromTouch(m: Matrix, i: nat, x: nat)
    requires Square(m) && i <= |m| && x < |m|
    ensures Touches(EdgesFrom(m, i), x) ==
      if i <= x then ColOnes(m, x, i, x) + CountOnes(m[x], x, |m|) else 0
    decreases |m| - i
  {
    if i < |m| {
      TouchesConcat(RowEdges(m, i, i), EdgesFrom(m, i + 1), x);
      RowEdgesTouch(m, i, i, x);
      EdgesFromTouch(m, i + 1, x);
    }
  }

  /** In a symmetric matrix, vertex x is an end of as many numbered edges as
      row x has ones. */
  lemma UpperEdgesTouch(m: Matrix, x: nat)
    requires Square(m) && x < |m|
    requires forall a, b :: 0 <= a < |m| && 0 <= b < |m| ==> m[a][b] == m[b][a]
    ensures Touches(UpperEdges(m), x) == Ones(m[x])
  {
    EdgesFromTouch(m, 0, x);
    ColOnesSymmetric(m, x, 0, x);
    CountOnesSplit(m[x], 0, x, |m|);
  }

  /** Edge ends summed over the vertices 0..n-1. */
  function TouchTotal(es: seq<Edge>, n: nat): nat {
    if n == 0 then 0 else TouchTotal(es, n - 1) + Touches(es, n - 1)
  }

  function EndTotal(e: Edge, n: nat): nat {
    if n == 0 then 0 else EndTotal(e, n - 1) + (if e.0 == n - 1 || e.1 == n - 1 then 1 else 0)
  }

  lemma {:induction false} EndTotalTwo(e: Edge, n: nat)
    requires e.0 != e.1
    ensures EndTotal(e, n) == (if e.0 < n then 1 else 0) + (if e.1 < n then 1 else 0)
  {
    if n > 0 {
      EndTotalTwo(e, n - 1);
    }
  }

  lemma {:induction false} TouchTotalCons(e: Edge, es: seq<Edge>, n: nat)
    ensures TouchTotal([e] + es, n) == EndTotal(e, n) + TouchTotal(es, n)
  {
    if n > 0 {
      assert ([e] + es)[1..] == es;
      TouchTotalCons(e, es, n - 1);
    }
  }

  /** Handshake: edges between two distinct vertices below n have twice as
      many ends as there are edges. */
  lemma {:induction false} TouchTotalTwice(es: seq<Edge>, n: nat)
    requires forall k :: 0 <= k < |es| ==> es[k].0 < es[k].1 < n
    ensures TouchTotal(es, n) == 2 * |es|
  {
    if |es| > 0 {
      assert es == [es[0]] + es[1..];
      TouchTotalCons(es[0], es[1..], n);
      EndTotalTwo(es[0], n);
      TouchTotalTwice(es[1..], n);
    } else {
      TouchTotalNone(es, n);
    }
  }

  lemma {:induction false} TouchTotalNone(es: seq<Edge>, n: nat)
    requires |es| == 0
    ensures TouchTotal(es, n) == 0
  {
    if n > 0 {
      TouchTotalNone(es, n - 1);
    }
  }

  lemma {:induction false} SumRowCounts(m: Matrix, k: nat)
    requires Square(m) && k <= |m|
    requires forall a, b :: 0 <= a < |m| && 0 <= b < |m| ==> m[a][b] == m[b][a]
    ensures Sum(RowCounts(m)[..k]) == TouchTotal(UpperEdges(m), k)
  {
    if k > 0 {
      assert RowCounts(m)[..k][..k - 1] == RowCounts(m)[..k - 1];
      SumRowCounts(m, k - 1);
      UpperEdgesTouch(m, k - 1);
    }
  }

  /** In a simple graph the degrees sum to twice the number of edges, so
      `AdjacencyToVector` accepts every simple graph. */
  lemma {:induction false} SumNonneg(s: seq<int>)
    requires forall k :: 0 <= k < |s| ==> s[k] >= 0
    ensures Sum(s) >= 0
  {
    if |s| > 0 {
      SumNonneg(s[..|s| - 1]);
    }
  }

  /** Counted degrees never sum below zero, so sum/2 is a column count. */
  lemma RowCountsNonneg(m: Matrix)
    ensures Sum(RowCounts(m)) >= 0
  {
    SumNonneg(RowCounts(m));
  }

  lemma Handshake(m: Matrix)
    requires Square(m) && Simple(m)
    ensures Sum(RowCounts(m)) == 2 * |UpperEdges(m)|
    ensures AdjacencyToVector(m) == Success(RowCounts(m))
  {
    UpperEdgesShape(m);
    var es := UpperEdges(m);
    forall k | 0 <= k < |es| ensures es[k].0 < es[k].1 < |m| {
      assert es[k] in es;
    }
    TouchTotalTwice(es, |m|);
    SumRowCounts(m, |m|);
    assert RowCounts(m)[..|m|] == RowCounts(m);
  }

  // ---- AdjacencyToIncidence

  /** `inc` is the n-by-cols incidence matrix of the numbered edges `es`:
      column c holds ones at the ends of edge c, and columns past the edges
      are empty. */
  ghost predicate IsIncidence(inc: Matrix, es: seq<Edge>, n: nat, cols: nat) {
    && |inc| == n
    && (forall x :: 0 <= x < n ==> |inc[x]| == cols)
    && (forall x, c :: 0 <= x < n && 0 <= c < cols ==> inc[x][c] == EndCell(es, x, c))
  }

  /** 1 when column c numbers an edge with end x. */
  function EndCell(es: seq<Edge>, x: int, c: int): int {
    if 0 <= c < |es| && (es[c].0 == x || es[c].1 == x) then 1 else 0
  }

  /** `incidenceMatrix[i, k] = 1; incidenceMatrix[j, k] = 1;` */
  function Mark(inc: Matrix, i: nat, j: nat, k: nat): (r: Matrix)
    requires i < |inc| && j < |inc| && k < |inc[i]| && k < |inc[j]|
    ensures |r| == |inc|
    ensures forall x :: 0 <= x < |inc| ==> |r[x]| == |inc[x]|
    ensures forall x, c :: 0 <= x < |inc| && 0 <= c < |inc[x]| ==>
      r[x][c] == if c == k && (x == i || x == j) then 1 else inc[x][c]
  {
    var a := inc[i := inc[i][k := 1]];
    a[j := a[j][k := 1]]
  }

  lemma MarkStep(inc: Matrix, es: seq<Edge>, n: nat, cols: nat, i: nat, j: nat)
    requires IsIncidence(inc, es, n, cols) && i < n && j < n && |es| < cols
    ensures IsIncidence(Mark(inc, i, j, |es|), es + [(i, j)], n, cols)
  {
    var es' := es + [(i, j)];
    var r := Mark(inc, i, j, |es|);
    forall x, c | 0 <= x < n && 0 <= c < cols ensures r[x][c] == EndCell(es', x, c) {
      assert |inc[x]| == cols;
      if c < |es| {
        assert es'[c] == es[c];
      } else if c == |es| {
        assert es'[c] == (i, j);
      }
    }
  }

  /** `AdjacencyToIncidence` (and its `Try` twin on non-null input).  A matrix
      `AdjacencyToVector` rejects is rejected with the same error; otherwise
      there are sum/2 columns, and numbering more ones of the upper triangle
      than that runs off the array.  For a simple graph nothing runs off,
      every column has exactly two ones, and counting the rows gives the
      degree vector back. */
  method AdjacencyToIncidence(m: Matrix) returns (r: Result<Matrix, Error>)
    requires Square(m)
    ensures AdjacencyToVector(m).Failure? ==> r == Failure(AdjacencyToVector(m).error)
    ensures AdjacencyToVector(m).Success? ==> (r.Success? <==> |UpperEdges(m)| <= Sum(RowCounts(m)) / 2)
    ensures r.Failure? && AdjacencyToVector(m).Success? ==> r == Failure(OutOfRange)
    ensures r.Success? ==> IsIncidence(r.value, UpperEdges(m), |m|, Sum(RowCounts(m)) / 2)
    ensures Simple(m) ==> r.Success? && |UpperEdges(m)| == Sum(RowCounts(m)) / 2
    ensures Simple(m) ==> forall c :: 0 <= c < |UpperEdges(m)| ==> UpperEdges(m)[c].0 < UpperEdges(m)[c].1
    ensures Simple(m) ==> RowCounts(r.value) == RowCounts(m)
  {
    if Simple(m) {
      Handshake(m);
    }
    var deg :- AdjacencyToVector(m);
    RowCountsNonneg(m);
    r := NumberEdges(m, Sum(deg) / 2);
    if Simple(m) {
      IncidenceOfSimple(m, r.value);
    }
  }

  /** The numbering loops of `AdjacencyToIncidence` over `edges` columns. */
  method NumberEdges(m: Matrix, edges: nat) returns (r: Result<Matrix, Error>)
    requires Square(m)
    ensures r.Success? <==> |UpperEdges(m)| <= edges
    ensures r.Failure? ==> r == Failure(OutOfRange)
    ensures r.Success? ==> IsIncidence(r.value, UpperEdges(m), |m|, edges)
  {
    var n := |m|;
    var inc: Matrix := seq(n, _ => seq(edges, _ => 0));
    var k := 0;
    ghost var done: seq<Edge> := [];
    var i := 0;
    while i < n
      invariant i <= n && k == |done| <= edges
      invariant done + EdgesFrom(m, i) == UpperEdges(m)
      invariant IsIncidence(inc, done, n, edges)
    {
      RowSplit(m, i, done);
      var ok;
      ok, inc, done, k := NumberRow(m, i, inc, done, k, edges);
      if !ok {
        return Failure(OutOfRange);
      }
      i := i + 1;
    }
    assert done == UpperEdges(m);
    r := Success(inc);
  }

  lemma RowSplit(m: Matrix, i: nat, done: seq<Edge>)
    requires Square(m) && i < |m|
    ensures done + EdgesFrom(m, i) == (done + RowEdges(m, i, i)) + EdgesFrom(m, i + 1)
    ensures |done + EdgesFrom(m, i)| >= |done + RowEdges(m, i, i)|
  {
    var a, b := RowEdges(m, i, i), EdgesFrom(m, i + 1);
    assert EdgesFrom(m, i) == a + b;
    Seqs.AppendAssoc(done, a, b);
  }

  /** One column of the inner loop: the one at (i, j), if any, moves from
      the row's remaining edges to the numbered ones. */
  lemma RowEdgesStep(m: Matrix, i: nat, j: nat, done: seq<Edge>)
    requires Square(m) && i < |m| && j < |m|
    ensures m[i][j] == 1 ==> done + RowEdges(m, i, j) == (done + [(i, j)]) + RowEdges(m, i, j + 1)
    ensures m[i][j] != 1 ==> done + RowEdges(m, i, j) == done + RowEdges(m, i, j + 1)
  {
    var h: seq<Edge> := if m[i][j] == 1 then [(i, j)] else [];
    var t := RowEdges(m, i, j + 1);
    assert RowEdges(m, i, j) == h + t;
    Seqs.AppendAssoc(done, h, t);
  }

  /** The inner loop at row i: numbers the ones of row i from the diagonal
      on, unless they run past the last column. */
  method NumberRow(m: Matrix, i: nat, inc: Matrix, ghost done: seq<Edge>, k: nat, edges: nat)
    returns (ok: bool, inc': Matrix, ghost done': seq<Edge>, k': nat)
    requires Square(m) && i < |m| && k == |done| <= edges
    requires IsIncidence(inc, done, |m|, edges)
    ensures ok ==> done' == done + RowEdges(m, i, i) && k' == |done'| <= edges
    ensures ok ==> IsIncidence(inc', done', |m|, edges)
    ensures !ok ==> |done + RowEdges(m, i, i)| > edges
  {
    inc', done', k' := inc, done, k;
    var j := i;
    while j < |m|
      invariant i <= j <= |m| && k' == |done'| <= edges
      invariant done' + RowEdges(m, i, j) == done + RowEdges(m, i, i)
      invariant IsIncidence(inc', done', |m|, edges)
    {
      RowEdgesStep(m, i, j, done');
      if m[i][j] == 1 {
        if k' >= edges {
          return false, inc', done', k';
        }
        MarkStep(inc', done', |m|, edges, i, j);
        inc' := Mark(inc', i, j, k');
        done' := done' + [(i, j)];
        k' := k' + 1;
      }
      j := j + 1;
    }
    ok := true;
  }

  /** For a simple graph the numbered edges fill the sum/2 columns exactly,
      and each row of the incidence matrix has the degree of its vertex. */
  lemma IncidenceOfSimple(m: Matrix, inc: Matrix)
    requires Square(m) && Simple(m) && Sum(RowCounts(m)) >= 0
    requires IsIncidence(inc, UpperEdges(m), |m|, Sum(RowCounts(m)) / 2)
    ensures |UpperEdges(m)| == Sum(RowCounts(m)) / 2
    ensures forall c :: 0 <= c < |UpperEdges(m)| ==> UpperEdges(m)[c].0 < UpperEdges(m)[c].1
    ensures RowCounts(inc) == RowCounts(m)
  {
    Handshake(m);
    UpperEdgesShape(m);
    var es := UpperEdges(m);
    forall c | 0 <= c < |es| ensures es[c].0 < es[c].1 {
      assert es[c] in es;
    }
    forall x | 0 <= x < |m| ensures Ones(inc[x]) == Ones(m[x]) {
      IncidenceRowOnes(m, inc, x);
    }
  }

  lemma IncidenceRowOnes(m: Matrix, inc: Matrix, x: nat)
    requires Square(m) && Simple(m) && x < |m|
    requires |UpperEdges(m)| == Sum(RowCounts(m)) / 2
    requires IsIncidence(inc, UpperEdges(m), |m|, |UpperEdges(m)|)
    ensures Ones(inc[x]) == Ones(m[x])
  {
    var es := UpperEdges(m);
    var row := inc[x];
    IncidenceRow(row, es, x, |es|);
    assert es[..|es|] == es;
    UpperEdgesTouch(m, x);
  }

  /** A row of the incidence matrix counts the edges with that end. */
  lemma {:induction false} IncidenceRow(row: seq<int>, es: seq<Edge>, x: nat, k: nat)
    requires k <= |es| == |row|
    requires forall c :: 0 <= c < |row| ==> row[c] == EndCell(es, x, c)
    ensures CountOnes(row, 0, k) == Touches(es[..k], x)
  {
    if k > 0 {
      IncidenceRow(row, es, x, k - 1);
      assert es[..k] == es[..k - 1] + [es[k - 1]];
      TouchesConcat(es[..k - 1], [es[k - 1]], x);
      assert Touches([es[k - 1]], x) == if es[k - 1].0 == x || es[k - 1].1 == x then 1 else 0 by {
        var one: seq<Edge> := [es[k - 1]];
        assert one[1..] == [];
      }
    } else {
      assert es[..0] == [];
    }
  }

  // ---- IncidenceToVector and IncidenceToAdjacency

  /** `IncidenceToVector` on a non-null matrix: vertex x has as many edges as
      row x has ones. */
  function IncidenceToVector(inc: Matrix): (d: seq<int>)
    ensures |d| == |inc|
    ensures forall x :: 0 <= x < |inc| ==> 0 <= d[x] == Ones(inc[x]) <= |inc[x]|
  {
    RowCounts(inc)
  }

  /** Reading an incidence matrix back: each vertex gets the number of
      numbered edges it is an end of. */
  lemma IncidenceCounts(inc: Matrix, es: seq<Edge>, n: nat, x: nat)
    requires IsIncidence(inc, es, n, |es|) && x < n
    ensures IncidenceToVector(inc)[x] == Touches(es, x)
  {
    IncidenceRow(inc[x], es, x, |es|);
    assert es[..|es|] == es;
  }

  /** `TryIncidenceToVector`: `null` is refused, and so is a count vector
      `CheckVectorGraphical` rejects. */
  function TryIncidenceToVector(inc: Option<Matrix>): (r: Result<seq<int>, Error>)
    ensures inc.None? ==> r == Failure(NullArgument)
    ensures r.Success? <==> inc.Some? && CheckVectorGraphical(Some(IncidenceToVector(inc.value)))
    ensures r.Success? ==> r.value == IncidenceToVector(inc.value)
  {
    if inc.None? then Failure(NullArgument)
    else if !VectorGraphical(IncidenceToVector(inc.value)) then Failure(NotGraphical)
    else Success(IncidenceToVector(inc.value))
  }

  /** `IncidenceToAdjacency` on a non-null matrix: the counted degrees are
      realised by `VectorToAdjacency`, so the result, when there is one, is a
      simple graph whose degrees are the counted ones. */
  method IncidenceToAdjacency(inc: Matrix) returns (r: Result<Matrix, Error>)
    ensures r.Success? <==> VectorGraphical(IncidenceToVector(inc))
    ensures r.Success? ==> |r.value| == |inc| && Square(r.value) && Simple(r.value)
    ensures r.Success? ==> AdjacencyToVector(r.value) == Success(IncidenceToVector(inc))
  {
    var d := IncidenceToVector(inc);
    r := Realise.VectorToAdjacency(d);
  }

  /** `TryIncidenceToAdjacency`: `null` and a non-graphical count vector are
      refused before the realisation. */
  method TryIncidenceToAdjacency(inc: Option<Matrix>) returns (r: Result<Matrix, Error>)
    ensures inc.None? ==> r == Failure(NullArgument)
    ensures inc.Some? ==> (r.Success? <==> VectorGraphical(IncidenceToVector(inc.value)))
    ensures inc.Some? && r.Failure? ==> r == Failure(NotGraphical)
    ensures r.Success? ==> Square(r.value) && Simple(r.value)
    ensures r.Success? ==> AdjacencyToVector(r.value) == Success(IncidenceToVector(inc.value))
  {
    var d :- TryIncidenceToVector(inc);
    r := Realise.VectorToAdjacency(d);
  }

  // ---- GetRibs

  /** The pair `GetRibs` adds for cell (i, j). */
  function Rib(i: nat, j: nat, inverse: bool): Edge {
    if inverse then (j, i) else (i, j)
  }

  /** The inner loop of `GetRibs` at row i: columns j-1 down to i+1. */
  function RowRibs(m: Matrix, i: nat, j: nat, inverse: bool): seq<Edge>
    requires Square(m) && i < |m| && j <= |m|
  {
    if j <= i + 1 then [] else (if m[i][j - 1] == 1 then [Rib(i, j - 1, inverse)] else []) + RowRibs(m, i, j - 1, inverse)
  }

  /** The outer loop of `GetRibs` over rows i..rows-1. */
  function RibsFrom(m: Matrix, i: nat, rows: nat, inverse: bool): seq<Edge>
    requires Square(m) && i <= rows <= |m|
    decreases rows - i
  {
    if i == rows then [] else RowRibs(m, i, |m|, inverse) + RibsFrom(m, i + 1, rows, inverse)
  }

  /** `GetRibs` as written: nothing for a matrix `CheckAdjacencyGraphical`
      rejects, otherwise the ones above the diagonal of the first half of
      the rows, row by row, each row from the last column backwards. */
  function GetRibs(m: Matrix, inverse: bool): (r: seq<Edge>)
    requires Square(m)
    ensures !CheckAdjacencyGraphical(m) ==> r == []
  {
    if !CheckAdjacencyGraphical(m) then [] else RibsFrom(m, 0, |m| / 2, inverse)
  }

  /** The corrected `GetRibs`: the same walk over every row. */
  function AllRibs(m: Matrix, inverse: bool): (r: seq<Edge>)
    requires Square(m)
    ensures !CheckAdjacencyGraphical(m) ==> r == []
  {
    if !CheckAdjacencyGraphical(m) then [] else RibsFrom(m, 0, |m|, inverse)
  }

  /** Each pair with its ends exchanged. */
  function Flip(es: seq<Edge>): (r: seq<Edge>)
    ensures |r| == |es| && forall k :: 0 <= k < |es| ==> r[k] == (es[k].1, es[k].0)
  {
    seq(|es|, k requires 0 <= k < |es| => (es[k].1, es[k].0))
  }

  lemma FlipConcat(a: seq<Edge>, b: seq<Edge>)
    ensures Flip(a + b) == Flip(a) + Flip(b)
  {
  }

  /** Order of the walk: rows ascending, columns descending within a row. */
  predicate RibBefore(a: Edge, b: Edge) {
    a.0 < b.0 || (a.0 == b.0 && a.1 > b.1)
  }

  lemma {:induction false} RowRibsShape(m: Matrix, i: nat, j: nat)
    requires Square(m) && i < |m| && j <= |m|
    ensures forall e {:trigger e in RowRibs(m, i, j, false)} :: e in RowRibs(m, i, j, false) <==> e.0 == i < e.1 < j && m[i][e.1] == 1
    ensures forall k, l :: 0 <= k < l < |RowRibs(m, i, j, false)| ==> RibBefore(RowRibs(m, i, j, false)[k], RowRibs(m, i, j, false)[l])
  {
    if j > i + 1 {
      RowRibsShape(m, i, j - 1);
      var head: seq<Edge> := if m[i][j - 1] == 1 then [(i, j - 1)] else [];
      var rest := RowRibs(m, i, j - 1, false);
      assert RowRibs(m, i, j, false) == head + rest;
      forall k, l | 0 <= k < l < |head + rest| ensures RibBefore((head + rest)[k], (head + rest)[l]) {
        assert (head + rest)[l] == rest[l - |head|] && rest[l - |head|] in rest;
        if |head| <= k {
          assert (head + rest)[k] == rest[k - |head|];
        }
      }
    }
  }

  lemma {:induction false} RowRibsFlip(m: Matrix, i: nat, j: nat)
    requires Square(m) && i < |m| && j <= |m|
    ensures RowRibs(m, i, j, true) == Flip(RowRibs(m, i, j, false))
  {
    if j > i + 1 {
      RowRibsFlip(m, i, j - 1);
      var head: seq<Edge> := if m[i][j - 1] == 1 then [(i, j - 1)] else [];
      FlipConcat(head, RowRibs(m, i, j - 1, false));
    }
  }

  lemma {:induction false} RibsFromShape(m: Matrix, i: nat, rows: nat)
    requires Square(m) && i <= rows <= |m|
    ensures forall e {:trigger e in RibsFrom(m, i, rows, false)} :: e in RibsFrom(m, i, rows, false) <==> i <= e.0 < rows && e.0 < e.1 < |m| && m[e.0][e.1] == 1
    ensures forall k, l :: 0 <= k < l < |RibsFrom(m, i, rows, false)| ==> RibBefore(RibsFrom(m, i, rows, false)[k], RibsFrom(m, i, rows, false)[l])
    decreases rows - i
  {
    if i < rows {
      RowRibsShape(m, i, |m|);
      RibsFromShape(m, i + 1, rows);
      var a := RowRibs(m, i, |m|, false);
      var b := RibsFrom(m, i + 1, rows, false);
      assert RibsFrom(m, i, rows, false) == a + b;
      forall k, l | 0 <= k < l < |a + b| ensures RibBefore((a + b)[k], (a + b)[l]) {
        if l < |a| {
          assert (a + b)[k] == a[k] && (a + b)[l] == a[l];
        } else if k < |a| {
          assert (a + b)[k] in a && (a + b)[l] in b;
        } else {
          assert (a + b)[k] == b[k - |a|] && (a + b)[l] == b[l - |a|];
        }
      }
    }
  }

  lemma {:induction false} RibsFromFlip(m: Matrix, i: nat, rows: nat)
    requires Square(m) && i <= rows <= |m|
    ensures RibsFrom(m, i, rows, true) == Flip(RibsFrom(m, i, rows, false))
    decreases rows - i
  {
    if i < rows {
      RowRibsFlip(m, i, |m|);
      RibsFromFlip(m, i + 1, rows);
      FlipConcat(RowRibs(m, i, |m|, false), RibsFrom(m, i + 1, rows, false));
    }
  }

  /** `GetRibs` as written lists exactly the ones above the diagonal in the
      first |m|/2 rows, in walk order; `inverse` exchanges the ends of each
      pair and changes nothing else. */
  lemma GetRibsShape(m: Matrix)
    requires Square(m)
    ensures forall e {:trigger e in GetRibs(m, false)} :: e in GetRibs(m, false) <==>
      CheckAdjacencyGraphical(m) && e.0 < |m| / 2 && e.0 < e.1 < |m| && m[e.0][e.1] == 1
    ensures forall k, l :: 0 <= k < l < |GetRibs(m, false)| ==> RibBefore(GetRibs(m, false)[k], GetRibs(m, false)[l])
    ensures GetRibs(m, true) == Flip(GetRibs(m, false))
  {
    RibsFromShape(m, 0, |m| / 2);
    RibsFromFlip(m, 0, |m| / 2);
  }

  /** The corrected walk lists every edge of a graphical matrix exactly once,
      smaller end first, and these are the edges `AdjacencyToIncidence`
      numbers, except loops on the diagonal. */
  lemma AllRibsShape(m: Matrix)
    requires Square(m)
    ensures forall e {:trigger e in AllRibs(m, false)} :: e in AllRibs(m, false) <==>
      CheckAdjacencyGraphical(m) && e.0 < e.1 < |m| && m[e.0][e.1] == 1
    ensures forall k, l :: 0 <= k < l < |AllRibs(m, false)| ==> RibBefore(AllRibs(m, false)[k], AllRibs(m, false)[l])
    ensures AllRibs(m, true) == Flip(AllRibs(m, false))
    ensures CheckAdjacencyGraphical(m) ==> forall e {:trigger e in AllRibs(m, false)} :: e in AllRibs(m, false) <==> e in UpperEdges(m) && e.0 != e.1
  {
    RibsFromShape(m, 0, |m|);
    RibsFromFlip(m, 0, |m|);
    UpperEdgesShape(m);
  }

  /** Four vertices, one edge joining vertices 2 and 3. */
  function LowerEdgeGraph(): (m: Matrix)
    ensures |m| == 4 && Square(m) && Simple(m) && m[2][3] == 1
  {
    [[0, 0, 0, 0], [0, 0, 0, 0], [0, 0, 0, 1], [0, 0, 1, 0]]
  }

  /** The vertex degrees of `LowerEdgeGraph`. */
  lemma LowerEdgeCounts()
    ensures RowCounts(LowerEdgeGraph()) == [0, 0, 1, 1]
  {
    var m := LowerEdgeGraph();
    assert Ones(m[0]) == 0 && Ones(m[1]) == 0 by {
      assert CountOnes(m[0], 0, 4) == CountOnes(m[0], 0, 3);
      assert CountOnes(m[1], 0, 4) == CountOnes(m[1], 0, 3);
    }
    assert Ones(m[2]) == 1 && Ones(m[3]) == 1 by {
      assert CountOnes(m[2], 0, 3) == 0;
      assert CountOnes(m[3], 0, 2) == 0;
    }
  }

  lemma LowerEdgeGraphical()
    ensures CheckAdjacencyGraphical(LowerEdgeGraph())
  {
    var m := LowerEdgeGraph();
    var d := [0, 0, 1, 1];
    LowerEdgeCounts();
    assert d[..3] == [0, 0, 1] && [0, 0, 1][..2] == [0, 0] && [0, 0][..1] == [0] && [0][..0] == [];
    assert Sum(d) == 2;
    var e := d[2 := 0][3 := 0];
    assert Sweep(d, 2, 3) == e;
    assert Settle(e, 3, false) == Success(e);
    assert Settle(d, 0, false).Success?;
  }

  /** `GetRibs` as written never visits row 2 of `LowerEdgeGraph` and lists
      nothing, while the corrected walk lists its edge. */
  lemma GetRibsMissesLowerRows()
    ensures CheckAdjacencyGraphical(LowerEdgeGraph())
    ensures GetRibs(LowerEdgeGraph(), false) == []
    ensures AllRibs(LowerEdgeGraph(), false) == [(2, 3)]
  {
    var m := LowerEdgeGraph();
    LowerEdgeGraphical();
    assert RowRibs(m, 0, 4, false) == [] && RowRibs(m, 1, 4, false) == [];
    assert RowRibs(m, 2, 4, false) == [(2, 3)] && RowRibs(m, 3, 4, false) == [];
  }

  /** `TryGetRibs`: `null` and a matrix `CheckAdjacencyGraphical` rejects are
      refused; otherwise the pairs `GetRibs` lists. */
  function TryGetRibs(m: Option<Matrix>, inverse: bool): (r: Result<seq<Edge>, Error>)
    requires m.Some? ==> Square(m.value)
    ensures m.None? ==> r == Failure(NullArgument)
    ensures r.Success? <==> m.Some? && CheckAdjacencyGraphical(m.value)
    ensures r.Success? ==> r.value == GetRibs(m.value, inverse)
    ensures m.Some? && r.Failure? ==> r == Failure(NotGraphical)
  {
    if m.None? then Failure(NullArgument)
    else if !CheckAdjacencyGraphical(m.value) then Failure(NotGraphical)
    else Success(GetRibs(m.value, inverse))
  }
}

=== FILE: kruskal.dfy ===
/** Kruskal's minimum spanning tree of Graphs/Graphs.py
    (`minimum_spanning_tree_kruskal`): the two refusals, the edge list sorted
    by weight, the union-find with path compression and union by rank, and the
    scan that keeps an edge whenever `union` joins two classes.

    The union-find is checked against a reference that knows nothing of
    parents and ranks: the classes of a forest grown edge by edge, kept as one
    label per vertex.  A list of edges is acyclic when each edge, in turn,
    joins two different classes of the edges before it. */
module Kruskal {
  import opened Wrappers
  import opened GraphLists
  import Reach
  import Sorting

  /** An edge `(u, v, w)` of `list_of_edges`, its ends numbered from 1. */
  type Arc = (int, int, int)

  function WeightOf(e: Arc): int {
    e.2
  }

  /** The sum of the weights of `es`. */
  function Weight(es: seq<Arc>): int {
    if |es| == 0 then 0 else Weight(es[..|es| - 1]) + es[|es| - 1].2
  }

  /** Both ends of every edge are vertices 1..n. */
  predicate Arcs(es: seq<Arc>, n: nat) {
    forall i :: 0 <= i < |es| ==> 1 <= es[i].0 <= n && 1 <= es[i].1 <= n
  }

  // ---- the edge list

  /** `list_of_edges()` from vertex u on: `(x, v, w)` for every entry `(v, w)`
      of the list of x, lists in vertex order. */
  function EdgeList(g: Lists, u: nat): (es: seq<Arc>)
    requires WellFormed(g) && u <= |g|
    ensures Arcs(es, |g|)
    decreases |g| - u
  {
    if u == |g| then []
    else seq(|g[u]|, k requires 0 <= k < |g[u]| => (u + 1, g[u][k].0, g[u][k].1)) + EdgeList(g, u + 1)
  }

  /** Every list entry is an edge of the list, and every edge is an entry. */
  lemma {:induction false} EdgeListIff(g: Lists, u: nat, e: Arc)
    requires WellFormed(g) && u <= |g|
    ensures e in EdgeList(g, u) <==> exists x, k :: u <= x < |g| && 0 <= k < |g[x]| && e == (x + 1, g[x][k].0, g[x][k].1)
    decreases |g| - u
  {
    if u < |g| {
      EdgeListIff(g, u + 1, e);
      var row := seq(|g[u]|, k requires 0 <= k < |g[u]| => (u + 1, g[u][k].0, g[u][k].1));
      if e in row {
        var k :| 0 <= k < |row| && row[k] == e;
        assert e == (u + 1, g[u][k].0, g[u][k].1);
      }
      if exists x, k :: u <= x < |g| && 0 <= k < |g[x]| && e == (x + 1, g[x][k].0, g[x][k].1) {
        var x, k :| u <= x < |g| && 0 <= k < |g[x]| && e == (x + 1, g[x][k].0, g[x][k].1);
        if x == u {
          assert row[k] == e;
        }
      }
    }
  }

  /** The edges in the order the loop scans them: `edges.sort(key=…)`, a
      stable sort by weight. */
  function Scan(g: Lists): (es: seq<Arc>)
    requires WellFormed(g)
    ensures Arcs(es, |g|)
  {
    var es := Sorting.Sort(EdgeList(g, 0), WeightOf);
    SameArcs(EdgeList(g, 0), es, |g|);
    es
  }

  lemma SameArcs(s: seq<Arc>, t: seq<Arc>, n: nat)
    requires Arcs(s, n) && multiset(t) == multiset(s)
    ensures Arcs(t, n)
  {
    forall i | 0 <= i < |t| ensures 1 <= t[i].0 <= n && 1 <= t[i].1 <= n {
      assert t[i] in multiset(s);
      var j :| 0 <= j < |s| && s[j] == t[i];
    }
  }

  /** The scan order: the same edges as `list_of_edges()`, in non-decreasing
      weight, and edges of equal weight in their order in the lists. */
  lemma ScanOrder(g: Lists, w: int)
    requires WellFormed(g)
    ensures multiset(Scan(g)) == multiset(EdgeList(g, 0))
    ensures forall i, j :: 0 <= i < j < |Scan(g)| ==> Scan(g)[i].2 <= Scan(g)[j].2
    ensures Sorting.Filter(Scan(g), WeightOf, w) == Sorting.Filter(EdgeList(g, 0), WeightOf, w)
  {
    var s := Scan(g);
    assert Sorting.SortedBy(s, WeightOf);
    forall i, j | 0 <= i < j < |s| ensures s[i].2 <= s[j].2 {
      assert WeightOf(s[i]) <= WeightOf(s[j]);
    }
    Sorting.SortStable(EdgeList(g, 0), WeightOf, w);
  }

  // ---- the union-find

  /** `parent`/`rank` over vertices 0..n-1: each parent is a vertex, and rank
      strictly grows from a vertex to its parent, so parent chains end. */
  predicate Forest(parent: seq<nat>, rank: seq<nat>) {
    && |rank| == |parent|
    && forall x {:trigger parent[x]} :: 0 <= x < |parent| ==> parent[x] < |parent| && (parent[x] != x ==> rank[x] < rank[parent[x]])
  }

  /** A bound on every rank. */
  function Top(rank: seq<nat>): (t: nat)
    ensures forall x :: 0 <= x < |rank| ==> rank[x] <= t
  {
    if |rank| == 0 then 0
    else
      var t := Top(rank[..|rank| - 1]);
      assert forall x :: 0 <= x < |rank| - 1 ==> rank[x] == rank[..|rank| - 1][x];
      if rank[|rank| - 1] > t then rank[|rank| - 1] else t
  }

  /** The root that the parent chain from x ends in: a vertex that is its own
      parent, of rank above x's unless it is x. */
  function Root(parent: seq<nat>, rank: seq<nat>, x: nat): (r: nat)
    requires Forest(parent, rank) && x < |parent|
    ensures r < |parent| && parent[r] == r
    ensures parent[x] == x ==> r == x
    ensures parent[x] != x ==> rank[x] < rank[r]
    decreases Top(rank) - rank[x]
  {
    if parent[x] == x then x else Root(parent, rank, parent[x])
  }

  /** p and q send every vertex to the same root. */
  predicate SameRoots(p: seq<nat>, q: seq<nat>, rank: seq<nat>)
    requires Forest(p, rank) && Forest(q, rank)
  {
    forall x {:trigger SameRoot(p, q, rank, x)} :: 0 <= x < |p| ==> SameRoot(p, q, rank, x)
  }

  /** p and q send x to the same root. */
  predicate SameRoot(p: seq<nat>, q: seq<nat>, rank: seq<nat>, x: nat)
    requires Forest(p, rank) && Forest(q, rank) && x < |p|
  {
    Root(p, rank, x) == Root(q, rank, x)
  }

  /** Pointing u straight at its own root keeps a forest and changes no
      vertex's root. */
  lemma {:induction false} Redirect(p: seq<nat>, rank: seq<nat>, u: nat, x: nat)
    requires Forest(p, rank) && u < |p| && p[u] != u && x < |p|
    ensures Forest(p[u := Root(p, rank, u)], rank)
    ensures Root(p[u := Root(p, rank, u)], rank, x) == Root(p, rank, x)
    decreases Top(rank) - rank[x]
  {
    var root := Root(p, rank, u);
    var q := p[u := root];
    assert Forest(q, rank);
    if x == u {
      assert Root(q, rank, root) == root;
    } else if p[x] != x {
      Redirect(p, rank, u, p[x]);
    }
  }

  /** One step of path compression: once the rest of the path keeps every
      root, pointing u at its root keeps them too. */
  lemma Compressed(parent: seq<nat>, p: seq<nat>, rank: seq<nat>, u: nat)
    requires Forest(parent, rank) && Forest(p, rank) && |p| == |parent| && SameRoots(parent, p, rank)
    requires u < |parent| && parent[u] != u
    ensures Forest(p[u := Root(parent, rank, u)], rank)
    ensures SameRoots(parent, p[u := Root(parent, rank, u)], rank)
  {
    assert SameRoot(parent, p, rank, u);
    Redirect(p, rank, u, u);
    var q := p[u := Root(parent, rank, u)];
    forall x | 0 <= x < |parent| ensures SameRoot(parent, q, rank, x) {
      assert SameRoot(parent, p, rank, x);
      Redirect(p, rank, u, x);
    }
  }

  /** `find(u)`: the root of u, and the parents after path compression, which
      send every vertex to the root it had. */
  function Find(parent: seq<nat>, rank: seq<nat>, u: nat): (r: (nat, seq<nat>))
    requires Forest(parent, rank) && u < |parent|
    ensures r.0 == Root(parent, rank, u)
    ensures |r.1| == |parent| && Forest(r.1, rank) && SameRoots(parent, r.1, rank)
    decreases Top(rank) - rank[u]
  {
    if parent[u] == u then (u, parent)
    else
      var (root, p) := Find(parent, rank, parent[u]);
      Compressed(parent, p, rank, u);
      (root, p[u := root])
  }

  /** Hanging root `child` under root `top` (whose rank may have grown to
      `rank'`) keeps a forest, moves child's class into top's and leaves
      every other vertex's root alone. */
  lemma {:induction false} Hang(p: seq<nat>, rank: seq<nat>, rank': seq<nat>, child: nat, top: nat, x: nat)
    requires Forest(p, rank) && child < |p| && top < |p| && child != top
    requires p[child] == child && p[top] == top
    requires |rank'| == |rank| && rank[top] <= rank'[top] && rank'[child] < rank'[top]
    requires forall y :: 0 <= y < |rank| && y != top ==> rank'[y] == rank[y]
    requires x < |p|
    ensures Forest(p[child := top], rank')
    ensures Root(p[child := top], rank', x) == if Root(p, rank, x) == child then top else Root(p, rank, x)
    decreases Top(rank) - rank[x]
  {
    var q := p[child := top];
    forall y | 0 <= y < |q| ensures q[y] < |q| && (q[y] != y ==> rank'[y] < rank'[q[y]]) {
      if y != child && q[y] != y {
        assert rank'[p[y]] >= rank[p[y]];
      }
    }
    if x == child {
      assert Root(q, rank', top) == top;
    } else if p[x] != x {
      Hang(p, rank, rank', child, top, p[x]);
    }
  }

  /** The linking step of `union` on two roots: false when they are the same
      root; otherwise the root of lower rank is hung under the other, and on
      a tie rv goes under ru, whose rank grows by one. */
  function Link(p: seq<nat>, rank: seq<nat>, ru: nat, rv: nat): (r: (bool, seq<nat>, seq<nat>))
    requires Forest(p, rank) && ru < |p| && rv < |p| && p[ru] == ru && p[rv] == rv
    ensures |r.1| == |p| && Forest(r.1, r.2)
    ensures r.0 <==> ru != rv
  {
    if ru == rv then (false, p, rank)
    else if rank[ru] < rank[rv] then
      Hang(p, rank, rank, ru, rv, ru);
      (true, p[ru := rv], rank)
    else
      var rank' := if rank[ru] == rank[rv] then rank[ru := rank[ru] + 1] else rank;
      Hang(p, rank, rank', rv, ru, rv);
      (true, p[rv := ru], rank')
  }

  /** Linking merges the classes of ru and rv and leaves the others alone. */
  lemma LinkClasses(p: seq<nat>, rank: seq<nat>, ru: nat, rv: nat, x: nat)
    requires Forest(p, rank) && ru < |p| && rv < |p| && p[ru] == ru && p[rv] == rv && x < |p|
    ensures Root(Link(p, rank, ru, rv).1, Link(p, rank, ru, rv).2, x) ==
      if Root(p, rank, x) == ru || Root(p, rank, x) == rv then Root(Link(p, rank, ru, rv).1, Link(p, rank, ru, rv).2, ru)
      else Root(p, rank, x)
  {
    if ru != rv {
      if rank[ru] < rank[rv] {
        Hang(p, rank, rank, ru, rv, x);
        Hang(p, rank, rank, ru, rv, ru);
      } else {
        var rank' := if rank[ru] == rank[rv] then rank[ru := rank[ru] + 1] else rank;
        Hang(p, rank, rank', rv, ru, x);
        Hang(p, rank, rank', rv, ru, ru);
      }
    }
  }

  /** Two vertices share a root. */
  predicate Together(parent: seq<nat>, rank: seq<nat>, x: nat, y: nat)
    requires Forest(parent, rank) && x < |parent| && y < |parent|
  {
    Root(parent, rank, x) == Root(parent, rank, y)
  }

  /** x and y are together once the classes of u and v are merged. */
  predicate Merged(parent: seq<nat>, rank: seq<nat>, u: nat, v: nat, x: nat, y: nat)
    requires Forest(parent, rank) && u < |parent| && v < |parent| && x < |parent| && y < |parent|
  {
    || Together(parent, rank, x, y)
    || ((Together(parent, rank, x, u) || Together(parent, rank, x, v))
        && (Together(parent, rank, y, u) || Together(parent, rank, y, v)))
  }

  /** `(b, p, rk)` is what `union(u, v)` leaves: a forest on the same
      vertices, `b` telling whether u and v were apart, and the classes of u
      and v merged with no other class changed. */
  ghost predicate Unioned(parent: seq<nat>, rank: seq<nat>, u: nat, v: nat, b: bool, p: seq<nat>, rk: seq<nat>)
    requires Forest(parent, rank) && u < |parent| && v < |parent|
  {
    && |p| == |parent| && Forest(p, rk)
    && (b <==> !Together(parent, rank, u, v))
    && forall x, y {:trigger Together(p, rk, x, y)} :: 0 <= x < |p| && 0 <= y < |p| ==>
      (Together(p, rk, x, y) <==> Merged(parent, rank, u, v, x, y))
  }

  /** `union(u, v)`: both `find`s, then the linking step on the two roots;
      the classes of u and v are merged and no other class changes. */
  method Union(parent: seq<nat>, rank: seq<nat>, u: nat, v: nat) returns (joined: bool, parent': seq<nat>, rank': seq<nat>)
    requires Forest(parent, rank) && u < |parent| && v < |parent|
    ensures Unioned(parent, rank, u, v, joined, parent', rank')
  {
    var (ru, p1) := Find(parent, rank, u);
    var (rv, p2) := Find(p1, rank, v);
    assert SameRoot(parent, p1, rank, u) && SameRoot(p1, p2, rank, u);
    assert SameRoot(parent, p1, rank, v) && SameRoot(p1, p2, rank, v);
    assert SameRoot(parent, p1, rank, ru) && SameRoot(p1, p2, rank, ru);
    assert SameRoot(parent, p1, rank, rv) && SameRoot(p1, p2, rank, rv);
    var r := Link(p2, rank, ru, rv);
    joined, parent', rank' := r.0, r.1, r.2;
    forall x, y | 0 <= x < |parent| && 0 <= y < |parent|
      ensures Together(parent', rank', x, y) <==> Merged(parent, rank, u, v, x, y)
    {
      UnionClasses(parent, rank, u, v, ru, p1, rv, p2, x, y);
    }
  }

  /** After both `find`s and the linking step, x and y share a root exactly
      when they did before, or each was with u or with v. */
  lemma UnionClasses(parent: seq<nat>, rank: seq<nat>, u: nat, v: nat, ru: nat, p1: seq<nat>, rv: nat, p2: seq<nat>, x: nat, y: nat)
    requires Forest(parent, rank) && u < |parent| && v < |parent| && x < |parent| && y < |parent|
    requires Forest(p1, rank) && |p1| == |parent| && SameRoots(parent, p1, rank) && ru == Root(parent, rank, u)
    requires Forest(p2, rank) && |p2| == |parent| && SameRoots(p1, p2, rank) && rv == Root(p1, rank, v)
    requires p2[ru] == ru && p2[rv] == rv
    ensures Together(Link(p2, rank, ru, rv).1, Link(p2, rank, ru, rv).2, x, y) <==> Merged(parent, rank, u, v, x, y)
  {
    assert SameRoot(parent, p1, rank, x) && SameRoot(p1, p2, rank, x);
    assert SameRoot(parent, p1, rank, y) && SameRoot(p1, p2, rank, y);
    assert SameRoot(parent, p1, rank, u) && SameRoot(p1, p2, rank, u);
    assert SameRoot(parent, p1, rank, v) && SameRoot(p1, p2, rank, v);
    assert SameRoot(parent, p1, rank, ru) && SameRoot(p1, p2, rank, ru);
    LinkClasses(p2, rank, ru, rv, x);
    LinkClasses(p2, rank, ru, rv, y);
  }

  // ---- the reference: a forest grown edge by edge

  /** The classes of the edges `es` on vertices 0..n-1, as one label per
      vertex: every vertex starts alone, and each edge in turn gives the class
      of its first end the label of its second end's class. */
  function Labels(es: seq<Arc>, n: nat): (lab: seq<nat>)
    requires Arcs(es, n)
    ensures |lab| == n
  {
    if |es| == 0 then seq(n, x => x)
    else
      var lab := Labels(es[..|es| - 1], n);
      var e := es[|es| - 1];
      seq(n, x requires 0 <= x < n => if lab[x] == lab[e.0 - 1] then lab[e.1 - 1] else lab[x])
  }

  /** An edge merges the classes of its ends and nothing else. */
  lemma LabelsMerge(es: seq<Arc>, e: Arc, n: nat, x: nat, y: nat)
    requires Arcs(es, n) && Arcs(es + [e], n) && 1 <= e.0 <= n && 1 <= e.1 <= n && x < n && y < n
    ensures Labels(es + [e], n)[x] == Labels(es + [e], n)[y] <==>
      || Labels(es, n)[x] == Labels(es, n)[y]
      || ((Labels(es, n)[x] == Labels(es, n)[e.0 - 1] || Labels(es, n)[x] == Labels(es, n)[e.1 - 1])
          && (Labels(es, n)[y] == Labels(es, n)[e.0 - 1] || Labels(es, n)[y] == Labels(es, n)[e.1 - 1]))
  {
    var es' := es + [e];
    assert es'[..|es'| - 1] == es;
    assert es'[|es'| - 1] == e;
  }

  /** Edge i joins two different classes of the edges before it. */
  predicate Joins(es: seq<Arc>, n: nat, i: nat)
    requires Arcs(es, n) && i < |es|
  {
    var before := es[..i];
    Labels(before, n)[es[i].0 - 1] != Labels(before, n)[es[i].1 - 1]
  }

  /** Each edge, in turn, joins two different classes of the edges before it. */
  predicate Acyclic(es: seq<Arc>, n: nat)
    requires Arcs(es, n)
  {
    forall i :: 0 <= i < |es| ==> Joins(es, n, i)
  }

  /** The labels in use: one per class. */
  function Classes(lab: seq<nat>): set<nat> {
    set x | 0 <= x < |lab| :: lab[x]
  }

  /** An edge between two classes leaves one class fewer. */
  lemma ClassesJoin(es: seq<Arc>, n: nat)
    requires Arcs(es, n) && |es| > 0
    requires var lab := Labels(es[..|es| - 1], n);
      lab[es[|es| - 1].0 - 1] != lab[es[|es| - 1].1 - 1]
    ensures |Classes(Labels(es, n))| + 1 == |Classes(Labels(es[..|es| - 1], n))|
  {
    var lab := Labels(es[..|es| - 1], n);
    var lab' := Labels(es, n);
    var a := es[|es| - 1].0 - 1;
    assert Classes(lab') == Classes(lab) - {lab[a]} by {
      forall c | c in Classes(lab) - {lab[a]} ensures c in Classes(lab') {
        var x :| 0 <= x < n && lab[x] == c;
        assert lab'[x] == c;
      }
    }
    assert lab[a] in Classes(lab);
  }

  /** A forest with k edges on n vertices has n - k trees. */
  lemma {:induction false} ForestClasses(es: seq<Arc>, n: nat)
    requires Arcs(es, n) && Acyclic(es, n)
    ensures |Classes(Labels(es, n))| + |es| == n
  {
    if |es| == 0 {
      assert Classes(Labels(es, n)) == Reach.Vertices(n) by {
        forall x: nat | x < n ensures x in Classes(Labels(es, n)) {
          assert Labels(es, n)[x] == x;
        }
      }
      Reach.VerticesCount(n);
    } else {
      var front := es[..|es| - 1];
      assert Acyclic(front, n) by {
        forall i | 0 <= i < |front| ensures Joins(front, n, i) {
          assert Joins(es, n, i);
          assert front[..i] == es[..i];
        }
      }
      ForestClasses(front, n);
      assert Joins(es, n, |es| - 1);
      ClassesJoin(es, n);
    }
  }

  // ---- the scan

  /** x and y share a root exactly when they share a label. */
  predicate Agree(parent: seq<nat>, rank: seq<nat>, lab: seq<nat>, x: nat, y: nat)
    requires Forest(parent, rank) && |lab| == |parent| && x < |parent| && y < |parent|
  {
    Together(parent, rank, x, y) <==> lab[x] == lab[y]
  }

  /** The union-find classes are the classes of the kept edges. */
  ghost predicate Agrees(parent: seq<nat>, rank: seq<nat>, mst: seq<Arc>, n: nat)
    requires Forest(parent, rank) && |parent| == n && Arcs(mst, n)
  {
    forall x, y {:trigger Agree(parent, rank, Labels(mst, n), x, y)} :: 0 <= x < n && 0 <= y < n ==>
      Agree(parent, rank, Labels(mst, n), x, y)
  }

  /** The ends of edge j share a root. */
  predicate Inside(parent: seq<nat>, rank: seq<nat>, es: seq<Arc>, j: nat)
    requires Forest(parent, rank) && Arcs(es, |parent|) && j < |es|
  {
    Together(parent, rank, es[j].0 - 1, es[j].1 - 1)
  }

  /** Every edge before i lies inside one class. */
  ghost predicate AllInside(parent: seq<nat>, rank: seq<nat>, es: seq<Arc>, i: nat)
    requires Forest(parent, rank) && Arcs(es, |parent|) && i <= |es|
  {
    forall j {:trigger Inside(parent, rank, es, j)} :: 0 <= j < i ==> Inside(parent, rank, es, j)
  }

  /** The state of the loop before edge i: the union-find classes are the
      classes of the kept edges, which form a forest of edges already scanned
      whose weights sum to the running total, and every scanned edge lies
      inside one class. */
  ghost predicate Scanned(es: seq<Arc>, i: nat, n: nat, parent: seq<nat>, rank: seq<nat>, mst: seq<Arc>, total: int) {
    && Arcs(es, n) && i <= |es| && Forest(parent, rank) && |parent| == n
    && Arcs(mst, n) && Acyclic(mst, n) && total == Weight(mst)
    && (forall e :: e in mst ==> e in es)
    && Agrees(parent, rank, mst, n)
    && AllInside(parent, rank, es, i)
  }

  /** The state before the first edge: every vertex its own root. */
  lemma Start(es: seq<Arc>, n: nat)
    requires Arcs(es, n)
    ensures Forest(seq(n, x => x), seq(n, _ => 0))
    ensures Scanned(es, 0, n, seq(n, x => x), seq(n, _ => 0), [], 0)
  {
    var parent: seq<nat> := seq(n, x => x);
    var rank: seq<nat> := seq(n, _ => 0);
    forall x, y | 0 <= x < n && 0 <= y < n ensures Agree(parent, rank, Labels([], n), x, y) {
      assert Root(parent, rank, x) == x && Root(parent, rank, y) == y;
    }
    assert Agrees(parent, rank, [], n);
  }

  /** Union-find classes and label classes agree after a `union(u, v)` that
      keeps its edge when they agreed before. */
  lemma StepKept(parent: seq<nat>, rank: seq<nat>, mst: seq<Arc>, e: Arc, n: nat, p: seq<nat>, rk: seq<nat>, x: nat, y: nat)
    requires Forest(parent, rank) && |parent| == n && x < n && y < n
    requires 1 <= e.0 <= n && 1 <= e.1 <= n && Arcs(mst, n) && Arcs(mst + [e], n)
    requires Agree(parent, rank, Labels(mst, n), x, y)
    requires Agree(parent, rank, Labels(mst, n), x, e.0 - 1) && Agree(parent, rank, Labels(mst, n), x, e.1 - 1)
    requires Agree(parent, rank, Labels(mst, n), y, e.0 - 1) && Agree(parent, rank, Labels(mst, n), y, e.1 - 1)
    requires Unioned(parent, rank, (e.0 - 1) as nat, (e.1 - 1) as nat, true, p, rk)
    ensures Forest(p, rk) && |p| == n
    ensures Together(p, rk, x, y) <==> Labels(mst + [e], n)[x] == Labels(mst + [e], n)[y]
  {
    var u, v := (e.0 - 1) as nat, (e.1 - 1) as nat;
    var lab := Labels(mst, n);
    var lab' := Labels(mst + [e], n);
    var before := Together(parent, rank, x, y) || ((Together(parent, rank, x, u) || Together(parent, rank, x, v))
      && (Together(parent, rank, y, u) || Together(parent, rank, y, v)));
    assert before <==> lab[x] == lab[y] || ((lab[x] == lab[u] || lab[x] == lab[v]) && (lab[y] == lab[u] || lab[y] == lab[v]));
    assert Together(p, rk, x, y) <==> Merged(parent, rank, u, v, x, y);
    LabelsMerge(mst, e, n, x, y);
  }

  /** Union-find classes and label classes agree after a `union(u, v)` that
      drops its edge when they agreed before. */
  lemma StepDropped(parent: seq<nat>, rank: seq<nat>, mst: seq<Arc>, e: Arc, n: nat, p: seq<nat>, rk: seq<nat>, x: nat, y: nat)
    requires Forest(parent, rank) && |parent| == n && x < n && y < n
    requires 1 <= e.0 <= n && 1 <= e.1 <= n && Arcs(mst, n)
    requires Agree(parent, rank, Labels(mst, n), x, y)
    requires Unioned(parent, rank, (e.0 - 1) as nat, (e.1 - 1) as nat, false, p, rk)
    ensures Forest(p, rk) && |p| == n
    ensures Together(p, rk, x, y) <==> Labels(mst, n)[x] == Labels(mst, n)[y]
  {
    var u, v := (e.0 - 1) as nat, (e.1 - 1) as nat;
    assert Together(p, rk, x, y) <==> Merged(parent, rank, u, v, x, y);
  }

  /** A kept edge joins two classes of the edges kept before it. */
  lemma StepAcyclic(mst: seq<Arc>, e: Arc, n: nat)
    requires 1 <= e.0 <= n && 1 <= e.1 <= n && Arcs(mst, n) && Arcs(mst + [e], n) && Acyclic(mst, n)
    requires Labels(mst, n)[e.0 - 1] != Labels(mst, n)[e.1 - 1]
    ensures Acyclic(mst + [e], n)
  {
    var mst' := mst + [e];
    forall k | 0 <= k < |mst'| ensures Joins(mst', n, k) {
      if k < |mst| {
        JoinsKept(mst, e, n, k);
      } else {
        JoinsNew(mst, e, n);
      }
    }
  }

  /** The appended edge joins two classes exactly when its ends are labelled
      apart by the edges before it. */
  lemma JoinsNew(mst: seq<Arc>, e: Arc, n: nat)
    requires 1 <= e.0 <= n && 1 <= e.1 <= n && Arcs(mst, n) && Arcs(mst + [e], n)
    requires Labels(mst, n)[e.0 - 1] != Labels(mst, n)[e.1 - 1]
    ensures Joins(mst + [e], n, |mst|)
  {
    var mst' := mst + [e];
    assert mst'[..|mst|] == mst;
    assert mst'[|mst|] == e;
  }

  /** Appending an edge leaves the earlier edges' verdicts alone. */
  lemma JoinsKept(mst: seq<Arc>, e: Arc, n: nat, k: nat)
    requires Arcs(mst, n) && Arcs(mst + [e], n) && k < |mst| && Joins(mst, n, k)
    ensures Joins(mst + [e], n, k)
  {
    var mst' := mst + [e];
    assert mst'[..k] == mst[..k];
    assert Labels(mst'[..k], n) == Labels(mst[..k], n);
    assert mst'[k] == mst[k];
  }

  /** A `union` on edge e that joins two classes keeps the union-find
      classes equal to the classes of the kept edges, e now among them. */
  lemma AgreesJoin(parent: seq<nat>, rank: seq<nat>, mst: seq<Arc>, e: Arc, n: nat, p: seq<nat>, rk: seq<nat>)
    requires Forest(parent, rank) && |parent| == n
    requires 1 <= e.0 <= n && 1 <= e.1 <= n && Arcs(mst, n) && Arcs(mst + [e], n)
    requires Agrees(parent, rank, mst, n)
    requires Unioned(parent, rank, (e.0 - 1) as nat, (e.1 - 1) as nat, true, p, rk)
    ensures Forest(p, rk) && |p| == n
    ensures Agrees(p, rk, mst + [e], n)
  {
    var u, v := (e.0 - 1) as nat, (e.1 - 1) as nat;
    var lab := Labels(mst, n);
    forall x, y | 0 <= x < n && 0 <= y < n ensures Agree(p, rk, Labels(mst + [e], n), x, y) {
      assert Agree(parent, rank, lab, x, y);
      assert Agree(parent, rank, lab, x, u) && Agree(parent, rank, lab, x, v);
      assert Agree(parent, rank, lab, y, u) && Agree(parent, rank, lab, y, v);
      StepKept(parent, rank, mst, e, n, p, rk, x, y);
    }
  }

  /** A `union` on edge e that finds its ends together changes no class. */
  lemma AgreesSkip(parent: seq<nat>, rank: seq<nat>, mst: seq<Arc>, e: Arc, n: nat, p: seq<nat>, rk: seq<nat>)
    requires Forest(parent, rank) && |parent| == n
    requires 1 <= e.0 <= n && 1 <= e.1 <= n && Arcs(mst, n)
    requires Agrees(parent, rank, mst, n)
    requires Unioned(parent, rank, (e.0 - 1) as nat, (e.1 - 1) as nat, false, p, rk)
    ensures Forest(p, rk) && |p| == n
    ensures Agrees(p, rk, mst, n)
  {
    var u, v := (e.0 - 1) as nat, (e.1 - 1) as nat;
    forall x, y | 0 <= x < n && 0 <= y < n ensures Agree(p, rk, Labels(mst, n), x, y) {
      assert Agree(parent, rank, Labels(mst, n), x, y);
      StepDropped(parent, rank, mst, e, n, p, rk, x, y);
    }
  }

  /** After `union` on edge i, every edge up to i lies inside one class. */
  lemma AllInsideAfter(parent: seq<nat>, rank: seq<nat>, es: seq<Arc>, i: nat, b: bool, p: seq<nat>, rk: seq<nat>)
    requires Forest(parent, rank) && Arcs(es, |parent|) && i < |es|
    requires AllInside(parent, rank, es, i)
    requires Unioned(parent, rank, (es[i].0 - 1) as nat, (es[i].1 - 1) as nat, b, p, rk)
    ensures Forest(p, rk) && |p| == |parent|
    ensures AllInside(p, rk, es, i + 1)
  {
    forall j | 0 <= j < i + 1 ensures Inside(p, rk, es, j) {
      if j < i {
        assert Inside(parent, rank, es, j);
        InsideKept(parent, rank, es, i, j, b, p, rk);
      } else {
        InsideNew(parent, rank, es, i, b, p, rk);
      }
    }
  }

  /** An edge inside one class stays inside one after `union` on edge i. */
  lemma InsideKept(parent: seq<nat>, rank: seq<nat>, es: seq<Arc>, i: nat, j: nat, b: bool, p: seq<nat>, rk: seq<nat>)
    requires Forest(parent, rank) && Arcs(es, |parent|) && i < |es| && j < i
    requires Unioned(parent, rank, (es[i].0 - 1) as nat, (es[i].1 - 1) as nat, b, p, rk)
    requires Inside(parent, rank, es, j)
    ensures Forest(p, rk) && |p| == |parent| && Inside(p, rk, es, j)
  {
    var a, c := (es[j].0 - 1) as nat, (es[j].1 - 1) as nat;
    assert Together(p, rk, a, c) <==> Merged(parent, rank, (es[i].0 - 1) as nat, (es[i].1 - 1) as nat, a, c);
  }

  /** Edge i lies inside one class after `union` on it. */
  lemma InsideNew(parent: seq<nat>, rank: seq<nat>, es: seq<Arc>, i: nat, b: bool, p: seq<nat>, rk: seq<nat>)
    requires Forest(parent, rank) && Arcs(es, |parent|) && i < |es|
    requires Unioned(parent, rank, (es[i].0 - 1) as nat, (es[i].1 - 1) as nat, b, p, rk)
    ensures Forest(p, rk) && |p| == |parent| && Inside(p, rk, es, i)
  {
    var u, v := (es[i].0 - 1) as nat, (es[i].1 - 1) as nat;
    assert Together(p, rk, u, v) <==> Merged(parent, rank, u, v, u, v);
  }

  /** The kept list, its weight and its membership after a kept edge. */
  lemma StepKeep(es: seq<Arc>, i: nat, n: nat, mst: seq<Arc>, total: int)
    requires Arcs(es, n) && i < |es| && Arcs(mst, n) && total == Weight(mst)
    requires forall e :: e in mst ==> e in es
    ensures Arcs(mst + [es[i]], n) && total + es[i].2 == Weight(mst + [es[i]])
    ensures forall e :: e in mst + [es[i]] ==> e in es
  {
    var mst' := mst + [es[i]];
    assert mst'[..|mst'| - 1] == mst;
    forall k | 0 <= k < |mst'| ensures 1 <= mst'[k].0 <= n && 1 <= mst'[k].1 <= n {
      if k < |mst| {
        assert mst'[k] == mst[k];
      }
    }
  }

  /** Passing edge i with a `union` that joins two classes keeps the state,
      the edge kept. */
  lemma StepJoin(es: seq<Arc>, i: nat, n: nat, parent: seq<nat>, rank: seq<nat>, mst: seq<Arc>, total: int, p: seq<nat>, rk: seq<nat>)
    requires Scanned(es, i, n, parent, rank, mst, total) && i < |es|
    requires Unioned(parent, rank, (es[i].0 - 1) as nat, (es[i].1 - 1) as nat, true, p, rk)
    ensures Scanned(es, i + 1, n, p, rk, mst + [es[i]], total + es[i].2)
  {
    var e := es[i];
    StepKeep(es, i, n, mst, total);
    assert Agree(parent, rank, Labels(mst, n), (e.0 - 1) as nat, (e.1 - 1) as nat);
    StepAcyclic(mst, e, n);
    AgreesJoin(parent, rank, mst, e, n, p, rk);
    AllInsideAfter(parent, rank, es, i, true, p, rk);
  }

  /** Passing edge i with a `union` that finds its ends together keeps the
      state, the edge dropped. */
  lemma StepSkip(es: seq<Arc>, i: nat, n: nat, parent: seq<nat>, rank: seq<nat>, mst: seq<Arc>, total: int, p: seq<nat>, rk: seq<nat>)
    requires Scanned(es, i, n, parent, rank, mst, total) && i < |es|
    requires Unioned(parent, rank, (es[i].0 - 1) as nat, (es[i].1 - 1) as nat, false, p, rk)
    ensures Scanned(es, i + 1, n, p, rk, mst, total)
  {
    AgreesSkip(parent, rank, mst, es[i], n, p, rk);
    AllInsideAfter(parent, rank, es, i, false, p, rk);
  }

  /** What the scan returns: a forest of scanned edges with its total
      weight, and either n - 1 edges or every scanned edge inside one of its
      classes. */
  ghost predicate Outcome(es: seq<Arc>, n: nat, mst: seq<Arc>, total: int) {
    && Arcs(mst, n) && Acyclic(mst, n) && total == Weight(mst)
    && (forall e :: e in mst ==> e in es)
    && (|mst| == n - 1 || forall j :: 0 <= j < |es| && Arcs(es, n) ==> Labels(mst, n)[es[j].0 - 1] == Labels(mst, n)[es[j].1 - 1])
  }

  /** Once every edge is scanned, every edge lies inside one class of the
      kept edges. */
  lemma GrowDone(es: seq<Arc>, n: nat, parent: seq<nat>, rank: seq<nat>, mst: seq<Arc>, total: int)
    requires Scanned(es, |es|, n, parent, rank, mst, total)
    ensures Outcome(es, n, mst, total)
  {
    forall j | 0 <= j < |es| ensures Labels(mst, n)[es[j].0 - 1] == Labels(mst, n)[es[j].1 - 1] {
      assert Inside(parent, rank, es, j);
      assert Agree(parent, rank, Labels(mst, n), es[j].0 - 1, es[j].1 - 1);
    }
  }

  /** The `for` loop over the scanned edges: `union` each edge's ends, keep
      the edge when it joined two classes, and stop once n - 1 edges are
      kept.  The kept edges form a forest of scanned edges with `total` their
      weight, and unless n - 1 were kept every scanned edge lies inside one
      of its classes. */
  method Grow(es: seq<Arc>, n: nat) returns (mst: seq<Arc>, total: int)
    requires Arcs(es, n)
    ensures Outcome(es, n, mst, total)
  {
    var parent: seq<nat> := seq(n, x => x);
    var rank: seq<nat> := seq(n, _ => 0);
    Start(es, n);
    mst, total := [], 0;
    var i := 0;
    while i < |es|
      invariant Scanned(es, i, n, parent, rank, mst, total)
      decreases |es| - i
    {
      var joined, p, rk := Union(parent, rank, (es[i].0 - 1) as nat, (es[i].1 - 1) as nat);
      if joined {
        StepJoin(es, i, n, parent, rank, mst, total, p, rk);
        mst, total := mst + [es[i]], total + es[i].2;
        if |mst| == n - 1 {
          return;
        }
      } else {
        StepSkip(es, i, n, parent, rank, mst, total, p, rk);
      }
      parent, rank, i := p, rk, i + 1;
    }
    GrowDone(es, n, parent, rank, mst, total);
  }

  // ---- the routine

  /** Why `minimum_spanning_tree_kruskal` raises: a directed graph, a vertex
      not reachable from vertex 1, or no vertex 1 at all (the `IndexError` of
      `dfs(0)` on an empty graph). */
  datatype Refusal = Directed | Disconnected | NoVertices

  /** `_is_connected`: every vertex is reachable from vertex 1 along the lists. */
  predicate Spanned(g: Lists)
    requires WellFormed(g) && |g| > 0
  {
    Reach.Component(Neighbours(g, false), {}, 0) == Reach.Vertices(|g|)
  }

  /** `minimum_spanning_tree_kruskal`: a directed graph is refused first,
      then an empty or disconnected one; otherwise the kept edges are a
      spanning tree of edges from the lists, n - 1 edges each joining two
      classes of the ones before it, with `total_weight` their summed
      weight. */
  method MinimumSpanningTree(g: Lists) returns (r: Result<(seq<Arc>, int), Refusal>)
    requires WellFormed(g)
    ensures !Mutual(g) ==> r == Failure(Directed)
    ensures Mutual(g) && |g| == 0 ==> r == Failure(NoVertices)
    ensures Mutual(g) && |g| > 0 && !Spanned(g) ==> r == Failure(Disconnected)
    ensures Mutual(g) && |g| > 0 && Spanned(g) ==> r.Success?
    ensures r.Success? ==>
      && Arcs(r.value.0, |g|) && Acyclic(r.value.0, |g|) && |r.value.0| == |g| - 1
      && r.value.1 == Weight(r.value.0)
      && forall e :: e in r.value.0 ==> e in EdgeList(g, 0)
  {
    if !Mutual(g) {
      return Failure(Directed);
    }
    if |g| == 0 {
      return Failure(NoVertices);
    }
    if !Spanned(g) {
      return Failure(Disconnected);
    }
    var es := Scan(g);
    var mst, total := Grow(es, |g|);
    ScanOrder(g, 0);
    forall e | e in mst ensures e in EdgeList(g, 0) {
      assert e in multiset(es);
    }
    if |mst| != |g| - 1 {
      ScanCovers(g);
      OneClass(g, es, mst);
    }
    r := Success((mst, total));
  }

  /** Each list entry is an edge the loop scans. */
  lemma Scanned1(g: Lists, x: nat, k: nat)
    requires WellFormed(g) && x < |g| && k < |g[x]|
    ensures (x + 1, g[x][k].0, g[x][k].1) in Scan(g)
  {
    var e := (x + 1, g[x][k].0, g[x][k].1);
    EdgeListIff(g, 0, e);
    ScanOrder(g, 0);
    assert e in multiset(Scan(g));
  }

  /** Every list entry is among the edges `es`. */
  predicate Covers(g: Lists, es: seq<Arc>)
    requires WellFormed(g)
  {
    forall x, k :: 0 <= x < |g| && 0 <= k < |g[x]| ==> (x + 1, g[x][k].0, g[x][k].1) in es
  }

  /** The scan passes every list entry. */
  lemma ScanCovers(g: Lists)
    requires WellFormed(g)
    ensures Covers(g, Scan(g))
  {
    forall x, k | 0 <= x < |g| && 0 <= k < |g[x]| ensures (x + 1, g[x][k].0, g[x][k].1) in Scan(g) {
      Scanned1(g, x, k);
    }
  }

  /** Every edge of the lists lies inside one class of labels under which
      every scanned edge does. */
  lemma EdgeInside(g: Lists, es: seq<Arc>, lab: seq<nat>, x: nat, y: nat)
    requires WellFormed(g) && Arcs(es, |g|) && |lab| == |g| && Covers(g, es)
    requires forall j :: 0 <= j < |es| ==> lab[es[j].0 - 1] == lab[es[j].1 - 1]
    requires x < |g| && y in Neighbours(g, false)[x]
    ensures lab[x] == lab[y]
  {
    NeighbourIff(g, false, x, y);
    var k :| 0 <= k < |g[x]| && g[x][k].0 == y + 1;
    var j :| 0 <= j < |es| && es[j] == (x + 1, g[x][k].0, g[x][k].1);
  }

  /** When every scanned edge lies inside one class of an acyclic edge list
      and the graph is connected, the list has one class: n - 1 edges. */
  lemma OneClass(g: Lists, es: seq<Arc>, mst: seq<Arc>)
    requires WellFormed(g) && Mutual(g) && |g| > 0 && Spanned(g)
    requires Arcs(es, |g|) && Covers(g, es) && Arcs(mst, |g|) && Acyclic(mst, |g|)
    requires forall j :: 0 <= j < |es| ==> Labels(mst, |g|)[es[j].0 - 1] == Labels(mst, |g|)[es[j].1 - 1]
    ensures |mst| == |g| - 1
  {
    var n := |g|;
    var lab := Labels(mst, n);
    var adj := Neighbours(g, false);
    var c: set<nat> := set x: nat | x < n && lab[x] == lab[0];
    forall x, y | x in c && 0 <= x < |adj| && y in adj[x] ensures y in c {
      EdgeInside(g, es, lab, x, y);
    }
    assert Undirected(g) == adj;
    UndirectedSymmetric(g);
    Reach.ComponentIsClosure(adj, {}, 0, c);
    assert Classes(lab) == {lab[0]} by {
      forall l | l in Classes(lab) ensures l == lab[0] {
        var x :| 0 <= x < n && lab[x] == l;
        assert x in Reach.Vertices(n);
      }
    }
    ForestClasses(mst, n);
  }
}

=== FILE: lr_embed.dfy ===
/** Phase 3 of the Left-Right planarity test and its driver
    (Graphs/planarity.py, `lr_planarity` and `_dfs_embedding`): signs applied
    to the nesting depths, out-neighbours re-sorted, the initial rings, and
    the DFS that inserts every back edge's reverse half-edge on its side. */
module LrEmbed {
  import opened Wrappers
  import opened Seqs
  import opened Rotation
  import opened Embedding
  import Sorting
  import LrOrient
  import LrTest

  type Edge = LrOrient.Edge

  /** What stops the test before it answers: an exception of the embedding
      structure or of the testing phase. */
  datatype Error = Raised(e: EmbError) | Faulted(f: LrTest.Fault)

  function Lift<T>(r: Result<T, LrTest.Fault>): (r': Result<T, Error>)
    ensures r.Success? <==> r'.Success?
    ensures r.Success? ==> r'.value == r.value
  {
    if r.Success? then Success(r.value) else Failure(Faulted(r.error))
  }

  function Raise<T>(r: Result<T, EmbError>): (r': Result<T, Error>)
    ensures r.Success? <==> r'.Success?
    ensures r.Success? ==> r'.value == r.value
  {
    if r.Success? then Success(r.value) else Failure(Raised(r.error))
  }

  // ---------------------------------------------------------------------
  // Sorting by nesting depth
  // ---------------------------------------------------------------------

  /** The sort key of `ordered_adjs[v]`: `nesting_depth[(v, x)]`. */
  function DepthOf(nesting: map<Edge, int>, v: nat): nat -> int {
    x => if (v, x) in nesting then nesting[(v, x)] else 0
  }

  /** Every out-edge of v has a nesting depth (the sort raises otherwise). */
  predicate Keyed(nesting: map<Edge, int>, v: nat, ws: seq<nat>) {
    forall x :: x in ws ==> (v, x) in nesting
  }

  /** `ordered_adjs[v] = sorted(DG[v], key=lambda x: nesting_depth[(v, x)])`
      for every v. */
  function Ordered(out: seq<seq<nat>>, nesting: map<Edge, int>): (r: Result<seq<seq<nat>>, Error>)
    ensures r.Success? <==> forall v :: 0 <= v < |out| ==> Keyed(nesting, v, out[v])
    ensures r.Success? ==>
      && |r.value| == |out|
      && forall v :: 0 <= v < |out| ==>
           && multiset(r.value[v]) == multiset(out[v])
           && Sorting.SortedBy(r.value[v], DepthOf(nesting, v))
  {
    if forall v :: 0 <= v < |out| ==> Keyed(nesting, v, out[v]) then
      Success(seq(|out|, v requires 0 <= v < |out| => Sorting.Sort(out[v], DepthOf(nesting, v))))
    else Failure(Faulted(LrTest.KeyMissing))
  }

  // ---------------------------------------------------------------------
  // The initial rings
  // ---------------------------------------------------------------------

  /** The inner loop of the initialisation: `add_half_edge(v, w, ccw=prev)`
      for the remaining ws, `prev` being the neighbour added last. */
  function RingFrom(r: Rotation, prev: Option<nat>, ws: seq<nat>): Result<Rotation, EmbError>
    decreases |ws|
  {
    if |ws| == 0 then Success(r)
    else
      var r1 :- AddHalfEdge(r, ws[0], None, prev);
      RingFrom(r1, Some(ws[0]), ws[1..])
  }

  /** The ring of a vertex whose sorted out-neighbours are ws. */
  function InitRing(ws: seq<nat>): Result<Rotation, EmbError> {
    RingFrom(Empty(), None, ws)
  }

  /** Adding w counter-clockwise-after the last neighbour appends it to the
      clockwise order. */
  lemma AppendAfterLast(r: Rotation, o: seq<nat>, w: nat)
    requires Represents(r, o) && |o| > 0 && w !in o
    ensures AddHalfEdge(r, w, None, Some(Last(o))).Success?
    ensures Represents(AddHalfEdge(r, w, None, Some(Last(o))).value, o + [w])
  {
    var j := |o| - 1;
    assert Last(o) == o[j];
    AddCcwIsInsertion(r, o, w, j);
    InsertAtEnd(o, w);
  }

  lemma InsertAtEnd(o: seq<nat>, w: nat)
    requires |o| > 0
    ensures o[..|o| - 1 + 1] + [w] + o[|o| - 1 + 1..] == o + [w]
  {
  }

  /** The remaining neighbours follow clockwise in list order. */
  lemma {:induction false} RingFromOrder(r: Rotation, o: seq<nat>, ws: seq<nat>)
    requires Represents(r, o) && |o| > 0 && Distinct(o + ws)
    ensures RingFrom(r, Some(Last(o)), ws).Success?
    ensures Represents(RingFrom(r, Some(Last(o)), ws).value, o + ws)
    decreases |ws|
  {
    if |ws| > 0 {
      DistinctSplit(o, ws);
      AppendAfterLast(r, o, ws[0]);
      ShiftHead(o, ws);
      RingFromOrder(AddHalfEdge(r, ws[0], None, Some(Last(o))).value, o + [ws[0]], ws[1..]);
    } else {
      assert o + ws == o;
    }
  }

  lemma ShiftHead(o: seq<nat>, ws: seq<nat>)
    requires |ws| > 0
    ensures (o + [ws[0]]) + ws[1..] == o + ws
  {
  }

  /** The head of ws is not in o when o + ws has no repeats. */
  lemma DistinctSplit(o: seq<nat>, ws: seq<nat>)
    requires Distinct(o + ws) && |ws| > 0
    ensures ws[0] !in o && Last(o + [ws[0]]) == ws[0]
  {
    assert (o + ws)[|o|] == ws[0];
    forall k | 0 <= k < |o| ensures o[k] != ws[0] {
      assert (o + ws)[k] == o[k];
    }
  }

  /** The initial ring of v reads `ordered_adjs[v]` clockwise, starting at
      its first element. */
  lemma InitRingOrder(ws: seq<nat>)
    requires Distinct(ws)
    ensures InitRing(ws).Success? && Represents(InitRing(ws).value, ws)
  {
    if |ws| == 0 {
      assert Represents(Empty(), []);
    } else {
      AddToEmptyRing(ws[0]);
      var r1 := Rotation([ws[0]], map[ws[0] := Links(ws[0], ws[0])]);
      assert [ws[0]] + ws[1..] == ws;
      RingFromOrder(r1, [ws[0]], ws[1..]);
    }
  }

  /** `for v in DG: … add_half_edge(v, w, ccw=prev_node)` for every vertex,
      in vertex order; the first ring that raises stops it. */
  function InitRings(adj: seq<seq<nat>>): (r: Result<Embedding, EmbError>)
    ensures r.Success? ==>
      |r.value| == |adj| && forall v :: 0 <= v < |adj| ==> InitRing(adj[v]) == Success(r.value[v])
    ensures (forall v :: 0 <= v < |adj| ==> InitRing(adj[v]).Success?) ==> r.Success?
  {
    if |adj| == 0 then Success([])
    else
      var rest :- InitRings(adj[..|adj| - 1]);
      var ring :- InitRing(Last(adj));
      Success(rest + [ring])
  }

  /** With duplicate-free out-lists every initial ring reads its list. */
  lemma InitRingsOrder(adj: seq<seq<nat>>)
    requires forall v :: 0 <= v < |adj| ==> Distinct(adj[v])
    ensures InitRings(adj).Success?
    ensures forall v :: 0 <= v < |adj| ==> Represents(InitRings(adj).value[v], adj[v])
  {
    forall v | 0 <= v < |adj| ensures InitRing(adj[v]).Success? && Represents(InitRing(adj[v]).value, adj[v]) {
      InitRingOrder(adj[v]);
    }
  }

  // ---------------------------------------------------------------------
  // _dfs_embedding
  // ---------------------------------------------------------------------

  /** The embedding under construction with `left_ref` and `right_ref`. */
  datatype EState = EState(emb: Embedding, left: map<nat, nat>, right: map<nat, nat>)

  /** A tree edge v->w: `add_half_edge_first(w, v)`, then both references of
      v become w. */
  function PlaceTree(st: EState, v: nat, w: nat): (r: Result<EState, Error>)
    ensures r.Success? ==> r.value.left == st.left[v := w] && r.value.right == st.right[v := w]
    ensures r.Success? ==> Grows(st.emb, r.value.emb)
  {
    var emb :- Raise(AddHalfEdgeFirstAt(st.emb, w, v));
    Success(EState(emb, st.left[v := w], st.right[v := w]))
  }

  /** A back edge v->w: on the right side (sign 1) the half-edge w->v goes
      immediately clockwise after `right_ref[w]`; on the left it goes
      immediately clockwise before `left_ref[w]`, which then becomes v. */
  function PlaceBack(side: map<Edge, int>, st: EState, v: nat, w: nat): (r: Result<EState, Error>)
    ensures r.Success? ==> r.value.right == st.right && Grows(st.emb, r.value.emb)
    ensures (if LrTest.SideIn(side, (v, w)) == 1 then w !in st.right else w !in st.left) ==>
      r == Failure(Faulted(LrTest.KeyMissing))
  {
    if LrTest.SideIn(side, (v, w)) == 1 then
      if w !in st.right then Failure(Faulted(LrTest.KeyMissing))
      else
        var emb :- Raise(AddHalfEdgeAt(st.emb, w, v, None, Some(st.right[w])));
        Success(st.(emb := emb))
    else if w !in st.left then Failure(Faulted(LrTest.KeyMissing))
    else
      var emb :- Raise(AddHalfEdgeAt(st.emb, w, v, Some(st.left[w]), None));
      Success(st.(emb := emb, left := st.left[w := v]))
  }

  /** `_dfs_embedding(v)`. */
  function Embed(d: LrTest.Dfs, side: map<Edge, int>, st: EState, v: nat): (r: Result<EState, Error>)
    requires LrTest.TreeOk(d) && v in d.height
    ensures r.Success? ==> Grows(st.emb, r.value.emb)
    decreases LrTest.MaxHeight(d.height) - d.height[v], 1, 0, 0
  {
    if v >= |d.adj| then Failure(Faulted(LrTest.KeyMissing))
    else EmbedEdges(d, side, st, v, 0)
  }

  /** The loop of `_dfs_embedding(v)` from its i-th out-neighbour on. */
  function EmbedEdges(d: LrTest.Dfs, side: map<Edge, int>, st: EState, v: nat, i: nat): (r: Result<EState, Error>)
    requires LrTest.TreeOk(d) && v in d.height && v < |d.adj| && i <= |d.adj[v]|
    ensures r.Success? ==> Grows(st.emb, r.value.emb)
    decreases LrTest.MaxHeight(d.height) - d.height[v], 0, |d.adj[v]| - i, 1
  {
    if i == |d.adj[v]| then Success(st)
    else
      var st1 :- EmbedEdge(d, side, st, v, i);
      var r := EmbedEdges(d, side, st1, v, i + 1);
      if r.Success? then GrowsTrans(st.emb, st1.emb, r.value.emb); r else r
  }

  /** One round of that loop: the i-th out-neighbour w of v, a tree edge to
      descend or a back edge to place. */
  function EmbedEdge(d: LrTest.Dfs, side: map<Edge, int>, st: EState, v: nat, i: nat): (r: Result<EState, Error>)
    requires LrTest.TreeOk(d) && v in d.height && v < |d.adj| && i < |d.adj[v]|
    ensures r.Success? ==> Grows(st.emb, r.value.emb)
    decreases LrTest.MaxHeight(d.height) - d.height[v], 0, |d.adj[v]| - i, 0
  {
    var w := d.adj[v][i];
    if w in d.parent && d.parent[w] == (v, w) then
      var st0 :- PlaceTree(st, v, w);
      var r := Embed(d, side, st0, w);
      if r.Success? then GrowsTrans(st.emb, st0.emb, r.value.emb); r else r
    else PlaceBack(side, st, v, w)
  }

  /** `for v in self.roots: self._dfs_embedding(v)`. */
  function EmbedRoots(d: LrTest.Dfs, side: map<Edge, int>, st: EState, roots: seq<nat>): (r: Result<EState, Error>)
    requires LrTest.TreeOk(d) && forall k :: 0 <= k < |roots| ==> roots[k] in d.height
    ensures r.Success? ==> Grows(st.emb, r.value.emb)
    decreases |roots|
  {
    if |roots| == 0 then Success(st)
    else
      var st1 :- Embed(d, side, st, roots[0]);
      EmbedRoots(d, side, st1, roots[1..])
  }

  /** A tree edge v->w makes v the leftmost neighbour of w, in front of w's
      clockwise order; no other ring changes. */
  lemma PlaceTreePrepends(st: EState, v: nat, w: nat, o: seq<nat>)
    requires w < |st.emb| && Represents(st.emb[w], o) && v !in o
    ensures PlaceTree(st, v, w).Success?
    ensures Represents(PlaceTree(st, v, w).value.emb[w], [v] + o)
    ensures forall x :: 0 <= x < |st.emb| && x != w ==> PlaceTree(st, v, w).value.emb[x] == st.emb[x]
  {
    AddFirstAtVertex(st.emb, w, o, v);
  }

  /** A right back edge puts v immediately clockwise after `right_ref[w]`
      in w's order; the references and the other rings stay. */
  lemma PlaceRight(side: map<Edge, int>, st: EState, v: nat, w: nat, o: seq<nat>, j: nat)
    requires LrTest.SideIn(side, (v, w)) == 1
    requires w < |st.emb| && Represents(st.emb[w], o) && v !in o
    requires j < |o| && w in st.right && st.right[w] == o[j]
    ensures PlaceBack(side, st, v, w).Success?
    ensures Represents(PlaceBack(side, st, v, w).value.emb[w], o[..j + 1] + [v] + o[j + 1..])
    ensures PlaceBack(side, st, v, w).value.left == st.left
    ensures forall x :: 0 <= x < |st.emb| && x != w ==> PlaceBack(side, st, v, w).value.emb[x] == st.emb[x]
  {
    AddCcwIsInsertion(st.emb[w], o, v, j);
  }

  /** A left back edge puts v immediately clockwise before `left_ref[w]` in
      w's order and makes v the new `left_ref[w]`. */
  lemma PlaceLeft(side: map<Edge, int>, st: EState, v: nat, w: nat, o: seq<nat>, j: nat)
    requires LrTest.SideIn(side, (v, w)) != 1
    requires w < |st.emb| && Represents(st.emb[w], o) && v !in o
    requires j < |o| && w in st.left && st.left[w] == o[j]
    ensures PlaceBack(side, st, v, w).Success?
    ensures Represents(PlaceBack(side, st, v, w).value.emb[w], o[..j] + [v] + o[j..])
    ensures PlaceBack(side, st, v, w).value.left == st.left[w := v]
    ensures forall x :: 0 <= x < |st.emb| && x != w ==> PlaceBack(side, st, v, w).value.emb[x] == st.emb[x]
  {
    AddCwIsInsertion(st.emb[w], o, v, j);
  }

  // ---------------------------------------------------------------------
  // Only edges of the graph are embedded
  // ---------------------------------------------------------------------

  /** One ring per vertex of g, and every half-edge is an edge of g. */
  predicate Within(emb: Embedding, g: seq<seq<nat>>) {
    |emb| == |g| && forall u, x :: 0 <= u < |emb| && x in Neighbours(emb[u]) ==> x in g[u]
  }

  /** Reversing any out-edge listed in adj gives an edge of g. */
  predicate Reverses(adj: seq<seq<nat>>, g: seq<seq<nat>>) {
    |adj| == |g| && forall v, i :: 0 <= v < |adj| && 0 <= i < |adj[v]| ==> adj[v][i] < |g| && v in g[adj[v][i]]
  }

  lemma ReversesAt(adj: seq<seq<nat>>, g: seq<seq<nat>>, v: nat, i: nat)
    requires Reverses(adj, g) && v < |adj| && i < |adj[v]|
    ensures adj[v][i] < |g| && v in g[adj[v][i]]
  {
  }

  /** Placing the reverse half-edge w->v of an edge of g keeps the embedding
      within g. */
  lemma PlaceWithin(side: map<Edge, int>, st: EState, v: nat, w: nat, g: seq<seq<nat>>)
    requires Within(st.emb, g) && v < |g| && w < |g| && v in g[w]
    ensures PlaceTree(st, v, w).Success? ==> Within(PlaceTree(st, v, w).value.emb, g)
    ensures PlaceBack(side, st, v, w).Success? ==> Within(PlaceBack(side, st, v, w).value.emb, g)
  {
  }

  lemma {:induction false} EmbedWithin(d: LrTest.Dfs, side: map<Edge, int>, st: EState, v: nat, g: seq<seq<nat>>)
    requires LrTest.TreeOk(d) && v in d.height && Reverses(d.adj, g) && Within(st.emb, g)
    ensures Embed(d, side, st, v).Success? ==> Within(Embed(d, side, st, v).value.emb, g)
    decreases LrTest.MaxHeight(d.height) - d.height[v], 1, 0, 0
  {
    if v < |d.adj| {
      EmbedEdgesWithin(d, side, st, v, 0, g);
    }
  }

  lemma {:induction false} EmbedEdgesWithin(d: LrTest.Dfs, side: map<Edge, int>, st: EState, v: nat, i: nat, g: seq<seq<nat>>)
    requires LrTest.TreeOk(d) && v in d.height && v < |d.adj| && i <= |d.adj[v]|
    requires Reverses(d.adj, g) && Within(st.emb, g)
    ensures EmbedEdges(d, side, st, v, i).Success? ==> Within(EmbedEdges(d, side, st, v, i).value.emb, g)
    decreases LrTest.MaxHeight(d.height) - d.height[v], 0, |d.adj[v]| - i, 1
  {
    if i < |d.adj[v]| {
      EmbedEdgeWithin(d, side, st, v, i, g);
      if EmbedEdge(d, side, st, v, i).Success? {
        EmbedEdgesWithin(d, side, EmbedEdge(d, side, st, v, i).value, v, i + 1, g);
      }
    }
  }

  lemma {:induction false} EmbedEdgeWithin(d: LrTest.Dfs, side: map<Edge, int>, st: EState, v: nat, i: nat, g: seq<seq<nat>>)
    requires LrTest.TreeOk(d) && v in d.height && v < |d.adj| && i < |d.adj[v]|
    requires Reverses(d.adj, g) && Within(st.emb, g)
    ensures EmbedEdge(d, side, st, v, i).Success? ==> Within(EmbedEdge(d, side, st, v, i).value.emb, g)
    decreases LrTest.MaxHeight(d.height) - d.height[v], 0, |d.adj[v]| - i, 0
  {
    var w := d.adj[v][i];
    ReversesAt(d.adj, g, v, i);
    PlaceWithin(side, st, v, w, g);
    if w in d.parent && d.parent[w] == (v, w) && PlaceTree(st, v, w).Success? {
      EmbedWithin(d, side, PlaceTree(st, v, w).value, w, g);
    }
  }

  lemma {:induction false} EmbedRootsWithin(d: LrTest.Dfs, side: map<Edge, int>, st: EState, roots: seq<nat>, g: seq<seq<nat>>)
    requires LrTest.TreeOk(d) && (forall k :: 0 <= k < |roots| ==> roots[k] in d.height)
    requires Reverses(d.adj, g) && Within(st.emb, g)
    ensures EmbedRoots(d, side, st, roots).Success? ==> Within(EmbedRoots(d, side, st, roots).value.emb, g)
    decreases |roots|
  {
    if |roots| > 0 {
      EmbedWithin(d, side, st, roots[0], g);
      if Embed(d, side, st, roots[0]).Success? {
        EmbedRootsWithin(d, side, Embed(d, side, st, roots[0]).value, roots[1..], g);
      }
    }
  }

  /** The initial ring of a vertex holds exactly the neighbours in its list. */
  lemma {:induction false} RingFromNeighbours(r: Rotation, prev: Option<nat>, ws: seq<nat>)
    ensures RingFrom(r, prev, ws).Success? ==>
      forall x :: x in Neighbours(RingFrom(r, prev, ws).value) <==> x in Neighbours(r) || x in ws
    decreases |ws|
  {
    if |ws| > 0 {
      AddKeepsLinks(r, ws[0], None, prev);
      if AddHalfEdge(r, ws[0], None, prev).Success? {
        RingFromNeighbours(AddHalfEdge(r, ws[0], None, prev).value, Some(ws[0]), ws[1..]);
        assert forall x :: x in ws <==> x == ws[0] || x in ws[1..] by {
          assert ws == [ws[0]] + ws[1..];
        }
      }
    }
  }

  lemma InitRingsNeighbours(adj: seq<seq<nat>>)
    ensures InitRings(adj).Success? ==>
      forall v, x :: 0 <= v < |adj| ==> (x in Neighbours(InitRings(adj).value[v]) <==> x in adj[v])
  {
    forall v | 0 <= v < |adj| {
      RingFromNeighbours(Empty(), None, adj[v]);
    }
  }

  // ---------------------------------------------------------------------
  // lr_planarity
  // ---------------------------------------------------------------------

  /** `DG.edges`: the out-edges vertex by vertex, each vertex's in out-list
      order. */
  function EdgesOf(out: seq<seq<nat>>): (r: seq<Edge>)
    ensures forall a: nat, b: nat :: (a, b) in r <==> a < |out| && b in out[a]
  {
    if |out| == 0 then []
    else
      var u := |out| - 1;
      var last := seq(|out[u]|, k requires 0 <= k < |out[u]| => (u, out[u][k]));
      assert forall b: nat :: (u, b) in last <==> b in out[u] by {
        forall b: nat | b in out[u] ensures (u, b) in last {
          var k :| 0 <= k < |out[u]| && out[u][k] == b;
          assert last[k] == (u, b);
        }
      }
      EdgesOf(out[..u]) + last
  }

  /** The testing state before the first root: everything empty. */
  const Initial := LrTest.TState([], 0, map[], map[], map[], map[])

  /** Phase 3 on a graph that passed the test: the signs, the re-sort, the
      initial rings and the embedding DFS from every root. */
  function Build(h: seq<seq<nat>>, o: LrOrient.Orient, st: LrTest.TState): (r: Result<Embedding, Error>)
    requires LrOrient.Simple(h) && o == LrOrient.Orientation(h)
  {
    LrOrient.OrientationFacts(h);
    LrOrient.OrientationTree(h);
    var (nest, st1) :- Lift(LrTest.Signs(st, EdgesOf(o.out), o.nesting));
    var adj :- Ordered(o.out, nest);
    var emb :- Raise(InitRings(adj));
    var es :- EmbedRoots(LrTest.Dfs(o.height, o.parent, o.lowpt, adj), st1.side, EState(emb, map[], map[]), o.roots);
    Success(es.emb)
  }

  /** `lr_planarity()`: `None` for a graph found not planar, else the
      embedding. */
  function LrPlanarity(g: seq<seq<nat>>): (r: Result<Option<Embedding>, Error>)
    requires LrOrient.UGraph(g)
    ensures LrOrient.TooDense(|g|, LrOrient.Size(LrOrient.DropLoops(g))) ==> r == Success(None)
  {
    var h := LrOrient.DropLoops(g);
    LrOrient.DropLoopsSimple(g);
    if LrOrient.TooDense(|h|, LrOrient.Size(h)) then Success(None)
    else Decide(h)
  }

  /** The three phases on a simple graph that passed the edge count. */
  function Decide(h: seq<seq<nat>>): Result<Option<Embedding>, Error>
    requires LrOrient.Simple(h)
  {
    var o := LrOrient.Orientation(h);
    var adj :- Ordered(o.out, o.nesting);
    TreeFromOrientation(h, adj);
    var (ok, st) :- Lift(LrTest.TestRoots(LrTest.Dfs(o.height, o.parent, o.lowpt, adj), Initial, o.roots));
    if !ok then Success(None)
    else
      var emb :- Build(h, o, st);
      Success(Some(emb))
  }

  /** The sorted out-lists of an oriented simple graph, reversed, are edges
      of the graph. */
  lemma OrderedReverses(h: seq<seq<nat>>, o: LrOrient.Orient, nest: map<Edge, int>)
    requires LrOrient.Simple(h) && o == LrOrient.Orientation(h) && Ordered(o.out, nest).Success?
    ensures Reverses(Ordered(o.out, nest).value, h)
  {
    LrOrient.OrientationFacts(h);
    var adj := Ordered(o.out, nest).value;
    forall v, i | 0 <= v < |adj| && 0 <= i < |adj[v]| ensures adj[v][i] < |h| && v in h[adj[v][i]] {
      var x := adj[v][i];
      assert x in multiset(adj[v]);
      assert x in o.out[v];
      assert (v, x) in o.dg;
      var k :| 0 <= k < |h[v]| && h[v][k] == x;
    }
  }

  /** Phase 1 leaves a DFS forest the later phases can recurse on. */
  lemma TreeFromOrientation(h: seq<seq<nat>>, adj: seq<seq<nat>>)
    requires LrOrient.Simple(h)
    ensures var o := LrOrient.Orientation(h);
      && LrTest.TreeOk(LrTest.Dfs(o.height, o.parent, o.lowpt, adj))
      && forall k :: 0 <= k < |o.roots| ==> o.roots[k] in o.height
  {
    LrOrient.OrientationFacts(h);
    LrOrient.OrientationTree(h);
  }

  /** The initial rings of out-lists whose reverses are edges of h lie within h. */
  lemma InitWithin(adj: seq<seq<nat>>, h: seq<seq<nat>>)
    requires Reverses(adj, h) && LrOrient.Simple(h) && InitRings(adj).Success?
    ensures Within(InitRings(adj).value, h)
  {
    var emb := InitRings(adj).value;
    InitRingsNeighbours(adj);
    forall u, x | 0 <= u < |emb| && x in Neighbours(emb[u]) ensures x in h[u] {
      var i :| 0 <= i < |adj[u]| && adj[u][i] == x;
      assert u in h[x];
      var k :| 0 <= k < |h[x]| && h[x][k] == u;
    }
  }

  /** Each initial ring holds the out-neighbours of its vertex. */
  lemma InitHoldsOut(out: seq<seq<nat>>, nest: map<Edge, int>)
    requires Ordered(out, nest).Success? && InitRings(Ordered(out, nest).value).Success?
    ensures forall a, b :: 0 <= a < |out| && b in out[a] ==> b in Neighbours(InitRings(Ordered(out, nest).value).value[a])
  {
    var adj := Ordered(out, nest).value;
    InitRingsNeighbours(adj);
    forall a, b | 0 <= a < |out| && b in out[a] ensures b in adj[a] {
      assert b in multiset(out[a]);
    }
  }

  /** A built embedding has one ring per vertex, only edges of the graph as
      half-edges, and every oriented edge among them. */
  lemma BuildEmbeds(h: seq<seq<nat>>, o: LrOrient.Orient, st: LrTest.TState)
    requires LrOrient.Simple(h) && o == LrOrient.Orientation(h)
    ensures Build(h, o, st).Success? ==>
      && Within(Build(h, o, st).value, h)
      && forall a, b :: 0 <= a < |h| && b in o.out[a] ==> b in Neighbours(Build(h, o, st).value[a])
  {
    if Build(h, o, st).Success? {
      var (nest, st1) := LrTest.Signs(st, EdgesOf(o.out), o.nesting).value;
      var adj := Ordered(o.out, nest).value;
      var emb := InitRings(adj).value;
      OrderedReverses(h, o, nest);
      InitWithin(adj, h);
      InitHoldsOut(o.out, nest);
      TreeFromOrientation(h, adj);
      var d := LrTest.Dfs(o.height, o.parent, o.lowpt, adj);
      EmbedRootsWithin(d, st1.side, EState(emb, map[], map[]), o.roots, h);
    }
  }

  /** An embedding the phases return lies within h and holds every oriented
      edge. */
  lemma DecideEmbeds(h: seq<seq<nat>>)
    requires LrOrient.Simple(h)
    ensures Decide(h).Success? && Decide(h).value.Some? ==>
      && Within(Decide(h).value.value, h)
      && forall a, b :: 0 <= a < |h| && b in LrOrient.Orientation(h).out[a] ==> b in Neighbours(Decide(h).value.value[a])
  {
    if Decide(h).Success? && Decide(h).value.Some? {
      var o := LrOrient.Orientation(h);
      var adj := Ordered(o.out, o.nesting).value;
      TreeFromOrientation(h, adj);
      var (ok, st) := LrTest.TestRoots(LrTest.Dfs(o.height, o.parent, o.lowpt, adj), Initial, o.roots).value;
      BuildEmbeds(h, o, st);
    }
  }

  /** Phase 1 orients every edge of h one way or the other. */
  lemma OrientedEitherWay(h: seq<seq<nat>>)
    requires LrOrient.Simple(h)
    ensures var o := LrOrient.Orientation(h);
      forall a, b :: 0 <= a < |h| && b in h[a] ==> b < |h| && (b in o.out[a] || a in o.out[b])
  {
    LrOrient.OrientationFacts(h);
    var o := LrOrient.Orientation(h);
    forall a, b | 0 <= a < |h| && b in h[a] ensures b < |h| && (b in o.out[a] || a in o.out[b]) {
      var i :| 0 <= i < |h[a]| && h[a][i] == b;
    }
  }

  /** The returned embedding holds only edges of the graph without its
      self-loops, one ring per vertex, and each edge of the graph in at least
      one direction. */
  lemma LrPlanarityEmbeds(g: seq<seq<nat>>)
    requires LrOrient.UGraph(g)
    ensures LrPlanarity(g).Success? && LrPlanarity(g).value.Some? ==>
      var emb := LrPlanarity(g).value.value;
      && |emb| == |g|
      && (forall a, b :: 0 <= a < |g| && b in Neighbours(emb[a]) ==> b in g[a] && b != a)
      && (forall a, b :: 0 <= a < |g| && b in g[a] && b != a ==> b in Neighbours(emb[a]) || a in Neighbours(emb[b]))
  {
    var h := LrOrient.DropLoops(g);
    LrOrient.DropLoopsSimple(g);
    if LrPlanarity(g).Success? && LrPlanarity(g).value.Some? {
      assert !LrOrient.TooDense(|h|, LrOrient.Size(h));
      DecideEmbeds(h);
      OrientedEitherWay(h);
    }
  }
}

=== FILE: lr_orient.dfy ===
/** Phase 1 of the Left-Right planarity test (Graphs/planarity.py, class
    _LRPlanarity): the graph preparation, the edge-count rejection and the
    depth-first orientation pass `_dfs_orientation` that computes `height`,
    `parent_edge`, `lowpt`, `lowpt2` and `nesting_depth`.

    Vertices are 0..n-1 in the graph's node order; `g[v]` lists the
    neighbours of v in adjacency order.  The oriented graph DG is kept as one
    out-list per vertex, in the order its edges were added. */
module LrOrient {
  import opened Wrappers
  import opened Seqs
  import Reach

  type Edge = (nat, nat)

  /** An undirected graph as networkx stores it: neighbours in range, every
      edge listed from both ends, no neighbour listed twice. */
  predicate UGraph(g: seq<seq<nat>>) {
    && Reach.InRange(g) && Reach.Symmetric(g)
    && forall v :: 0 <= v < |g| ==> Distinct(g[v])
  }

  /** An undirected graph without self-loops. */
  predicate Simple(g: seq<seq<nat>>) {
    UGraph(g) && forall v, i :: 0 <= v < |g| && 0 <= i < |g[v]| ==> g[v][i] != v
  }

  // ---------------------------------------------------------------------
  // Preparation and the edge-count rejection
  // ---------------------------------------------------------------------

  /** `s` without the entries equal to x, order kept. */
  function Without(s: seq<nat>, x: nat): (r: seq<nat>)
    ensures forall y :: y in r <==> y in s && y != x
    ensures Distinct(s) ==> Distinct(r)
  {
    if |s| == 0 then []
    else
      var rest := Without(s[1..], x);
      if s[0] == x then rest
      else
        assert forall j :: 0 <= j < |rest| ==> rest[j] in s[1..];
        [s[0]] + rest
  }

  /** `remove_edges_from(selfloop_edges(G))`: every self-loop is dropped. */
  function DropLoops(g: seq<seq<nat>>): (r: seq<seq<nat>>)
    ensures |r| == |g|
    ensures forall v :: 0 <= v < |g| ==> r[v] == Without(g[v], v)
  {
    seq(|g|, v requires 0 <= v < |g| => Without(g[v], v))
  }

  /** Dropping the self-loops of an undirected graph leaves a simple graph with
      the same edges between distinct vertices. */
  lemma DropLoopsSimple(g: seq<seq<nat>>)
    requires UGraph(g)
    ensures Simple(DropLoops(g))
    ensures forall u, w :: 0 <= u < |g| && u != w ==> (w in DropLoops(g)[u] <==> w in g[u])
  {
    var r := DropLoops(g);
    forall u, i | 0 <= u < |r| && 0 <= i < |r[u]| ensures r[u][i] < |r| && u in r[r[u][i]] {
      var w := r[u][i];
      assert w in r[u];
      assert w in g[u] && w != u;
      var k :| 0 <= k < |g[u]| && g[u][k] == w;
      assert u in g[w];
    }
  }

  function SumLen(g: seq<seq<nat>>): nat {
    if |g| == 0 then 0 else SumLen(g[..|g| - 1]) + |g[|g| - 1]|
  }

  /** `G.size()` of a graph without self-loops: every edge is listed twice. */
  function Size(g: seq<seq<nat>>): nat {
    SumLen(g) / 2
  }

  /** The quick rejection of `lr_planarity`: more than 3n-6 edges on more than
      two vertices. */
  predicate TooDense(n: nat, m: nat) {
    n > 2 && m > 3 * n - 6
  }

  /** The arcs (u, w) for w in `s`, read as the out-list of u. */
  ghost function RowArcs(u: nat, s: seq<nat>): (r: set<Edge>)
    ensures forall a :: a in r <==> a.0 == u && a.1 in s
    ensures Distinct(s) ==> |r| == |s|
  {
    if |s| == 0 then {}
    else
      var rest := RowArcs(u, s[1..]);
      assert Distinct(s) ==> Distinct(s[1..]) && (u, s[0]) !in rest;
      {(u, s[0])} + rest
  }

  /** Every (u, w) with u among the first n vertices and w a neighbour of u. */
  ghost function Arcs(g: seq<seq<nat>>, n: nat): (r: set<Edge>)
    requires n <= |g|
    ensures forall a :: a in r <==> a.0 < n && a.1 in g[a.0]
  {
    if n == 0 then {} else Arcs(g, n - 1) + RowArcs(n - 1, g[n - 1])
  }

  /** With duplicate-free lists there is one arc per list entry. */
  lemma {:induction false} ArcsCount(g: seq<seq<nat>>, n: nat)
    requires n <= |g| && forall v :: 0 <= v < |g| ==> Distinct(g[v])
    ensures |Arcs(g, n)| == SumLen(g[..n])
  {
    if n > 0 {
      ArcsCount(g, n - 1);
      ArcsStep(g, n);
      SumLenStep(g, n);
    }
  }

  lemma ArcsStep(g: seq<seq<nat>>, n: nat)
    requires 0 < n <= |g| && Distinct(g[n - 1])
    ensures |Arcs(g, n)| == |Arcs(g, n - 1)| + |g[n - 1]|
  {
    var row, before := RowArcs(n - 1, g[n - 1]), Arcs(g, n - 1);
    forall a | a in row ensures a !in before {
      assert a.0 == n - 1;
    }
    assert Arcs(g, n) == before + row;
  }

  lemma SumLenStep(g: seq<seq<nat>>, n: nat)
    requires 0 < n <= |g|
    ensures SumLen(g[..n]) == SumLen(g[..n - 1]) + |g[n - 1]|
  {
    assert g[..n][..n - 1] == g[..n - 1];
  }

  /** The arcs with the ends exchanged. */
  ghost function Reversed(a: set<Edge>): (r: set<Edge>)
    ensures forall x :: x in r <==> (x.1, x.0) in a
  {
    set x | x in a :: (x.1, x.0)
  }

  lemma {:induction false} ReversedCount(a: set<Edge>)
    ensures |Reversed(a)| == |a|
    decreases a
  {
    if a != {} {
      var x :| x in a;
      ReversedCount(a - {x});
      assert Reversed(a) == Reversed(a - {x}) + {(x.1, x.0)};
    }
  }

  /** The undirected edges of g, each once as (low end, high end). */
  ghost function Edges(g: seq<seq<nat>>): (r: set<Edge>)
    ensures forall a :: a in r <==> a.0 < |g| && a.0 < a.1 && a.1 in g[a.0]
  {
    set a | a in Arcs(g, |g|) && a.0 < a.1
  }

  /** The arcs that go from a higher to a lower vertex. */
  ghost function Downward(g: seq<seq<nat>>): (r: set<Edge>)
    ensures forall a :: a in r <==> a.0 < |g| && a.1 < a.0 && a.1 in g[a.0]
  {
    set a | a in Arcs(g, |g|) && a.1 < a.0
  }

  /** Without self-loops every arc goes up or down. */
  lemma ArcsSplit(g: seq<seq<nat>>)
    requires Simple(g)
    ensures Arcs(g, |g|) == Edges(g) + Downward(g)
  {
    forall a | a in Arcs(g, |g|) ensures a.0 != a.1 {
      var k :| 0 <= k < |g[a.0]| && g[a.0][k] == a.1;
    }
  }

  /** With every edge listed from both ends, the downward arcs are the
      edges read backwards. */
  lemma DownwardReversed(g: seq<seq<nat>>)
    requires UGraph(g)
    ensures Downward(g) == Reversed(Edges(g))
  {
    forall a | a in Downward(g) ensures (a.1, a.0) in Edges(g) {
      var k :| 0 <= k < |g[a.0]| && g[a.0][k] == a.1;
      assert a.0 in g[a.1];
    }
    forall a | a in Reversed(Edges(g)) ensures a in Downward(g) {
      var k :| 0 <= k < |g[a.1]| && g[a.1][k] == a.0;
      assert a.1 in g[a.0];
    }
  }

  /** `G.size()`: in a graph without self-loops every edge is listed from
      both ends, so half the total list length is the number of edges. */
  lemma SizeCountsEdges(g: seq<seq<nat>>)
    requires Simple(g)
    ensures SumLen(g) == 2 * |Edges(g)|
    ensures Size(g) == |Edges(g)|
  {
    ArcsCount(g, |g|);
    assert g[..|g|] == g;
    ArcsSplit(g);
    assert Edges(g) !! Downward(g);
    DownwardReversed(g);
    ReversedCount(Edges(g));
  }

  // ---------------------------------------------------------------------
  // The orientation state
  // ---------------------------------------------------------------------

  /** The attributes the orientation pass fills in.  `height` holds exactly the
      visited vertices; DG is `dg` as a set of edges and `out[v]` as the
      successors of v in the order they were added. */
  datatype Orient = Orient(
    height: map<nat, nat>,
    parent: map<nat, Edge>,
    dg: set<Edge>,
    out: seq<seq<nat>>,
    lowpt: map<Edge, nat>,
    lowpt2: map<Edge, nat>,
    nesting: map<Edge, int>,
    roots: seq<nat>)

  function Start(g: seq<seq<nat>>): (st: Orient)
    ensures |st.out| == |g| && st.dg == {} && st.height == map[]
  {
    Orient(map[], map[], {}, seq(|g|, _ => []), map[], map[], map[], [])
  }

  /** `(a, b) in DG.edges`. */
  predicate Oriented(st: Orient, a: nat, b: nat) {
    (a, b) in st.dg
  }

  /** What a step of the pass never loses: the vertex count, the visited
      vertices and the edges that have lowpoints. */
  predicate Keeps(st: Orient, r: Orient) {
    && |r.out| == |st.out|
    && st.height.Keys <= r.height.Keys
    && st.lowpt.Keys <= r.lowpt.Keys && st.lowpt2.Keys <= r.lowpt2.Keys
  }

  function Unvisited(g: seq<seq<nat>>, st: Orient): nat {
    |Reach.Vertices(|g|) - st.height.Keys|
  }

  lemma FewerUnvisited(g: seq<seq<nat>>, st: Orient, r: Orient)
    requires st.height.Keys <= r.height.Keys
    ensures Unvisited(g, r) <= Unvisited(g, st)
  {
    var a := Reach.Vertices(|g|) - r.height.Keys;
    var b := Reach.Vertices(|g|) - st.height.Keys;
    assert b == a + (b - a);
  }

  lemma VisitOneMore(g: seq<seq<nat>>, st: Orient, w: nat, h: nat)
    requires w < |g| && w !in st.height
    ensures Unvisited(g, st.(height := st.height[w := h])) < Unvisited(g, st)
  {
    assert st.height[w := h].Keys == st.height.Keys + {w};
    RemoveOne(Reach.Vertices(|g|), st.height.Keys, w);
  }

  lemma RemoveOne(all: set<nat>, seen: set<nat>, w: nat)
    requires w in all && w !in seen
    ensures |all - (seen + {w})| < |all - seen|
  {
    var a := all - (seen + {w});
    assert all - seen == a + {w};
  }

  /** Twice the lowpoint, plus one when the edge is a chord (its second
      lowpoint lies strictly above its tail). */
  function NestingDepth(low: nat, low2: nat, h: nat): int {
    2 * low + (if low2 < h then 1 else 0)
  }

  // The steps of one iteration of the loop in `_dfs_orientation`.

  /** A tree edge: `DG.add_edge(v, w)` with both lowpoints `height[v]`, then
      w gets parent edge vw and height `height[v] + 1`. */
  function TreeEdge(st: Orient, v: nat, w: nat): Orient
    requires v in st.height && v < |st.out|
  {
    st.(dg := st.dg + {(v, w)}, out := st.out[v := st.out[v] + [w]],
        lowpt := st.lowpt[(v, w) := st.height[v]], lowpt2 := st.lowpt2[(v, w) := st.height[v]],
        parent := st.parent[w := (v, w)], height := st.height[w := st.height[v] + 1])
  }

  /** A back edge: `DG.add_edge(v, w)`; lowpt2 is `height[v]`, and the
      lowpoint first set to `height[v]` is overwritten by `height[w]`, the
      height of the vertex the edge returns to. */
  function BackEdge(st: Orient, v: nat, w: nat): Orient
    requires v in st.height && w in st.height && v < |st.out|
  {
    st.(dg := st.dg + {(v, w)}, out := st.out[v := st.out[v] + [w]],
        lowpt := st.lowpt[(v, w) := st.height[w]], lowpt2 := st.lowpt2[(v, w) := st.height[v]])
  }

  /** `nesting_depth[vw] = 2 * lowpt[vw]`, plus one for a chord. */
  function SetDepth(st: Orient, v: nat, w: nat): Orient
    requires v in st.height && (v, w) in st.lowpt && (v, w) in st.lowpt2
  {
    st.(nesting := st.nesting[(v, w) := NestingDepth(st.lowpt[(v, w)], st.lowpt2[(v, w)], st.height[v])])
  }

  /** The new (lowpt, lowpt2) of a parent edge with lowpoints (l, l2) after
      a child edge with lowpoints (lw, lw2) has been scanned.  The source
      leaves `lowpt[e]` untouched unless lw < l; writing back l is the same. */
  function Lowpoints(l: nat, l2: nat, lw: nat, lw2: nat): (nat, nat) {
    if lw < l then (lw, Min(l, lw2))
    else if lw > l then (l, Min(l2, lw))
    else (l, Min(l2, lw2))
  }

  /** The two smallest of the four lowpoints, as a lowest/second-lowest pair:
      lowpt becomes the minimum, and lowpt2 never exceeds the old lowpt2. */
  lemma LowpointsOrder(l: nat, l2: nat, lw: nat, lw2: nat)
    requires l <= l2 && lw <= lw2
    ensures var (a, b) := Lowpoints(l, l2, lw, lw2);
      a == Min(l, lw) && a <= b <= l2
      && (b == l || b == l2 || b == lw || b == lw2)
  {
  }

  /** The lowpoint update of the parent edge e from a just-finished edge vw. */
  function Lift(st: Orient, e: Edge, vw: Edge): Orient
    requires e in st.lowpt && e in st.lowpt2 && vw in st.lowpt && vw in st.lowpt2
  {
    var p := Lowpoints(st.lowpt[e], st.lowpt2[e], st.lowpt[vw], st.lowpt2[vw]);
    st.(lowpt := st.lowpt[e := p.0], lowpt2 := st.lowpt2[e := p.1])
  }

  /** The end of one loop step: the nesting depth of vw, then the lowpoints of
      the parent edge e. */
  function Finish(st: Orient, v: nat, w: nat, e: Option<Edge>): Orient
    requires v in st.height && (v, w) in st.lowpt && (v, w) in st.lowpt2
    requires e.Some? ==> e.value in st.lowpt && e.value in st.lowpt2
  {
    var st3 := SetDepth(st, v, w);
    if e.None? then st3 else Lift(st3, e.value, (v, w))
  }

  /** Parent edges are set for visited vertices and carry lowpoints; roots
      are visited. */
  ghost predicate Linked(st: Orient) {
    && (forall x :: x in st.parent ==> x in st.height && st.parent[x] in st.lowpt && st.parent[x] in st.lowpt2)
    && (forall k :: 0 <= k < |st.roots| ==> st.roots[k] in st.height)
  }

  /** What a call requires: a simple graph and a visited vertex in range. */
  ghost predicate Callable(g: seq<seq<nat>>, st: Orient, v: nat) {
    Simple(g) && |st.out| == |g| && v < |g| && v in st.height && Linked(st)
  }

  /** `_dfs_orientation(v)`. */
  function Visit(g: seq<seq<nat>>, st: Orient, v: nat): (r: Orient)
    requires Callable(g, st, v)
    ensures Keeps(st, r) && Linked(r)
    decreases Unvisited(g, st), |g[v]| + 1, 0
  {
    Scan(g, st, v, if v in st.parent then Some(st.parent[v]) else None, 0)
  }

  /** The loop of `_dfs_orientation(v)` from the i-th neighbour on; e is the
      parent edge of v, read once at the start. */
  function Scan(g: seq<seq<nat>>, st: Orient, v: nat, e: Option<Edge>, i: nat): (r: Orient)
    requires Callable(g, st, v) && i <= |g[v]|
    requires e.Some? ==> e.value in st.lowpt && e.value in st.lowpt2
    ensures Keeps(st, r) && Linked(r)
    decreases Unvisited(g, st), |g[v]| - i, 1
  {
    if i == |g[v]| then st
    else if Oriented(st, v, g[v][i]) || Oriented(st, g[v][i], v) then Scan(g, st, v, e, i + 1)
    else
      var st4 := Step(g, st, v, e, i);
      FewerUnvisited(g, st, st4);
      Scan(g, st4, v, e, i + 1)
  }

  /** The body of the loop for a neighbour w = g[v][i] whose edge is not yet
      oriented: orient v->w, then either descend along the new tree edge or
      take w's height as the back edge's lowpoint, then record the nesting
      depth and lower the parent edge's lowpoints. */
  function Step(g: seq<seq<nat>>, st: Orient, v: nat, e: Option<Edge>, i: nat): (r: Orient)
    requires Callable(g, st, v) && i < |g[v]|
    requires e.Some? ==> e.value in st.lowpt && e.value in st.lowpt2
    ensures Keeps(st, r) && Linked(r)
    decreases Unvisited(g, st), |g[v]| - i, 0
  {
    var w := g[v][i];
    var st2 :=
      if w !in st.height then
        TreeEdgeKeeps(g, st, v, w);
        Visit(g, TreeEdge(st, v, w), w)
      else BackEdge(st, v, w);
    FinishKeeps(st2, v, w, e);
    Finish(st2, v, w, e)
  }

  lemma TreeEdgeKeeps(g: seq<seq<nat>>, st: Orient, v: nat, w: nat)
    requires v in st.height && v < |st.out| && w < |g| && w !in st.height && Linked(st)
    ensures var r := TreeEdge(st, v, w);
      Keeps(st, r) && Linked(r) && w in r.height && Unvisited(g, r) < Unvisited(g, st)
  {
    VisitOneMore(g, st, w, st.height[v] + 1);
  }

  lemma FinishKeeps(st: Orient, v: nat, w: nat, e: Option<Edge>)
    requires v in st.height && (v, w) in st.lowpt && (v, w) in st.lowpt2 && Linked(st)
    requires e.Some? ==> e.value in st.lowpt && e.value in st.lowpt2
    ensures var r := Finish(st, v, w, e); Keeps(st, r) && Linked(r)
  {
  }

  /** The first k rounds of the root loop of `lr_planarity`, over the
      vertices 0 .. k - 1 in order. */
  function Roots(g: seq<seq<nat>>, st: Orient, k: nat): (r: Orient)
    requires Simple(g) && |st.out| == |g| && Linked(st) && k <= |g|
    ensures Keeps(st, r) && Linked(r)
  {
    if k == 0 then st else RootAt(g, Roots(g, st, k - 1), k - 1)
  }

  /** One round of the root loop: an unvisited v starts a DFS tree. */
  function RootAt(g: seq<seq<nat>>, st: Orient, v: nat): (r: Orient)
    requires Simple(g) && |st.out| == |g| && Linked(st) && v < |g|
    ensures Keeps(st, r) && Linked(r)
  {
    if v in st.height then st else Visit(g, Root(st, v), v)
  }

  /** v becomes a DFS root at height 0. */
  function Root(st: Orient, v: nat): Orient {
    st.(height := st.height[v := 0], roots := st.roots + [v])
  }

  /** Phase 1 as `lr_planarity` runs it on the prepared graph. */
  function Orientation(g: seq<seq<nat>>): (r: Orient)
    requires Simple(g)
    ensures |r.out| == |g| && Linked(r)
  {
    Roots(g, Start(g), |g|)
  }

  // ---------------------------------------------------------------------
  // Invariants of the orientation pass
  // ---------------------------------------------------------------------

  /** Visited vertices are vertices of G. */
  ghost predicate InGraph(g: seq<seq<nat>>, height: map<nat, nat>) {
    forall x :: x in height ==> x < |g|
  }

  /** DG orients edges of G between visited vertices, never both ways. */
  ghost predicate DgOk(g: seq<seq<nat>>, dg: set<Edge>, height: map<nat, nat>) {
    forall a: nat, b: nat :: (a, b) in dg ==>
      a < |g| && b in g[a] && a in height && b in height && (b, a) !in dg
  }

  /** The out-lists hold each edge of DG once, at its tail. */
  ghost predicate OutOk(out: seq<seq<nat>>, dg: set<Edge>) {
    && (forall a: nat, b: nat :: (a, b) in dg ==> a < |out| && b in out[a])
    && (forall a, i :: 0 <= a < |out| && 0 <= i < |out[a]| ==> (a, out[a][i]) in dg)
    && (forall a :: 0 <= a < |out| ==> Distinct(out[a]))
  }

  /** Exactly the oriented edges have lowpoints, and
      lowpt <= lowpt2 <= height of the tail. */
  ghost predicate LowOk(dg: set<Edge>, height: map<nat, nat>, lowpt: map<Edge, nat>, lowpt2: map<Edge, nat>) {
    && lowpt.Keys == dg && lowpt2.Keys == dg
    && forall x {:trigger x in lowpt} {:trigger lowpt[x]} {:trigger lowpt2[x]} :: x in lowpt ==> x.0 in height && lowpt[x] <= lowpt2[x] <= height[x.0]
  }

  /** Every recorded nesting depth follows the formula. */
  ghost predicate NestOk(height: map<nat, nat>, lowpt: map<Edge, nat>, lowpt2: map<Edge, nat>, nesting: map<Edge, int>) {
    forall x {:trigger x in nesting} {:trigger nesting[x]} :: x in nesting ==>
      && x in lowpt && x in lowpt2 && x.0 in height
      && nesting[x] == NestingDepth(lowpt[x], lowpt2[x], height[x.0])
  }

  /** A parent edge is an oriented tree edge one level down. */
  ghost predicate ParentOk(dg: set<Edge>, height: map<nat, nat>, parent: map<nat, Edge>) {
    forall w :: w in parent ==>
      && parent[w].1 == w && parent[w] in dg
      && w in height && parent[w].0 in height && height[w] == height[parent[w].0] + 1
  }

  /** The facts that hold between any two steps of the pass. */
  ghost predicate Inv(g: seq<seq<nat>>, st: Orient) {
    && |st.out| == |g|
    && InGraph(g, st.height)
    && DgOk(g, st.dg, st.height)
    && OutOk(st.out, st.dg)
    && LowOk(st.dg, st.height, st.lowpt, st.lowpt2)
    && NestOk(st.height, st.lowpt, st.lowpt2, st.nesting)
    && ParentOk(st.dg, st.height, st.parent)
  }

  /** Every edge at x is oriented one way or the other. */
  ghost predicate Finished(g: seq<seq<nat>>, dg: set<Edge>, x: nat) {
    x < |g| && forall y :: y in g[x] ==> (x, y) in dg || (y, x) in dg
  }

  /** `active` holds the vertices whose `_dfs_orientation` call is running;
      v, on top, is the highest. */
  ghost predicate Path(height: map<nat, nat>, active: set<nat>, v: nat) {
    && v in active && active <= height.Keys
    && forall x :: x in active ==> height[x] <= height[v]
  }

  /** Every visited vertex off the stack is finished. */
  ghost predicate Done(g: seq<seq<nat>>, dg: set<Edge>, height: map<nat, nat>, active: set<nat>) {
    forall x :: x in height && x !in active ==> Finished(g, dg, x)
  }

  /** The only edges still without a nesting depth are the parent edges of the
      stack, whose lowpoints are still being lowered. */
  ghost predicate Pending(lowpt: map<Edge, nat>, nesting: map<Edge, int>, parent: map<nat, Edge>, active: set<nat>) {
    && (forall x {:trigger x in lowpt} :: x in lowpt && x !in nesting ==> x.1 in active && x.1 in parent && parent[x.1] == x)
    && (forall y :: y in active && y in parent ==> parent[y] !in nesting)
  }

  /** The DFS context of a running call on v. */
  ghost predicate Ctx(g: seq<seq<nat>>, st: Orient, active: set<nat>, v: nat) {
    && Inv(g, st) && Path(st.height, active, v)
    && Done(g, st.dg, st.height, active) && Pending(st.lowpt, st.nesting, st.parent, active)
  }

  /** Visited vertices keep their heights. */
  ghost predicate HeightsKept(h: map<nat, nat>, h2: map<nat, nat>) {
    forall x :: x in h ==> x in h2 && h2[x] == h[x]
  }

  /** How the state grows over a call: heights and parent edges are set once,
      parents only for newly visited vertices, and oriented edges stay. */
  ghost predicate Grows(st: Orient, r: Orient) {
    && HeightsKept(st.height, r.height)
    && (forall x :: x in st.parent ==> x in r.parent && r.parent[x] == st.parent[x])
    && (forall x :: x in r.parent && x !in st.parent ==> x !in st.height)
    && st.dg <= r.dg
  }

  lemma GrowsTrans(a: Orient, b: Orient, c: Orient)
    requires Grows(a, b) && Grows(b, c)
    ensures Grows(a, c)
  {
  }

  // Each field invariant under the updates of one loop step.

  lemma DgAdd(g: seq<seq<nat>>, dg: set<Edge>, h: map<nat, nat>, h2: map<nat, nat>, v: nat, w: nat)
    requires DgOk(g, dg, h) && h.Keys <= h2.Keys
    requires v < |g| && w in g[v] && v != w && v in h2 && w in h2 && (v, w) !in dg && (w, v) !in dg
    ensures DgOk(g, dg + {(v, w)}, h2)
  {
  }

  lemma OutAdd(out: seq<seq<nat>>, dg: set<Edge>, v: nat, w: nat)
    requires OutOk(out, dg) && v < |out| && (v, w) !in dg
    ensures OutOk(out[v := out[v] + [w]], dg + {(v, w)})
  {
    var out2 := out[v := out[v] + [w]];
    assert out2[v] == out[v] + [w];
    assert w !in out[v];
    forall a, i | 0 <= a < |out2| && 0 <= i < |out2[a]| ensures (a, out2[a][i]) in dg + {(v, w)} {
      if a == v && i < |out[v]| { assert out2[a][i] == out[v][i]; }
    }
  }

  lemma LowAdd(dg: set<Edge>, h: map<nat, nat>, h2: map<nat, nat>,
               lo: map<Edge, nat>, lo2: map<Edge, nat>, x: Edge, k: nat, m: nat)
    requires LowOk(dg, h, lo, lo2) && HeightsKept(h, h2) && x.0 in h2 && k <= m <= h2[x.0]
    ensures LowOk(dg + {x}, h2, lo[x := k], lo2[x := m])
  {
  }

  lemma NestAdd(h: map<nat, nat>, h2: map<nat, nat>, lo: map<Edge, nat>, lo2: map<Edge, nat>,
                nest: map<Edge, int>, x: Edge, k: nat, m: nat)
    requires NestOk(h, lo, lo2, nest) && HeightsKept(h, h2) && x !in nest
    ensures NestOk(h2, lo[x := k], lo2[x := m], nest)
  {
    forall y {:trigger y in nest} | y in nest
      ensures NestingDepth(lo[x := k][y], lo2[x := m][y], h2[y.0]) == NestingDepth(lo[y], lo2[y], h[y.0])
    {
      assert y != x;
    }
  }

  lemma ParentAdd(dg: set<Edge>, dg2: set<Edge>, h: map<nat, nat>, parent: map<nat, Edge>, v: nat, w: nat)
    requires ParentOk(dg, h, parent) && dg <= dg2 && (v, w) in dg2 && v in h && w !in h
    ensures ParentOk(dg2, h[w := h[v] + 1], parent[w := (v, w)])
  {
    var h2, p2 := h[w := h[v] + 1], parent[w := (v, w)];
    forall x | x in p2
      ensures p2[x].1 == x && p2[x] in dg2 && x in h2 && p2[x].0 in h2 && h2[x] == h2[p2[x].0] + 1
    {
      if x != w {
        assert x in parent && p2[x] == parent[x];
        assert parent[x].0 != w;
      }
    }
  }

  lemma InGraphAdd(g: seq<seq<nat>>, h: map<nat, nat>, w: nat, k: nat)
    requires InGraph(g, h) && w < |g|
    ensures InGraph(g, h[w := k])
  {
  }

  lemma DoneGrow(g: seq<seq<nat>>, dg: set<Edge>, dg2: set<Edge>, h: map<nat, nat>, h2: map<nat, nat>,
                 active: set<nat>, active2: set<nat>)
    requires Done(g, dg, h, active) && dg <= dg2
    requires forall x :: x in h2 && x !in active2 ==> x in h && x !in active
    ensures Done(g, dg2, h2, active2)
  {
    forall x | x in h2 && x !in active2 ensures Finished(g, dg2, x) {
      assert Finished(g, dg, x);
    }
  }

  // ---------------------------------------------------------------------
  // One loop step keeps the invariants
  // ---------------------------------------------------------------------

  /** Orienting a new tree edge v->w and stepping down to w. */
  lemma TreeEdgeInv(g: seq<seq<nat>>, st: Orient, v: nat, w: nat)
    requires Inv(g, st)
    requires v < |g| && v in st.height && w < |g| && w in g[v] && v != w && w !in st.height
    requires !Oriented(st, v, w) && !Oriented(st, w, v)
    ensures Inv(g, TreeEdge(st, v, w))
  {
    TreeDg(g, st, v, w);
    TreeOut(st, v, w);
    TreeLowNest(st, v, w);
    TreeParent(st, v, w);
    TreeInGraph(g, st, v, w);
  }

  lemma TreeDg(g: seq<seq<nat>>, st: Orient, v: nat, w: nat)
    requires DgOk(g, st.dg, st.height)
    requires v < |g| && v < |st.out| && v in st.height && w in g[v] && v != w && (v, w) !in st.dg && (w, v) !in st.dg
    ensures var c := TreeEdge(st, v, w); DgOk(g, c.dg, c.height)
  {
    DgAdd(g, st.dg, st.height, st.height[w := st.height[v] + 1], v, w);
  }

  lemma TreeOut(st: Orient, v: nat, w: nat)
    requires OutOk(st.out, st.dg) && v < |st.out| && v in st.height && (v, w) !in st.dg
    ensures var c := TreeEdge(st, v, w); OutOk(c.out, c.dg)
  {
    OutAdd(st.out, st.dg, v, w);
  }

  lemma TreeLowNest(st: Orient, v: nat, w: nat)
    requires LowOk(st.dg, st.height, st.lowpt, st.lowpt2) && NestOk(st.height, st.lowpt, st.lowpt2, st.nesting)
    requires v < |st.out| && v in st.height && w !in st.height && (v, w) !in st.dg
    ensures var c := TreeEdge(st, v, w);
      LowOk(c.dg, c.height, c.lowpt, c.lowpt2) && NestOk(c.height, c.lowpt, c.lowpt2, c.nesting)
  {
    var h2 := st.height[w := st.height[v] + 1];
    assert HeightsKept(st.height, h2);
    TreeLow(st.dg, st.height, h2, st.lowpt, st.lowpt2, st.nesting, (v, w), st.height[v]);
  }

  lemma TreeParent(st: Orient, v: nat, w: nat)
    requires ParentOk(st.dg, st.height, st.parent)
    requires v < |st.out| && v in st.height && w !in st.height
    ensures var c := TreeEdge(st, v, w); ParentOk(c.dg, c.height, c.parent)
  {
    ParentAdd(st.dg, st.dg + {(v, w)}, st.height, st.parent, v, w);
  }

  lemma TreeInGraph(g: seq<seq<nat>>, st: Orient, v: nat, w: nat)
    requires |st.out| == |g| && InGraph(g, st.height) && v < |g| && v in st.height && w < |g|
    ensures var c := TreeEdge(st, v, w); |c.out| == |g| && InGraph(g, c.height)
  {
  }

  lemma NestSet(h: map<nat, nat>, lo: map<Edge, nat>, lo2: map<Edge, nat>, nest: map<Edge, int>, x: Edge)
    requires NestOk(h, lo, lo2, nest) && x in lo && x in lo2 && x.0 in h
    ensures NestOk(h, lo, lo2, nest[x := NestingDepth(lo[x], lo2[x], h[x.0])])
  {
  }

  lemma ParentGrow(dg: set<Edge>, dg2: set<Edge>, h: map<nat, nat>, parent: map<nat, Edge>)
    requires ParentOk(dg, h, parent) && dg <= dg2
    ensures ParentOk(dg2, h, parent)
  {
  }

  /** Stepping down to w: the stack gains w, and vw is its pending parent edge. */
  lemma TreeEdgeCtx(g: seq<seq<nat>>, st: Orient, v: nat, w: nat, active: set<nat>)
    requires Ctx(g, st, active, v)
    requires v < |g| && w < |g| && w in g[v] && v != w && w !in st.height
    requires !Oriented(st, v, w) && !Oriented(st, w, v)
    ensures var c := TreeEdge(st, v, w); Ctx(g, c, active + {w}, w) && Grows(st, c)
  {
    TreeEdgeInv(g, st, v, w);
    TreePath(st, v, w, active);
    TreeDone(g, st, v, w, active);
    TreePending(st, v, w, active);
    TreeGrows(st, v, w);
  }

  lemma TreePath(st: Orient, v: nat, w: nat, active: set<nat>)
    requires Path(st.height, active, v) && v < |st.out| && w !in st.height
    ensures var c := TreeEdge(st, v, w); Path(c.height, active + {w}, w)
  {
  }

  lemma TreeDone(g: seq<seq<nat>>, st: Orient, v: nat, w: nat, active: set<nat>)
    requires Done(g, st.dg, st.height, active) && v < |st.out| && v in st.height
    ensures var c := TreeEdge(st, v, w); Done(g, c.dg, c.height, active + {w})
  {
    var c := TreeEdge(st, v, w);
    DoneGrow(g, st.dg, c.dg, st.height, c.height, active, active + {w});
  }

  lemma TreePending(st: Orient, v: nat, w: nat, active: set<nat>)
    requires Pending(st.lowpt, st.nesting, st.parent, active) && active <= st.height.Keys
    requires ParentOk(st.dg, st.height, st.parent) && NestOk(st.height, st.lowpt, st.lowpt2, st.nesting)
    requires LowOk(st.dg, st.height, st.lowpt, st.lowpt2)
    requires v < |st.out| && v in st.height && w !in st.height && (v, w) !in st.dg
    ensures var c := TreeEdge(st, v, w); Pending(c.lowpt, c.nesting, c.parent, active + {w})
  {
    assert (v, w) !in st.nesting;
  }

  lemma TreeGrows(st: Orient, v: nat, w: nat)
    requires ParentOk(st.dg, st.height, st.parent) && v < |st.out| && v in st.height && w !in st.height
    ensures Grows(st, TreeEdge(st, v, w))
  {
  }

  /** A back edge vw only ever returns to a vertex on the stack: a vertex off
      the stack is finished, and then vw would already be oriented. */
  lemma BackToActive(g: seq<seq<nat>>, st: Orient, v: nat, w: nat, active: set<nat>)
    requires Simple(g) && Done(g, st.dg, st.height, active)
    requires v < |g| && w in g[v] && w in st.height && !Oriented(st, v, w) && !Oriented(st, w, v)
    ensures w in active
  {
    var k :| 0 <= k < |g[v]| && g[v][k] == w;
    assert v in g[w];
  }

  /** A back edge: its lowpoint is the height of an ancestor, so at most the
      height of v, and its nesting depth is recorded at once. */
  lemma BackEdgeCtx(g: seq<seq<nat>>, st: Orient, v: nat, w: nat, active: set<nat>)
    requires Simple(g) && Ctx(g, st, active, v)
    requires v < |g| && w in g[v] && w in st.height
    requires !Oriented(st, v, w) && !Oriented(st, w, v)
    ensures var c := SetDepth(BackEdge(st, v, w), v, w);
      Ctx(g, c, active, v) && Grows(st, c) && Oriented(c, v, w)
  {
    BackToActive(g, st, v, w, active);
    BackEdgeInv(g, st, v, w);
    var c := SetDepth(BackEdge(st, v, w), v, w);
    DoneGrow(g, st.dg, c.dg, st.height, c.height, active, active);
    BackPending(st.lowpt, st.nesting, st.parent, st.dg, active, (v, w), st.height[w], c.nesting[(v, w)]);
  }

  lemma BackPending(lo: map<Edge, nat>, nest: map<Edge, int>, parent: map<nat, Edge>, dg: set<Edge>,
                    active: set<nat>, x: Edge, k: nat, d: int)
    requires Pending(lo, nest, parent, active) && (forall y :: y in parent ==> parent[y] in dg) && x !in dg
    ensures Pending(lo[x := k], nest[x := d], parent, active)
  {
  }

  lemma BackEdgeInv(g: seq<seq<nat>>, st: Orient, v: nat, w: nat)
    requires Inv(g, st)
    requires v < |g| && v in st.height && w in g[v] && v != w && w in st.height && st.height[w] <= st.height[v]
    requires !Oriented(st, v, w) && !Oriented(st, w, v)
    ensures Inv(g, SetDepth(BackEdge(st, v, w), v, w))
  {
    var x := (v, w);
    DgAdd(g, st.dg, st.height, st.height, v, w);
    OutAdd(st.out, st.dg, v, w);
    BackLow(st.dg, st.height, st.lowpt, st.lowpt2, st.nesting, v, w);
    ParentGrow(st.dg, st.dg + {x}, st.height, st.parent);
  }

  /** The lowpoint entries a new tree edge x gets. */
  lemma TreeLow(dg: set<Edge>, h: map<nat, nat>, h2: map<nat, nat>, lo: map<Edge, nat>, lo2: map<Edge, nat>,
                nest: map<Edge, int>, x: Edge, k: nat)
    requires LowOk(dg, h, lo, lo2) && NestOk(h, lo, lo2, nest) && x !in dg
    requires HeightsKept(h, h2) && x.0 in h2 && k <= h2[x.0]
    ensures LowOk(dg + {x}, h2, lo[x := k], lo2[x := k]) && NestOk(h2, lo[x := k], lo2[x := k], nest)
  {
    LowAdd(dg, h, h2, lo, lo2, x, k, k);
    NestAdd(h, h2, lo, lo2, nest, x, k, k);
  }

  /** The lowpoint and nesting entries a back edge vw gets. */
  lemma BackLow(dg: set<Edge>, h: map<nat, nat>, lo: map<Edge, nat>, lo2: map<Edge, nat>,
                nest: map<Edge, int>, v: nat, w: nat)
    requires LowOk(dg, h, lo, lo2) && NestOk(h, lo, lo2, nest) && (v, w) !in dg
    requires v in h && w in h && h[w] <= h[v]
    ensures var lo', lo2' := lo[(v, w) := h[w]], lo2[(v, w) := h[v]];
      && LowOk(dg + {(v, w)}, h, lo', lo2')
      && NestOk(h, lo', lo2', nest[(v, w) := NestingDepth(lo'[(v, w)], lo2'[(v, w)], h[v])])
  {
    LowAdd(dg, h, h, lo, lo2, (v, w), h[w], h[v]);
    NestBack(h, lo, lo2, nest, (v, w), h[w], h[v]);
  }

  lemma NestBack(h: map<nat, nat>, lo: map<Edge, nat>, lo2: map<Edge, nat>, nest: map<Edge, int>, x: Edge, k: nat, m: nat)
    requires NestOk(h, lo, lo2, nest) && x !in nest && x.0 in h
    ensures NestOk(h, lo[x := k], lo2[x := m], nest[x := NestingDepth(k, m, h[x.0])])
  {
    NestAdd(h, h, lo, lo2, nest, x, k, m);
    NestSet(h, lo[x := k], lo2[x := m], nest, x);
  }

  /** After the child w returns: vw gets its nesting depth and w leaves the
      stack. */
  lemma TreeFinishCtx(g: seq<seq<nat>>, st: Orient, v: nat, w: nat, active: set<nat>)
    requires Inv(g, st) && Path(st.height, active, v) && Done(g, st.dg, st.height, active)
    requires Pending(st.lowpt, st.nesting, st.parent, active + {w})
    requires w !in active && w in st.parent && st.parent[w] == (v, w)
    ensures v in st.height && (v, w) in st.lowpt && (v, w) in st.lowpt2
    ensures var c := SetDepth(st, v, w); Ctx(g, c, active, v) && Grows(st, c)
  {
    SetDepthInv(g, st, v, w);
    FinishPending(st, v, w, active);
  }

  lemma SetDepthInv(g: seq<seq<nat>>, st: Orient, v: nat, w: nat)
    requires Inv(g, st) && v in st.height && (v, w) in st.lowpt
    ensures (v, w) in st.lowpt2
    ensures Inv(g, SetDepth(st, v, w))
  {
    SetDepthNest(st, v, w);
  }

  lemma SetDepthNest(st: Orient, v: nat, w: nat)
    requires NestOk(st.height, st.lowpt, st.lowpt2, st.nesting)
    requires v in st.height && (v, w) in st.lowpt && (v, w) in st.lowpt2
    ensures var c := SetDepth(st, v, w); NestOk(c.height, c.lowpt, c.lowpt2, c.nesting)
  {
  }

  lemma FinishPending(st: Orient, v: nat, w: nat, active: set<nat>)
    requires Pending(st.lowpt, st.nesting, st.parent, active + {w}) && ParentOk(st.dg, st.height, st.parent)
    requires LowOk(st.dg, st.height, st.lowpt, st.lowpt2)
    requires w !in active && w in st.parent && st.parent[w] == (v, w)
    ensures v in st.height && (v, w) in st.lowpt && (v, w) in st.lowpt2
    ensures var c := SetDepth(st, v, w); Pending(c.lowpt, c.nesting, c.parent, active)
  {
  }

  /** Lowering the parent edge's lowpoints keeps lowpt <= lowpt2 <= height. */
  lemma LiftCtx(g: seq<seq<nat>>, st: Orient, e: Edge, vw: Edge, active: set<nat>, v: nat)
    requires Ctx(g, st, active, v) && e in st.lowpt && vw in st.lowpt && e !in st.nesting
    ensures e in st.lowpt2 && vw in st.lowpt2
    ensures var c := Lift(st, e, vw); Ctx(g, c, active, v) && Grows(st, c)
  {
    LiftLow(st, e, vw);
    LiftNest(st, e, vw);
  }

  lemma LiftLow(st: Orient, e: Edge, vw: Edge)
    requires LowOk(st.dg, st.height, st.lowpt, st.lowpt2) && e in st.lowpt && vw in st.lowpt
    ensures e in st.lowpt2 && vw in st.lowpt2
    ensures var c := Lift(st, e, vw); LowOk(c.dg, c.height, c.lowpt, c.lowpt2) && c.lowpt.Keys == st.lowpt.Keys
  {
    var p := Lowpoints(st.lowpt[e], st.lowpt2[e], st.lowpt[vw], st.lowpt2[vw]);
    LowpointsOrder(st.lowpt[e], st.lowpt2[e], st.lowpt[vw], st.lowpt2[vw]);
    LowSet(st.dg, st.height, st.lowpt, st.lowpt2, e, p.0, p.1);
  }

  lemma LowSet(dg: set<Edge>, h: map<nat, nat>, lo: map<Edge, nat>, lo2: map<Edge, nat>, x: Edge, k: nat, m: nat)
    requires LowOk(dg, h, lo, lo2) && x in lo && x.0 in h && k <= m <= h[x.0]
    ensures LowOk(dg, h, lo[x := k], lo2[x := m])
  {
  }

  lemma LiftNest(st: Orient, e: Edge, vw: Edge)
    requires NestOk(st.height, st.lowpt, st.lowpt2, st.nesting) && LowOk(st.dg, st.height, st.lowpt, st.lowpt2)
    requires e in st.lowpt && vw in st.lowpt && e !in st.nesting
    ensures e in st.lowpt2 && vw in st.lowpt2
    ensures var c := Lift(st, e, vw); NestOk(c.height, c.lowpt, c.lowpt2, c.nesting)
  {
  }

  /** The lowpoint update of the parent edge closes one loop step. */
  lemma FinishStep(g: seq<seq<nat>>, st: Orient, r: Orient, v: nat, w: nat, e: Option<Edge>, active: set<nat>)
    requires v in r.height && (v, w) in r.lowpt && (v, w) in r.lowpt2 && Ctx(g, SetDepth(r, v, w), active, v)
    requires Grows(st, r) && v in active && e == (if v in st.parent then Some(st.parent[v]) else None)
    ensures e.Some? ==> e.value in r.lowpt && e.value in r.lowpt2
    ensures var c := Finish(r, v, w, e); Ctx(g, c, active, v) && Grows(st, c) && c.dg == r.dg
  {
    var r3 := SetDepth(r, v, w);
    if e.Some? {
      LiftCtx(g, r3, e.value, (v, w), active, v);
    }
  }

  /** A visited vertex keeps the height it had. */
  lemma PathKept(h: map<nat, nat>, h2: map<nat, nat>, active: set<nat>, v: nat)
    requires Path(h, active, v) && HeightsKept(h, h2)
    ensures Path(h2, active, v)
  {
  }

  /** The tree-edge branch of one loop step: orient vw, run the child, then
      finish vw. */
  lemma TreeStepInv(g: seq<seq<nat>>, st: Orient, v: nat, e: Option<Edge>, i: nat, active: set<nat>)
    requires Callable(g, st, v) && i < |g[v]| && Ctx(g, st, active, v)
    requires e == (if v in st.parent then Some(st.parent[v]) else None)
    requires g[v][i] !in st.height && !Oriented(st, v, g[v][i]) && !Oriented(st, g[v][i], v)
    ensures e.Some? ==> e.value in st.lowpt && e.value in st.lowpt2
    ensures var r := Step(g, st, v, e, i); Ctx(g, r, active, v) && Grows(st, r) && Oriented(r, v, g[v][i])
    decreases Unvisited(g, st), |g[v]| - i, 0
  {
    var w := g[v][i];
    assert w < |g| && v != w;
    var c := TreeEdge(st, v, w);
    TreeEdgeCtx(g, st, v, w, active);
    TreeEdgeKeeps(g, st, v, w);
    VisitInv(g, c, w, active + {w});
    var r2 := Visit(g, c, w);
    TreeReturn(g, st, c, r2, v, w, active);
    FinishStep(g, st, r2, v, w, e, active);
  }

  /** What the caller knows when the child w returns. */
  lemma TreeReturn(g: seq<seq<nat>>, st: Orient, c: Orient, r: Orient, v: nat, w: nat, active: set<nat>)
    requires Path(st.height, active, v) && w !in st.height && Grows(st, c) && w in c.parent && c.parent[w] == (v, w)
    requires (v, w) in c.dg
    requires Inv(g, r) && Grows(c, r) && Done(g, r.dg, r.height, active + {w} - {w})
    requires Pending(r.lowpt, r.nesting, r.parent, active + {w})
    ensures v in r.height && (v, w) in r.lowpt && (v, w) in r.lowpt2 && (v, w) in r.dg
    ensures Ctx(g, SetDepth(r, v, w), active, v) && Grows(st, r)
  {
    GrowsTrans(st, c, r);
    PathKept(st.height, r.height, active, v);
    assert active + {w} - {w} == active;
    TreeFinishCtx(g, r, v, w, active);
  }

  /** One step of the loop at an edge that is not yet oriented. */
  lemma {:induction false} StepInv(g: seq<seq<nat>>, st: Orient, v: nat, e: Option<Edge>, i: nat, active: set<nat>)
    requires Callable(g, st, v) && i < |g[v]| && Ctx(g, st, active, v)
    requires e == (if v in st.parent then Some(st.parent[v]) else None)
    requires !Oriented(st, v, g[v][i]) && !Oriented(st, g[v][i], v)
    ensures e.Some? ==> e.value in st.lowpt && e.value in st.lowpt2
    ensures var r := Step(g, st, v, e, i); Ctx(g, r, active, v) && Grows(st, r) && Oriented(r, v, g[v][i])
    decreases Unvisited(g, st), |g[v]| - i, 1
  {
    if g[v][i] !in st.height {
      TreeStepInv(g, st, v, e, i, active);
    } else {
      BackStepInv(g, st, v, e, i, active);
    }
  }

  /** The back-edge branch of one loop step. */
  lemma BackStepInv(g: seq<seq<nat>>, st: Orient, v: nat, e: Option<Edge>, i: nat, active: set<nat>)
    requires Callable(g, st, v) && i < |g[v]| && Ctx(g, st, active, v)
    requires e == (if v in st.parent then Some(st.parent[v]) else None)
    requires g[v][i] in st.height && !Oriented(st, v, g[v][i]) && !Oriented(st, g[v][i], v)
    ensures e.Some? ==> e.value in st.lowpt && e.value in st.lowpt2
    ensures var r := Step(g, st, v, e, i); Ctx(g, r, active, v) && Grows(st, r) && Oriented(r, v, g[v][i])
  {
    var w := g[v][i];
    BackEdgeCtx(g, st, v, w, active);
    FinishStep(g, st, BackEdge(st, v, w), v, w, e, active);
  }

  /** Once every neighbour has been scanned, v is finished. */
  lemma DoneDrop(g: seq<seq<nat>>, dg: set<Edge>, h: map<nat, nat>, active: set<nat>, v: nat)
    requires Done(g, dg, h, active) && Finished(g, dg, v)
    ensures Done(g, dg, h, active - {v})
  {
  }

  /** `_dfs_orientation(v)` called in a good context leaves v finished and
      its parent edge, if any, still pending. */
  lemma {:induction false} VisitInv(g: seq<seq<nat>>, st: Orient, v: nat, active: set<nat>)
    requires Callable(g, st, v) && Ctx(g, st, active, v)
    ensures var r := Visit(g, st, v);
      && Inv(g, r) && Grows(st, r) && Done(g, r.dg, r.height, active - {v})
      && Pending(r.lowpt, r.nesting, r.parent, active)
    decreases Unvisited(g, st), |g[v]| + 1, 5
  {
    var e := if v in st.parent then Some(st.parent[v]) else None;
    ScanInv(g, st, v, e, 0, active);
    var r := Scan(g, st, v, e, 0);
    DoneDrop(g, r.dg, r.height, active, v);
  }

  /** The loop of `_dfs_orientation(v)` from neighbour i on, given that the
      first i edges at v are oriented. */
  lemma {:induction false} ScanInv(g: seq<seq<nat>>, st: Orient, v: nat, e: Option<Edge>, i: nat, active: set<nat>)
    requires Callable(g, st, v) && i <= |g[v]| && Ctx(g, st, active, v)
    requires e == (if v in st.parent then Some(st.parent[v]) else None)
    requires forall j :: 0 <= j < i ==> Oriented(st, v, g[v][j]) || Oriented(st, g[v][j], v)
    ensures e.Some? ==> e.value in st.lowpt && e.value in st.lowpt2
    ensures var r := Scan(g, st, v, e, i); Ctx(g, r, active, v) && Grows(st, r) && Finished(g, r.dg, v)
    decreases Unvisited(g, st), |g[v]| - i, 4
  {
    var r := Scan(g, st, v, e, i);
    if i == |g[v]| {
      assert r == st;
      assert Finished(g, st.dg, v);
    } else {
      var w := g[v][i];
      if Oriented(st, v, w) || Oriented(st, w, v) {
        ScanSkipInv(g, st, v, e, i, active);
      } else {
        ScanStepInv(g, st, v, e, i, active);
      }
    }
  }

  /** The scan from i on when edge i is already oriented: the rest of the
      scan. */
  lemma {:induction false} ScanSkipInv(g: seq<seq<nat>>, st: Orient, v: nat, e: Option<Edge>, i: nat, active: set<nat>)
    requires Callable(g, st, v) && i < |g[v]| && Ctx(g, st, active, v)
    requires e == (if v in st.parent then Some(st.parent[v]) else None)
    requires forall j :: 0 <= j < i ==> Oriented(st, v, g[v][j]) || Oriented(st, g[v][j], v)
    requires Oriented(st, v, g[v][i]) || Oriented(st, g[v][i], v)
    requires e.Some? ==> e.value in st.lowpt && e.value in st.lowpt2
    ensures var r := Scan(g, st, v, e, i); Ctx(g, r, active, v) && Grows(st, r) && Finished(g, r.dg, v)
    decreases Unvisited(g, st), |g[v]| - i, 3
  {
    assert Scan(g, st, v, e, i) == Scan(g, st, v, e, i + 1);
    forall j | 0 <= j < i + 1 ensures Oriented(st, v, g[v][j]) || Oriented(st, g[v][j], v) {
    }
    ScanInv(g, st, v, e, i + 1, active);
  }

  /** The scan from i on when edge i still has to be oriented: one step, then
      the rest of the scan. */
  lemma {:induction false} ScanStepInv(g: seq<seq<nat>>, st: Orient, v: nat, e: Option<Edge>, i: nat, active: set<nat>)
    requires Callable(g, st, v) && i < |g[v]| && Ctx(g, st, active, v)
    requires e == (if v in st.parent then Some(st.parent[v]) else None)
    requires forall j :: 0 <= j < i ==> Oriented(st, v, g[v][j]) || Oriented(st, g[v][j], v)
    requires !Oriented(st, v, g[v][i]) && !Oriented(st, g[v][i], v)
    requires e.Some? ==> e.value in st.lowpt && e.value in st.lowpt2
    ensures var r := Scan(g, st, v, e, i); Ctx(g, r, active, v) && Grows(st, r) && Finished(g, r.dg, v)
    decreases Unvisited(g, st), |g[v]| - i, 3
  {
    var st4 := Step(g, st, v, e, i);
    StepInv(g, st, v, e, i, active);
    ScanNext(g, st, st4, v, e, i);
    ScanUnfold(g, st, v, e, i);
    ScanRest(g, st, st4, v, e, i, active);
  }

  /** The rest of the scan after the step at edge i, which led from st to st4. */
  lemma {:induction false} ScanRest(g: seq<seq<nat>>, st: Orient, st4: Orient, v: nat, e: Option<Edge>, i: nat, active: set<nat>)
    requires Callable(g, st4, v) && i < |g[v]| && Ctx(g, st4, active, v) && Grows(st, st4)
    requires e == (if v in st4.parent then Some(st4.parent[v]) else None)
    requires forall j :: 0 <= j < i + 1 ==> Oriented(st4, v, g[v][j]) || Oriented(st4, g[v][j], v)
    requires st.height.Keys <= st4.height.Keys
    ensures var r := Scan(g, st4, v, e, i + 1); Ctx(g, r, active, v) && Grows(st, r) && Finished(g, r.dg, v)
    decreases Unvisited(g, st), |g[v]| - i, 1
  {
    FewerUnvisited(g, st, st4);
    ScanInv(g, st4, v, e, i + 1, active);
    GrowsTrans(st, st4, Scan(g, st4, v, e, i + 1));
  }

  /** After a step the scan can go on from i + 1 with the same parent edge. */
  lemma ScanNext(g: seq<seq<nat>>, st: Orient, st4: Orient, v: nat, e: Option<Edge>, i: nat)
    requires Callable(g, st, v) && i < |g[v]| && Grows(st, st4) && Oriented(st4, v, g[v][i])
    requires e == (if v in st.parent then Some(st.parent[v]) else None)
    requires forall j :: 0 <= j < i ==> Oriented(st, v, g[v][j]) || Oriented(st, g[v][j], v)
    ensures e == (if v in st4.parent then Some(st4.parent[v]) else None)
    ensures forall j :: 0 <= j < i + 1 ==> Oriented(st4, v, g[v][j]) || Oriented(st4, g[v][j], v)
    ensures st.height.Keys <= st4.height.Keys && Unvisited(g, st4) <= Unvisited(g, st)
  {
    FewerUnvisited(g, st, st4);
  }

  /** A scan at an unoriented edge is one step and the rest of the scan. */
  lemma ScanUnfold(g: seq<seq<nat>>, st: Orient, v: nat, e: Option<Edge>, i: nat)
    requires Callable(g, st, v) && i < |g[v]| && (e.Some? ==> e.value in st.lowpt && e.value in st.lowpt2)
    requires !Oriented(st, v, g[v][i]) && !Oriented(st, g[v][i], v)
    ensures Scan(g, st, v, e, i) == Scan(g, Step(g, st, v, e, i), v, e, i + 1)
  {
  }

  // ---------------------------------------------------------------------
  // The root loop and the whole pass
  // ---------------------------------------------------------------------

  /** Between two roots nothing is running: every visited vertex is finished
      and every oriented edge has its nesting depth. */
  ghost predicate Between(g: seq<seq<nat>>, st: Orient) {
    && Inv(g, st) && Done(g, st.dg, st.height, {})
    && Pending(st.lowpt, st.nesting, st.parent, {})
  }

  lemma StartBetween(g: seq<seq<nat>>)
    ensures Between(g, Start(g))
  {
  }

  /** A new root keeps parent edges and roots linked. */
  lemma RootLinked(st: Orient, v: nat)
    requires Linked(st)
    ensures Linked(Root(st, v))
  {
  }

  /** Giving a new vertex a height keeps the invariant. */
  lemma RootInv(g: seq<seq<nat>>, st: Orient, v: nat)
    requires Inv(g, st) && v < |g| && v !in st.height
    ensures Inv(g, Root(st, v))
  {
    var c := Root(st, v);
    assert DgOk(g, c.dg, c.height);
    assert LowOk(c.dg, c.height, c.lowpt, c.lowpt2);
    assert NestOk(c.height, c.lowpt, c.lowpt2, c.nesting);
    assert ParentOk(c.dg, c.height, c.parent);
  }

  /** Making an unvisited vertex a root starts a call with only it active. */
  lemma RootStart(g: seq<seq<nat>>, st: Orient, v: nat)
    requires Between(g, st) && v < |g| && v !in st.height
    ensures var c := Root(st, v); Ctx(g, c, {v}, v) && Grows(st, c) && v !in c.parent
  {
    RootInv(g, st, v);
  }

  /** When the root's call returns, nothing is pending any more. */
  lemma RootFinish(g: seq<seq<nat>>, st1: Orient, r: Orient, v: nat)
    requires v in st1.height && v !in st1.parent && Grows(st1, r)
    requires Inv(g, r) && Done(g, r.dg, r.height, {v} - {v}) && Pending(r.lowpt, r.nesting, r.parent, {v})
    ensures Between(g, r)
  {
    assert {v} - {v} == {};
  }

  /** One round of the root loop keeps the invariant and visits v. */
  lemma RootAtInv(g: seq<seq<nat>>, st: Orient, v: nat, r: Orient)
    requires Simple(g) && Between(g, st) && Linked(st) && v < |g| && r == RootAt(g, st, v)
    ensures Between(g, r) && HeightsKept(st.height, r.height) && v in r.height
    ensures st.height.Keys <= r.height.Keys
  {
    if v !in st.height {
      var st1 := Root(st, v);
      RootStart(g, st, v);
      RootLinked(st, v);
      VisitInv(g, st1, v, {v});
      RootFinish(g, st1, Visit(g, st1, v), v);
    }
  }

  /** The first k rounds of the root loop, whose result is r, keep the
      invariant and visit the vertices 0 .. k - 1. */
  lemma {:induction false} RootsInv(g: seq<seq<nat>>, st: Orient, k: nat, r: Orient)
    requires Simple(g) && Between(g, st) && Linked(st) && k <= |g| && r == Roots(g, st, k)
    ensures Between(g, r)
    ensures forall x: nat :: x < k ==> x in r.height
  {
    if k > 0 {
      var prev := Roots(g, st, k - 1);
      RootsLast(g, st, k);
      RootsInv(g, st, k - 1, prev);
      RootAtInv(g, prev, k - 1, r);
      forall x: nat | x < k ensures x in r.height {
        if x < k - 1 {
          assert x in prev.height;
        }
      }
    }
  }

  lemma RootsLast(g: seq<seq<nat>>, st: Orient, k: nat)
    requires Simple(g) && |st.out| == |g| && Linked(st) && 0 < k <= |g|
    ensures Roots(g, st, k) == RootAt(g, Roots(g, st, k - 1), k - 1)
  {
  }

  /** After the whole pass the invariant holds with nothing running, and the
      visited vertices are exactly the vertices of G. */
  lemma OrientationInv(g: seq<seq<nat>>)
    requires Simple(g)
    ensures var r := Orientation(g);
      Between(g, r) && forall x: nat :: x in r.height <==> x < |g|
  {
    var r := Orientation(g);
    StartBetween(g);
    RootsInv(g, Start(g), |g|, r);
    AllVisited(g, r.height);
  }

  lemma AllVisited(g: seq<seq<nat>>, h: map<nat, nat>)
    requires InGraph(g, h) && forall x :: 0 <= x < |g| ==> x in h
    ensures forall x: nat :: x in h <==> x < |g|
  {
  }

  /** What phase 1 hands to the testing phase: every edge of G is oriented in
      exactly one direction, every oriented edge is an edge of G, the
      out-lists list exactly the oriented edges without repetition, and every
      oriented edge has lowpt <= lowpt2 <= the height of its tail and the
      nesting depth of the formula. */
  lemma OrientationFacts(g: seq<seq<nat>>)
    requires Simple(g)
    ensures var r := Orientation(g);
      && (forall x: nat :: x in r.height <==> x < |g|)
      && (forall a, b :: 0 <= a < |g| && b in g[a] ==> ((a, b) in r.dg <==> (b, a) !in r.dg))
      && (forall a: nat, b: nat :: (a, b) in r.dg ==> a < |g| && b in g[a])
      && |r.out| == |g|
      && (forall a, b :: 0 <= a < |g| ==> (b in r.out[a] <==> (a, b) in r.dg))
      && (forall a :: 0 <= a < |g| ==> Distinct(r.out[a]))
      && (forall x :: x in r.dg ==> x in r.lowpt && x in r.lowpt2 && x in r.nesting)
      && (forall x {:trigger x in r.dg} :: x in r.dg ==> r.lowpt[x] <= r.lowpt2[x] <= r.height[x.0])
      && (forall x {:trigger x in r.dg} :: x in r.dg ==> r.nesting[x] == NestingDepth(r.lowpt[x], r.lowpt2[x], r.height[x.0]))
  {
    OrientationInv(g);
    var r := Orientation(g);
    forall a, b | 0 <= a < |g| && b in g[a] ensures (a, b) in r.dg <==> (b, a) !in r.dg {
      assert Finished(g, r.dg, a);
    }
  }

  /** The DFS forest phase 1 leaves: each parent edge is an oriented edge into
      its vertex from one level up, and every root is a vertex of G. */
  lemma OrientationTree(g: seq<seq<nat>>)
    requires Simple(g)
    ensures var r := Orientation(g);
      && (forall w :: w in r.parent ==>
            && r.parent[w].1 == w && r.parent[w] in r.dg
            && w in r.height && r.parent[w].0 in r.height
            && r.height[w] == r.height[r.parent[w].0] + 1)
      && (forall k :: 0 <= k < |r.roots| ==> r.roots[k] < |g|)
  {
    OrientationInv(g);
  }
}

=== FILE: lr_test.dfy ===
/** Phase 2 of the Left-Right planarity test (Graphs/planarity.py): the stack
    of conflict pairs of return-edge intervals built by `_dfs_testing`,
    `_add_constraints` and `_remove_back_edges`, and the sign resolution
    `_get_side` along `ref` chains.

    Python objects become values.  A conflict pair is compared by identity
    (`_top_of_stack(self.S) == self.stack_bottom[ei]`), so every pair carries
    the id it was created with; `nextId` is the next id.  A lookup that raises
    in the source (a missing key, `None` as a key of `lowpt`, a pop from an
    empty stack, an attribute of the `None` top) is a `Fault`. */
module LrTest {
  import opened Wrappers
  import opened Seqs
  import LrOrient

  type Edge = LrOrient.Edge

  /** What the source raises instead of answering. */
  datatype Fault =
    | KeyMissing   // KeyError, or a comparison with a missing height
    | EmptyStack   // pop from an empty stack, or an attribute of its None top
    | Unbounded    // a ref chain longer than the fuel: the source would not stop

  /** `_Interval(low, high)`: return edges, `None` when absent. */
  datatype Interval = Interval(low: Option<Edge>, high: Option<Edge>)

  const NoInterval := Interval(None, None)

  predicate IsEmpty(i: Interval) {
    i.low.None? && i.high.None?
  }

  /** `state.lowpt[x]`. */
  function Low(lowpt: map<Edge, nat>, x: Option<Edge>): (r: Result<nat, Fault>)
    ensures r.Success? <==> x.Some? && x.value in lowpt
    ensures r.Success? ==> r.value == lowpt[x.value]
  {
    if x.Some? && x.value in lowpt then Success(lowpt[x.value]) else Failure(KeyMissing)
  }

  /** `_Interval.is_conflicting(b)`: a non-empty interval whose top return
      edge reaches lower than b does not. */
  function Conflicting(i: Interval, b: Edge, lowpt: map<Edge, nat>): (r: Result<bool, Fault>)
    ensures IsEmpty(i) ==> r == Success(false)
    ensures !IsEmpty(i) ==> (r.Success? <==> i.high.Some? && i.high.value in lowpt && b in lowpt)
    ensures r.Success? && !IsEmpty(i) ==> (r.value <==> lowpt[i.high.value] > lowpt[b])
  {
    if IsEmpty(i) then Success(false)
    else
      var h :- Low(lowpt, i.high);
      var l :- Low(lowpt, Some(b));
      Success(h > l)
  }

  /** `_ConflictPair`: `id` stands for the object's identity. */
  datatype Pair = Pair(id: nat, left: Interval, right: Interval)

  predicate PairEmpty(p: Pair) {
    IsEmpty(p.left) && IsEmpty(p.right)
  }

  function Swap(p: Pair): (r: Pair)
    ensures r.id == p.id && r.left == p.right && r.right == p.left
  {
    Pair(p.id, p.right, p.left)
  }

  /** Swapping twice is no change. */
  lemma SwapSwap(p: Pair)
    ensures Swap(Swap(p)) == p
  {
  }

  /** `_ConflictPair.lowest`: the lowest lowpoint of the two intervals' low
      edges, reading only the non-empty ones (the right one when both are
      empty). */
  function Lowest(p: Pair, lowpt: map<Edge, nat>): (r: Result<nat, Fault>)
    ensures r.Success? && !IsEmpty(p.left) ==>
      p.left.low.Some? && p.left.low.value in lowpt && r.value <= lowpt[p.left.low.value]
    ensures r.Success? && !IsEmpty(p.right) ==>
      p.right.low.Some? && p.right.low.value in lowpt && r.value <= lowpt[p.right.low.value]
    ensures r.Success? ==>
      || (p.left.low.Some? && p.left.low.value in lowpt && r.value == lowpt[p.left.low.value])
      || (p.right.low.Some? && p.right.low.value in lowpt && r.value == lowpt[p.right.low.value])
    ensures PairEmpty(p) ==> r.Failure?
  {
    if IsEmpty(p.left) then Low(lowpt, p.right.low)
    else if IsEmpty(p.right) then Low(lowpt, p.left.low)
    else
      var a :- Low(lowpt, p.left.low);
      var b :- Low(lowpt, p.right.low);
      Success(Min(a, b))
  }

  // ---------------------------------------------------------------------
  // The testing state
  // ---------------------------------------------------------------------

  /** The attributes phase 2 writes: the stack S, `stack_bottom` (by pair id),
      `lowpt_edge`, `ref` and `side`.  `ref` maps only the edges whose entry
      is not `None`; `side` holds only the entries set to something other than
      the default 1. */
  datatype TState = TState(
    stack: seq<Pair>,
    nextId: nat,
    bottom: map<Edge, Option<nat>>,
    lowptEdge: map<Edge, Edge>,
    ref: map<Edge, Edge>,
    side: map<Edge, int>)

  /** `_top_of_stack(self.S)` by identity. */
  function TopId(s: seq<Pair>): Option<nat> {
    if |s| == 0 then None else Some(Last(s).id)
  }

  /** `self.ref[key] = val`: a `None` value reads back like an absent entry,
      and the entry under the key `None` is never read. */
  function SetRef(ref: map<Edge, Edge>, key: Option<Edge>, val: Option<Edge>): (r: map<Edge, Edge>)
    ensures key.None? ==> r == ref
    ensures key.Some? ==> (key.value in r <==> val.Some?) && (val.Some? ==> r[key.value] == val.value)
    ensures forall x :: x in ref && Some(x) != key ==> x in r && r[x] == ref[x]
    ensures forall x :: x in r && Some(x) != key ==> x in ref
  {
    if key.None? then ref
    else if val.None? then ref - {key.value}
    else ref[key.value := val.value]
  }

  /** `self.side[e]`, a defaultdict with default 1. */
  function Side(st: TState, e: Edge): int {
    if e in st.side then st.side[e] else 1
  }

  /** `side[x] = -1` when x is not `None`. */
  function SetLeft(side: map<Edge, int>, x: Option<Edge>): (r: map<Edge, int>)
    ensures SidesOk(side) ==> SidesOk(r)
    ensures x.Some? ==> x.value in r && r[x.value] == -1
    ensures forall y :: y in side && Some(y) != x ==> y in r && r[y] == side[y]
  {
    if x.Some? then side[x.value := -1] else side
  }

  /** Every side is a sign. */
  predicate SidesOk(side: map<Edge, int>) {
    forall e :: e in side ==> side[e] == 1 || side[e] == -1
  }


  /** Pair ids grow strictly up the stack and are all below `nextId`, so equal
      ids mean the same pair. */
  predicate IdsOk(st: TState) {
    && (forall i, j :: 0 <= i < j < |st.stack| ==> st.stack[i].id < st.stack[j].id)
    && (forall i :: 0 <= i < |st.stack| ==> st.stack[i].id < st.nextId)
  }

  /** The invariant of phase 2. */
  predicate Good(st: TState) {
    SidesOk(st.side) && IdsOk(st)
  }

  /** `t` is `s` with pairs popped off the top. */
  predicate Popped(s: seq<Pair>, t: seq<Pair>) {
    |t| <= |s| && t == s[..|t|]
  }

  /** How a stack may change in phase 2: some pairs are popped and then at most
      one pair is pushed, which is either a new pair or the pair that was at
      that place, changed in place. */
  predicate Reshaped(s: seq<Pair>, t: seq<Pair>, nextId: nat) {
    || Popped(s, t)
    || (0 < |t| <= |s| + 1 && Popped(s, t[..|t| - 1])
        && (Last(t).id >= nextId || (|t| <= |s| && Last(t).id == s[|t| - 1].id)))
  }

  // ---------------------------------------------------------------------
  // _add_constraints
  // ---------------------------------------------------------------------

  /** The fields a merge loop leaves alone. */
  predicate SameRest(st: TState, r: TState) {
    r.side == st.side && r.lowptEdge == st.lowptEdge && r.bottom == st.bottom && r.nextId == st.nextId
  }

  /** At least one of the pair's intervals is empty. */
  predicate OneSided(q: Pair) {
    IsEmpty(q.left) || IsEmpty(q.right)
  }

  /** The first loop of `_add_constraints`: pop the pairs above
      `stack_bottom[ei]`, which hold the return edges of ei, and merge their
      right intervals into `p.right`; stop with false on a pair with both
      intervals non-empty. */
  function MergeRight(lowpt: map<Edge, nat>, st: TState, ei: Edge, e: Option<Edge>, p: Pair): (r: Result<(bool, TState, Pair), Fault>)
    ensures r.Success? ==>
      var (ok, st', p') := r.value;
      && SameRest(st, st') && Popped(st.stack, st'.stack) && |st'.stack| < |st.stack| && p'.id == p.id
      && p'.left == p.left
      && (!ok ==> !IsEmpty(st.stack[|st'.stack|].left) && !IsEmpty(st.stack[|st'.stack|].right))
      && (ok ==> ei in st.bottom && TopId(st'.stack) == st.bottom[ei])
    decreases |st.stack|
  {
    if |st.stack| == 0 then Failure(EmptyStack)
    else
      var q0 := Last(st.stack);
      var rest := st.stack[..|st.stack| - 1];
      var q := if !IsEmpty(q0.left) then Swap(q0) else q0;
      if !IsEmpty(q.left) then Success((false, st.(stack := rest), p))
      else
        var lq :- Low(lowpt, q.right.low);
        var le :- Low(lowpt, e);
        var step: Result<(Pair, map<Edge, Edge>), Fault> :=
          if lq > le then
            if IsEmpty(p.right) then Success((p.(right := q.right), st.ref))
            else Success((p.(right := p.right.(low := q.right.low)), SetRef(st.ref, p.right.low, q.right.high)))
          else if e.value in st.lowptEdge then Success((p, SetRef(st.ref, q.right.low, Some(st.lowptEdge[e.value]))))
          else Failure(KeyMissing);
        var (p1, ref1) :- step;
        var st1 := st.(stack := rest, ref := ref1);
        if ei !in st.bottom then Failure(KeyMissing)
        else if TopId(rest) == st.bottom[ei] then Success((true, st1, p1))
        else MergeRight(lowpt, st1, ei, e, p1)
  }

  /** A pair the second loop merges: it conflicts with ei on one side and
      not on the other. */
  predicate Mergeable(q: Pair, ei: Edge, lowpt: map<Edge, nat>) {
    var cl, cr := Conflicting(q.left, ei, lowpt), Conflicting(q.right, ei, lowpt);
    cl.Success? && cr.Success? && (cl.value || cr.value) && !(cl.value && cr.value)
  }

  /** The second loop of `_add_constraints`: while the top pair conflicts with
      ei, pop it, turn it so its right interval does not conflict, and merge it
      into p; stop with false on a pair that conflicts on both sides. */
  function MergeLeft(lowpt: map<Edge, nat>, st: TState, ei: Edge, p: Pair): (r: Result<(bool, TState, Pair), Fault>)
    ensures r.Success? ==>
      var (ok, st', p') := r.value;
      && SameRest(st, st') && Popped(st.stack, st'.stack) && p'.id == p.id
      && (!ok ==>
            && |st'.stack| < |st.stack|
            && Conflicting(st.stack[|st'.stack|].left, ei, lowpt) == Success(true)
            && Conflicting(st.stack[|st'.stack|].right, ei, lowpt) == Success(true))
      && (ok ==>
            && |st'.stack| > 0
            && Conflicting(Last(st'.stack).left, ei, lowpt) == Success(false)
            && Conflicting(Last(st'.stack).right, ei, lowpt) == Success(false))
    decreases |st.stack|
  {
    if |st.stack| == 0 then Failure(EmptyStack)
    else
      var top := Last(st.stack);
      // the right interval is read by the loop test when the left one does
      // not conflict, and by the test for the swap when it does
      var cl :- Conflicting(top.left, ei, lowpt);
      var cr :- Conflicting(top.right, ei, lowpt);
      if !cl && !cr then Success((true, st, p))
      else
        var rest := st.stack[..|st.stack| - 1];
        var q := if cr then Swap(top) else top;
        // after the swap the right interval is the old left one
        if cr && cl then Success((false, st.(stack := rest), p))
        else
          var ref1 := SetRef(st.ref, p.right.low, q.right.high);
          var right := if q.right.low.Some? then p.right.(low := q.right.low) else p.right;
          var left := if IsEmpty(p.left) then q.left else p.left.(low := q.left.low);
          var ref2 := if IsEmpty(p.left) then ref1 else SetRef(ref1, p.left.low, q.left.high);
          MergeLeft(lowpt, st.(stack := rest, ref := ref2), ei, p.(left := left, right := right))
  }

  /** Every pair the first loop pops and merges has an empty interval; on
      false, the one it stopped at has none. */
  lemma {:induction false} MergeRightPops(lowpt: map<Edge, nat>, st: TState, ei: Edge, e: Option<Edge>, p: Pair)
    requires MergeRight(lowpt, st, ei, e, p).Success?
    ensures var (ok, st', _) := MergeRight(lowpt, st, ei, e, p).value;
      forall k :: |st'.stack| + (if ok then 0 else 1) <= k < |st.stack| ==> OneSided(st.stack[k])
    decreases |st.stack|
  {
    var q0 := Last(st.stack);
    var rest := st.stack[..|st.stack| - 1];
    var q := if !IsEmpty(q0.left) then Swap(q0) else q0;
    if IsEmpty(q.left) {
      var r := MergeRight(lowpt, st, ei, e, p).value;
      if !(ei in st.bottom && TopId(rest) == st.bottom[ei]) {
        var lq := Low(lowpt, q.right.low).value;
        var le := Low(lowpt, e).value;
        var step: Result<(Pair, map<Edge, Edge>), Fault> :=
          if lq > le then
            if IsEmpty(p.right) then Success((p.(right := q.right), st.ref))
            else Success((p.(right := p.right.(low := q.right.low)), SetRef(st.ref, p.right.low, q.right.high)))
          else if e.value in st.lowptEdge then Success((p, SetRef(st.ref, q.right.low, Some(st.lowptEdge[e.value]))))
          else Failure(KeyMissing);
        var st1 := st.(stack := rest, ref := step.value.1);
        assert r == MergeRight(lowpt, st1, ei, e, step.value.0).value;
        MergeRightPops(lowpt, st1, ei, e, step.value.0);
        OneSidedBelow(st.stack, rest, |r.1.stack| + (if r.0 then 0 else 1));
      }
    }
  }

  /** Every pair the second loop pops conflicts with ei on exactly one side;
      on false, the one it stopped at conflicts on both. */
  lemma {:induction false} MergeLeftPops(lowpt: map<Edge, nat>, st: TState, ei: Edge, p: Pair)
    requires MergeLeft(lowpt, st, ei, p).Success?
    ensures var (ok, st', _) := MergeLeft(lowpt, st, ei, p).value;
      forall k :: |st'.stack| + (if ok then 0 else 1) <= k < |st.stack| ==> Mergeable(st.stack[k], ei, lowpt)
    decreases |st.stack|
  {
    var top := Last(st.stack);
    var cl := Conflicting(top.left, ei, lowpt).value;
    var cr := Conflicting(top.right, ei, lowpt).value;
    if (cl || cr) && !(cr && cl) {
      var rest := st.stack[..|st.stack| - 1];
      var q := if cr then Swap(top) else top;
      var ref1 := SetRef(st.ref, p.right.low, q.right.high);
      var right := if q.right.low.Some? then p.right.(low := q.right.low) else p.right;
      var left := if IsEmpty(p.left) then q.left else p.left.(low := q.left.low);
      var ref2 := if IsEmpty(p.left) then ref1 else SetRef(ref1, p.left.low, q.left.high);
      var st1 := st.(stack := rest, ref := ref2);
      var p1 := p.(left := left, right := right);
      var r := MergeLeft(lowpt, st, ei, p).value;
      assert r == MergeLeft(lowpt, st1, ei, p1).value;
      MergeLeftPops(lowpt, st1, ei, p1);
      MergeableBelow(st.stack, rest, |r.1.stack| + (if r.0 then 0 else 1), ei, lowpt);
    }
  }

  lemma OneSidedBelow(s: seq<Pair>, rest: seq<Pair>, lo: nat)
    requires 0 < |s| && rest == s[..|s| - 1] && lo <= |s| && OneSided(Last(s))
    requires forall k :: lo <= k < |rest| ==> OneSided(rest[k])
    ensures forall k :: lo <= k < |s| ==> OneSided(s[k])
  {
    assert forall k :: lo <= k < |rest| ==> rest[k] == s[k];
  }

  lemma MergeableBelow(s: seq<Pair>, rest: seq<Pair>, lo: nat, ei: Edge, lowpt: map<Edge, nat>)
    requires 0 < |s| && rest == s[..|s| - 1] && lo <= |s| && Mergeable(Last(s), ei, lowpt)
    requires forall k :: lo <= k < |rest| ==> Mergeable(rest[k], ei, lowpt)
    ensures forall k :: lo <= k < |s| ==> Mergeable(s[k], ei, lowpt)
  {
    assert forall k :: lo <= k < |rest| ==> rest[k] == s[k];
  }

  /** The two loops of `_add_constraints(ei, e)`: the stack after them and
      the new pair P they merge into, whose id is `nextId`. */
  function Merge(lowpt: map<Edge, nat>, st: TState, ei: Edge, e: Option<Edge>): (r: Result<(bool, TState, Pair), Fault>)
    ensures r.Success? ==>
      var (ok, st', p) := r.value;
      && p.id == st.nextId && SameRest(st.(nextId := st.nextId + 1), st') && Popped(st.stack, st'.stack)
  {
    var p := Pair(st.nextId, NoInterval, NoInterval);
    var (ok, st1, p1) :- MergeRight(lowpt, st.(nextId := st.nextId + 1), ei, e, p);
    if !ok then Success((false, st1, p1))
    else MergeLeft(lowpt, st1, ei, p1)
  }

  /** `_add_constraints(ei, e)`: merge the return edges of ei and the
      conflicting pairs below into one new pair P, pushed exactly when the
      merging succeeded and P is not empty. */
  function AddConstraints(lowpt: map<Edge, nat>, st: TState, ei: Edge, e: Option<Edge>): (r: Result<(bool, TState), Fault>)
    ensures r.Success? <==> Merge(lowpt, st, ei, e).Success?
    ensures r.Success? ==>
      var (ok, st', p) := Merge(lowpt, st, ei, e).value;
      && r.value.0 == ok
      && (ok && !PairEmpty(p) ==> r.value.1 == st'.(stack := st'.stack + [p]))
      && (!(ok && !PairEmpty(p)) ==> r.value.1 == st')
    ensures r.Success? ==>
      var (ok, st') := r.value;
      && st'.side == st.side && st'.lowptEdge == st.lowptEdge && st'.bottom == st.bottom
      && st'.nextId == st.nextId + 1
      && (Popped(st.stack, st'.stack)
          || (ok && |st'.stack| > 0 && Popped(st.stack, st'.stack[..|st'.stack| - 1])
              && Last(st'.stack).id == st.nextId && !PairEmpty(Last(st'.stack))))
  {
    var (ok, st1, p) :- Merge(lowpt, st, ei, e);
    if ok && !PairEmpty(p) then Success((true, st1.(stack := st1.stack + [p])))
    else Success((ok, st1))
  }

  // ---------------------------------------------------------------------
  // _remove_back_edges
  // ---------------------------------------------------------------------

  /** The left low edge of q, when there is one, is on the left. */
  predicate MarkedLeft(side: map<Edge, int>, q: Pair) {
    q.left.low.Some? ==> q.left.low.value in side && side[q.left.low.value] == -1
  }

  /** y is the left low edge of a pair at or above position n. */
  predicate PoppedLow(s: seq<Pair>, n: nat, y: Edge) {
    exists k :: n <= k < |s| && s[k].left.low == Some(y)
  }

  /** The first loop: pop the pairs whose lowest return edge ends at the
      height of u, marking their left low edges as left. */
  function PopLowest(lowpt: map<Edge, nat>, st: TState, hu: nat): (r: Result<TState, Fault>)
    ensures r.Success? ==>
      && Popped(st.stack, r.value.stack)
      && r.value == st.(stack := r.value.stack, side := r.value.side)
      && (SidesOk(st.side) ==> SidesOk(r.value.side))
      && (|r.value.stack| > 0 ==> Lowest(Last(r.value.stack), lowpt) != Success(hu))
    decreases |st.stack|
  {
    if |st.stack| == 0 then Success(st)
    else
      var top := Last(st.stack);
      var l :- Lowest(top, lowpt);
      if l != hu then Success(st)
      else
        PopLowest(lowpt, st.(stack := st.stack[..|st.stack| - 1], side := SetLeft(st.side, top.left.low)), hu)
  }

  /** Every pair the first loop pops had its lowest return edge at height
      hu and leaves its left low edge marked left; no other side changes. */
  lemma {:induction false} PopLowestPops(lowpt: map<Edge, nat>, st: TState, hu: nat)
    requires PopLowest(lowpt, st, hu).Success?
    ensures var r := PopLowest(lowpt, st, hu).value;
      && (forall k :: |r.stack| <= k < |st.stack| ==> Lowest(st.stack[k], lowpt) == Success(hu))
      && (forall k :: |r.stack| <= k < |st.stack| ==> MarkedLeft(r.side, st.stack[k]))
      && (forall y :: y in st.side && !PoppedLow(st.stack, |r.stack|, y) ==> y in r.side && r.side[y] == st.side[y])
    decreases |st.stack|
  {
    if |st.stack| > 0 {
      var top := Last(st.stack);
      if Lowest(top, lowpt).value == hu {
        var rest := st.stack[..|st.stack| - 1];
        var st1 := st.(stack := rest, side := SetLeft(st.side, top.left.low));
        PopLowestPops(lowpt, st1, hu);
        var r := PopLowest(lowpt, st1, hu).value;
        assert forall k :: 0 <= k < |rest| ==> rest[k] == st.stack[k];
        SidesOnlyGrowLeft(lowpt, st1, hu);

      }
    }
  }

  /** The first loop only ever writes -1 into `side`. */
  lemma {:induction false} SidesOnlyGrowLeft(lowpt: map<Edge, nat>, st: TState, hu: nat)
    requires PopLowest(lowpt, st, hu).Success?
    ensures var r := PopLowest(lowpt, st, hu).value;
      forall y :: y in st.side && st.side[y] == -1 ==> y in r.side && r.side[y] == -1
    decreases |st.stack|
  {
    if |st.stack| > 0 {
      var top := Last(st.stack);
      if Lowest(top, lowpt).value == hu {
        SidesOnlyGrowLeft(lowpt, st.(stack := st.stack[..|st.stack| - 1], side := SetLeft(st.side, top.left.low)), hu);
      }
    }
  }

  /** `ref.get(x)`. */
  function RefGet(ref: map<Edge, Edge>, x: Edge): Option<Edge> {
    if x in ref then Some(ref[x]) else None
  }

  /** Follow `ref` from `h` while the edge ends at u.  The source loops for
      ever on a cycle of such edges; `fuel` bounds the walk. */
  function Chase(ref: map<Edge, Edge>, h: Option<Edge>, u: nat, fuel: nat): (r: Result<Option<Edge>, Fault>)
    ensures r.Success? ==> r.value.None? || r.value.value.1 != u
    ensures h.None? || h.value.1 != u ==> r == Success(h)
    decreases fuel
  {
    if h.None? || h.value.1 != u then Success(h)
    else if fuel == 0 then Failure(Unbounded)
    else Chase(ref, RefGet(ref, h.value), u, fuel - 1)
  }

  /** More fuel does not change a walk that ended: the fuel is only a bound. */
  lemma {:induction false} ChaseFuel(ref: map<Edge, Edge>, h: Option<Edge>, u: nat, fuel: nat, more: nat)
    requires Chase(ref, h, u, fuel).Success? && fuel <= more
    ensures Chase(ref, h, u, more) == Chase(ref, h, u, fuel)
    decreases fuel
  {
    if h.Some? && h.value.1 == u {
      ChaseFuel(ref, RefGet(ref, h.value), u, fuel - 1, more - 1);
    }
  }

  /** The trimmed left interval: its high end no longer ends at u, and when
      nothing is left its low edge is aligned with the right low edge and
      marked left. */
  function TrimLeft(st: TState, p: Pair, u: nat): (r: Result<(TState, Pair), Fault>)
    ensures r.Success? ==>
      var (st', p') := r.value;
      && st' == st.(ref := st'.ref, side := st'.side) && p'.id == p.id && p'.right == p.right
      && (p'.left.high.None? || p'.left.high.value.1 != u)
      && (SidesOk(st.side) ==> SidesOk(st'.side))
  {
    var h :- Chase(st.ref, p.left.high, u, |st.ref| + 1);
    if h.None? && p.left.low.Some? then
      Success((st.(ref := SetRef(st.ref, p.left.low, p.right.low), side := SetLeft(st.side, p.left.low)),
               p.(left := NoInterval)))
    else Success((st, p.(left := p.left.(high := h))))
  }

  /** The same for the right interval, aligned with the (trimmed) left low edge. */
  function TrimRight(st: TState, p: Pair, u: nat): (r: Result<(TState, Pair), Fault>)
    ensures r.Success? ==>
      var (st', p') := r.value;
      && st' == st.(ref := st'.ref, side := st'.side) && p'.id == p.id && p'.left == p.left
      && (p'.right.high.None? || p'.right.high.value.1 != u)
      && (SidesOk(st.side) ==> SidesOk(st'.side))
  {
    var h :- Chase(st.ref, p.right.high, u, |st.ref| + 1);
    if h.None? && p.right.low.Some? then
      Success((st.(ref := SetRef(st.ref, p.right.low, p.left.low), side := SetLeft(st.side, p.right.low)),
               p.(right := NoInterval)))
    else Success((st, p.(right := p.right.(high := h))))
  }

  /** Neither high end of q ends at u. */
  predicate ClearOf(q: Pair, u: nat) {
    (q.left.high.None? || q.left.high.value.1 != u) && (q.right.high.None? || q.right.high.value.1 != u)
  }

  /** Trim both intervals of the top pair, if there is one. */
  function TrimTop(st: TState, u: nat): (r: Result<TState, Fault>)
    ensures r.Success? ==>
      && r.value == st.(stack := r.value.stack, ref := r.value.ref, side := r.value.side)
      && |r.value.stack| == |st.stack|
      && (|st.stack| > 0 ==> Popped(st.stack, r.value.stack[..|st.stack| - 1]) && Last(r.value.stack).id == Last(st.stack).id)
      && (|st.stack| > 0 ==> ClearOf(Last(r.value.stack), u))
      && (SidesOk(st.side) ==> SidesOk(r.value.side))
  {
    if |st.stack| == 0 then Success(st)
    else
      var rest := st.stack[..|st.stack| - 1];
      var (st2, p1) :- TrimLeft(st.(stack := rest), Last(st.stack), u);
      var (st3, p2) :- TrimRight(st2, p1, u);
      Success(st3.(stack := rest + [p2]))
  }

  /** The return edge e is linked to: the higher of the top pair's two high
      ends (the left one when only it is present or it lies higher). */
  function Align(lowpt: map<Edge, nat>, top: Pair): (r: Result<Option<Edge>, Fault>)
    ensures r.Success? ==> r.value == top.left.high || r.value == top.right.high
    ensures r.Success? && top.left.high.None? ==> r.value == top.right.high
    ensures r.Success? && top.left.high.Some? && top.right.high.None? ==> r.value == top.left.high
    ensures r.Success? <==> top.left.high.None? || top.right.high.None? || (top.left.high.value in lowpt && top.right.high.value in lowpt)
    ensures r.Success? && top.left.high.Some? && top.right.high.Some? ==>
      (lowpt[top.left.high.value] > lowpt[top.right.high.value] ==> r.value == top.left.high) &&
      (lowpt[top.left.high.value] <= lowpt[top.right.high.value] ==> r.value == top.right.high)
  {
    var hl := top.left.high;
    var hr := top.right.high;
    if hl.None? then Success(hr)
    else if hr.None? then Success(hl)
    else
      var a :- Low(lowpt, hl);
      var b :- Low(lowpt, hr);
      Success(if a > b then hl else hr)
  }

  /** `_remove_back_edges(e)` for the tree edge e = (u, v) whose subtree is
      finished: drop the return edges that end at u and, when e itself has
      return edges below u, link e to the highest return edge on top. */
  function RemoveBackEdges(height: map<nat, nat>, lowpt: map<Edge, nat>, st: TState, e: Edge): (r: Result<TState, Fault>)
    ensures r.Success? ==>
      && Reshaped(st.stack, r.value.stack, st.nextId)
      && r.value == st.(stack := r.value.stack, ref := r.value.ref, side := r.value.side)
      && (SidesOk(st.side) ==> SidesOk(r.value.side))
    ensures r.Success? ==>
      && e.0 in height && e in lowpt && |r.value.stack| <= |st.stack|
      && (|r.value.stack| > 0 ==> ClearOf(Last(r.value.stack), e.0))
      && (lowpt[e] < height[e.0] ==>
            |r.value.stack| > 0 && Align(lowpt, Last(r.value.stack)) == Success(RefGet(r.value.ref, e)))
  {
    var u := e.0;
    if u !in height then Failure(KeyMissing)
    else
      var st1 :- PopLowest(lowpt, st, height[u]);
      var st3 :- TrimTop(st1, u);
      var le :- Low(lowpt, Some(e));
      if le >= height[u] then Success(st3)
      else if |st3.stack| == 0 then Failure(EmptyStack)
      else
        var h :- Align(lowpt, Last(st3.stack));
        Success(st3.(ref := SetRef(st3.ref, Some(e), h)))
  }

  /** The pairs `_remove_back_edges` pops are exactly those whose lowest
      return edge ends at the height of u, counted from the top. */
  lemma RemoveBackEdgesPops(height: map<nat, nat>, lowpt: map<Edge, nat>, st: TState, e: Edge)
    requires RemoveBackEdges(height, lowpt, st, e).Success?
    ensures var r := RemoveBackEdges(height, lowpt, st, e).value;
      && (forall k :: |r.stack| <= k < |st.stack| ==> Lowest(st.stack[k], lowpt) == Success(height[e.0]))
      && (|r.stack| > 0 ==> Lowest(st.stack[|r.stack| - 1], lowpt) != Success(height[e.0]))
  {
    var st1 := PopLowest(lowpt, st, height[e.0]).value;
    PopLowestPops(lowpt, st, height[e.0]);
    var st3 := TrimTop(st1, e.0).value;
    assert |st3.stack| == |st1.stack|;
    if |st1.stack| > 0 {
      assert st1.stack[|st1.stack| - 1] == st.stack[|st1.stack| - 1];
    }
  }

  // ---------------------------------------------------------------------
  // _dfs_testing
  // ---------------------------------------------------------------------

  /** What phase 1 hands to phase 2: heights, parent edges, lowpoints and the
      out-neighbours of each vertex sorted by nesting depth. */
  datatype Dfs = Dfs(height: map<nat, nat>, parent: map<nat, Edge>, lowpt: map<Edge, nat>, adj: seq<seq<nat>>)

  /** Parent edges go one level down the DFS tree (what phase 1 guarantees);
      it is what makes the recursion of `_dfs_testing` end. */
  ghost predicate TreeOk(d: Dfs) {
    forall w :: w in d.parent ==>
      && d.parent[w].1 == w && w in d.height && d.parent[w].0 in d.height
      && d.height[w] == d.height[d.parent[w].0] + 1
  }

  /** A bound on the heights. */
  ghost function MaxHeight(h: map<nat, nat>): (r: nat)
    ensures forall x :: x in h ==> h[x] <= r
    decreases |h|
  {
    if |h| == 0 then 0
    else
      var x :| x in h;
      var m := MaxHeight(h - {x});
      assert forall y :: y in h && y != x ==> y in h - {x} && h[y] == (h - {x})[y];
      if h[x] <= m then m else h[x]
  }

  /** `parent_edge[v]`, `None` for a root. */
  function ParentOf(d: Dfs, v: nat): Option<Edge> {
    if v in d.parent then Some(d.parent[v]) else None
  }

  /** `_dfs_testing(v)`: false when the graph is found not planar. */
  function Test(d: Dfs, st: TState, v: nat): (r: Result<(bool, TState), Fault>)
    requires TreeOk(d) && v in d.height
    ensures r.Success? && SidesOk(st.side) ==> SidesOk(r.value.1.side)
    decreases MaxHeight(d.height) - d.height[v], 1, 0
  {
    if v >= |d.adj| then Failure(KeyMissing)
    else
      var (ok, st1) :- TestEdges(d, st, v, 0);
      if !ok then Success((false, st1))
      else if v !in d.parent then Success((true, st1))
      else
        var st2 :- RemoveBackEdges(d.height, d.lowpt, st1, d.parent[v]);
        Success((true, st2))
  }

  /** The loop of `_dfs_testing(v)` from its i-th out-edge on. */
  function TestEdges(d: Dfs, st: TState, v: nat, i: nat): (r: Result<(bool, TState), Fault>)
    requires TreeOk(d) && v in d.height && v < |d.adj| && i <= |d.adj[v]|
    ensures r.Success? && SidesOk(st.side) ==> SidesOk(r.value.1.side)
    decreases MaxHeight(d.height) - d.height[v], 0, |d.adj[v]| - i
  {
    if i == |d.adj[v]| then Success((true, st))
    else
      var w := d.adj[v][i];
      var ei := (v, w);
      var e := ParentOf(d, v);
      var st0 := st.(bottom := st.bottom[ei := TopId(st.stack)]);
      var (ok, st1) :-
        if w in d.parent && d.parent[w] == ei then Test(d, st0, w)
        else
          var p := Pair(st0.nextId, NoInterval, Interval(Some(ei), Some(ei)));
          Success((true, st0.(lowptEdge := st0.lowptEdge[ei := ei], stack := st0.stack + [p], nextId := st0.nextId + 1)));
      if !ok then Success((false, st1))
      else
        var lo :- Low(d.lowpt, Some(ei));
        var (ok2, st2) :-
          if lo >= d.height[v] then Success((true, st1))
          else if w == d.adj[v][0] then
            if e.None? then Success((true, st1))
            else if ei !in st1.lowptEdge then Failure(KeyMissing)
            else Success((true, st1.(lowptEdge := st1.lowptEdge[e.value := st1.lowptEdge[ei]])))
          else AddConstraints(d.lowpt, st1, ei, e);
        if !ok2 then Success((false, st2))
        else TestEdges(d, st2, v, i + 1)
  }

  /** `for v in self.roots: if not self._dfs_testing(v): return None`. */
  function TestRoots(d: Dfs, st: TState, roots: seq<nat>): (r: Result<(bool, TState), Fault>)
    requires TreeOk(d) && forall k :: 0 <= k < |roots| ==> roots[k] in d.height
    ensures r.Success? && SidesOk(st.side) ==> SidesOk(r.value.1.side)
    decreases |roots|
  {
    if |roots| == 0 then Success((true, st))
    else
      var (ok, st1) :- Test(d, st, roots[0]);
      if !ok then Success((false, st1)) else TestRoots(d, st1, roots[1..])
  }

  // ---------------------------------------------------------------------
  // _get_side and the signs of phase 3
  // ---------------------------------------------------------------------

  /** `self.side[e]` on a bare map. */
  function SideIn(side: map<Edge, int>, e: Edge): int {
    if e in side then side[e] else 1
  }

  /** The edges met following `ref` from e: e, ref[e], ... up to the first
      edge with no `ref`. */
  function Chain(ref: map<Edge, Edge>, e: Edge, fuel: nat): (r: Result<seq<Edge>, Fault>)
    ensures r.Success? ==> |r.value| > 0 && r.value[0] == e
    decreases fuel
  {
    if e !in ref then Success([e])
    else if fuel == 0 then Failure(Unbounded)
    else
      var c :- Chain(ref, ref[e], fuel - 1);
      Success([e] + c)
  }

  /** The product of the sides of the edges of c. */
  function Product(side: map<Edge, int>, c: seq<Edge>): int {
    if |c| == 0 then 1 else SideIn(side, c[0]) * Product(side, c[1..])
  }

  /** `_get_side(e)`: resolves the side of e by multiplying its own side with
      that of the edge it refers to, recursively, and clears the reference. */
  function GetSide(st: TState, e: Edge, fuel: nat): (r: Result<(int, TState), Fault>)
    ensures r.Success? ==>
      var (s, st') := r.value;
      && st' == st.(ref := st'.ref, side := st'.side)
      && e !in st'.ref && Side(st', e) == s
      && (SidesOk(st.side) ==> SidesOk(st'.side) && (s == 1 || s == -1))
      && (forall x :: x in st'.ref ==> x in st.ref && st'.ref[x] == st.ref[x])
    decreases fuel
  {
    if e !in st.ref then Success((Side(st, e), st))
    else if fuel == 0 then Failure(Unbounded)
    else
      // the augmented assignment reads side[e] before the recursive call
      var mine := Side(st, e);
      var (s, st1) :- GetSide(st, st.ref[e], fuel - 1);
      var v := mine * s;
      Success((v, st1.(side := st1.side[e := v], ref := st1.ref - {e})))
  }

  /** The side `_get_side` returns is the product of the sides along the
      chain, every edge of the chain loses its reference, and no other edge
      changes. */
  lemma {:induction false} GetSideResolves(st: TState, e: Edge, fuel: nat)
    requires GetSide(st, e, fuel).Success?
    ensures Chain(st.ref, e, fuel).Success?
    ensures
      var c := Chain(st.ref, e, fuel).value;
      var (s, st') := GetSide(st, e, fuel).value;
      && s == Product(st.side, c)
      && (forall k :: 0 <= k < |c| ==> c[k] !in st'.ref)
      && (forall y :: y !in c ==> (y in st'.ref <==> y in st.ref) && SideIn(st'.side, y) == SideIn(st.side, y))
    decreases fuel
  {
    if e in st.ref {
      GetSideResolves(st, st.ref[e], fuel - 1);
      var c := Chain(st.ref, e, fuel).value;
      assert c == [e] + Chain(st.ref, st.ref[e], fuel - 1).value;
      assert c[1..] == Chain(st.ref, st.ref[e], fuel - 1).value;
    }
  }

  /** Asking again for a resolved side changes nothing. */
  lemma GetSideIdempotent(st: TState, e: Edge, fuel: nat, more: nat)
    requires GetSide(st, e, fuel).Success?
    ensures
      var (s, st') := GetSide(st, e, fuel).value;
      GetSide(st', e, more) == Success((s, st'))
  {
  }

  /** Phase 3: `nesting_depth[e] *= _get_side(e)` for every oriented edge, in
      order. */
  function Signs(st: TState, edges: seq<Edge>, nesting: map<Edge, int>): (r: Result<(map<Edge, int>, TState), Fault>)
    ensures r.Success? ==>
      var (nest', st') := r.value;
      && nest'.Keys == nesting.Keys
      && (forall k :: 0 <= k < |edges| ==> edges[k] !in st'.ref)
      && (forall x :: x in st'.ref ==> x in st.ref)
      && (SidesOk(st.side) ==>
            && SidesOk(st'.side)
            && forall x :: x in nesting ==> nest'[x] == nesting[x] || nest'[x] == -nesting[x])
    decreases |edges|
  {
    if |edges| == 0 then Success((nesting, st))
    else
      var e := edges[0];
      if e !in nesting then Failure(KeyMissing)
      else
        var (s, st1) :- GetSide(st, e, |st.ref| + 1);
        var (nest', st') :- Signs(st1, edges[1..], nesting[e := nesting[e] * s]);
        assert forall k :: 0 < k < |edges| ==> edges[k] == edges[1..][k - 1];
        Success((nest', st'))
  }
}

=== FILE: numbers.dfy ===
/** Divisibility and primality shared by the C labs: `is_prime` of
    OSLabs/Lab1/Task4/task4.c and the residue count of OSLabs/Lab3/Task3/file.c. */
module Numbers {

  /** d is a positive divisor of x. */
  predicate Divides(d: nat, x: nat) {
    d > 0 && x % d == 0
  }

  /** n is at least 2 and has no divisor strictly between 1 and n. */
  predicate Prime(n: nat) {
    n >= 2 && forall d :: 2 <= d < n ==> !Divides(d, n)
  }

  /** A product of a positive d by a value strictly between -1 and 1 in
      units of d is zero. */
  lemma MulSmall(d: int, m: int)
    requires d > 0 && -d < d * m < d
    ensures m == 0
  {
  }

  /** Quotient and remainder are determined by the division identity. */
  lemma ModUnique(x: int, d: int, q: int, r: int)
    requires d > 0 && x == d * q + r && 0 <= r < d
    ensures x % d == r && x / d == q
  {
    var q2, r2 := x / d, x % d;
    assert x == d * q2 + r2;
    assert d * (q - q2) == r2 - r;
    MulSmall(d, q - q2);
  }

  lemma MulDivides(d: nat, k: nat)
    requires d > 0
    ensures Divides(d, d * k)
  {
    ModUnique(d * k, d, k, 0);
  }

  lemma MulMono(a: nat, b: nat, c: nat)
    requires a <= b
    ensures a * c <= b * c
  {
  }

  /** Divisibility is transitive. */
  lemma DividesTrans(a: nat, b: nat, c: nat)
    requires Divides(a, b) && Divides(b, c)
    ensures Divides(a, c)
  {
    var p, q := b / a, c / b;
    assert b == a * p;
    assert c == b * q;
    assert c == a * (p * q);
    MulDivides(a, p * q);
  }

  /** The quotient by a divisor is a divisor too. */
  lemma CoFactor(d: nat, n: nat)
    requires Divides(d, n) && n > 0
    ensures n / d > 0 && Divides(n / d, n) && (n / d) * d == n
  {
    var q := n / d;
    assert n == d * q;
    assert q != 0;
    MulDivides(q, d);
    assert q * d == n;
  }

  /** A divisor below n leaves a cofactor of at least 2, and one of at least
      i leaves a cofactor below i once i * i exceeds n. */
  lemma SmallCoFactor(d: nat, n: nat, i: nat)
    requires Divides(d, n) && d < n && i <= d && n < i * i
    ensures 2 <= n / d < i && Divides(n / d, n)
  {
    CoFactor(d, n);
    var q := n / d;
    if q >= i {
      MulMono(i, d, q);
      MulMono(i, q, i);
    }
  }

  /** An even divisor of n makes 2 a divisor of n; likewise for 3. */
  lemma SmallFactor(p: nat, d: nat, n: nat)
    requires p > 0 && d % p == 0 && Divides(d, n)
    ensures Divides(p, n)
  {
    DividesTrans(p, d, n);
  }

  /** Between two candidates 6k + 5 and 6k + 11 every other number is a
      multiple of 2 or 3. */
  lemma Wheel(i: nat, k: nat)
    requires i == 6 * k + 5
    ensures (i + 1) % 2 == 0 && (i + 3) % 2 == 0 && (i + 5) % 2 == 0 && (i + 4) % 3 == 0
  {
    ModUnique(i + 1, 2, 3 * k + 3, 0);
    ModUnique(i + 3, 2, 3 * k + 4, 0);
    ModUnique(i + 5, 2, 3 * k + 5, 0);
    ModUnique(i + 4, 3, 2 * k + 3, 0);
  }

  /** `is_prime(n)` for a 32-bit unsigned n: reject 0 and 1, accept 2 and 3,
      reject multiples of 2 and 3, then trial-divide by 6k - 1 and 6k + 1
      while the square of the candidate stays within n. */
  method IsPrime(n: nat) returns (r: bool)
    requires n < 0x1_0000_0000
    ensures r <==> Prime(n)
  {
    if n <= 1 {
      return false;
    }
    if n <= 3 {
      return true;
    }
    if n % 2 == 0 || n % 3 == 0 {
      assert Divides(if n % 2 == 0 then 2 else 3, n);
      return false;
    }
    var i := 5;
    ghost var k: nat := 0;
    while i * i <= n
      invariant i == 6 * k + 5
      invariant forall d :: 2 <= d < i && d < n ==> !Divides(d, n)
      decreases n - i
    {
      assert i + 2 < i * i;
      if n % i == 0 || n % (i + 2) == 0 {
        assert Divides(if n % i == 0 then i else i + 2, n);
        return false;
      }
      Wheel(i, k);
      forall d | 2 <= d < i + 6 && d < n ensures !Divides(d, n) {
        if i <= d && Divides(d, n) {
          if d == i + 1 || d == i + 3 || d == i + 5 {
            SmallFactor(2, d, n);
          } else if d == i + 4 {
            SmallFactor(3, d, n);
          }
        }
      }
      i, k := i + 6, k + 1;
    }
    forall d | 2 <= d < n ensures !Divides(d, n) {
      if i <= d && Divides(d, n) {
        SmallCoFactor(d, n, i);
      }
    }
    return true;
  }
}

=== FILE: reach.dfy ===
/** Reachability over an adjacency list whose vertices are 0..|adj|-1: the
    closure that depth-first and breadth-first searches compute.  Used by the
    component loops of Graphs/Graphs.py and of PlanarEmbedding.check_structure. */
module Reach {

  /** Every neighbour named in `adj` is a vertex. */
  predicate InRange(adj: seq<seq<nat>>) {
    forall u, i :: 0 <= u < |adj| && 0 <= i < |adj[u]| ==> adj[u][i] < |adj|
  }

  function Vertices(n: nat): (r: set<nat>)
    ensures forall x: nat :: x in r <==> x < n
  {
    if n == 0 then {} else Vertices(n - 1) + {n - 1}
  }

  /** There are n vertices. */
  lemma {:induction false} VerticesCount(n: nat)
    ensures |Vertices(n)| == n
  {
    if n > 0 {
      VerticesCount(n - 1);
      var below := Vertices(n - 1);
      assert n - 1 !in below;
      assert |below + {n - 1}| == |below| + 1;
      assert Vertices(n) == below + {n - 1};
    }
  }

  /** A subset is no larger. */
  lemma {:induction false} SubsetSize(a: set<nat>, b: set<nat>)
    requires a <= b
    ensures |a| <= |b|
    decreases |a|
  {
    if a != {} {
      var x :| x in a;
      SubsetSize(a - {x}, b - {x});
    }
  }

  /** `c` has no edge leaving it. */
  ghost predicate Closed(adj: seq<seq<nat>>, c: set<nat>) {
    forall x, y :: x in c && 0 <= x < |adj| && y in adj[x] ==> y in c
  }

  /** The elements of `nbrs` that have not been seen, in order. */
  function Unseen(nbrs: seq<nat>, seen: set<nat>): (r: seq<nat>)
    ensures forall x :: x in r <==> x in nbrs && x !in seen
  {
    if |nbrs| == 0 then []
    else if nbrs[0] in seen then Unseen(nbrs[1..], seen)
    else [nbrs[0]] + Unseen(nbrs[1..], seen + {nbrs[0]})
  }

  function Elems(s: seq<nat>): (r: set<nat>)
    ensures forall x :: x in r <==> x in s
  {
    set x | x in s
  }

  /** One step of the search: expand frontier[0], mark its unseen neighbours
      and queue them. */
  function Step(adj: seq<seq<nat>>, seen: set<nat>, frontier: seq<nat>): (r: (set<nat>, seq<nat>))
    requires InRange(adj) && |frontier| > 0 && frontier[0] < |adj|
    ensures r.0 == seen + Elems(Unseen(adj[frontier[0]], seen))
    ensures r.1 == frontier[1..] + Unseen(adj[frontier[0]], seen)
  {
    var found := Unseen(adj[frontier[0]], seen);
    (seen + Elems(found), frontier[1..] + found)
  }

  /** Search state: what is seen lies in the graph, and the work list is seen. */
  predicate Good(adj: seq<seq<nat>>, seen: set<nat>, frontier: seq<nat>) {
    && InRange(adj) && seen <= Vertices(|adj|)
    && forall i :: 0 <= i < |frontier| ==> frontier[i] in seen
  }

  /** A step keeps the state good and shrinks the measure of the search. */
  lemma StepDecreases(adj: seq<seq<nat>>, seen: set<nat>, frontier: seq<nat>)
    requires Good(adj, seen, frontier) && |frontier| > 0
    ensures frontier[0] < |adj|
    ensures Good(adj, Step(adj, seen, frontier).0, Step(adj, seen, frontier).1)
    ensures
      var (seen', rest) := Step(adj, seen, frontier);
      || |Vertices(|adj|) - seen'| < |Vertices(|adj|) - seen|
      || (seen' == seen && |rest| < |frontier|)
  {
    StepGood(adj, seen, frontier);
    StepShrinks(adj, seen, frontier);
  }

  lemma StepGood(adj: seq<seq<nat>>, seen: set<nat>, frontier: seq<nat>)
    requires Good(adj, seen, frontier) && |frontier| > 0
    ensures frontier[0] < |adj|
    ensures Good(adj, Step(adj, seen, frontier).0, Step(adj, seen, frontier).1)
  {
    assert frontier[0] in seen;
    var (seen', rest) := Step(adj, seen, frontier);
    var found := Unseen(adj[frontier[0]], seen);
    forall i | 0 <= i < |rest| ensures rest[i] in seen' {
      if i < |frontier| - 1 { assert rest[i] == frontier[i + 1]; }
      else { assert rest[i] in found; }
    }
  }

  lemma StepShrinks(adj: seq<seq<nat>>, seen: set<nat>, frontier: seq<nat>)
    requires Good(adj, seen, frontier) && |frontier| > 0
    ensures frontier[0] < |adj|
    ensures
      var (seen', rest) := Step(adj, seen, frontier);
      || |Vertices(|adj|) - seen'| < |Vertices(|adj|) - seen|
      || (seen' == seen && |rest| < |frontier|)
  {
    assert frontier[0] in seen;
    var (seen', rest) := Step(adj, seen, frontier);
    var found := Unseen(adj[frontier[0]], seen);
    if |found| > 0 {
      assert found[0] in Vertices(|adj|) - seen && found[0] !in Vertices(|adj|) - seen';
      assert Vertices(|adj|) - seen' < Vertices(|adj|) - seen;
    } else {
      assert seen' == seen;
    }
  }

  /** Work-list search: expands the frontier until it is empty. */
  function Explore(adj: seq<seq<nat>>, seen: set<nat>, frontier: seq<nat>): (r: set<nat>)
    requires Good(adj, seen, frontier)
    ensures seen <= r <= Vertices(|adj|)
    decreases |Vertices(|adj|) - seen|, |frontier|
  {
    if |frontier| == 0 then seen
    else
      StepDecreases(adj, seen, frontier);
      var (seen', rest) := Step(adj, seen, frontier);
      Explore(adj, seen', rest)
  }

  /** If everything seen is either still to be expanded or already has all its
      neighbours seen, the search ends in a closed set. */
  lemma {:induction false} ExploreClosed(adj: seq<seq<nat>>, seen: set<nat>, frontier: seq<nat>)
    requires Good(adj, seen, frontier)
    requires forall x, y :: x in seen && x !in frontier && y in adj[x] ==> y in seen
    ensures Closed(adj, Explore(adj, seen, frontier))
    decreases |Vertices(|adj|) - seen|, |frontier|
  {
    if |frontier| > 0 {
      StepDecreases(adj, seen, frontier);
      var u := frontier[0];
      var (seen', rest) := Step(adj, seen, frontier);
      StepClosed(adj, seen, frontier);
      ExploreClosed(adj, seen', rest);
    }
  }

  /** The step keeps "seen and not queued means expanded". */
  lemma StepClosed(adj: seq<seq<nat>>, seen: set<nat>, frontier: seq<nat>)
    requires Good(adj, seen, frontier) && |frontier| > 0 && frontier[0] < |adj|
    requires forall x, y :: x in seen && x !in frontier && y in adj[x] ==> y in seen
    ensures var (seen', rest) := Step(adj, seen, frontier);
      forall x, y :: x in seen' && x !in rest && y in adj[x] ==> y in seen'
  {
    var u := frontier[0];
    var (seen', rest) := Step(adj, seen, frontier);
    var found := Unseen(adj[u], seen);
    forall x, y | x in seen' && x !in rest && y in adj[x] ensures y in seen' {
      if x != u {
        assert x !in found;
        assert frontier == [u] + frontier[1..];
        assert x in seen && x !in frontier;
      }
    }
  }

  /** The search adds nothing outside a closed set that holds what was already seen. */
  lemma {:induction false} ExploreLeast(adj: seq<seq<nat>>, seen: set<nat>, frontier: seq<nat>, c: set<nat>)
    requires Good(adj, seen, frontier)
    requires seen <= c && Closed(adj, c)
    ensures Explore(adj, seen, frontier) <= c
    decreases |Vertices(|adj|) - seen|, |frontier|
  {
    if |frontier| > 0 {
      StepDecreases(adj, seen, frontier);
      var (seen', rest) := Step(adj, seen, frontier);
      assert seen' <= c;
      ExploreLeast(adj, seen', rest, c);
    }
  }

  /** The vertices reachable from `s` without entering `visited`, as one
      search started at `s` with `visited` already marked finds them. */
  function Component(adj: seq<seq<nat>>, visited: set<nat>, s: nat): (r: set<nat>)
    requires InRange(adj) && visited <= Vertices(|adj|) && s < |adj| && s !in visited
    ensures s in r && r <= Vertices(|adj|) && r !! visited
  {
    Explore(adj, visited + {s}, [s]) - visited
  }

  /** Edges go both ways. */
  predicate Symmetric(adj: seq<seq<nat>>) {
    forall u, i :: 0 <= u < |adj| && 0 <= i < |adj[u]| && adj[u][i] < |adj| ==> u in adj[adj[u][i]]
  }

  /** With symmetric edges and a closed `visited`, a component is closed and
      is the least closed set holding its start: it is exactly the part of
      the graph connected to `s`. */
  lemma ComponentIsClosure(adj: seq<seq<nat>>, visited: set<nat>, s: nat, c: set<nat>)
    requires InRange(adj) && Symmetric(adj) && visited <= Vertices(|adj|) && s < |adj| && s !in visited
    requires Closed(adj, visited)
    ensures Closed(adj, Component(adj, visited, s))
    ensures Closed(adj, c) && s in c ==> Component(adj, visited, s) <= c
  {
    var all := Explore(adj, visited + {s}, [s]);
    ExploreClosed(adj, visited + {s}, [s]);
    var comp := all - visited;
    forall x, y | x in comp && 0 <= x < |adj| && y in adj[x] ensures y in comp {
      assert y in all;
    }
    if Closed(adj, c) && s in c {
      var c' := c + visited;
      assert Closed(adj, c');
      ExploreLeast(adj, visited + {s}, [s], c');
    }
  }
}

=== FILE: realise.dfy ===
/** `VectorToAdjacency` of hypergraphs/Graphs/ClassLibrary1/Graph.cs: the
    greedy that realises a degree vector as a simple graph, writing each pair
    it makes into a symmetric 0/1 matrix, and the conversions built on it. */
module Realise {
  import opened Wrappers
  import opened Degrees

  /** The n-by-n zero matrix `new int[n, n]`. */
  function Zero(n: nat): (m: Matrix)
    ensures |m| == n && Square(m)
    ensures forall x, y :: 0 <= x < n && 0 <= y < n ==> m[x][y] == 0
  {
    seq(n, _ => seq(n, _ => 0))
  }

  /** `adjacencyMatrix[i, j] = 1; adjacencyMatrix[j, i] = 1;` */
  function Link(m: Matrix, x: nat, y: nat): (r: Matrix)
    requires Square(m) && x < |m| && y < |m| && x != y
    ensures |r| == |m| && Square(r)
    ensures r[x] == m[x][y := 1] && r[y] == m[y][x := 1]
    ensures forall a :: 0 <= a < |m| && a != x && a != y ==> r[a] == m[a]
  {
    m[x := m[x][y := 1]][y := m[y][x := 1]]
  }

  /** Cell (x, y) has not been written before column j of row i: both ends are
      at least i, and a cell of row or column i lies at or beyond column j. */
  predicate Untouched(x: nat, y: nat, i: nat, j: nat) {
    x >= i && y >= i && (x == i ==> y >= j) && (y == i ==> x >= j)
  }

  /** The state of the greedy before column j of row i: a simple graph in
      which every vertex has as many neighbours as it has given up degree,
      nothing in the untouched corner, remaining degrees between 0 and the
      given one (or equal to it when that is not positive), and the rows
      before i used up. */
  ghost predicate Inv(d: seq<int>, t: seq<int>, m: Matrix, i: nat, j: nat) {
    && |t| == |d| && |m| == |d| && Square(m) && Simple(m)
    && (forall x, y :: 0 <= x < |m| && 0 <= y < |m| && Untouched(x, y, i, j) ==> m[x][y] == 0)
    && (forall x :: 0 <= x < |d| ==> Ones(m[x]) == d[x] - t[x])
    && (forall x :: 0 <= x < |d| ==> if d[x] <= 0 then t[x] == d[x] else 0 <= t[x] <= d[x])
    && (forall x :: 0 <= x < i && x < |d| ==> t[x] <= 0)
  }

  /** The zero matrix is the state before the first row. */
  lemma Start(d: seq<int>)
    ensures Inv(d, d, Zero(|d|), 0, 1)
  {
    var m := Zero(|d|);
    forall x | 0 <= x < |d| ensures Ones(m[x]) == 0 {
      ZeroRow(m[x], |d|);
    }
  }

  lemma {:induction false} ZeroRow(row: seq<int>, hi: nat)
    requires hi <= |row| && forall y :: 0 <= y < |row| ==> row[y] == 0
    ensures CountOnes(row, 0, hi) == 0
  {
    if hi > 0 {
      ZeroRow(row, hi - 1);
    }
  }

  /** Once every row is used up, vertex x has its positive degree as
      neighbour count, and a non-negative vector is counted back exactly. */
  lemma Finish(d: seq<int>, t: seq<int>, m: Matrix)
    requires Inv(d, t, m, |d|, |d| + 1) && Sum(d) % 2 == 0
    ensures forall x :: 0 <= x < |d| ==> Ones(m[x]) == (if d[x] > 0 then d[x] else 0)
    ensures (forall x :: 0 <= x < |d| ==> d[x] >= 0) ==> AdjacencyToVector(m) == Success(d)
  {
    if forall x :: 0 <= x < |d| ==> d[x] >= 0 {
      assert RowCounts(m) == d;
      assert !HasBadEntry(m);
    }
  }

  /** Pairing i with j keeps the state. */
  lemma LinkStep(d: seq<int>, t: seq<int>, m: Matrix, i: nat, j: nat)
    requires Inv(d, t, m, i, j) && i < j < |d| && t[i] > 0 && t[j] > 0
    ensures Inv(d, t[i := t[i] - 1][j := t[j] - 1], Link(m, i, j), i, j + 1)
  {
    var t' := t[i := t[i] - 1][j := t[j] - 1];
    var m' := Link(m, i, j);
    assert Untouched(i, j, i, j) && Untouched(j, i, i, j);
    OnesSet(m[i], j);
    OnesSet(m[j], i);
    forall x, y | 0 <= x < |m| && 0 <= y < |m|
      ensures m'[x][y] == (if (x == i && y == j) || (x == j && y == i) then 1 else m[x][y])
    {
      if x != i && x != j {
        assert m'[x] == m[x];
      }
    }
  }

  /** Passing over column j keeps the state. */
  lemma SkipStep(d: seq<int>, t: seq<int>, m: Matrix, i: nat, j: nat)
    requires Inv(d, t, m, i, j)
    ensures Inv(d, t, m, i, j + 1)
  {
    forall x, y | 0 <= x < |m| && 0 <= y < |m| && Untouched(x, y, i, j + 1) ensures m[x][y] == 0 {
      assert Untouched(x, y, i, j);
    }
  }

  /** Moving on to row i + 1 after row i is used up keeps the state. */
  lemma NextRow(d: seq<int>, t: seq<int>, m: Matrix, i: nat, j: nat)
    requires Inv(d, t, m, i, j) && i < |d| && t[i] <= 0 && j >= i + 1
    ensures Inv(d, t, m, i + 1, i + 2)
  {
    forall x, y | 0 <= x < |m| && 0 <= y < |m| && Untouched(x, y, i + 1, i + 2) ensures m[x][y] == 0 {
      assert Untouched(x, y, i, j);
    }
  }

  /** `VectorToAdjacency` on a non-null vector.  It succeeds exactly when
      `CheckVectorGraphical` accepts the vector; the matrix is then a simple
      graph in which vertex x has d[x] neighbours (none for a non-positive
      entry), so counting the rows back gives the vector again. */
  method VectorToAdjacency(d: seq<int>) returns (r: Result<Matrix, Error>)
    ensures r.Success? <==> VectorGraphical(d)
    ensures Sum(d) % 2 != 0 ==> r == Failure(OddSum)
    ensures r.Failure? && Sum(d) % 2 == 0 ==> Settle(d, 0, true) == Failure(r.error)
    ensures r.Success? ==> |r.value| == |d| && Square(r.value) && Simple(r.value)
    ensures r.Success? ==> forall x :: 0 <= x < |d| ==> Ones(r.value[x]) == (if d[x] > 0 then d[x] else 0)
    ensures r.Success? && (forall x :: 0 <= x < |d| ==> d[x] >= 0) ==> AdjacencyToVector(r.value) == Success(d)
  {
    if Sum(d) % 2 != 0 {
      return Failure(OddSum);
    }
    ghost var t;
    r, t := PairAll(d);
    GuardEquiv(d);
    if r.Success? {
      Finish(d, t, r.value);
    }
  }

  /** The outer loop of the greedy, after the parity test. */
  method PairAll(d: seq<int>) returns (r: Result<Matrix, Error>, ghost t: seq<int>)
    ensures r.Success? ==> Inv(d, t, r.value, |d|, |d| + 1) && Settle(d, 0, true).Success?
    ensures r.Failure? ==> Settle(d, 0, true) == Failure(r.error)
  {
    var n := |d|;
    var u := d;
    var m := Zero(n);
    Start(d);
    var i := 0;
    while i < n
      invariant i <= n
      invariant Inv(d, u, m, i, i + 1)
      invariant Settle(u, i, true) == Settle(d, 0, true)
    {
      // The source's `while (t[i] > 0)` runs at most once: its body either
      // uses the degree up or gives up.
      if u[i] > 0 {
        if u[i] >= n {
          return Failure(TooLarge(i)), u;
        }
        u, m := PairRow(d, u, m, i);
        if u[i] > 0 {
          return Failure(NotEnough(i)), u;
        }
        NextRow(d, u, m, i, n);
      } else {
        NextRow(d, u, m, i, i + 1);
      }
      i := i + 1;
    }
    return Success(m), u;
  }

  /** The inner `for` loop at row i: pairs i with each later vertex that has
      degree left while i has any, as `Sweep` does to the degrees. */
  method PairRow(d: seq<int>, t: seq<int>, m: Matrix, i: nat) returns (t': seq<int>, m': Matrix)
    requires Inv(d, t, m, i, i + 1) && i < |d|
    ensures Inv(d, t', m', i, |d|)
    ensures t' == Sweep(t, i, i + 1)
  {
    t', m' := t, m;
    var j := i + 1;
    while j < |d|
      invariant i < j <= |d|
      invariant Inv(d, t', m', i, j)
      invariant Sweep(t', i, j) == Sweep(t, i, i + 1)
    {
      if t'[i] > 0 && t'[j] > 0 {
        LinkStep(d, t', m', i, j);
        m' := Link(m', i, j);
        t' := t'[i := t'[i] - 1][j := t'[j] - 1];
      } else {
        SkipStep(d, t', m', i, j);
      }
      j := j + 1;
    }
  }

  /** `TryVectorToAdjacency`: `null` is refused, otherwise as `VectorToAdjacency`. */
  method TryVectorToAdjacency(d: Option<seq<int>>) returns (r: Result<Matrix, Error>)
    ensures d.None? ==> r == Failure(NullArgument)
    ensures d.Some? ==> (r.Success? <==> CheckVectorGraphical(d))
    ensures r.Success? ==> |r.value| == |d.value| && Square(r.value) && Simple(r.value)
    ensures r.Success? ==> forall x :: 0 <= x < |d.value| ==> Ones(r.value[x]) == (if d.value[x] > 0 then d.value[x] else 0)
  {
    if d.None? {
      return Failure(NullArgument);
    }
    r := VectorToAdjacency(d.value);
  }
}

=== FILE: residues.dfy ===
/** OSLabs/Lab3/Task3/file.c without its pipes and fork: the child counts
    the reduced residues modulo n with Euclid's `__gcd`, and the parent keeps
    the drawn n whose reduced residue system is the full one. */
module Residues {
  import opened Numbers

  /** The most values the parent collects before it stops (`MAX_VALUES`). */
  const MaxValues: nat := 50

  /** A common divisor of a and b that is not 0 modulo b divides a % b. */
  lemma ModKeeps(d: nat, a: nat, b: nat)
    requires Divides(d, a) && Divides(d, b) && b > 0
    ensures Divides(d, a % b)
  {
    var p, q, t := a / d, b / d, a / b;
    assert a == d * p && b == d * q && a == t * b + a % b;
    var m := p - t * q;
    assert a % b == d * m;
    assert m >= 0;
    MulDivides(d, m);
  }

  /** A common divisor of b and a % b divides a. */
  lemma ModRestores(d: nat, a: nat, b: nat)
    requires b > 0 && Divides(d, b) && Divides(d, a % b)
    ensures Divides(d, a)
  {
    var q, s, t := b / d, (a % b) / d, a / b;
    assert b == d * q && a % b == d * s && a == t * b + a % b;
    assert a == d * (t * q + s);
    MulDivides(d, t * q + s);
  }

  /** A positive divisor of a positive number is at most that number. */
  lemma DividesLe(d: nat, x: nat)
    requires Divides(d, x) && x > 0
    ensures d <= x
  {
    var q := x / d;
    assert x == d * q && q >= 1;
    MulMono(1, q, d);
  }

  /** `__gcd(a, b)`: the remainder loop of Euclid. Its result has exactly
      the common divisors of a and b as its divisors, so it is their greatest
      common divisor, and it is 0 only for gcd(0, 0). */
  method Gcd(a: nat, b: nat) returns (r: nat)
    ensures forall d: nat :: Divides(d, r) <==> Divides(d, a) && Divides(d, b)
    ensures r == 0 <==> a == 0 && b == 0
  {
    var x, y := a, b;
    while y != 0
      invariant forall d: nat :: Divides(d, x) && Divides(d, y) <==> Divides(d, a) && Divides(d, b)
      invariant x == 0 && y == 0 ==> a == 0 && b == 0
      invariant a != 0 || b != 0 ==> x != 0 || y != 0
      invariant a == 0 && b == 0 ==> x == 0 && y == 0
      decreases y
    {
      forall d: nat ensures Divides(d, y) && Divides(d, x % y) <==> Divides(d, x) && Divides(d, y) {
        if Divides(d, x) && Divides(d, y) {
          ModKeeps(d, x, y);
        }
        if Divides(d, y) && Divides(d, x % y) {
          ModRestores(d, x, y);
        }
      }
      x, y := y, x % y;
    }
    r := x;
  }

  /** The greatest common divisor read off the contract of `Gcd`: a common
      divisor that every common divisor is at most. */
  lemma GcdGreatest(a: nat, b: nat, r: nat)
    requires forall d: nat :: Divides(d, r) <==> Divides(d, a) && Divides(d, b)
    requires r > 0
    ensures Divides(r, a) && Divides(r, b)
    ensures forall d: nat :: Divides(d, a) && Divides(d, b) ==> d <= r
  {
    MulDivides(r, 1);
    forall d: nat | Divides(d, a) && Divides(d, b) ensures d <= r {
      DividesLe(d, r);
    }
  }

  /** i and n share no divisor but 1. */
  ghost predicate Coprime(i: nat, n: nat) {
    forall d: nat :: Divides(d, i) && Divides(d, n) ==> d == 1
  }

  /** The number of i with 1 <= i < k coprime to n. */
  ghost function CoprimeCount(n: nat, k: nat): nat {
    if k <= 1 then 0
    else CoprimeCount(n, k - 1) + (if Coprime(k - 1, n) then 1 else 0)
  }

  /** For i >= 1 the test `__gcd(i, n) == 1` is coprimality. */
  lemma GcdOneIsCoprime(i: nat, n: nat, r: nat)
    requires i >= 1
    requires forall d: nat :: Divides(d, r) <==> Divides(d, i) && Divides(d, n)
    ensures r == 1 <==> Coprime(i, n)
  {
    assert r > 0 by {
      MulDivides(i + 1, 0);
      assert !Divides(i + 1, i) by {
        ModUnique(i, i + 1, 0, i);
      }
    }
    if r == 1 {
      forall d: nat | Divides(d, i) && Divides(d, n) ensures d == 1 {
        DividesLe(d, 1);
      }
    } else {
      MulDivides(r, 1);
      assert Divides(r, i) && Divides(r, n);
    }
  }

  /** The child's loop: count the i in [1, n - 1] with `__gcd(i, n) == 1`,
      which is Euler's totient of n for n >= 2. */
  method ReducedResidues(n: nat) returns (count: nat)
    ensures count == CoprimeCount(n, n)
  {
    count := 0;
    var i := 1;
    while i < n
      invariant 1 <= i && (i <= n || i == 1)
      invariant count == CoprimeCount(n, i)
    {
      var g := Gcd(i, n);
      GcdOneIsCoprime(i, n, g);
      if g == 1 {
        count := count + 1;
      }
      i := i + 1;
    }
  }

  /** At most k - 1 residues below k are coprime, and exactly k - 1 when
      every one of them is. */
  lemma {:induction false} CountBound(n: nat, k: nat)
    requires k >= 1
    ensures CoprimeCount(n, k) <= k - 1
    ensures CoprimeCount(n, k) == k - 1 <==> forall i :: 1 <= i < k ==> Coprime(i, n)
  {
    if k > 1 {
      CountBound(n, k - 1);
      if CoprimeCount(n, k) == k - 1 {
        assert Coprime(k - 1, n);
      }
    }
  }

  /** The parent's test `reduced_residues_count == n - 1`: the full and the
      reduced residue systems modulo n coincide exactly when n is prime. */
  lemma ResiduesCoincideIffPrime(n: nat)
    requires n >= 2
    ensures CoprimeCount(n, n) == n - 1 <==> Prime(n)
  {
    CountBound(n, n);
    if Prime(n) {
      forall i | 1 <= i < n ensures Coprime(i, n) {
        forall d: nat | Divides(d, i) && Divides(d, n) ensures d == 1 {
          DividesLe(d, i);
        }
      }
    } else {
      var d :| 2 <= d < n && Divides(d, n);
      MulDivides(d, 1);
      assert !Coprime(d, n);
    }
  }

  /** The n the parent sends: `rand() % 1000 + 2` for a non-negative draw. */
  function Drawn(x: nat): (n: nat)
    ensures 2 <= n <= 1001
  {
    x % 1000 + 2
  }

  /** The drawn values of a run of draws that pass the parent's test, in
      order. */
  ghost function Kept(draws: seq<nat>): seq<nat> {
    if |draws| == 0 then []
    else
      var n := Drawn(draws[|draws| - 1]);
      Kept(draws[..|draws| - 1]) + (if Prime(n) then [n] else [])
  }

  /** The parent's loop over a finite supply of draws, with the child's
      answer computed in place: it stops after `MAX_VALUES` hits or when the
      draws run out, and every value it reports is a prime in [2, 1001]. */
  method Parent(draws: seq<nat>) returns (found: seq<nat>, used: nat)
    ensures used <= |draws| && found == Kept(draws[..used])
    ensures |found| <= MaxValues && (|found| < MaxValues ==> used == |draws|)
    ensures forall k :: 0 <= k < |found| ==> Prime(found[k]) && 2 <= found[k] <= 1001
  {
    found, used := [], 0;
    while |found| < MaxValues && used < |draws|
      invariant used <= |draws| && found == Kept(draws[..used]) && |found| <= MaxValues
      invariant forall k :: 0 <= k < |found| ==> Prime(found[k]) && 2 <= found[k] <= 1001
    {
      var n := Drawn(draws[used]);
      var count := ReducedResidues(n);
      ResiduesCoincideIffPrime(n);
      assert draws[..used + 1][..used] == draws[..used];
      if count == n - 1 {
        found := found + [n];
      }
      used := used + 1;
    }
  }
}

=== FILE: rotation.dfy ===
/** The ring of out-half-edges around one vertex of a planar embedding
    (Graphs/planarity.py, class PlanarEmbedding).

    The source keeps, for every vertex, a dictionary from each out-neighbour to
    its `cw`/`ccw` neighbours in the ring.  The dictionary's insertion order is
    observable: its last key is the "leftmost" neighbour where clockwise
    iteration starts.  Here that order is the explicit `keys` sequence. */
module Rotation {
  import opened Wrappers
  import opened Seqs

  /** Clockwise and counter-clockwise neighbour of one half-edge in its ring. */
  datatype Links = Links(cw: nat, ccw: nat)

  /** The out-half-edges of one vertex: `links[w]` is the record of half-edge
      u->w, `keys` the order in which the neighbours entered the dictionary. */
  datatype Rotation = Rotation(keys: seq<nat>, links: map<nat, Links>)

  /** Errors raised by the embedding operations. */
  datatype EmbError =
    | InvalidCwRef      // "Invalid clockwise reference node."
    | InvalidCcwRef     // "Invalid counterclockwise reference node."
    | BothRefs          // "Only one of cw/ccw can be specified."
    | RefRequired       // a non-empty ring needs a reference neighbour
    | InvalidRef        // a reference given for an empty ring
    | MissingKey        // a ring link names a neighbour that is not a key
    | EdgeMissing       // remove_edge of an edge that is not in the embedding
    | ImpossibleFace    // traverse_face met a half-edge twice
    | BadEmbedding      // check_structure rejected the embedding

  /** The dictionary is consistent: keys are unique and are exactly the linked neighbours. */
  ghost predicate DictOk(r: Rotation) {
    Distinct(r.keys) && forall x :: x in r.links <==> x in r.keys
  }

  function Empty(): Rotation { Rotation([], map[]) }

  /** Index after / before `i` on a ring of `n` positions. */
  function Nx(i: nat, n: nat): nat
    requires i < n
  {
    if i + 1 < n then i + 1 else 0
  }

  function Pv(i: nat, n: nat): nat
    requires i < n
  {
    if i > 0 then i - 1 else n - 1
  }

  /** `s` without the element `x`. */
  function RemoveElt(s: seq<nat>, x: nat): (r: seq<nat>)
    ensures forall y :: y in r <==> y in s && y != x
    ensures |r| <= |s|
  {
    if |s| == 0 then []
    else if s[0] == x then RemoveElt(s[1..], x)
    else [s[0]] + RemoveElt(s[1..], x)
  }

  lemma DistinctCons(a: nat, s: seq<nat>)
    requires Distinct(s) && a !in s
    ensures Distinct([a] + s)
  {
    var t := [a] + s;
    forall i, j | 0 <= i < j < |t|
      ensures t[i] != t[j]
    {
      if i > 0 {
        assert t[i] == s[i - 1] && t[j] == s[j - 1];
      } else {
        assert t[j] == s[j - 1];
      }
    }
  }

  lemma RemoveEltDistinct(s: seq<nat>, x: nat)
    requires Distinct(s)
    ensures Distinct(RemoveElt(s, x))
    ensures x in s ==> |RemoveElt(s, x)| == |s| - 1
    ensures x !in s ==> RemoveElt(s, x) == s
  {
    if |s| > 0 {
      assert Distinct(s[1..]) by {
        forall i, j | 0 <= i < j < |s| - 1 ensures s[1..][i] != s[1..][j] {
          assert s[1..][i] == s[i + 1] && s[1..][j] == s[j + 1];
        }
      }
      RemoveEltDistinct(s[1..], x);
      if s[0] != x {
        assert s[0] !in s[1..] by {
          forall k | 0 <= k < |s| - 1 ensures s[1..][k] != s[0] {
            assert s[1..][k] == s[k + 1];
          }
        }
        DistinctCons(s[0], RemoveElt(s[1..], x));
      } else {
        assert x !in s[1..] by {
          forall k | 0 <= k < |s| - 1 ensures s[1..][k] != s[0] {
            assert s[1..][k] == s[k + 1];
          }
        }
      }
    }
  }

  lemma RemoveEltKeepsLast(s: seq<nat>, x: nat)
    requires |s| > 0 && Last(s) != x
    ensures |RemoveElt(s, x)| > 0 && Last(RemoveElt(s, x)) == Last(s)
  {
    if |s| > 1 {
      RemoveEltKeepsLast(s[1..], x);
    }
  }

  /** networkx `add_edge` on an existing dictionary: a new key is appended,
      an existing one keeps its place and gets the new links. */
  function Put(r: Rotation, v: nat, l: Links): Rotation {
    if v in r.links then Rotation(r.keys, r.links[v := l])
    else Rotation(r.keys + [v], r.links[v := l])
  }

  /** `succs[x]["cw"] = v`; a missing key raises. */
  function SetCw(r: Rotation, x: nat, v: nat): Result<Rotation, EmbError> {
    if x in r.links then Success(Rotation(r.keys, r.links[x := r.links[x].(cw := v)]))
    else Failure(MissingKey)
  }

  /** `succs[x]["ccw"] = v`; a missing key raises. */
  function SetCcw(r: Rotation, x: nat, v: nat): Result<Rotation, EmbError> {
    if x in r.links then Success(Rotation(r.keys, r.links[x := r.links[x].(ccw := v)]))
    else Failure(MissingKey)
  }

  /** `succs[x] = succs.pop(x)`: move key `x` to the end of the dictionary order. */
  function MoveToEnd(r: Rotation, x: nat): Rotation {
    Rotation(RemoveElt(r.keys, x) + [x], r.links)
  }

  /** `add_half_edge(u, v, cw=cw, ccw=ccw)` on the ring `r` of u. */
  function AddHalfEdge(r: Rotation, v: nat, cw: Option<nat>, ccw: Option<nat>): (res: Result<Rotation, EmbError>)
    ensures |r.keys| == 0 ==> (res == Failure(InvalidRef) <==> cw.Some? || ccw.Some?)
    ensures |r.keys| > 0 && cw.None? && ccw.None? ==> res == Failure(RefRequired)
    ensures |r.keys| > 0 && cw.Some? && cw.value !in r.links ==> res == Failure(InvalidCwRef)
    ensures |r.keys| > 0 && cw.Some? && cw.value in r.links && ccw.Some? ==> res == Failure(BothRefs)
    ensures |r.keys| > 0 && cw.None? && ccw.Some? && ccw.value !in r.links ==> res == Failure(InvalidCcwRef)
  {
    if |r.keys| > 0 then
      var leftmost := Last(r.keys);
      if cw.Some? then
        if cw.value !in r.links then Failure(InvalidCwRef)
        else if ccw.Some? then Failure(BothRefs)
        else
          var refCcw := r.links[cw.value].ccw;
          var r1 := Put(r, v, Links(cw.value, refCcw));
          var r2 :- SetCw(r1, refCcw, v);
          var r3 :- SetCcw(r2, cw.value, v);
          Success(if cw.value != leftmost then MoveToEnd(r3, leftmost) else r3)
      else if ccw.Some? then
        if ccw.value !in r.links then Failure(InvalidCcwRef)
        else
          var refCw := r.links[ccw.value].cw;
          var r1 := Put(r, v, Links(refCw, ccw.value));
          var r2 :- SetCcw(r1, refCw, v);
          var r3 :- SetCw(r2, ccw.value, v);
          Success(MoveToEnd(r3, leftmost))
      else Failure(RefRequired)
    else if cw.Some? || ccw.Some? then Failure(InvalidRef)
    else Success(Rotation([v], map[v := Links(v, v)]))
  }

  /** The out-neighbours the dictionary holds: none when it is empty. */
  function Neighbours(r: Rotation): set<nat> {
    if |r.keys| == 0 then {} else r.links.Keys
  }

  /** add_half_edge adds the half-edge to v and no other. */
  lemma AddKeepsLinks(r: Rotation, v: nat, cw: Option<nat>, ccw: Option<nat>)
    ensures AddHalfEdge(r, v, cw, ccw).Success? ==> Neighbours(AddHalfEdge(r, v, cw, ccw).value) == Neighbours(r) + {v}
  {
    if |r.keys| > 0 && cw.Some? && cw.value in r.links && ccw.None? {
      var x := cw.value;
      var r1 := Put(r, v, Links(x, r.links[x].ccw));
      SetKeepsLinks(r1, r.links[x].ccw, v);
      if SetCw(r1, r.links[x].ccw, v).Success? {
        SetKeepsLinks(SetCw(r1, r.links[x].ccw, v).value, x, v);
      }
    } else if |r.keys| > 0 && cw.None? && ccw.Some? && ccw.value in r.links {
      var x := ccw.value;
      var r1 := Put(r, v, Links(r.links[x].cw, x));
      SetKeepsLinks(r1, r.links[x].cw, v);
      if SetCcw(r1, r.links[x].cw, v).Success? {
        SetKeepsLinks(SetCcw(r1, r.links[x].cw, v).value, x, v);
      }
    }
  }

  /** Relinking a neighbour keeps the set of neighbours. */
  lemma SetKeepsLinks(r: Rotation, x: nat, v: nat)
    ensures SetCw(r, x, v).Success? ==> SetCw(r, x, v).value.links.Keys == r.links.Keys
    ensures SetCcw(r, x, v).Success? ==> SetCcw(r, x, v).value.links.Keys == r.links.Keys
  {
  }

  /** `add_half_edge_first(u, v)`: insert clockwise-before the leftmost neighbour. */
  function AddHalfEdgeFirst(r: Rotation, v: nat): Result<Rotation, EmbError> {
    AddHalfEdge(r, v, if |r.keys| > 0 then Some(Last(r.keys)) else None, None)
  }

  /** Deletes half-edge u->v from the ring of u and splices its neighbours
      together, unless it was alone in the ring (remove_edge, one side). */
  function Unlink(r: Rotation, v: nat): Result<Rotation, EmbError>
    requires v in r.links
  {
    var l := r.links[v];
    var r1 := Rotation(RemoveElt(r.keys, v), r.links - {v});
    if v != l.cw then
      var r2 :- SetCcw(r1, l.cw, l.ccw);
      SetCw(r2, l.ccw, l.cw)
    else Success(r1)
  }

  // ---------------------------------------------------------------------
  // Abstraction: a well-formed ring is a duplicate-free sequence read
  // clockwise from the leftmost neighbour.
  // ---------------------------------------------------------------------

  /** `links` make `o` a ring: each element's cw is its successor, ccw its predecessor. */
  ghost predicate Cyclic(links: map<nat, Links>, o: seq<nat>) {
    && (forall i {:trigger o[i]} :: 0 <= i < |o| ==> o[i] in links)
    && (forall i {:trigger links[o[i]].cw} :: 0 <= i < |o| ==> links[o[i]].cw == o[Nx(i, |o|)])
    && (forall i {:trigger links[o[i]].ccw} :: 0 <= i < |o| ==> links[o[i]].ccw == o[Pv(i, |o|)])
  }

  /** `r` is the ring whose clockwise order, from the leftmost neighbour, is `o`. */
  ghost predicate Represents(r: Rotation, o: seq<nat>) {
    && DictOk(r)
    && |o| == |r.keys|
    && Distinct(o)
    && (forall x :: x in r.links <==> x in o)
    && (|o| > 0 ==> o[0] == Last(r.keys))
    && Cyclic(r.links, o)
  }

  /** Walks clockwise from `cur` until `start` comes round again, at most `fuel` more steps. */
  function Walk(links: map<nat, Links>, start: nat, cur: nat, fuel: nat, acc: seq<nat>): Option<seq<nat>>
    decreases fuel
  {
    if cur == start then Some(acc)
    else if fuel == 0 || cur !in links then None
    else Walk(links, start, links[cur].cw, fuel - 1, acc + [cur])
  }

  /** `neighbors_cw_order(u)`: the ring read clockwise from the leftmost neighbour.
      `None` stands for a ring that raises (a link to a missing key) or never
      returns to its start: after |keys| steps a ring that has not come back
      repeats a neighbour and loops forever. */
  function CwOrder(r: Rotation): Option<seq<nat>> {
    if |r.keys| == 0 then Some([])
    else
      var s := Last(r.keys);
      if s !in r.links then None
      else Walk(r.links, s, r.links[s].cw, |r.keys| - 1, [s])
  }

  lemma {:induction false} WalkFollowsRing(links: map<nat, Links>, o: seq<nat>, i: nat)
    requires Distinct(o) && Cyclic(links, o) && i < |o|
    ensures Walk(links, o[0], o[Nx(i, |o|)], |o| - 1 - i, o[..i + 1]) == Some(o)
    decreases |o| - i
  {
    var n := |o|;
    if i + 1 < n {
      assert o[Nx(i, n)] == o[i + 1] != o[0];
      assert links[o[i + 1]].cw == o[Nx(i + 1, n)];
      SliceSnoc(o, i);
      WalkFollowsRing(links, o, i + 1);
    } else {
      assert o[..i + 1] == o;
    }
  }

  lemma SliceSnoc(o: seq<nat>, i: nat)
    requires i + 1 < |o|
    ensures o[..i + 1] + [o[i + 1]] == o[..i + 2]
  {
  }

  lemma SliceFirst(o: seq<nat>)
    requires |o| > 0
    ensures [o[0]] == o[..1]
  {
  }

  /** Positions of `o` with `v` inserted at index `j`. */
  lemma InsertAtIndex(o: seq<nat>, v: nat, j: nat)
    requires j <= |o|
    ensures |o[..j] + [v] + o[j..]| == |o| + 1
    ensures forall i :: 0 <= i < |o| + 1 ==>
      (o[..j] + [v] + o[j..])[i] == (if i < j then o[i] else if i == j then v else o[i - 1])
  {
  }

  /** neighbors_cw_order yields every out-neighbour exactly once, from the leftmost, following cw. */
  lemma CwOrderOfRing(r: Rotation, o: seq<nat>)
    requires Represents(r, o)
    ensures CwOrder(r) == Some(o)
  {
    if |o| > 0 {
      var s := Last(r.keys);
      assert s == o[0];
      assert s in r.links;
      assert r.links[s].cw == o[Nx(0, |o|)];
      SliceFirst(o);
      WalkFollowsRing(r.links, o, 0);
      assert Walk(r.links, s, r.links[s].cw, |r.keys| - 1, [s]) == Some(o);
    }
  }

  /** Clockwise order of a freshly inserted first half-edge. */
  lemma AddToEmptyRing(v: nat)
    ensures AddHalfEdge(Empty(), v, None, None) == Success(Rotation([v], map[v := Links(v, v)]))
    ensures Represents(Rotation([v], map[v := Links(v, v)]), [v])
  {
  }

  /** The links after splicing v in between neighbours `a` (before it) and
      `b` (after it), as both insertion branches of add_half_edge leave them. */
  function Splice(links: map<nat, Links>, v: nat, a: nat, b: nat): map<nat, Links>
    requires a in links && b in links
  {
    var l1 := links[v := Links(b, a)];
    var l2 := l1[a := l1[a].(cw := v)];
    l2[b := l2[b].(ccw := v)]
  }

  lemma SpliceAt(links: map<nat, Links>, v: nat, a: nat, b: nat, x: nat)
    requires a in links && b in links && x in links && x != v
    ensures x in Splice(links, v, a, b)
    ensures Splice(links, v, a, b)[x] ==
      Links(if x == a then v else links[x].cw, if x == b then v else links[x].ccw)
  {
  }

  lemma SpliceDomain(links: map<nat, Links>, v: nat, a: nat, b: nat)
    requires a in links && b in links
    ensures forall x :: x in Splice(links, v, a, b) <==> x in links || x == v
  {
  }

  lemma SpliceAtNew(links: map<nat, Links>, v: nat, a: nat, b: nat)
    requires a in links && b in links && v != a && v != b
    ensures v in Splice(links, v, a, b) && Splice(links, v, a, b)[v] == Links(b, a)
  {
  }

  /** The record of position i of the ring after splicing v in at position p. */
  lemma SpliceCyclicAt(links: map<nat, Links>, o: seq<nat>, v: nat, p: nat, i: nat)
    requires Distinct(o) && Cyclic(links, o) && v !in o && 0 < |o| && p <= |o| && i <= |o|
    ensures
      var n := |o|;
      var a := o[if p > 0 then p - 1 else n - 1];
      var b := o[if p < n then p else 0];
      var l3 := Splice(links, v, a, b);
      var o' := o[..p] + [v] + o[p..];
      |o'| == n + 1 && o'[i] in l3 && l3[o'[i]] == Links(o'[Nx(i, n + 1)], o'[Pv(i, n + 1)])
  {
    InsertAtIndex(o, v, p);
    if i == p {
      SpliceNewAt(links, o, v, p);
    } else {
      SpliceOldAt(links, o, v, p, if i < p then i else i - 1);
    }
  }

  /** The new record: v sits between its two neighbours. */
  lemma SpliceNewAt(links: map<nat, Links>, o: seq<nat>, v: nat, p: nat)
    requires Cyclic(links, o) && v !in o && 0 < |o| && p <= |o|
    ensures
      var n := |o|;
      var a := o[if p > 0 then p - 1 else n - 1];
      var b := o[if p < n then p else 0];
      var l3 := Splice(links, v, a, b);
      var o' := o[..p] + [v] + o[p..];
      |o'| == n + 1 && o'[p] in l3 && l3[o'[p]] == Links(o'[Nx(p, n + 1)], o'[Pv(p, n + 1)])
  {
    var n := |o|;
    var a := o[if p > 0 then p - 1 else n - 1];
    var b := o[if p < n then p else 0];
    var o' := o[..p] + [v] + o[p..];
    InsertAtIndex(o, v, p);
    SpliceAtNew(links, v, a, b);
    if p < n { assert o'[Nx(p, n + 1)] == o[p]; } else { assert o'[Nx(p, n + 1)] == o[0]; }
    if p > 0 { assert o'[Pv(p, n + 1)] == o[p - 1]; } else { assert o'[Pv(p, n + 1)] == o[n - 1]; }
  }

  /** An old record, of the element at position k of `o`: only the neighbours
      of v see it. */
  lemma SpliceOldAt(links: map<nat, Links>, o: seq<nat>, v: nat, p: nat, k: nat)
    requires Distinct(o) && Cyclic(links, o) && v !in o && 0 < |o| && p <= |o| && k < |o|
    ensures
      var n := |o|;
      var a := o[if p > 0 then p - 1 else n - 1];
      var b := o[if p < n then p else 0];
      var l3 := Splice(links, v, a, b);
      var o' := o[..p] + [v] + o[p..];
      var i := if k < p then k else k + 1;
      |o'| == n + 1 && o'[i] in l3 && l3[o'[i]] == Links(o'[Nx(i, n + 1)], o'[Pv(i, n + 1)])
  {
    var n := |o|;
    var pa := if p > 0 then p - 1 else n - 1;
    var pb := if p < n then p else 0;
    InsertNeighbours(o, v, p, k);
    assert o[k] in links && links[o[k]].cw == o[Nx(k, n)] && links[o[k]].ccw == o[Pv(k, n)];
    SpliceAt(links, v, o[pa], o[pb], o[k]);
    assert k != pa ==> o[k] != o[pa];
    assert k != pb ==> o[k] != o[pb];
  }

  /** Where the neighbours of an old element land once v is inserted at p. */
  lemma InsertNeighbours(o: seq<nat>, v: nat, p: nat, k: nat)
    requires 0 < |o| && p <= |o| && k < |o|
    ensures
      var n := |o|;
      var o' := o[..p] + [v] + o[p..];
      var i := if k < p then k else k + 1;
      && |o'| == n + 1 && i < n + 1 && o'[i] == o[k]
      && o'[Nx(i, n + 1)] == (if k == (if p > 0 then p - 1 else n - 1) then v else o[Nx(k, n)])
      && o'[Pv(i, n + 1)] == (if k == (if p < n then p else 0) then v else o[Pv(k, n)])
  {
    InsertAtIndex(o, v, p);
  }

  /** Splicing v in at position p of the ring `o` yields the ring `o` with v inserted at p. */
  lemma SpliceCyclic(links: map<nat, Links>, o: seq<nat>, v: nat, p: nat)
    requires Distinct(o) && Cyclic(links, o) && v !in o && 0 < |o| && p <= |o|
    ensures
      var n := |o|;
      var a := o[if p > 0 then p - 1 else n - 1];
      var b := o[if p < n then p else 0];
      Cyclic(Splice(links, v, a, b), o[..p] + [v] + o[p..])
  {
    var n := |o|;
    var a := o[if p > 0 then p - 1 else n - 1];
    var b := o[if p < n then p else 0];
    var l3 := Splice(links, v, a, b);
    var o' := o[..p] + [v] + o[p..];
    assert |o'| == n + 1;
    forall i {:trigger o'[i]} | 0 <= i < n + 1 ensures o'[i] in l3 {
      SpliceCyclicAt(links, o, v, p, i);
    }
    forall i {:trigger l3[o'[i]].cw} | 0 <= i < n + 1 ensures l3[o'[i]].cw == o'[Nx(i, n + 1)] {
      SpliceCyclicAt(links, o, v, p, i);
    }
    forall i {:trigger l3[o'[i]].ccw} | 0 <= i < n + 1 ensures l3[o'[i]].ccw == o'[Pv(i, n + 1)] {
      SpliceCyclicAt(links, o, v, p, i);
    }
  }

  /** What add_half_edge with a clockwise reference does to a ring. */
  lemma AddCwResult(r: Rotation, x: nat, v: nat)
    requires |r.keys| > 0 && x in r.links && v !in r.links
    requires r.links[x].ccw in r.links
    ensures
      var leftmost := Last(r.keys);
      var keys := r.keys + [v];
      AddHalfEdge(r, v, Some(x), None) ==
        Success(Rotation(if x != leftmost then RemoveElt(keys, leftmost) + [leftmost] else keys,
                         Splice(r.links, v, r.links[x].ccw, x)))
  {
  }

  /** What add_half_edge with a counter-clockwise reference does to a ring. */
  lemma AddCcwResult(r: Rotation, x: nat, v: nat)
    requires |r.keys| > 0 && x in r.links && v !in r.links
    requires r.links[x].cw in r.links
    ensures
      var leftmost := Last(r.keys);
      AddHalfEdge(r, v, None, Some(x)) ==
        Success(Rotation(RemoveElt(r.keys + [v], leftmost) + [leftmost],
                         Splice(r.links, v, x, r.links[x].cw)))
  {
    var refCw := r.links[x].cw;
    var l1 := r.links[v := Links(refCw, x)];
    var l2 := l1[refCw := l1[refCw].(ccw := v)];
    var l3 := l2[x := l2[x].(cw := v)];
    assert l3 == Splice(r.links, v, x, refCw);
  }

  /** The keys of a ring after appending v and possibly moving the leftmost back to the end. */
  lemma NewKeys(r: Rotation, o: seq<nat>, v: nat, move: bool)
    requires Represents(r, o) && v !in o && |o| > 0
    ensures
      var keys := r.keys + [v];
      var k' := if move then RemoveElt(keys, Last(r.keys)) + [Last(r.keys)] else keys;
      && Distinct(k')
      && (forall x :: x in k' <==> x == v || x in o)
      && |k'| == |o| + 1
      && Last(k') == (if move then o[0] else v)
  {
    var keys := r.keys + [v];
    assert Distinct(keys) by {
      forall i, k | 0 <= i < k < |keys| ensures keys[i] != keys[k] {
        if k == |r.keys| { assert keys[i] == r.keys[i]; assert keys[i] in r.links; }
        else { assert keys[i] == r.keys[i] && keys[k] == r.keys[k]; }
      }
    }
    if move {
      RemoveEltDistinct(keys, Last(r.keys));
      var k' := RemoveElt(keys, Last(r.keys)) + [Last(r.keys)];
      assert Distinct(k') by {
        forall i, k | 0 <= i < k < |k'| ensures k'[i] != k'[k] {
          if k == |k'| - 1 {
            assert k'[i] in RemoveElt(keys, Last(r.keys));
          } else {
            assert k'[i] == RemoveElt(keys, Last(r.keys))[i];
            assert k'[k] == RemoveElt(keys, Last(r.keys))[k];
          }
        }
      }
    }
  }

  /** Inserting with `cw = o[j]` places v immediately before o[j]: the new
      clockwise order is `o` with v inserted at position j.  When o[j] is the
      leftmost neighbour (j = 0) v becomes the new leftmost. */
  lemma AddCwIsInsertion(r: Rotation, o: seq<nat>, v: nat, j: nat)
    requires Represents(r, o) && v !in o && j < |o|
    ensures AddHalfEdge(r, v, Some(o[j]), None).Success?
    ensures Represents(AddHalfEdge(r, v, Some(o[j]), None).value, o[..j] + [v] + o[j..])
  {
    var n := |o|;
    assert o[j] in r.links;
    var refCcw := r.links[o[j]].ccw;
    assert refCcw == o[Pv(j, n)];
    var leftmost := Last(r.keys);
    var keys := r.keys + [v];
    var move := o[j] != leftmost;
    var o' := o[..j] + [v] + o[j..];
    var res := Rotation(if move then RemoveElt(keys, leftmost) + [leftmost] else keys,
                        Splice(r.links, v, refCcw, o[j]));
    AddCwResult(r, o[j], v);
    assert Cyclic(res.links, o') by {
      SpliceCyclic(r.links, o, v, j);
    }
    assert Distinct(o') && forall x :: x in o' <==> x == v || x in o by {
      InsertMembers(o, v, j);
    }
    assert DictOk(res) && |res.keys| == n + 1 && Last(res.keys) == (if move then o[0] else v) by {
      NewKeys(r, o, v, move);
      SpliceDomain(r.links, v, refCcw, o[j]);
    }
    assert o'[0] == Last(res.keys) by {
      if j == 0 {
        assert o'[0] == v;
      } else {
        assert o'[0] == o[0] != o[j];
      }
    }
    assert forall x :: x in res.links <==> x in o' by {
      SpliceDomain(r.links, v, refCcw, o[j]);
    }
    assert Represents(res, o');
  }

  /** Inserting with `ccw = o[j]` places v immediately after o[j]; the leftmost
      neighbour never changes. */
  lemma AddCcwIsInsertion(r: Rotation, o: seq<nat>, v: nat, j: nat)
    requires Represents(r, o) && v !in o && j < |o|
    ensures AddHalfEdge(r, v, None, Some(o[j])).Success?
    ensures Represents(AddHalfEdge(r, v, None, Some(o[j])).value, o[..j + 1] + [v] + o[j + 1..])
  {
    var n := |o|;
    assert o[j] in r.links;
    var refCw := r.links[o[j]].cw;
    assert refCw == o[Nx(j, n)];
    assert o[if j + 1 < n then j + 1 else 0] == refCw;
    var leftmost := Last(r.keys);
    var o' := o[..j + 1] + [v] + o[j + 1..];
    var res := Rotation(RemoveElt(r.keys + [v], leftmost) + [leftmost], Splice(r.links, v, o[j], refCw));
    AddCcwResult(r, o[j], v);
    assert Cyclic(res.links, o') by {
      SpliceCyclic(r.links, o, v, j + 1);
    }
    assert Distinct(o') && forall x :: x in o' <==> x == v || x in o by {
      InsertMembers(o, v, j + 1);
    }
    assert DictOk(res) && |res.keys| == n + 1 && Last(res.keys) == o[0] by {
      NewKeys(r, o, v, true);
      SpliceDomain(r.links, v, o[j], refCw);
    }
    assert o'[0] == o[..j + 1][0] == o[0];
    assert |o'| == n + 1;
    assert forall x :: x in res.links <==> x in o';
    assert Represents(res, o');
  }

  lemma InsertMembers(o: seq<nat>, v: nat, p: nat)
    requires Distinct(o) && v !in o && p <= |o|
    ensures Distinct(o[..p] + [v] + o[p..])
    ensures forall x :: x in o[..p] + [v] + o[p..] <==> x == v || x in o
  {
    var o' := o[..p] + [v] + o[p..];
    InsertAtIndex(o, v, p);
    forall i, k | 0 <= i < k < |o'| ensures o'[i] != o'[k] {
      if i == p { assert o'[k] == o[k - 1]; }
      else if k == p { assert o'[i] == o[i]; }
    }
    assert o == o[..p] + o[p..];
  }

  /** add_half_edge_first prepends v to the clockwise order. */
  lemma AddFirstPrepends(r: Rotation, o: seq<nat>, v: nat)
    requires Represents(r, o) && v !in o
    ensures AddHalfEdgeFirst(r, v).Success?
    ensures Represents(AddHalfEdgeFirst(r, v).value, [v] + o)
  {
    if |o| == 0 {
      EmptyRing(r);
      AddToEmptyRing(v);
    } else {
      AddFirstToRing(r, o, v);
    }
  }

  lemma AddFirstToRing(r: Rotation, o: seq<nat>, v: nat)
    requires Represents(r, o) && v !in o && |o| > 0
    ensures AddHalfEdgeFirst(r, v).Success?
    ensures Represents(AddHalfEdgeFirst(r, v).value, [v] + o)
  {
    FirstIsBeforeLeftmost(r, o, v);
    AddCwIsInsertion(r, o, v, 0);
    InsertAtStart(o, v);
  }

  /** On a non-empty ring, add_half_edge_first inserts before the leftmost
      neighbour, the head of the clockwise order. */
  lemma FirstIsBeforeLeftmost(r: Rotation, o: seq<nat>, v: nat)
    requires Represents(r, o) && |o| > 0
    ensures AddHalfEdgeFirst(r, v) == AddHalfEdge(r, v, Some(o[0]), None)
  {
  }

  lemma InsertAtStart(o: seq<nat>, v: nat)
    ensures o[..0] + [v] + o[0..] == [v] + o
  {
  }

  /** The only ring with no neighbours is the empty one. */
  lemma EmptyRing(r: Rotation)
    requires Represents(r, [])
    ensures r == Empty()
  {
    assert r.keys == [];
    assert r.links == map[];
  }

  // ---------------------------------------------------------------------
  // Removal
  // ---------------------------------------------------------------------

  /** The links after half-edge v, between `a` (before) and `b` (after), is
      cut out of the ring. */
  function Unsplice(links: map<nat, Links>, v: nat, a: nat, b: nat): map<nat, Links>
    requires a in links && b in links && a != v && b != v
  {
    var l1 := links - {v};
    var l2 := l1[b := l1[b].(ccw := a)];
    l2[a := l2[a].(cw := b)]
  }

  lemma UnspliceAt(links: map<nat, Links>, v: nat, a: nat, b: nat, x: nat)
    requires a in links && b in links && a != v && b != v
    ensures x in Unsplice(links, v, a, b) <==> x in links && x != v
    ensures x in links && x != v ==>
      Unsplice(links, v, a, b)[x] == Links(if x == a then b else links[x].cw, if x == b then a else links[x].ccw)
  {
  }

  /** What unlinking a non-singleton half-edge does to a ring. */
  lemma UnlinkResult(r: Rotation, v: nat)
    requires v in r.links && r.links[v].cw != v
    requires r.links[v].cw in r.links && r.links[v].ccw in r.links && r.links[v].ccw != v
    ensures Unlink(r, v) ==
      Success(Rotation(RemoveElt(r.keys, v), Unsplice(r.links, v, r.links[v].ccw, r.links[v].cw)))
  {
  }

  /** Positions of `o` with index `j` deleted. */
  lemma DeleteAtIndex(o: seq<nat>, j: nat)
    requires j < |o|
    ensures |o[..j] + o[j + 1..]| == |o| - 1
    ensures forall i :: 0 <= i < |o| - 1 ==>
      (o[..j] + o[j + 1..])[i] == (if i < j then o[i] else o[i + 1])
  {
  }

  lemma DeleteMembers(o: seq<nat>, j: nat)
    requires Distinct(o) && j < |o|
    ensures Distinct(o[..j] + o[j + 1..])
    ensures forall x :: x in o[..j] + o[j + 1..] <==> x in o && x != o[j]
  {
    var d := o[..j] + o[j + 1..];
    DeleteAtIndex(o, j);
    forall i, k | 0 <= i < k < |d| ensures d[i] != d[k] {
      if k < j { assert d[i] == o[i] && d[k] == o[k]; }
      else if i < j { assert d[i] == o[i] && d[k] == o[k + 1]; }
      else { assert d[i] == o[i + 1] && d[k] == o[k + 1]; }
    }
    forall x ensures x in d <==> x in o && x != o[j] {
      if x in d {
        var i :| 0 <= i < |d| && d[i] == x;
        if i < j { assert o[i] == x; } else { assert o[i + 1] == x; }
      }
      if x in o && x != o[j] {
        var k :| 0 <= k < |o| && o[k] == x;
        if k < j { assert d[k] == x; } else { assert k > j; assert d[k - 1] == x; }
      }
    }
  }

  /** The record of position i of the ring after deleting position j. */
  lemma UnspliceCyclicAt(links: map<nat, Links>, o: seq<nat>, j: nat, i: nat)
    requires Distinct(o) && Cyclic(links, o) && 2 <= |o| && j < |o| && i < |o| - 1
    ensures o[Pv(j, |o|)] != o[j] && o[Nx(j, |o|)] != o[j]
    ensures
      var n := |o|;
      var l := Unsplice(links, o[j], o[Pv(j, n)], o[Nx(j, n)]);
      var d := o[..j] + o[j + 1..];
      |d| == n - 1 && d[i] in l && l[d[i]] == Links(d[Nx(i, n - 1)], d[Pv(i, n - 1)])
  {
    UnspliceCwAt(links, o, j, i);
    UnspliceCcwAt(links, o, j, i);
  }

  /** The clockwise half of UnspliceCyclicAt. */
  lemma UnspliceCwAt(links: map<nat, Links>, o: seq<nat>, j: nat, i: nat)
    requires Distinct(o) && Cyclic(links, o) && 2 <= |o| && j < |o| && i < |o| - 1
    ensures o[Pv(j, |o|)] != o[j] && o[Nx(j, |o|)] != o[j]
    ensures
      var n := |o|;
      var l := Unsplice(links, o[j], o[Pv(j, n)], o[Nx(j, n)]);
      var d := o[..j] + o[j + 1..];
      |d| == n - 1 && d[i] in l && l[d[i]].cw == d[Nx(i, n - 1)]
  {
    var n := |o|;
    var pa := Pv(j, n);
    var pb := Nx(j, n);
    var a := o[pa];
    var b := o[pb];
    var v := o[j];
    assert a in links && b in links && a != v && b != v;
    var d := o[..j] + o[j + 1..];
    DeleteAtIndex(o, j);
    var k := if i < j then i else i + 1;
    assert d[i] == o[k] && k != j;
    assert o[k] in links;
    UnspliceAt(links, v, a, b, o[k]);
    assert links[o[k]].cw == o[Nx(k, n)];
    if k == pa {
      assert d[Nx(i, n - 1)] == b;
    } else {
      assert o[k] != a;
      assert d[Nx(i, n - 1)] == o[Nx(k, n)];
    }
  }

  /** The counter-clockwise half of UnspliceCyclicAt. */
  lemma UnspliceCcwAt(links: map<nat, Links>, o: seq<nat>, j: nat, i: nat)
    requires Distinct(o) && Cyclic(links, o) && 2 <= |o| && j < |o| && i < |o| - 1
    ensures
      var n := |o|;
      var l := Unsplice(links, o[j], o[Pv(j, n)], o[Nx(j, n)]);
      var d := o[..j] + o[j + 1..];
      |d| == n - 1 && d[i] in l && l[d[i]].ccw == d[Pv(i, n - 1)]
  {
    var n := |o|;
    var pa := Pv(j, n);
    var pb := Nx(j, n);
    var a := o[pa];
    var b := o[pb];
    var v := o[j];
    assert a in links && b in links && a != v && b != v;
    var d := o[..j] + o[j + 1..];
    DeleteAtIndex(o, j);
    var k := if i < j then i else i + 1;
    assert d[i] == o[k] && k != j;
    assert o[k] in links;
    UnspliceAt(links, v, a, b, o[k]);
    assert links[o[k]].ccw == o[Pv(k, n)];
    if k == pb {
      assert d[Pv(i, n - 1)] == a;
    } else {
      assert o[k] != b;
      assert d[Pv(i, n - 1)] == o[Pv(k, n)];
    }
  }

  /** Cutting o[j] out of the ring leaves the ring `o` without position j. */
  lemma UnspliceCyclic(links: map<nat, Links>, o: seq<nat>, j: nat)
    requires Distinct(o) && Cyclic(links, o) && 2 <= |o| && j < |o|
    ensures
      var n := |o|;
      Cyclic(Unsplice(links, o[j], o[Pv(j, n)], o[Nx(j, n)]), o[..j] + o[j + 1..])
  {
    var n := |o|;
    UnspliceCyclicAt(links, o, j, 0);
    var l := Unsplice(links, o[j], o[Pv(j, n)], o[Nx(j, n)]);
    var d := o[..j] + o[j + 1..];
    assert |d| == n - 1;
    forall i {:trigger d[i]} | 0 <= i < n - 1 ensures d[i] in l {
      UnspliceCyclicAt(links, o, j, i);
    }
    forall i {:trigger l[d[i]].cw} | 0 <= i < n - 1 ensures l[d[i]].cw == d[Nx(i, n - 1)] {
      UnspliceCyclicAt(links, o, j, i);
    }
    forall i {:trigger l[d[i]].ccw} | 0 <= i < n - 1 ensures l[d[i]].ccw == d[Pv(i, n - 1)] {
      UnspliceCyclicAt(links, o, j, i);
    }
  }

  /** `d` read from position k round to position k - 1. */
  function RotateAt(d: seq<nat>, k: nat): (r: seq<nat>)
    requires k < |d|
    ensures |r| == |d| && r[0] == d[k]
  {
    d[k..] + d[..k]
  }

  /** Position i + k of a ring of n positions. */
  function Shift(i: nat, k: nat, n: nat): nat
    requires i < n && k < n
  {
    if i + k < n then i + k else i + k - n
  }

  lemma RotateAtIndex(d: seq<nat>, k: nat)
    requires k < |d|
    ensures forall i :: 0 <= i < |d| ==> RotateAt(d, k)[i] == d[Shift(i, k, |d|)]
  {
  }

  /** Reading a ring from another starting point reads the same ring. */
  lemma RotateCyclic(links: map<nat, Links>, d: seq<nat>, k: nat)
    requires Distinct(d) && Cyclic(links, d) && k < |d|
    ensures Distinct(RotateAt(d, k)) && Cyclic(links, RotateAt(d, k))
    ensures forall x :: x in RotateAt(d, k) <==> x in d
  {
    var n := |d|;
    var e := RotateAt(d, k);
    RotateAtIndex(d, k);
    forall i, m | 0 <= i < m < n ensures e[i] != e[m] {
      assert e[i] == d[Shift(i, k, n)] && e[m] == d[Shift(m, k, n)];
    }
    forall x ensures x in e <==> x in d {
      if x in d {
        var p :| 0 <= p < n && d[p] == x;
        var i := if p >= k then p - k else p + n - k;
        assert Shift(i, k, n) == p;
        assert e[i] == x;
      }
    }
    forall i {:trigger e[i]} | 0 <= i < n ensures e[i] in links {
      RotateCyclicAt(links, d, k, i);
    }
    forall i {:trigger links[e[i]].cw} | 0 <= i < n ensures links[e[i]].cw == e[Nx(i, n)] {
      RotateCyclicAt(links, d, k, i);
    }
    forall i {:trigger links[e[i]].ccw} | 0 <= i < n ensures links[e[i]].ccw == e[Pv(i, n)] {
      RotateCyclicAt(links, d, k, i);
    }
  }

  /** The record of position i of the rotated ring. */
  lemma RotateCyclicAt(links: map<nat, Links>, d: seq<nat>, k: nat, i: nat)
    requires Cyclic(links, d) && k < |d| && i < |d|
    ensures var e := RotateAt(d, k);
      e[i] in links && links[e[i]].cw == e[Nx(i, |d|)] && links[e[i]].ccw == e[Pv(i, |d|)]
  {
    var n := |d|;
    var e := RotateAt(d, k);
    RotateAtIndex(d, k);
    var p := Shift(i, k, n);
    assert e[i] == d[p];
    assert Shift(Nx(i, n), k, n) == Nx(p, n);
    assert Shift(Pv(i, n), k, n) == Pv(p, n);
    assert links[d[p]].cw == d[Nx(p, n)];
    assert links[d[p]].ccw == d[Pv(p, n)];
  }

  function IndexOf(d: seq<nat>, x: nat): (k: nat)
    requires x in d
    ensures k < |d| && d[k] == x
  {
    if d[0] == x then 0 else 1 + IndexOf(d[1..], x)
  }

  /** Removing half-edge o[j] deletes it from the clockwise order.  The
      leftmost neighbour is kept unless o[j] was the leftmost; then the
      dictionary's previous key becomes leftmost, and the order is read from
      it round the same ring. */
  lemma UnlinkIsDeletion(r: Rotation, o: seq<nat>, j: nat)
    requires Represents(r, o) && j < |o|
    ensures Unlink(r, o[j]).Success?
    ensures
      var r' := Unlink(r, o[j]).value;
      var d := o[..j] + o[j + 1..];
      && (|d| == 0 ==> Represents(r', []))
      && (|d| > 0 ==> |r'.keys| > 0 && Last(r'.keys) in d
                      && Represents(r', RotateAt(d, IndexOf(d, Last(r'.keys)))))
      && (j > 0 ==> Represents(r', d))
  {
    var n := |o|;
    var v := o[j];
    assert v in r.links;
    RemoveEltDistinct(r.keys, v);
    var d := o[..j] + o[j + 1..];
    DeleteMembers(o, j);
    if n == 1 {
      assert r.links[v].cw == o[Nx(0, 1)] == v;
      var r' := Unlink(r, v).value;
      assert r'.keys == [] by {
        assert forall x :: x in RemoveElt(r.keys, v) ==> x in o && x != v;
      }
      assert r'.links == map[];
    } else {
      var a := o[Pv(j, n)];
      var b := o[Nx(j, n)];
      assert r.links[v].cw == b && r.links[v].ccw == a;
      assert a != v && b != v;
      UnlinkResult(r, v);
      var r' := Rotation(RemoveElt(r.keys, v), Unsplice(r.links, v, a, b));
      assert Cyclic(r'.links, d) by {
        UnspliceCyclic(r.links, o, j);
      }
      assert forall x :: x in r'.links <==> x in d by {
        forall x ensures x in r'.links <==> x in d {
          UnspliceAt(r.links, v, a, b, x);
        }
      }
      assert DictOk(r');
      assert |d| == n - 1 == |r'.keys|;
      var lm := Last(r'.keys);
      assert lm in r'.keys;
      assert lm in d;
      var k := IndexOf(d, lm);
      RotateCyclic(r'.links, d, k);
      assert Represents(r', RotateAt(d, k));
      if j > 0 {
        RemoveEltKeepsLast(r.keys, v);
        assert lm == o[0] == d[0];
        assert d == RotateAt(d, 0);
        assert Represents(r', d);
      }
    }
  }
}

=== FILE: scan.dfy ===
/** The `scanf` conversions the shell of OSLabs/Lab1/Task2/task2.c uses,
    over an in-memory line: `%d`, `%Ns`, a run of whitespace in the format,
    and `%N[^\n]`. */
module Scan {
  import opened Wrappers
  import opened CString

  /** `isspace` in the C locale. */
  predicate IsSpace(c: char) {
    c == ' ' || c == '\t' || c == '\n' || c == '\r' || c == '\U{000B}' || c == '\U{000C}'
  }

  /** The first position at or after i that is not whitespace. */
  function SkipSpace(s: string, i: nat): (j: nat)
    requires i <= |s|
    ensures i <= j <= |s| && (j == |s| || !IsSpace(s[j]))
    ensures forall k :: i <= k < j ==> IsSpace(s[k])
    decreases |s| - i
  {
    if i == |s| || !IsSpace(s[i]) then i else SkipSpace(s, i + 1)
  }

  /** The end of the run of digits starting at i. */
  function DigitEnd(s: string, i: nat): (j: nat)
    requires i <= |s|
    ensures i <= j <= |s| && (j == |s| || !IsDigit(s[j]))
    ensures forall m :: i <= m < j ==> IsDigit(s[m])
    decreases |s| - i
  {
    if i == |s| || !IsDigit(s[i]) then i else DigitEnd(s, i + 1)
  }

  /** `%d` from position i: skip whitespace, take an optional sign and the
      longest run of digits, failing when there is no digit. The result is
      the value and the position after the digits. */
  function ScanInt(s: string, i: nat): (r: Option<(int, nat)>)
    requires i <= |s|
    ensures r.Some? ==> i < r.value.1 <= |s| && (r.value.1 == |s| || !IsDigit(s[r.value.1]))
    ensures r.None? <==>
      var j := SkipSpace(s, i);
      var k := if j < |s| && (s[j] == '-' || s[j] == '+') then j + 1 else j;
      k == |s| || !IsDigit(s[k])
  {
    var j := SkipSpace(s, i);
    var neg := j < |s| && s[j] == '-';
    var k := if j < |s| && (s[j] == '-' || s[j] == '+') then j + 1 else j;
    var e := DigitEnd(s, k);
    assert AllDigits(s[k..e]);
    if e == k then None
    else Some((if neg then 0 - Value(s[k..e]) as int else Value(s[k..e]), e))
  }

  /** A run of digits ends where the digits written there end. */
  lemma {:induction false} DigitEndOf(s: string, i: nat, ds: string)
    requires i + |ds| <= |s| && s[i..i + |ds|] == ds && AllDigits(ds)
    requires i + |ds| == |s| || !IsDigit(s[i + |ds|])
    ensures DigitEnd(s, i) == i + |ds|
    decreases |ds|
  {
    if |ds| > 0 {
      assert s[i] == ds[0];
      assert s[i + 1..i + |ds|] == ds[1..];
      DigitEndOf(s, i + 1, ds[1..]);
    }
  }

  /** `%d` reads back a numeral written at position i and stopped by a
      non-digit or the end. */
  lemma ScanIntOf(s: string, i: nat, ds: string)
    requires 1 <= |ds| && i + |ds| <= |s| && s[i..i + |ds|] == ds && AllDigits(ds)
    requires i + |ds| == |s| || !IsDigit(s[i + |ds|])
    ensures ScanInt(s, i) == Some((Value(ds), i + |ds|))
  {
    assert s[i] == ds[0] && IsDigit(ds[0]);
    assert SkipSpace(s, i) == i;
    DigitEndOf(s, i, ds);
    ScanIntAt(s, i, i, i, i + |ds|, ds, false);
  }

  /** White space written at position i is skipped up to the character
      after it. */
  lemma {:induction false} SkipSpaceOf(s: string, i: nat, ws: string)
    requires i + |ws| < |s| && s[i..i + |ws|] == ws && !IsSpace(s[i + |ws|])
    requires forall k :: 0 <= k < |ws| ==> IsSpace(ws[k])
    ensures SkipSpace(s, i) == i + |ws|
    decreases |ws|
  {
    if |ws| > 0 {
      assert s[i] == ws[0];
      assert s[i + 1..i + |ws|] == ws[1..];
      SkipSpaceOf(s, i + 1, ws[1..]);
    }
  }

  /** `%d` from i where the white space ends at j, the digits start at k
      and end at e, spelling ds. */
  lemma ScanIntAt(s: string, i: nat, j: nat, k: nat, e: nat, ds: string, neg: bool)
    requires i <= j < |s| && SkipSpace(s, i) == j
    requires k == if s[j] == '-' || s[j] == '+' then j + 1 else j
    requires neg <==> s[j] == '-'
    requires k < e <= |s| && DigitEnd(s, k) == e && AllDigits(ds) && s[k..e] == ds
    ensures ScanInt(s, i) == Some((if neg then 0 - Value(ds) as int else Value(ds), e))
  {
  }

  /** `%d` reads back a signed numeral after leading white space: on a
      line holding white space up to j, then a sign "-", "+" or none up
      to k, then digits up to e that a non-digit or the end follows, the
      value is the numeral's, negated for "-", and reading stops at e. */
  lemma ScanIntSigned(s: string, ws: string, sg: string, ds: string, j: nat, k: nat, e: nat)
    requires forall m :: 0 <= m < |ws| ==> IsSpace(ws[m])
    requires sg == "" || sg == "-" || sg == "+"
    requires 1 <= |ds| && AllDigits(ds)
    requires j == |ws| && k == j + |sg| && e == k + |ds| && e <= |s|
    requires s[0..j] == ws && s[j..k] == sg && s[k..e] == ds
    requires e == |s| || !IsDigit(s[e])
    ensures ScanInt(s, 0) == Some((if sg == "-" then 0 - Value(ds) as int else Value(ds), e))
  {
    assert s[k] == ds[0] && IsDigit(ds[0]);
    if sg != "" {
      assert s[j] == sg[0];
    }
    SkipSpaceOf(s, 0, ws);
    DigitEndOf(s, k, ds);
    ScanIntAt(s, 0, j, k, e, ds, sg == "-");
  }

  /** `%Ns`: skip whitespace and take at most `width` characters up to the
      next whitespace; fails only at the end of the input. */
  function ScanWord(s: string, i: nat, width: nat): (r: Option<(string, nat)>)
    requires i <= |s| && width >= 1
    ensures r.None? <==> SkipSpace(s, i) == |s|
    ensures r.Some? ==> 1 <= |r.value.0| <= width && r.value.1 <= |s|
    ensures r.Some? ==> forall k :: 0 <= k < |r.value.0| ==> !IsSpace(r.value.0[k])
  {
    var j := SkipSpace(s, i);
    if j == |s| then None
    else
      var w := WordFrom(s, j, width);
      Some((w, j + |w|))
  }

  /** At most `width` non-whitespace characters from position j on. */
  function WordFrom(s: string, j: nat, width: nat): (w: string)
    requires j <= |s|
    ensures |w| <= width && j + |w| <= |s| && w == s[j..j + |w|]
    ensures forall k :: 0 <= k < |w| ==> !IsSpace(w[k])
    ensures |w| < width && j + |w| < |s| ==> IsSpace(s[j + |w|])
    decreases width
  {
    if width == 0 || j == |s| || IsSpace(s[j]) then []
    else [s[j]] + WordFrom(s, j + 1, width - 1)
  }

  /** `%Ns` takes a whole word written at j that fits the width. */
  lemma {:induction false} WordFromOf(s: string, j: nat, width: nat, w: string)
    requires |w| <= width && j + |w| <= |s| && s[j..j + |w|] == w
    requires forall k :: 0 <= k < |w| ==> !IsSpace(w[k])
    requires j + |w| == |s| || IsSpace(s[j + |w|])
    ensures WordFrom(s, j, width) == w
    decreases |w|
  {
    if |w| > 0 {
      assert s[j] == w[0];
      assert s[j + 1..j + |w|] == w[1..];
      WordFromOf(s, j + 1, width - 1, w[1..]);
    }
  }

  /** `%N[^\n]` from position i: at most `width` characters up to a
      newline; fails when there is none to take. */
  function ScanLine(s: string, i: nat, width: nat): (r: Option<string>)
    requires i <= |s| && width >= 1
    ensures r.Some? ==> 1 <= |r.value| <= width && '\n' !in r.value
    ensures r.Some? ==> i + |r.value| <= |s| && r.value == s[i..i + |r.value|]
    ensures r.None? <==> i == |s| || s[i] == '\n'
  {
    var t := Before(s[i..], '\n');
    if |t| == 0 then None else Some(t[..if |t| < width then |t| else width])
  }
}

=== FILE: seqs.dfy ===
/** Sequence notions shared by the models. */
module Seqs {

  predicate Distinct(s: seq<nat>) {
    forall i, j :: 0 <= i < j < |s| ==> s[i] != s[j]
  }

  function Last<T>(s: seq<T>): T
    requires |s| > 0
  {
    s[|s| - 1]
  }

  function Min(a: nat, b: nat): nat { if a <= b then a else b }

  lemma AppendAssoc<T>(a: seq<T>, b: seq<T>, c: seq<T>)
    ensures a + (b + c) == (a + b) + c
  {
  }

  /** A duplicate-free sequence holds each element at most once. */
  lemma {:induction false} DistinctCount(s: seq<nat>, x: nat)
    requires Distinct(s)
    ensures multiset(s)[x] <= 1
  {
    if |s| > 0 {
      assert s == [s[0]] + s[1..];
      DistinctCount(s[1..], x);
      if x == s[0] {
        assert x !in s[1..];
      }
    }
  }

  /** A rearrangement of a duplicate-free sequence is duplicate-free. */
  lemma DistinctPerm(s: seq<nat>, t: seq<nat>)
    requires Distinct(s) && multiset(s) == multiset(t)
    ensures Distinct(t)
  {
    forall i, j | 0 <= i < j < |t| ensures t[i] != t[j] {
      DistinctCount(s, t[i]);
      TwoCount(t, i, j);
    }
  }

  /** An element found at two places is counted twice. */
  lemma TwoCount(t: seq<nat>, i: nat, j: nat)
    requires i < j < |t|
    ensures t[i] == t[j] ==> multiset(t)[t[i]] >= 2
  {
    assert t == t[..i] + [t[i]] + t[i + 1..j] + [t[j]] + t[j + 1..];
  }
}

=== FILE: shell.dfy ===
/** The user shell of OSLabs/Lab1/Task2/task2.c: a table of registered
    users, a start menu (register, log in, quit) and, once a user is logged
    in, a command loop (Time, Date, Howmuch, Logout, Sanctions) with a
    per-session request limit. Every prompt's answer is one input line; the
    clock is a parameter. */
module Shell {
  import opened Wrappers
  import opened CString
  import opened Scan
  import opened Howmuch

  const MaxUsers: nat := 100
  const MaxLoginLength: nat := 6
  /** The widths of `%19s` and `%49[^\n]` in the command parser. */
  const CommandWidth: nat := 19
  const ParamWidth: nat := 49
  /** What `sanctions_user` wants typed to confirm a limit. */
  const SanctionCode: int := 52
  const PinMax: int := 100000

  /** A row of the user table; `is_active` is a flag the program sets and
      never clears. */
  datatype User = User(login: string, pin: int, active: bool, limit: int, count: int)

  /** The user table and the index of the logged-in user, if any. */
  datatype State = State(users: seq<User>, current: Option<nat>)

  /** The logged-in user, if any, is a row of the table. */
  predicate Wf(st: State) {
    st.current.Some? ==> st.current.value < |st.users|
  }

  // ---------------------------------------------------------------------
  // Validation and lookup
  // ---------------------------------------------------------------------

  /** `isalnum` in the C locale. */
  predicate IsAlnum(c: char) {
    'a' <= c <= 'z' || 'A' <= c <= 'Z' || '0' <= c <= '9'
  }

  /** The character test of `is_valid_login`, one character at a time. */
  function AllAlnum(s: string): (b: bool)
    ensures b <==> forall i :: 0 <= i < |s| ==> IsAlnum(s[i])
  {
    if |s| == 0 then true
    else
      var b := IsAlnum(s[0]) && AllAlnum(s[1..]);
      assert forall i :: 1 <= i < |s| ==> s[i] == s[1..][i - 1];
      b
  }

  predicate ValidLogin(login: string) {
    0 < |login| <= MaxLoginLength && AllAlnum(login)
  }

  predicate ValidPin(pin: int) {
    0 <= pin <= PinMax
  }

  /** The first user at or after `from` that p accepts. */
  function First(users: seq<User>, p: User -> bool, from: nat): (r: Option<nat>)
    requires from <= |users|
    ensures r.Some? ==> from <= r.value < |users| && p(users[r.value])
    ensures r.Some? ==> forall j :: from <= j < r.value ==> !p(users[j])
    ensures r.None? <==> forall j :: from <= j < |users| ==> !p(users[j])
    decreases |users| - from
  {
    if from == |users| then None
    else if p(users[from]) then Some(from)
    else First(users, p, from + 1)
  }

  /** The row `sanctions_user` (and the duplicate test of `register_user`)
      finds for a login: the first with that login. */
  function Lookup(users: seq<User>, login: string): (r: Option<nat>)
    ensures r.Some? ==> r.value < |users| && users[r.value].login == login
    ensures r.Some? ==> forall j :: 0 <= j < r.value ==> users[j].login != login
    ensures r.None? <==> forall j :: 0 <= j < |users| ==> users[j].login != login
  {
    First(users, (u: User) => u.login == login, 0)
  }

  /** The row `login_user` logs in: the first active one with that login
      and PIN. */
  function Authenticate(users: seq<User>, login: string, pin: int): (r: Option<nat>)
    ensures r.Some? ==> r.value < |users| && users[r.value].login == login && users[r.value].pin == pin && users[r.value].active
    ensures r.Some? ==> forall j :: 0 <= j < r.value ==> !(users[j].login == login && users[j].pin == pin && users[j].active)
    ensures r.None? <==> forall j :: 0 <= j < |users| ==> !(users[j].login == login && users[j].pin == pin && users[j].active)
  {
    First(users, (u: User) => u.login == login && u.pin == pin && u.active, 0)
  }

  /** `scanf("%6s")` on an answer line. */
  function ReadLogin(line: string): (r: Option<string>)
    ensures r.Some? ==> 1 <= |r.value| <= MaxLoginLength
    ensures r.None? <==> forall i :: 0 <= i < |line| ==> IsSpace(line[i])
  {
    var w := ScanWord(line, 0, MaxLoginLength);
    if w.None? then None else Some(w.value.0)
  }

  /** `scanf("%d")` on an answer line. */
  function ReadInt(line: string): Option<int> {
    var n := ScanInt(line, 0);
    if n.None? then None else Some(n.value.0)
  }

  // ---------------------------------------------------------------------
  // register_user, login_user, logout_user
  // ---------------------------------------------------------------------

  datatype RegisterError = Full | LoginUnread | BadLogin | Taken | PinUnread | BadPin

  /** `register_user`: the checks in the order the program makes them,
      then a new active row without a limit. */
  function Register(st: State, loginLine: string, pinLine: string): (r: Result<State, RegisterError>)
    ensures |st.users| >= MaxUsers ==> r == Failure(Full)
    ensures r.Success? <==>
      |st.users| < MaxUsers && ReadLogin(loginLine).Some? && ValidLogin(ReadLogin(loginLine).value) &&
      Lookup(st.users, ReadLogin(loginLine).value).None? && ReadInt(pinLine).Some? && ValidPin(ReadInt(pinLine).value)
    ensures r.Success? ==>
      r.value.current == st.current &&
      r.value.users == st.users + [User(ReadLogin(loginLine).value, ReadInt(pinLine).value, true, 0, 0)]
    ensures r == Failure(Taken) <==>
      |st.users| < MaxUsers && ReadLogin(loginLine).Some? && ValidLogin(ReadLogin(loginLine).value) &&
      Lookup(st.users, ReadLogin(loginLine).value).Some?
  {
    if |st.users| >= MaxUsers then Failure(Full)
    else
      var login := ReadLogin(loginLine);
      if login.None? then Failure(LoginUnread)
      else if !ValidLogin(login.value) then Failure(BadLogin)
      else if Lookup(st.users, login.value).Some? then Failure(Taken)
      else
        var pin := ReadInt(pinLine);
        if pin.None? then Failure(PinUnread)
        else if !ValidPin(pin.value) then Failure(BadPin)
        else Success(State(st.users + [User(login.value, pin.value, true, 0, 0)], st.current))
  }

  datatype LoginError = LoginNotRead | PinNotRead | NoSuchUser

  /** `login_user`: the matching row becomes the current user and starts a
      new session with no requests counted. */
  function Login(st: State, loginLine: string, pinLine: string): (r: Result<State, LoginError>)
    ensures r.Success? <==>
      ReadLogin(loginLine).Some? && ReadInt(pinLine).Some? &&
      Authenticate(st.users, ReadLogin(loginLine).value, ReadInt(pinLine).value).Some?
    ensures r.Success? ==>
      var i := Authenticate(st.users, ReadLogin(loginLine).value, ReadInt(pinLine).value).value;
      r.value.current == Some(i) && |r.value.users| == |st.users| &&
      r.value.users[i].count == 0 &&
      r.value.users[i] == st.users[i].(count := 0) &&
      forall j :: 0 <= j < |st.users| && j != i ==> r.value.users[j] == st.users[j]
  {
    var login := ReadLogin(loginLine);
    if login.None? then Failure(LoginNotRead)
    else
      var pin := ReadInt(pinLine);
      if pin.None? then Failure(PinNotRead)
      else
        match Authenticate(st.users, login.value, pin.value)
        case None => Failure(NoSuchUser)
        case Some(i) => Success(State(st.users[i := st.users[i].(count := 0)], Some(i)))
  }

  /** `logout_user`: no one is logged in and the table is kept, so the
      table stays good. */
  function Logout(st: State): (r: State)
    ensures r.current.None? && r.users == st.users
    ensures Good(st) ==> Good(r)
  {
    State(st.users, None)
  }

  // ---------------------------------------------------------------------
  // The start menu
  // ---------------------------------------------------------------------

  datatype MenuReply =
    | ChoiceUnread
    | Registration(outcome: Option<RegisterError>)
    | Authorisation(refusal: Option<LoginError>)
    | Quit
    | BadChoice

  /** One pass of the start menu: read a choice, then register, log in,
      quit (the boolean), or complain. */
  function Menu(st: State, choiceLine: string, loginLine: string, pinLine: string): (r: (State, MenuReply, bool))
    ensures r.2 <==> ReadInt(choiceLine) == Some(3)
    ensures r.2 ==> r.0 == st
    ensures ReadInt(choiceLine) == Some(1) ==>
      r.1.Registration? && (r.1.outcome.None? <==> Register(st, loginLine, pinLine).Success?)
    ensures ReadInt(choiceLine) == Some(1) ==>
      r.0 == if Register(st, loginLine, pinLine).Success? then Register(st, loginLine, pinLine).value else st
    ensures ReadInt(choiceLine) == Some(2) ==>
      r.1.Authorisation? && (r.1.refusal.None? <==> Login(st, loginLine, pinLine).Success?)
    ensures ReadInt(choiceLine) == Some(2) ==>
      r.0 == if Login(st, loginLine, pinLine).Success? then Login(st, loginLine, pinLine).value else st
    ensures !(ReadInt(choiceLine).Some? && ReadInt(choiceLine).value in {1, 2}) ==> r.0 == st
  {
    match ReadInt(choiceLine)
    case None => (st, ChoiceUnread, false)
    case Some(choice) =>
      if choice == 1 then
        match Register(st, loginLine, pinLine)
        case Success(st') => (st', Registration(None), false)
        case Failure(e) => (st, Registration(Some(e)), false)
      else if choice == 2 then
        match Login(st, loginLine, pinLine)
        case Success(st') => (st', Authorisation(None), false)
        case Failure(e) => (st, Authorisation(Some(e)), false)
      else if choice == 3 then (st, Quit, true)
      else (st, BadChoice, false)
  }

  // ---------------------------------------------------------------------
  // sanctions_user
  // ---------------------------------------------------------------------

  datatype SanctionError = OwnLogin | NotFound | ConfirmationUnread | Refused | LimitUnread | Negative

  /** `sanctions_user`: set another user's request limit after the
      confirmation code; a limit of 0 lifts the limit. */
  function Sanctions(st: State, username: string, confirmLine: string, limitLine: string): (r: Result<State, SanctionError>)
    requires Wf(st) && st.current.Some?
    ensures username == st.users[st.current.value].login ==> r == Failure(OwnLogin)
    ensures r.Success? <==>
      username != st.users[st.current.value].login && Lookup(st.users, username).Some? &&
      ReadInt(confirmLine) == Some(SanctionCode) && ReadInt(limitLine).Some? && ReadInt(limitLine).value >= 0
    ensures r.Success? ==>
      var t := Lookup(st.users, username).value;
      t != st.current.value && r.value.current == st.current &&
      r.value.users == st.users[t := st.users[t].(limit := ReadInt(limitLine).value)]
  {
    if username == st.users[st.current.value].login then Failure(OwnLogin)
    else
      match Lookup(st.users, username)
      case None => Failure(NotFound)
      case Some(t) =>
        var confirmation := ReadInt(confirmLine);
        if confirmation.None? then Failure(ConfirmationUnread)
        else if confirmation.value != SanctionCode then Failure(Refused)
        else
          var limit := ReadInt(limitLine);
          if limit.None? then Failure(LimitUnread)
          else if limit.value < 0 then Failure(Negative)
          else Success(State(st.users[t := st.users[t].(limit := limit.value)], st.current))
  }

  // ---------------------------------------------------------------------
  // The command loop
  // ---------------------------------------------------------------------

  /** The command name (`%19s`) and the rest of the line after white space
      (`%49[^\n]`, "" when there is none). None when the line is all white
      space. */
  function ParseCommand(cmd: string): (r: Option<(string, string)>)
    ensures r.None? <==> SkipSpace(cmd, 0) == |cmd|
    ensures r.Some? ==> 1 <= |r.value.0| <= CommandWidth && |r.value.1| <= ParamWidth && '\n' !in r.value.1
    ensures r.Some? ==> forall i :: 0 <= i < |r.value.0| ==> !IsSpace(r.value.0[i])
  {
    var w := ScanWord(cmd, 0, CommandWidth);
    if w.None? then None
    else
      var p := ScanLine(cmd, SkipSpace(cmd, w.value.1), ParamWidth);
      Some((w.value.0, if p.Some? then p.value else []))
  }

  /** What a turn of the command loop prints, in substance. */
  datatype Reply =
    | LimitReached
    | Blank
    | HowmuchUsage
    | Answered(report: Report)
    | ShowTime
    | ShowDate
    | LoggedOut
    | NoUsername
    | Sanctioned(outcome: Option<SanctionError>)
    | Unknown(name: string)

  /** The replies of the commands that count against the request limit. */
  predicate Counted(reply: Reply) {
    reply.Answered? || reply.ShowTime? || reply.ShowDate? || reply.Sanctioned?
  }

  /** The current user has made one more request. */
  function Count(st: State): (r: State)
    requires Wf(st) && st.current.Some?
    ensures Wf(r) && r.current == st.current && |r.users| == |st.users|
    ensures var i := st.current.value;
      r.users[i].count == st.users[i].count + 1 &&
      r.users[i] == st.users[i].(count := st.users[i].count + 1) &&
      forall j :: 0 <= j < |st.users| && j != i ==> r.users[j] == st.users[j]
    ensures var u := st.users[st.current.value];
      Good(st) && (u.limit == 0 || u.count < u.limit) ==> Good(r)
  {
    var i := st.current.value;
    State(st.users[i := st.users[i].(count := st.users[i].count + 1)], st.current)
  }

  /** A command line as the loop understands it. */
  datatype Command =
    | NoCommand
    | HowmuchCmd(datetime: string, flag: string)
    | HowmuchMalformed
    | TimeCmd
    | DateCmd
    | LogoutCmd
    | SanctionsCmd(username: string)
    | UnknownCmd(name: string)

  /** The command on a line typed by the logged-in user, cut at its
      newline: the name picks the command; Howmuch takes its arguments
      from the whole line, Sanctions takes the rest of the line. */
  function Classify(line: string): (c: Command)
    ensures c == NoCommand <==> ParseCommand(Before(line, '\n')).None?
    ensures c.HowmuchCmd? ==>
      |c.datetime| > 0 && |c.flag| > 0 && HowmuchArgs(Before(line, '\n')) == (c.datetime, c.flag)
    ensures c.SanctionsCmd? ==> |c.username| <= ParamWidth && '\n' !in c.username
    ensures c.UnknownCmd? ==> c.name !in ["Howmuch", "Time", "Date", "Logout", "Sanctions"]
  {
    var cmd := Before(line, '\n');
    var pc := ParseCommand(cmd);
    if pc.None? then NoCommand
    else
      var name, param := pc.value.0, pc.value.1;
      if name == "Howmuch" then
        var a := HowmuchArgs(cmd);
        if |a.0| > 0 && |a.1| > 0 then HowmuchCmd(a.0, a.1) else HowmuchMalformed
      else if name == "Time" then TimeCmd
      else if name == "Date" then DateCmd
      else if name == "Logout" then LogoutCmd
      else if name == "Sanctions" then SanctionsCmd(param)
      else UnknownCmd(name)
  }

  /** Two tables hold the same accounts: logins, PINs and flags agree row
      by row. */
  predicate SameAccounts(a: seq<User>, b: seq<User>) {
    |a| == |b| &&
    forall j :: 0 <= j < |a| ==> a[j].login == b[j].login && a[j].pin == b[j].pin && a[j].active == b[j].active
  }

  /** Row i's request count went up by d, the others' stayed. */
  predicate CountedBy(a: seq<User>, b: seq<User>, i: nat, d: int) {
    |a| == |b| &&
    forall j :: 0 <= j < |a| ==> b[j].count == a[j].count + (if j == i then d else 0)
  }

  /** No row's limit changed. */
  predicate SameLimits(a: seq<User>, b: seq<User>) {
    |a| == |b| && forall j :: 0 <= j < |a| ==> b[j].limit == a[j].limit
  }

  /** What a command does for the logged-in user; Sanctions reads two
      more answer lines, Howmuch reads the clock. */
  function Execute(st: State, c: Command, since: DateTime -> int, confirmLine: string, limitLine: string): (r: (State, Reply))
    requires Wf(st) && st.current.Some?
    ensures Wf(r.0) && SameAccounts(st.users, r.0.users)
    ensures r.1 == LoggedOut <==> r.0.current.None?
    ensures r.0.current.Some? ==> r.0.current == st.current
    ensures CountedBy(st.users, r.0.users, st.current.value, if Counted(r.1) then 1 else 0)
    ensures Counted(r.1) <==> c.HowmuchCmd? || c == TimeCmd || c == DateCmd || (c.SanctionsCmd? && |c.username| > 0)
    ensures r.1.Answered? ==> c.HowmuchCmd? && r.1.report == HowmuchTime(c.datetime, c.flag, since)
    ensures r.1 != Sanctioned(None) ==> SameLimits(st.users, r.0.users)
    ensures r.1 == Sanctioned(None) ==>
      c.SanctionsCmd? && Sanctions(st, c.username, confirmLine, limitLine).Success? &&
      r.0 == Count(Sanctions(st, c.username, confirmLine, limitLine).value)
  {
    match c
    case NoCommand => (st, Blank)
    case HowmuchCmd(datetime, flag) => (Count(st), Answered(HowmuchTime(datetime, flag, since)))
    case HowmuchMalformed => (st, HowmuchUsage)
    case TimeCmd => (Count(st), ShowTime)
    case DateCmd => (Count(st), ShowDate)
    case LogoutCmd => (Logout(st), LoggedOut)
    case SanctionsCmd(username) =>
      if |username| == 0 then (st, NoUsername)
      else
        var sanctioned := Sanctions(st, username, confirmLine, limitLine);
        if sanctioned.Success? then (Count(sanctioned.value), Sanctioned(None))
        else (Count(st), Sanctioned(Some(sanctioned.error)))
    case UnknownCmd(name) => (st, Unknown(name))
  }

  /** One command line typed by the logged-in user. */
  function RunCommand(st: State, line: string, since: DateTime -> int, confirmLine: string, limitLine: string): (r: (State, Reply))
    requires Wf(st) && st.current.Some?
  {
    Execute(st, Classify(line), since, confirmLine, limitLine)
  }

  /** The current user has used up a non-zero request limit. */
  predicate OverLimit(st: State)
    requires Wf(st) && st.current.Some?
  {
    var u := st.users[st.current.value];
    u.limit > 0 && u.count >= u.limit
  }

  /** One turn of the loop while a user is logged in: log out a user over
      the limit, otherwise run the command line. */
  function Session(st: State, line: string, since: DateTime -> int, confirmLine: string, limitLine: string): (r: (State, Reply))
    requires Wf(st) && st.current.Some?
    ensures r.1 == LimitReached <==> OverLimit(st)
    ensures r.1 == LimitReached ==> r.0 == Logout(st)
    ensures !OverLimit(st) ==> r == RunCommand(st, line, since, confirmLine, limitLine)
  {
    if OverLimit(st) then (Logout(st), LimitReached)
    else RunCommand(st, line, since, confirmLine, limitLine)
  }

  // ---------------------------------------------------------------------
  // What the loop keeps true
  // ---------------------------------------------------------------------

  /** One turn's input while a user is logged in: the command line and the
      two answer lines Sanctions may ask for. */
  datatype Turn = Turn(line: string, confirmLine: string, limitLine: string)

  /** The command loop from state st over the given turns, until the user
      logs out or is logged out: the final state and the replies. */
  function Commands(st: State, turns: seq<Turn>, since: DateTime -> int): (r: (State, seq<Reply>))
    requires Wf(st)
    ensures Wf(r.0) && |r.1| <= |turns|
    decreases |turns|
  {
    if |turns| == 0 || st.current.None? then (st, [])
    else
      var step := Session(st, turns[0].line, since, turns[0].confirmLine, turns[0].limitLine);
      var rest := Commands(step.0, turns[1..], since);
      (rest.0, [step.1] + rest.1)
  }

  /** The number of replies to commands that count against the limit. */
  function NumCounted(replies: seq<Reply>): nat {
    if |replies| == 0 then 0
    else (if Counted(replies[0]) then 1 else 0) + NumCounted(replies[1..])
  }

  /** A user with a request limit who has made `count` requests gets at
      most `limit - count` more counted commands before being logged out,
      whatever is typed. */
  lemma {:induction false} RequestLimit(st: State, turns: seq<Turn>, since: DateTime -> int)
    requires Wf(st) && st.current.Some?
    requires 0 < st.users[st.current.value].limit && st.users[st.current.value].count <= st.users[st.current.value].limit
    ensures NumCounted(Commands(st, turns, since).1) <= st.users[st.current.value].limit - st.users[st.current.value].count
    decreases |turns|
  {
    if |turns| > 0 {
      var t := turns[0];
      var step := Session(st, t.line, since, t.confirmLine, t.limitLine);
      var rest := Commands(step.0, turns[1..], since);
      assert Commands(st, turns, since).1 == [step.1] + rest.1;
      assert ([step.1] + rest.1)[1..] == rest.1;
      if step.0.current.Some? {
        var i := st.current.value;
        assert step.1 != LimitReached;
        assert step.0.users[i].limit == st.users[i].limit by {
          SessionKeepsOwnLimit(st, t, since);
        }
        RequestLimit(step.0, turns[1..], since);
      } else {
        assert rest.1 == [];
      }
    }
  }

  /** A turn never changes the logged-in user's own limit, and counts at
      most one request. */
  lemma SessionKeepsOwnLimit(st: State, t: Turn, since: DateTime -> int)
    requires Wf(st) && st.current.Some?
    ensures var r := Session(st, t.line, since, t.confirmLine, t.limitLine);
      var i := st.current.value;
      r.0.users[i].limit == st.users[i].limit &&
      r.0.users[i].count == st.users[i].count + (if Counted(r.1) then 1 else 0)
  {
  }

  /** A user who logs in with a limit gets at most that many counted
      commands in the session. */
  lemma LoginThenLimit(st: State, loginLine: string, pinLine: string, turns: seq<Turn>, since: DateTime -> int)
    requires Good(st)
    requires Login(st, loginLine, pinLine).Success?
    ensures var st' := Login(st, loginLine, pinLine).value;
      st'.users[st'.current.value].limit > 0 ==>
        NumCounted(Commands(st', turns, since).1) <= st'.users[st'.current.value].limit
  {
    var st' := Login(st, loginLine, pinLine).value;
    if st'.users[st'.current.value].limit > 0 {
      RequestLimit(st', turns, since);
    }
  }

  /** The invariant of the user table: at most MaxUsers rows, distinct
      valid logins, valid PINs, active rows, non-negative limits and
      counts, and a logged-in user (if any) within a non-zero limit. */
  predicate Good(st: State) {
    Wf(st) && |st.users| <= MaxUsers &&
    (forall i, j :: 0 <= i < j < |st.users| ==> st.users[i].login != st.users[j].login) &&
    (forall i :: 0 <= i < |st.users| ==> GoodUser(st.users[i])) &&
    (st.current.Some? ==> WithinLimit(st.users[st.current.value]))
  }

  predicate GoodUser(u: User) {
    ValidLogin(u.login) && ValidPin(u.pin) && u.active && u.limit >= 0 && u.count >= 0
  }

  predicate WithinLimit(u: User) {
    u.limit == 0 || u.count <= u.limit
  }

  /** Registering and logging in keep the table good. */
  lemma MenuKeepsGood(st: State, choiceLine: string, loginLine: string, pinLine: string)
    requires Good(st)
    ensures Good(Menu(st, choiceLine, loginLine, pinLine).0)
  {
    var r := Register(st, loginLine, pinLine);
    if ReadInt(choiceLine) == Some(1) && r.Success? {
      var login := ReadLogin(loginLine).value;
      assert Lookup(st.users, login).None?;
      assert forall i :: 0 <= i < |st.users| ==> st.users[i].login != login;
      assert r.value.users[|st.users|].login == login;
    }
  }

  /** A turn of the command loop keeps the table good: the limit check
      before every command keeps the logged-in user within the limit. */
  lemma SessionKeepsGood(st: State, t: Turn, since: DateTime -> int)
    requires Good(st) && st.current.Some?
    ensures Good(Session(st, t.line, since, t.confirmLine, t.limitLine).0)
  {
    var r := Session(st, t.line, since, t.confirmLine, t.limitLine);
    if !OverLimit(st) {
      var c := Classify(t.line);
      assert r == Execute(st, c, since, t.confirmLine, t.limitLine);
      SessionKeepsOwnLimit(st, t, since);
      if c.SanctionsCmd? && |c.username| > 0 {
        var s := Sanctions(st, c.username, t.confirmLine, t.limitLine);
        if s.Success? {
          assert ReadInt(t.limitLine).value >= 0;
        }
      }
    }
  }

  // ---------------------------------------------------------------------
  // Reading command lines back
  // ---------------------------------------------------------------------

  /** The name of a command line is its first word. */
  lemma CommandNameOf(name: string, rest: string)
    requires 1 <= |name| <= CommandWidth && forall i :: 0 <= i < |name| ==> !IsSpace(name[i])
    ensures var r := ParseCommand(name + " " + rest);
      r.Some? && r.value.0 == name
  {
    var s := name + " " + rest;
    assert s[|name|] == ' ' && s[0..|name|] == name;
    WordFromOf(s, 0, CommandWidth, name);
    assert SkipSpace(s, 0) == 0;
  }

  /** A line holding one word is that command with no parameter. */
  lemma CommandWordOf(name: string)
    requires 1 <= |name| <= CommandWidth && forall i :: 0 <= i < |name| ==> !IsSpace(name[i])
    ensures ParseCommand(name) == Some((name, []))
  {
    assert name[0..|name|] == name;
    WordFromOf(name, 0, CommandWidth, name);
    assert SkipSpace(name, 0) == 0;
  }

  /** A command name followed by a space and a parameter that does not
      start with white space is split into the two. */
  lemma ParseCommandOf(name: string, param: string)
    requires 1 <= |name| <= CommandWidth && forall i :: 0 <= i < |name| ==> !IsSpace(name[i])
    requires |param| <= ParamWidth && '\n' !in param && (|param| > 0 ==> !IsSpace(param[0]))
    ensures ParseCommand(name + " " + param) == Some((name, param))
  {
    var s := name + " " + param;
    CommandNameOf(name, param);
    assert ScanWord(s, 0, CommandWidth).value.1 == |name|;
    if |param| > 0 {
      assert SkipSpace(s, |name| + 1) == |name| + 1;
      assert s[|name| + 1..] == param;
      BeforeJoin(param, '\n', []);
    }
  }

  /** A line of one word is the command it names, without parameter. */
  lemma ClassifyWord(name: string)
    requires 1 <= |name| <= CommandWidth && forall i :: 0 <= i < |name| ==> !IsSpace(name[i]) && name[i] != '\n'
    ensures Classify(name) == if name == "Howmuch" then HowmuchMalformed
      else if name == "Time" then TimeCmd
      else if name == "Date" then DateCmd
      else if name == "Logout" then LogoutCmd
      else if name == "Sanctions" then SanctionsCmd([])
      else UnknownCmd(name)
  {
    BeforeJoin(name, '\n', []);
    CommandWordOf(name);
    assert LastIndex(name, ' ') == None;
  }

  /** "Howmuch <datetime> <flag>" is understood as that command. */
  lemma ClassifyHowmuch(dt: string, flag: string)
    requires 1 <= |dt| < DatetimeBuffer && dt[0] != ' ' && '\n' !in dt
    requires 1 <= |flag| && ' ' !in flag && '\n' !in flag
    ensures Classify("Howmuch " + dt + " " + flag) == HowmuchCmd(dt, flag)
  {
    var h := "Howmuch " + dt + " " + flag;
    assert '\n' !in h;
    BeforeJoin(h, '\n', []);
    assert h == "Howmuch" + " " + (dt + " " + flag);
    CommandNameOf("Howmuch", dt + " " + flag);
    HowmuchArgsOf(dt, flag);
  }

  /** "Sanctions <username>" is understood as that command. */
  lemma ClassifySanctions(username: string)
    requires 1 <= |username| <= ParamWidth && '\n' !in username && !IsSpace(username[0])
    ensures Classify("Sanctions " + username) == SanctionsCmd(username)
  {
    var sn := "Sanctions " + username;
    assert '\n' !in sn;
    BeforeJoin(sn, '\n', []);
    ParseCommandOf("Sanctions", username);
    assert sn == "Sanctions" + " " + username;
  }
}

=== FILE: signature.dfy ===
/** Signatures of hypergraphs/Graphs/ClassLibrary1/Graph.cs: the staircase walk
    from the top-right corner of an adjacency matrix, one bit per step, its
    inverse that fills a matrix from the bits of a number, and the walk over
    a matrix built from a list of edges.  A signature is a C# `long`, so the
    shifts wrap around at 64 bits. */
module Signature {
  import opened Wrappers
  import opened Degrees

  /** 2^63 and 2^64: the range of a C# `long` is [-2^63, 2^63). */
  const H: int := 0x8000_0000_0000_0000
  const M: int := 0x1_0000_0000_0000_0000

  /** v as a `long`: two's-complement wrap-around. */
  function Long(v: int): (r: int)
    ensures -H <= r < H
    ensures 0 <= v < H ==> r == v
  {
    (v + H) % M - H
  }

  /** The number a bit string denotes, most significant bit first. */
  function Value(bits: seq<bool>): nat {
    if |bits| == 0 then 0 else 2 * Value(bits[..|bits| - 1]) + (if bits[|bits| - 1] then 1 else 0)
  }

  /** `signature = (signature << 1) | bit` for each bit in turn, on a `long`. */
  function Fold(bits: seq<bool>): (r: int)
    ensures -H <= r < H
  {
    if |bits| == 0 then 0 else Long(2 * Fold(bits[..|bits| - 1]) + (if bits[|bits| - 1] then 1 else 0))
  }

  /** The shifts lose nothing while the value fits in a `long`. */
  lemma {:induction false} FoldValue(bits: seq<bool>)
    requires Value(bits) < H
    ensures Fold(bits) == Value(bits)
  {
    if |bits| > 0 {
      FoldValue(bits[..|bits| - 1]);
    }
  }

  /** The binary digits of s with no leading zero, none for 0: the string
      `Convert.ToString(s, 2)` once its leading zeros are skipped.  Its length
      is the exact bit length, which the double expression
      `Math.Ceiling(Math.Log(s + 1, 2))` only approximates. */
  function Binary(s: nat): (bits: seq<bool>)
    ensures |bits| > 0 ==> bits[0]
    decreases s
  {
    if s == 0 then [] else Binary(s / 2) + [s % 2 == 1]
  }

  /** Digits and value are inverse to each other. */
  lemma {:induction false} BinaryValue(s: nat)
    ensures Value(Binary(s)) == s
    decreases s
  {
    if s > 0 {
      var b := Binary(s);
      assert b[..|b| - 1] == Binary(s / 2);
      BinaryValue(s / 2);
    }
  }

  lemma {:induction false} ValueBinary(bits: seq<bool>)
    requires |bits| > 0 ==> bits[0]
    ensures Binary(Value(bits)) == bits
  {
    if |bits| > 0 {
      var front := bits[..|bits| - 1];
      ValuePositive(bits);
      if |front| > 0 {
        assert front[0] == bits[0];
      }
      ValueBinary(front);
      assert bits == front + [bits[|bits| - 1]];
    }
  }

  lemma {:induction false} ValuePositive(bits: seq<bool>)
    requires |bits| > 0 && bits[0]
    ensures Value(bits) > 0
  {
    if |bits| > 1 {
      var front := bits[..|bits| - 1];
      assert front[0] == bits[0];
      ValuePositive(front);
    }
  }

  // ---- threshold matrices

  /** The ones among the first p bits. */
  function OnesIn(bits: seq<bool>, p: nat): (c: nat)
    requires p <= |bits|
    ensures c <= p
  {
    if p == 0 then 0 else OnesIn(bits, p - 1) + (if bits[p - 1] then 1 else 0)
  }

  lemma {:induction false} OnesInMono(bits: seq<bool>, p: nat, q: nat)
    requires p <= q <= |bits|
    ensures OnesIn(bits, p) <= OnesIn(bits, q) <= OnesIn(bits, p) + (q - p)
    decreases q - p
  {
    if p < q {
      OnesInMono(bits, p, q - 1);
    }
  }

  /** Vertices x < y are adjacent when the (x+1)-th one of the bits comes
      before the (L-y+1)-th zero, L the number of bits: the walk moves down
      past row x before it moves left past column y. */
  predicate Cell(bits: seq<bool>, x: nat, y: nat)
    requires x < y <= |bits|
  {
    OnesIn(bits, x + 1 + |bits| - y) > x
  }

  function Entry(bits: seq<bool>, x: nat, y: nat): int
    requires x <= |bits| && y <= |bits|
  {
    if x < y then (if Cell(bits, x, y) then 1 else 0)
    else if y < x then (if Cell(bits, y, x) then 1 else 0)
    else 0
  }

  /** The (L+1)-vertex graph a bit string of length L describes. */
  function Threshold(bits: seq<bool>): (m: Matrix)
    ensures |m| == |bits| + 1 && Square(m)
  {
    seq(|bits| + 1, x requires 0 <= x <= |bits| => seq(|bits| + 1, y requires 0 <= y <= |bits| => Entry(bits, x, y)))
  }

  lemma ThresholdSimple(bits: seq<bool>)
    ensures Simple(Threshold(bits))
  {
  }

  // ---- the row test of GetSignature

  /** The `zeroFound` scan of one row from column k on: an off-diagonal zero
      followed by a one fails the row. */
  function RowScan(row: seq<int>, i: int, k: nat, zero: bool): bool
    requires k <= |row|
    decreases |row| - k
  {
    if k == |row| then true
    else if row[k] == 0 && i != k then RowScan(row, i, k + 1, true)
    else if zero && row[k] == 1 then false
    else RowScan(row, i, k + 1, zero)
  }

  predicate RowOk(row: seq<int>, i: int) {
    RowScan(row, i, 0, false)
  }

  /** An off-diagonal zero at or after lo with a one after it. */
  predicate ZeroThenOne(row: seq<int>, i: int, lo: nat) {
    exists k1, k2 :: lo <= k1 < k2 < |row| && row[k1] == 0 && k1 != i && row[k2] == 1
  }

  predicate OneFrom(row: seq<int>, lo: nat) {
    exists k :: lo <= k < |row| && row[k] == 1
  }

  lemma ZeroThenOneStep(row: seq<int>, i: int, k: nat)
    requires k < |row|
    ensures ZeroThenOne(row, i, k) <==> ZeroThenOne(row, i, k + 1) || (row[k] == 0 && k != i && OneFrom(row, k + 1))
    ensures OneFrom(row, k) <==> row[k] == 1 || OneFrom(row, k + 1)
  {
    if ZeroThenOne(row, i, k) {
      var k1, k2 :| k <= k1 < k2 < |row| && row[k1] == 0 && k1 != i && row[k2] == 1;
      if k1 == k {
        assert OneFrom(row, k + 1);
      } else {
        assert ZeroThenOne(row, i, k + 1);
      }
    }
    if row[k] == 0 && k != i && OneFrom(row, k + 1) {
      var k2 :| k + 1 <= k2 < |row| && row[k2] == 1;
      assert ZeroThenOne(row, i, k);
    }
    if ZeroThenOne(row, i, k + 1) {
      var k1, k2 :| k + 1 <= k1 < k2 < |row| && row[k1] == 0 && k1 != i && row[k2] == 1;
      assert ZeroThenOne(row, i, k);
    }
  }

  lemma {:induction false} RowScanMeaning(row: seq<int>, i: int, k: nat, zero: bool)
    requires k <= |row|
    ensures RowScan(row, i, k, zero) <==> !ZeroThenOne(row, i, k) && !(zero && OneFrom(row, k))
    decreases |row| - k
  {
    if k < |row| {
      ZeroThenOneStep(row, i, k);
      if row[k] == 0 && i != k {
        RowScanMeaning(row, i, k + 1, true);
      } else if zero && row[k] == 1 {
      } else {
        RowScanMeaning(row, i, k + 1, zero);
      }
    }
  }

  /** `GetSignature` rejects a row exactly when some off-diagonal zero in it
      is followed by a one. */
  lemma RowOkMeaning(row: seq<int>, i: int)
    ensures RowOk(row, i) <==> !ZeroThenOne(row, i, 0)
  {
    RowScanMeaning(row, i, 0, false);
  }

  /** Every row of a threshold matrix passes: its ones come first. */
  lemma ThresholdRowOk(bits: seq<bool>, x: nat)
    requires x <= |bits|
    ensures RowOk(Threshold(bits)[x], x)
  {
    var row := Threshold(bits)[x];
    RowOkMeaning(row, x);
    if ZeroThenOne(row, x, 0) {
      var k1, k2 :| 0 <= k1 < k2 < |row| && row[k1] == 0 && k1 != x && row[k2] == 1;
      OnesFirst(bits, x, k1, k2);
      assert false;
    }
  }

  lemma OnesFirst(bits: seq<bool>, x: nat, k1: nat, k2: nat)
    requires x <= |bits| && k1 < k2 <= |bits| && k1 != x && k2 != x
    requires Entry(bits, x, k2) == 1
    ensures Entry(bits, x, k1) == 1
  {
    var L := |bits|;
    if k2 < x {
      OnesInMono(bits, k1 + 1 + L - x, k2 + 1 + L - x);
    } else if k1 < x {
      var p1 := k1 + 1 + L - x;
      var p2 := x + 1 + L - k2;
      if p1 >= p2 {
        OnesInMono(bits, p2, p1);
      } else {
        OnesInMono(bits, p1, p2);
      }
    } else {
      OnesInMono(bits, x + 1 + L - k2, x + 1 + L - k1);
    }
  }

  // ---- GetSignature

  /** The staircase walk from (i, j): on a one, record 1 and move down;
      otherwise record 0 and move left; stop when i meets j.  With `check`,
      each visited row is first put to the row test. */
  function Walk(m: Matrix, i: nat, j: int, check: bool): Option<seq<bool>>
    requires Square(m) && j < |m|
    decreases j - i
  {
    if i >= j then Some([])
    else if check && !RowOk(m[i], i) then None
    else if m[i][j] == 1 then
      var rest :- Walk(m, i + 1, j, check);
      Some([true] + rest)
    else
      var rest :- Walk(m, i, j - 1, check);
      Some([false] + rest)
  }

  /** `GetSignature` on a square matrix: -1 when a visited row fails the row
      test, otherwise the bits of the walk shifted into a `long`. */
  function GetSignature(m: Matrix): (s: int)
    requires Square(m)
    ensures -H <= s < H
  {
    match Walk(m, 0, |m| - 1, true)
    case None => -1
    case Some(bits) => Fold(bits)
  }

  /** The walk without the row test: the bits `BasesToSignature` shifts in. */
  function Staircase(m: Matrix, i: nat, j: int): (bits: seq<bool>)
    requires Square(m) && j < |m|
    ensures |bits| == if i < j then j - i else 0
    decreases j - i
  {
    if i >= j then []
    else if m[i][j] == 1 then [true] + Staircase(m, i + 1, j)
    else [false] + Staircase(m, i, j - 1)
  }

  /** The walk fails only at a row that fails the row test, and without
      failures records what the unchecked walk records. */
  lemma {:induction false} WalkShape(m: Matrix, i: nat, j: int, check: bool)
    requires Square(m) && j < |m|
    ensures (forall x :: i <= x < |m| ==> RowOk(m[x], x)) ==> Walk(m, i, j, check).Some?
    ensures Walk(m, i, j, check).None? ==> check && exists x :: i <= x < |m| && !RowOk(m[x], x)
    ensures Walk(m, i, j, check).Some? ==> Walk(m, i, j, check).value == Staircase(m, i, j)
    ensures !check ==> Walk(m, i, j, check) == Some(Staircase(m, i, j))
    decreases j - i
  {
    if i < j && !(check && !RowOk(m[i], i)) {
      if m[i][j] == 1 {
        WalkShape(m, i + 1, j, check);
      } else {
        WalkShape(m, i, j - 1, check);
      }
    }
  }

  /** `GetSignature` gives -1 only for a matrix with a failing row, and
      otherwise shifts in exactly |m| - 1 bits. */
  lemma GetSignatureShape(m: Matrix)
    requires Square(m) && |m| > 0
    ensures (forall x :: 0 <= x < |m| ==> RowOk(m[x], x)) ==> Walk(m, 0, |m| - 1, true).Some?
    ensures Walk(m, 0, |m| - 1, true).Some? ==> GetSignature(m) == Fold(Staircase(m, 0, |m| - 1))
    ensures |Staircase(m, 0, |m| - 1)| == |m| - 1
    ensures Walk(m, 0, |m| - 1, true).None? ==> GetSignature(m) == -1 && exists x :: 0 <= x < |m| && !RowOk(m[x], x)
  {
    WalkShape(m, 0, |m| - 1, true);
  }

  /** The walk over a threshold matrix reads its bits back. */
  lemma {:induction false} WalkThreshold(bits: seq<bool>, i: nat, j: nat)
    requires i <= j <= |bits| && OnesIn(bits, i + |bits| - j) == i
    ensures Walk(Threshold(bits), i, j, true) == Some(bits[i + |bits| - j..])
    decreases j - i
  {
    var L := |bits|;
    var t := i + L - j;
    if i < j {
      ThresholdRowOk(bits, i);
      assert Threshold(bits)[i][j] == Entry(bits, i, j);
      assert OnesIn(bits, t + 1) == i + (if bits[t] then 1 else 0);
      if bits[t] {
        WalkThreshold(bits, i + 1, j);
      } else {
        WalkThreshold(bits, i, j - 1);
      }
      assert bits[t..] == [bits[t]] + bits[t + 1..];
    } else {
      assert bits[t..] == [];
    }
  }

  /** A matrix built from the digits of a signature gives the signature
      back. */
  lemma SignatureRoundTrip(s: int)
    requires 0 <= s < H
    ensures GetSignature(Threshold(Binary(s))) == s
  {
    var bits := Binary(s);
    WalkThreshold(bits, 0, |bits|);
    assert bits[0..] == bits;
    BinaryValue(s);
    FoldValue(bits);
  }

  /** A threshold matrix whose walk starts with a one is rebuilt from its
      signature. */
  lemma ThresholdRoundTrip(bits: seq<bool>)
    requires |bits| > 0 ==> bits[0]
    requires Value(bits) < H
    ensures GetSignature(Threshold(bits)) == Value(bits)
    ensures Threshold(Binary(GetSignature(Threshold(bits)))) == Threshold(bits)
  {
    WalkThreshold(bits, 0, |bits|);
    assert bits[0..] == bits;
    FoldValue(bits);
    ValueBinary(bits);
  }

  // ---- SignatureToAdjacency

  /** The matrix once the loop has filled rows 0..i-1: a cell whose smaller
      end is a filled row holds its threshold entry, or 1 on the diagonal;
      every other cell is still 0. */
  function Partial(bits: seq<bool>, i: nat, x: nat, y: nat): int
    requires x <= |bits| && y <= |bits|
  {
    var lo := if x < y then x else y;
    var hi := if x < y then y else x;
    if lo < i && (lo == hi || Cell(bits, lo, hi)) then 1 else 0
  }

  /** The state of the filling loop after t bits: row i is next, and column
      j is the last one not yet passed over. */
  ghost predicate Filling(bits: seq<bool>, m: Matrix, i: nat, j: int, t: nat) {
    && |m| == |bits| + 1 && Square(m)
    && t <= |bits| && OnesIn(bits, t) == i && j == |bits| - (t - i)
    && forall x, y :: 0 <= x <= |bits| && 0 <= y <= |bits| ==> m[x][y] == Partial(bits, i, x, y)
  }

  /** `for (k = i; k <= j; k++) { matrix[i, k] = 1; matrix[k, i] = 1; }` */
  method FillRow(m: Matrix, i: nat, j: nat) returns (r: Matrix)
    requires Square(m) && i <= j < |m|
    ensures |r| == |m| && Square(r)
    ensures forall x, y :: 0 <= x < |m| && 0 <= y < |m| ==>
      r[x][y] == if (x == i && i <= y <= j) || (y == i && i <= x <= j) then 1 else m[x][y]
  {
    r := m;
    var k := i;
    while k <= j
      invariant i <= k <= j + 1 && |r| == |m| && Square(r)
      invariant forall x, y :: 0 <= x < |m| && 0 <= y < |m| ==>
        r[x][y] == if (x == i && i <= y < k) || (y == i && i <= x < k) then 1 else m[x][y]
    {
      r := r[i := r[i][k := 1]];
      r := r[k := r[k][i := 1]];
      k := k + 1;
    }
  }

  /** `for (k = 0; k < n; k++) matrix[k, k] = 0;` */
  method ZeroDiagonal(m: Matrix) returns (r: Matrix)
    requires Square(m)
    ensures |r| == |m| && Square(r)
    ensures forall x, y :: 0 <= x < |m| && 0 <= y < |m| ==> r[x][y] == if x == y then 0 else m[x][y]
  {
    r := m;
    var k := 0;
    while k < |m|
      invariant k <= |m| && |r| == |m| && Square(r)
      invariant forall x, y :: 0 <= x < |m| && 0 <= y < |m| ==> r[x][y] == if x == y && x < k then 0 else m[x][y]
    {
      r := r[k := r[k][k := 0]];
      k := k + 1;
    }
  }

  /** A one moves the walk down: row i is filled up to column j, which is
      exactly its threshold row. */
  lemma FillStep(bits: seq<bool>, m: Matrix, r: Matrix, i: nat, j: nat, t: nat)
    requires Filling(bits, m, i, j, t) && t < |bits| && bits[t] && i <= j
    requires |r| == |m| && Square(r)
    requires forall x, y :: 0 <= x < |m| && 0 <= y < |m| ==>
      r[x][y] == if (x == i && i <= y <= j) || (y == i && i <= x <= j) then 1 else m[x][y]
    ensures Filling(bits, r, i + 1, j, t + 1)
  {
    var L := |bits|;
    assert OnesIn(bits, t + 1) == i + 1;
    forall k | i < k <= L ensures Cell(bits, i, k) <==> k <= j {
      var p := i + 1 + L - k;
      if k <= j {
        OnesInMono(bits, t + 1, p);
      } else {
        OnesInMono(bits, p, t);
      }
    }
  }

  /** A zero moves the walk left and writes nothing. */
  lemma PassStep(bits: seq<bool>, m: Matrix, i: nat, j: int, t: nat)
    requires Filling(bits, m, i, j, t) && t < |bits| && !bits[t]
    ensures Filling(bits, m, i, j - 1, t + 1)
  {
    assert OnesIn(bits, t + 1) == i;
  }

  /** Once every bit is read and the diagonal cleared, the matrix is the
      threshold matrix of the bits. */
  lemma FillDone(bits: seq<bool>, m: Matrix, r: Matrix, i: nat)
    requires Filling(bits, m, i, i, |bits|)
    requires |r| == |m| && Square(r)
    requires forall x, y :: 0 <= x < |m| && 0 <= y < |m| ==> r[x][y] == if x == y then 0 else m[x][y]
    ensures r == Threshold(bits)
  {
    var L := |bits|;
    var T := Threshold(bits);
    forall x, y | 0 <= x < y <= L ensures Cell(bits, x, y) ==> x < i {
      OnesInMono(bits, x + 1 + L - y, L);
    }
    forall x | 0 <= x <= L ensures r[x] == T[x] {
      forall y | 0 <= y <= L ensures r[x][y] == T[x][y] {
      }
    }
  }

  /** The bits the filling loop acts on when the matrix has `bits` + 1
      vertices: the digits cut to `bits` when there are more, otherwise the
      digits followed by zeros, since the walk stops writing once the digits
      run out, just as it would on zeros. */
  function Sized(digits: seq<bool>, bits: nat): (p: seq<bool>)
    ensures |p| == bits
    ensures forall k :: 0 <= k < bits ==> p[k] == (k < |digits| && digits[k])
  {
    if bits <= |digits| then digits[..bits] else digits + seq(bits - |digits|, _ => false)
  }

  /** `Convert.ToString(signature, 2).PadLeft(bits, '0')` and the loop that
      skips its leading zeros: the digits of s start at `index`. */
  method PaddedDigits(s: int, bits: nat) returns (str: seq<bool>, index: nat)
    requires 0 <= s
    ensures |str| == if bits > |Binary(s)| then bits else if s == 0 then 1 else |Binary(s)|
    ensures forall k :: 0 <= k < |str| - |Binary(s)| ==> !str[k]
    ensures index <= |str| && str[index..] == Binary(s)
  {
    var digits := Binary(s);
    var str0 := if s == 0 then [false] else digits;
    str := if bits > |str0| then seq(bits - |str0|, _ => false) + str0 else str0;
    ghost var pad := |str| - |str0|;
    index := 0;
    while index < |str| && !str[index]
      invariant index <= |str| && (s > 0 ==> index <= pad)
    {
      index := index + 1;
    }
  }

  /** Zeros left over once the digits run out move the walk left and write
      nothing. */
  lemma {:induction false} PassRest(p: seq<bool>, m: Matrix, i: nat, j: int, t: nat)
    requires Filling(p, m, i, j, t)
    requires forall k :: t <= k < |p| ==> !p[k]
    ensures Filling(p, m, i, i, |p|)
    decreases |p| - t
  {
    if t < |p| {
      PassStep(p, m, i, j, t);
      PassRest(p, m, i, j - 1, t + 1);
    }
  }

  /** `SignatureToAdjacency` (and `TrySignatureToAdjacencyMatrix`, which
      always succeeds) as written, on a non-negative `long`, with the bit
      count `(int)Math.Ceiling(Math.Log(signature + 1, 2))` passed in: it is
      a double computation, which this model does not evaluate.  The matrix
      has `bits` + 1 vertices and is the threshold matrix of the digits
      sized to `bits`; `GetSignature` reads exactly those bits back. */
  method SignatureToAdjacencySized(s: int, bits: nat) returns (m: Matrix)
    requires 0 <= s < H
    ensures m == Threshold(Sized(Binary(s), bits))
    ensures |m| == bits + 1 && Square(m) && Simple(m)
    ensures GetSignature(m) == Fold(Sized(Binary(s), bits))
  {
    ghost var digits := Binary(s);
    ghost var p := Sized(digits, bits);
    var n := bits + 1;
    var str, index := PaddedDigits(s, bits);
    ghost var start := index;
    m := seq(n, _ => seq(n, _ => 0));
    var i, j := 0, n - 1;
    while i < j && index < |str|
      invariant start <= index <= |str| && str[start..] == digits
      invariant Filling(p, m, i, j, index - start)
    {
      assert str[index] == digits[index - start] == p[index - start];
      if str[index] {
        var r := FillRow(m, i, j);
        FillStep(p, m, r, i, j, index - start);
        m := r;
        i := i + 1;
      } else {
        PassStep(p, m, i, j, index - start);
        j := j - 1;
      }
      index := index + 1;
    }
    PassRest(p, m, i, j, index - start);
    var r := ZeroDiagonal(m);
    FillDone(p, m, r, i);
    m := r;
    ThresholdSimple(p);
    WalkThreshold(p, 0, |p|);
    assert p[0..] == p;
  }

  /** With the exact bit length the digits are used as they are. */
  lemma SizedExact(digits: seq<bool>)
    ensures Sized(digits, |digits|) == digits
  {
  }

  /** `SignatureToAdjacency` with the exact bit length of the signature: the
      threshold matrix of its binary digits, one vertex more than there are
      digits, a simple graph that `GetSignature` maps back to the signature. */
  method SignatureToAdjacency(s: int) returns (m: Matrix)
    requires 0 <= s < H
    ensures m == Threshold(Binary(s))
    ensures |m| == |Binary(s)| + 1 && Square(m) && Simple(m)
    ensures GetSignature(m) == s
  {
    SizedExact(Binary(s));
    m := SignatureToAdjacencySized(s, |Binary(s)|);
    SignatureRoundTrip(s);
  }

  /** A bit count one too large, as `Math.Log` gives for s = 2^29 - 1: the
      matrix gets an extra vertex and the signature read back is doubled. */
  lemma {:induction false} OneBitOverDoubles(s: int)
    requires 0 < s && 2 * s < H
    ensures GetSignature(Threshold(Sized(Binary(s), |Binary(s)| + 1))) == 2 * s
  {
    var d := Binary(s);
    var p := Sized(d, |d| + 1);
    assert p[..|p| - 1] == d;
    BinaryValue(s);
    assert Value(p) == 2 * s;
    WalkThreshold(p, 0, |p|);
    assert p[0..] == p;
    FoldValue(p);
  }

  /** A bit count one too small, as `Math.Log` gives for s = 2^53: the last
      digit is never read and the signature read back is halved. */
  lemma OneBitShortHalves(s: int)
    requires 0 < s < H
    ensures GetSignature(Threshold(Sized(Binary(s), |Binary(s)| - 1))) == s / 2
  {
    var d := Binary(s);
    assert Sized(d, |d| - 1) == Binary(s / 2);
    SignatureRoundTrip(s / 2);
  }

  /** `TryGetSignature`: `null` is refused, and so is a matrix with a
      visited row that fails the row test; otherwise the signature. */
  function TryGetSignature(m: Option<Matrix>): (r: Result<int, Error>)
    requires m.Some? ==> Square(m.value)
    ensures m.None? ==> r == Failure(NullArgument)
    ensures m.Some? ==> (r.Success? <==> Walk(m.value, 0, |m.value| - 1, true).Some?)
    ensures m.Some? && r.Failure? ==> r == Failure(NotExtreme) && GetSignature(m.value) == -1
    ensures r.Success? ==> r.value == GetSignature(m.value)
  {
    if m.None? then Failure(NullArgument)
    else match Walk(m.value, 0, |m.value| - 1, true)
      case None => Failure(NotExtreme)
      case Some(bits) => Success(Fold(bits))
  }

  // ---- BasesToSignature

  /** An edge (i, j) of a base list. */
  type Base = (int, int)

  function Max(a: int, b: int): int {
    if a < b then b else a
  }

  /** `n = Math.Max(n, Math.Max(i, j))` over the list, from n = 0. */
  function MaxIndex(bases: seq<Base>): (n: int)
    ensures n >= 0
    ensures forall k :: 0 <= k < |bases| ==> bases[k].0 <= n && bases[k].1 <= n
    ensures n > 0 ==> exists k :: 0 <= k < |bases| && (bases[k].0 == n || bases[k].1 == n)
  {
    if |bases| == 0 then 0
    else Max(MaxIndex(bases[..|bases| - 1]), Max(bases[|bases| - 1].0, bases[|bases| - 1].1))
  }

  /** Some of the first t edges joins x and y, in either direction. */
  predicate Listed(bases: seq<Base>, t: nat, x: int, y: int)
    requires t <= |bases|
  {
    t > 0 && (Listed(bases, t - 1, x, y) || bases[t - 1] == (x, y) || bases[t - 1] == (y, x))
  }

  lemma {:induction false} ListedMeans(bases: seq<Base>, t: nat, x: int, y: int)
    requires t <= |bases|
    ensures Listed(bases, t, x, y) <==> exists k :: 0 <= k < t && (bases[k] == (x, y) || bases[k] == (y, x))
  {
    if t > 0 {
      ListedMeans(bases, t - 1, x, y);
    }
  }

  /** The symmetric n-by-n matrix of the listed edges with its diagonal
      cleared. */
  function BaseMatrix(bases: seq<Base>, n: nat): (m: Matrix)
    ensures |m| == n && Square(m)
  {
    seq(n, x requires 0 <= x < n => seq(n, y requires 0 <= y < n => if x != y && Listed(bases, |bases|, x, y) then 1 else 0))
  }

  lemma BaseMatrixSimple(bases: seq<Base>, n: nat)
    ensures Simple(BaseMatrix(bases, n))
  {
    var m := BaseMatrix(bases, n);
    forall x, y | 0 <= x < n && 0 <= y < n ensures m[x][y] == m[y][x] {
      ListedMeans(bases, |bases|, x, y);
      ListedMeans(bases, |bases|, y, x);
    }
  }

  predicate NonNegative(bases: seq<Base>) {
    forall k :: 0 <= k < |bases| ==> bases[k].0 >= 0 && bases[k].1 >= 0
  }

  /** The two loops that build the matrix of a base list whose indices are
      below n. */
  method BuildBaseMatrix(bases: seq<Base>, n: nat) returns (m: Matrix)
    requires forall k :: 0 <= k < |bases| ==> 0 <= bases[k].0 < n && 0 <= bases[k].1 < n
    ensures m == BaseMatrix(bases, n)
  {
    m := seq(n, _ => seq(n, _ => 0));
    var t := 0;
    while t < |bases|
      invariant t <= |bases| && |m| == n && Square(m)
      invariant forall x, y :: 0 <= x < n && 0 <= y < n ==> m[x][y] == if Listed(bases, t, x, y) then 1 else 0
    {
      var (i, j) := bases[t];
      m := m[i := m[i][j := 1]];
      m := m[j := m[j][i := 1]];
      t := t + 1;
    }
    var r := ZeroDiagonal(m);
    var B := BaseMatrix(bases, n);
    forall x | 0 <= x < n ensures r[x] == B[x] {
      forall y | 0 <= y < n ensures r[x][y] == B[x][y] {
      }
    }
    m := r;
  }

  /** The bits of a base list with no negative index. */
  function BasesBits(bases: seq<Base>): (bits: seq<bool>)
    ensures |bits| == MaxIndex(bases)
  {
    Staircase(BaseMatrix(bases, MaxIndex(bases) + 1), 0, MaxIndex(bases))
  }

  /** The unchecked walk over the matrix of a base list. */
  method SignatureOfBases(bases: seq<Base>) returns (s: int)
    requires NonNegative(bases)
    ensures s == Fold(BasesBits(bases))
  {
    var n := MaxIndex(bases) + 1;
    var m := BuildBaseMatrix(bases, n);
    s := Fold(Staircase(m, 0, n - 1));
  }

  /** `BasesToSignature`: an empty list is refused and a negative index runs
      off the matrix; otherwise the walk over the matrix of the listed edges
      shifts in one bit per vertex but one, without the row test of
      `GetSignature`. */
  method BasesToSignature(bases: seq<Base>) returns (r: Result<int, Error>)
    ensures |bases| == 0 ==> r == Failure(NoBases)
    ensures |bases| > 0 && !NonNegative(bases) ==> r == Failure(OutOfRange)
    ensures r.Success? <==> |bases| > 0 && NonNegative(bases)
    ensures r.Success? ==> r.value == Fold(BasesBits(bases))
  {
    if |bases| == 0 {
      return Failure(NoBases);
    }
    if exists k :: 0 <= k < |bases| && (bases[k].0 < 0 || bases[k].1 < 0) {
      return Failure(OutOfRange);
    }
    var s := SignatureOfBases(bases);
    r := Success(s);
  }

  /** The unchecked walk of `BasesToSignature` agrees with `GetSignature`
      on the same matrix whenever that does not give -1. */
  lemma BasesAgree(bases: seq<Base>)
    requires GetSignature(BaseMatrix(bases, MaxIndex(bases) + 1)) != -1
    ensures GetSignature(BaseMatrix(bases, MaxIndex(bases) + 1)) == Fold(BasesBits(bases))
  {
    SignatureAgrees(BaseMatrix(bases, MaxIndex(bases) + 1));
  }

  lemma SignatureAgrees(m: Matrix)
    requires Square(m) && |m| > 0 && GetSignature(m) != -1
    ensures GetSignature(m) == Fold(Staircase(m, 0, |m| - 1))
  {
    GetSignatureShape(m);
  }

  /** `TryBaseToSignature`: as `BasesToSignature`, except that `null` is
      refused and an empty list gives 0. */
  method TryBaseToSignature(bases: Option<seq<Base>>) returns (r: Result<int, Error>)
    ensures bases.None? ==> r == Failure(NullArgument)
    ensures bases == Some([]) ==> r == Success(0)
    ensures bases.Some? && !NonNegative(bases.value) ==> r == Failure(OutOfRange)
    ensures bases.Some? && NonNegative(bases.value) ==> r == Success(Fold(BasesBits(bases.value)))
  {
    if bases.None? {
      return Failure(NullArgument);
    }
    if exists k :: 0 <= k < |bases.value| && (bases.value[k].0 < 0 || bases.value[k].1 < 0) {
      return Failure(OutOfRange);
    }
    var s := SignatureOfBases(bases.value);
    r := Success(s);
  }

  /** Listing the edges of a threshold matrix whose walk starts with a one
      rebuilds the matrix, so `BasesToSignature` gives its signature. */
  lemma BasesOfThreshold(bits: seq<bool>, bases: seq<Base>)
    requires |bits| > 0 && bits[0] && Value(bits) < H
    requires forall k :: 0 <= k < |bases| ==> 0 <= bases[k].0 <= |bits| && 0 <= bases[k].1 <= |bits|
    requires forall x, y :: 0 <= x <= |bits| && 0 <= y <= |bits| && x != y ==>
      (Listed(bases, |bases|, x, y) <==> Entry(bits, x, y) == 1)
    ensures MaxIndex(bases) == |bits|
    ensures BaseMatrix(bases, MaxIndex(bases) + 1) == Threshold(bits)
    ensures Fold(BasesBits(bases)) == Value(bits)
  {
    var L := |bits|;
    assert OnesIn(bits, 1) == 1;
    assert Entry(bits, 0, L) == 1;
    ListedMeans(bases, |bases|, 0, L);
    var k :| 0 <= k < |bases| && (bases[k] == (0, L) || bases[k] == (L, 0));
    assert MaxIndex(bases) >= L;
    var B := BaseMatrix(bases, L + 1);
    var T := Threshold(bits);
    forall x | 0 <= x <= L ensures B[x] == T[x] {
      forall y | 0 <= y <= L ensures B[x][y] == T[x][y] {
      }
    }
    assert B == T;
    WalkThreshold(bits, 0, L);
    assert bits[0..] == bits;
    WalkShape(T, 0, L, true);
    FoldValue(bits);
  }
}

=== FILE: sorting.dfy ===
/** Python's `sorted(xs, key=…)` and `list.sort(key=…)`: a stable sort by an
    integer key, as the planarity test sorts `ordered_adjs` by nesting depth
    (Graphs/planarity.py) and Kruskal sorts the edge list by weight
    (Graphs/Graphs.py).  Modelled as insertion sort, which is stable like
    Python's sort. */
module Sorting {

  predicate SortedBy<T(!new)>(s: seq<T>, key: T -> int) {
    forall i, j :: 0 <= i < j < |s| ==> key(s[i]) <= key(s[j])
  }

  /** The elements of `s` whose key is k, in their order in `s`. */
  function Filter<T(!new)>(s: seq<T>, key: T -> int, k: int): (r: seq<T>)
    ensures |r| <= |s|
  {
    if |s| == 0 then []
    else if key(s[0]) == k then [s[0]] + Filter(s[1..], key, k)
    else Filter(s[1..], key, k)
  }

  /** Puts x in front of the first element whose key is not below its own. */
  function Insert<T(==,!new)>(x: T, t: seq<T>, key: T -> int): (r: seq<T>)
    ensures multiset(r) == multiset(t) + multiset{x}
    ensures forall y :: y in r <==> y == x || y in t
  {
    if |t| == 0 || key(x) <= key(t[0]) then [x] + t
    else
      assert t == [t[0]] + t[1..];
      [t[0]] + Insert(x, t[1..], key)
  }

  /** Inserting into a sorted list keeps it sorted. */
  lemma {:induction false} InsertSorted<T(!new)>(x: T, t: seq<T>, key: T -> int)
    requires SortedBy(t, key)
    ensures SortedBy(Insert(x, t, key), key)
  {
    if |t| > 0 && key(x) > key(t[0]) {
      var rest := Insert(x, t[1..], key);
      InsertSorted(x, t[1..], key);
      forall j | 0 <= j < |rest| ensures key(t[0]) <= key(rest[j]) {
        if rest[j] != x {
          assert rest[j] in t[1..];
        }
      }
      var r := [t[0]] + rest;
      forall i, j | 0 <= i < j < |r| ensures key(r[i]) <= key(r[j]) {
        if i > 0 { assert r[i] == rest[i - 1] && r[j] == rest[j - 1]; }
        else { assert r[j] == rest[j - 1]; }
      }
    }
  }

  /** `sorted(s, key=key)`: a permutation of s ordered by key. */
  function Sort<T(==,!new)>(s: seq<T>, key: T -> int): (r: seq<T>)
    ensures multiset(r) == multiset(s)
    ensures SortedBy(r, key)
  {
    if |s| == 0 then []
    else
      assert s == [s[0]] + s[1..];
      InsertSorted(s[0], Sort(s[1..], key), key);
      Insert(s[0], Sort(s[1..], key), key)
  }

  /** Inserting into a sorted list puts x before every element of equal key. */
  lemma {:induction false} InsertFilter<T(!new)>(x: T, t: seq<T>, key: T -> int, k: int)
    requires SortedBy(t, key)
    ensures Filter(Insert(x, t, key), key, k) == if key(x) == k then [x] + Filter(t, key, k) else Filter(t, key, k)
  {
    if |t| == 0 || key(x) <= key(t[0]) {
      assert ([x] + t)[1..] == t;
    } else {
      InsertFilter(x, t[1..], key, k);
      var r := [t[0]] + Insert(x, t[1..], key);
      assert r[1..] == Insert(x, t[1..], key);
      if key(t[0]) == k {
        assert key(x) != k;
      }
    }
  }

  /** Stability: among the elements of any one key, the sort keeps the input
      order. */
  lemma {:induction false} SortStable<T(!new)>(s: seq<T>, key: T -> int, k: int)
    ensures Filter(Sort(s, key), key, k) == Filter(s, key, k)
  {
    if |s| > 0 {
      SortStable(s[1..], key, k);
      InsertFilter(s[0], Sort(s[1..], key), key, k);
    }
  }
}

=== FILE: text_search.dfy ===
/** OSLabs/Lab2/Task3/task3.c without its processes and pipes: count the
    non-overlapping occurrences of a string in each file named in a list,
    report the files that contain it, and size the process tree grown when
    nothing is found. Files are given as the lines `fgets` returns. */
module TextSearch {
  import opened Wrappers
  import opened CString

  // ---------------------------------------------------------------------
  // search_in_file
  // ---------------------------------------------------------------------

  /** The occurrences of pat in s from position `from` on, found left to
      right with each search resuming after the previous match. */
  function Occurrences(s: string, pat: string, from: nat): nat
    requires |pat| >= 1 && from <= |s|
    decreases |s| - from
  {
    match Find(s, pat, from)
    case None => 0
    case Some(i) => 1 + Occurrences(s, pat, i + |pat|)
  }

  /** The matches counted do not overlap, so they fit in the text; there
      are none exactly when pat occurs nowhere. */
  lemma {:induction false} OccurrencesBound(s: string, pat: string, from: nat)
    requires |pat| >= 1 && from <= |s|
    ensures Occurrences(s, pat, from) * |pat| <= |s| - from
    ensures Occurrences(s, pat, from) == 0 <==> forall j :: from <= j <= |s| ==> !MatchAt(s, pat, j)
    decreases |s| - from
  {
    var r := Find(s, pat, from);
    if r.Some? {
      var next := r.value + |pat|;
      OccurrencesBound(s, pat, next);
      var n := Occurrences(s, pat, next);
      assert Occurrences(s, pat, from) == n + 1;
      MulSucc(n, |pat|);
    }
  }

  lemma MulSucc(n: nat, p: nat)
    ensures (n + 1) * p == n * p + p
  {
  }

  /** For a one-character pat the count is the number of times the
      character appears. */
  lemma {:induction false} OccurrencesOfChar(s: string, c: char, from: nat)
    requires from <= |s|
    ensures Occurrences(s, [c], from) == multiset(s[from..])[c]
    decreases |s| - from
  {
    if from < |s| {
      assert s[from..] == [s[from]] + s[from + 1..];
      OccurrencesOfChar(s, c, from + 1);
      if s[from] != c {
        assert !MatchAt(s, [c], from);
        SkipMismatch(s, [c], from);
      }
    }
  }

  /** A position where pat does not match adds nothing. */
  lemma SkipMismatch(s: string, pat: string, from: nat)
    requires |pat| >= 1 && from < |s| && !MatchAt(s, pat, from)
    ensures Occurrences(s, pat, from) == Occurrences(s, pat, from + 1)
  {
    assert Find(s, pat, from) == Find(s, pat, from + 1);
  }

  /** A match found moves the count on by one. */
  lemma OccurrencesStep(s: string, pat: string, from: nat)
    requires |pat| >= 1 && from <= |s| && Find(s, pat, from).Some?
    ensures Find(s, pat, from).value + |pat| <= |s|
    ensures Occurrences(s, pat, from) == 1 + Occurrences(s, pat, Find(s, pat, from).value + |pat|)
  {
  }

  /** The inner loop of `search_in_file` over one line: `strstr` from a
      position that moves past each match. */
  method CountInLine(line: string, pat: string) returns (count: nat)
    requires |pat| >= 1
    ensures count == Occurrences(line, pat, 0)
  {
    ghost var total := Occurrences(line, pat, 0);
    count := 0;
    var ptr := 0;
    while true
      invariant ptr <= |line|
      invariant count + Occurrences(line, pat, ptr) == total
      decreases |line| - ptr
    {
      var next := Find(line, pat, ptr);
      if next.None? {
        break;
      }
      OccurrencesStep(line, pat, ptr);
      count := count + 1;
      ptr := next.value + |pat|;
    }
  }

  /** The occurrences in every line of a file. */
  function FileCount(lines: seq<string>, pat: string): nat
    requires |pat| >= 1
  {
    if |lines| == 0 then 0
    else FileCount(lines[..|lines| - 1], pat) + Occurrences(lines[|lines| - 1], pat, 0)
  }

  /** A file's count is the sum of the counts of its parts. */
  lemma {:induction false} FileCountAppend(a: seq<string>, b: seq<string>, pat: string)
    requires |pat| >= 1
    ensures FileCount(a + b, pat) == FileCount(a, pat) + FileCount(b, pat)
    decreases |b|
  {
    if |b| > 0 {
      assert (a + b)[..|a + b| - 1] == a + b[..|b| - 1];
      FileCountAppend(a, b[..|b| - 1], pat);
    } else {
      assert a + b == a;
    }
  }

  /** `search_in_file`: -1 when the file cannot be opened, else the count
      over its lines. */
  method SearchInFile(fs: map<string, seq<string>>, name: string, pat: string) returns (count: int)
    requires |pat| >= 1
    ensures name !in fs ==> count == -1
    ensures name in fs ==> count == FileCount(fs[name], pat)
  {
    if name !in fs {
      return -1;
    }
    var lines := fs[name];
    count := 0;
    var k := 0;
    while k < |lines|
      invariant k <= |lines| && count == FileCount(lines[..k], pat)
    {
      var n := CountInLine(lines[k], pat);
      assert lines[..k + 1][..k] == lines[..k];
      count := count + n;
      k := k + 1;
    }
    assert lines[..k] == lines;
  }

  // ---------------------------------------------------------------------
  // The file list
  // ---------------------------------------------------------------------

  /** The file name on each line of the list, cut at its newline. */
  function Names(lines: seq<string>): (names: seq<string>)
    ensures |names| == |lines|
    ensures forall k :: 0 <= k < |lines| ==> names[k] == Before(lines[k], '\n')
  {
    seq(|lines|, k requires 0 <= k < |lines| => Before(lines[k], '\n'))
  }

  /** The first position of x in xs. */
  function FirstIndex(xs: seq<string>, x: string): (i: nat)
    requires x in xs
    ensures i < |xs| && xs[i] == x && x !in xs[..i]
  {
    if xs[0] == x then 0
    else
      var i := FirstIndex(xs[1..], x) + 1;
      assert xs[..i] == [xs[0]] + xs[1..][..i - 1];
      i
  }

  /** The first position of x is at most any position holding x. */
  lemma FirstIndexLeast(xs: seq<string>, x: string, k: nat)
    requires k < |xs| && xs[k] == x
    ensures FirstIndex(xs, x) <= k
  {
  }

  /** The `strcmp` scan of the names kept so far, stopping at a match. */
  method IsUnique(files: seq<string>, name: string) returns (unique: bool)
    ensures unique <==> name !in files
  {
    unique := true;
    var i := 0;
    while i < |files| && unique
      invariant i <= |files|
      invariant unique <==> forall l :: 0 <= l < i ==> files[l] != name
    {
      if files[i] == name {
        unique := false;
      }
      i := i + 1;
    }
  }

  /** `files` is what the list loop keeps from the first k names: no name
      twice, exactly the non-empty names seen, in the order they first
      appear. */
  ghost predicate KeptFrom(names: seq<string>, k: nat, files: seq<string>)
    requires k <= |names|
  {
    && (forall i, j :: 0 <= i < j < |files| ==> files[i] != files[j])
    && (forall f :: f in files <==> f != [] && f in names[..k])
    && (forall i :: 0 <= i < |files| ==> files[i] in names && FirstIndex(names, files[i]) < k)
    && (forall i, j :: 0 <= i < j < |files| ==>
         files[i] in names && files[j] in names &&
         FirstIndex(names, files[i]) < FirstIndex(names, files[j]))
  }

  /** One turn of the list loop keeps `KeptFrom`. */
  lemma KeptStep(names: seq<string>, k: nat, files: seq<string>)
    requires k < |names| && KeptFrom(names, k, files)
    ensures names[k] !in files && names[k] != [] ==> KeptFrom(names, k + 1, files + [names[k]])
    ensures names[k] in files || names[k] == [] ==> KeptFrom(names, k + 1, files)
  {
    var name := names[k];
    assert names[..k + 1] == names[..k] + [name];
    if name !in files && name != [] {
      assert name !in names[..k];
      FirstIndexLeast(names, name, k);
      var files' := files + [name];
      assert forall i :: 0 <= i < |files| ==> files'[i] == files[i];
    }
  }

  /** The list loop of `main`: keep each non-empty name the first time it
      appears. The result holds no name twice, holds exactly the non-empty
      names of the list, and keeps them in the order they first appear. */
  method UniqueFiles(lines: seq<string>) returns (files: seq<string>)
    ensures forall i, j :: 0 <= i < j < |files| ==> files[i] != files[j]
    ensures forall f :: f in files <==> f != [] && f in Names(lines)
    ensures forall i, j :: 0 <= i < j < |files| ==>
      FirstIndex(Names(lines), files[i]) < FirstIndex(Names(lines), files[j])
  {
    var names := Names(lines);
    files := [];
    var k := 0;
    while k < |lines|
      invariant k <= |lines| && KeptFrom(names, k, files)
    {
      var name := Before(lines[k], '\n');
      var unique := IsUnique(files, name);
      KeptStep(names, k, files);
      if unique && |name| > 0 {
        files := files + [name];
      }
      k := k + 1;
    }
    assert names[..k] == names;
  }

  // ---------------------------------------------------------------------
  // Reporting
  // ---------------------------------------------------------------------

  /** The tokens `strtok` returns in turn for the delimiter c: the maximal
      runs without c, empty runs skipped. */
  function Tokens(s: string, c: char): seq<string>
    decreases |s|
  {
    if |s| == 0 then []
    else if s[0] == c then Tokens(s[1..], c)
    else
      var t := Before(s, c);
      [t] + (if |t| == |s| then [] else Tokens(s[|t| + 1..], c))
  }

  /** A text with a character other than the delimiter has a token. */
  lemma {:induction false} TokensOfNonDelimiter(s: string, c: char, k: nat)
    requires k < |s| && s[k] != c
    ensures |Tokens(s, c)| >= 1
    decreases |s|
  {
    if s[0] == c {
      TokensOfNonDelimiter(s[1..], c, k - 1);
    }
  }

  /** The result a child writes, "name:count", is counted by the parent
      exactly when its two `strtok` calls both find a token, which is
      exactly when the name has a character other than ':'. */
  lemma {:induction false} ReportParsed(name: string, n: nat)
    ensures |Tokens(name + [':'] + Dec(n), ':')| >= 2 <==> exists i :: 0 <= i < |name| && name[i] != ':'
    decreases |name|
  {
    var d := Dec(n);
    var s := name + [':'] + d;
    assert ':' !in d;
    if |name| == 0 {
      assert s[1..] == d;
      BeforeJoin(d, ':', []);
      assert Tokens(s, ':') == [d];
    } else if name[0] == ':' {
      assert s[1..] == name[1..] + [':'] + d;
      ReportParsed(name[1..], n);
      if exists i :: 0 <= i < |name[1..]| && name[1..][i] != ':' {
        var i :| 0 <= i < |name[1..]| && name[1..][i] != ':';
        assert name[i + 1] != ':';
      }
      if exists i :: 0 <= i < |name| && name[i] != ':' {
        var i :| 0 <= i < |name| && name[i] != ':';
        assert name[1..][i - 1] != ':';
      }
    } else {
      var t := Before(s, ':');
      assert s[|name|] == ':';
      assert |t| <= |name|;
      var rest := s[|t| + 1..];
      assert rest[|rest| - 1] == d[|d| - 1];
      TokensOfNonDelimiter(rest, ':', |rest| - 1);
      assert name[0] != ':';
    }
  }

  /** What the parent receives from the child searching `name`: the
      child writes only for a positive count. */
  predicate Reported(fs: map<string, seq<string>>, name: string, pat: string)
    requires |pat| >= 1
  {
    name in fs && FileCount(fs[name], pat) > 0 &&
    |Tokens(name + [':'] + Dec(FileCount(fs[name], pat)), ':')| >= 2
  }

  /** The processes `create_fork_tree(depth)` starts: two children, each
      growing a tree one level lower. */
  function ForkTreeSize(depth: int): nat
    decreases depth
  {
    if depth <= 0 then 0 else 2 + 2 * ForkTreeSize(depth - 1)
  }

  function Pow2(k: nat): nat {
    if k == 0 then 1 else 2 * Pow2(k - 1)
  }

  /** A tree of height h has 2^(h+1) - 2 processes below its root. */
  lemma {:induction false} ForkTreeSizeIs(h: nat)
    ensures ForkTreeSize(h) + 2 == Pow2(h + 1)
  {
    if h > 0 {
      ForkTreeSizeIs(h - 1);
    }
  }

  /** How a run ends: a search for the empty string in a readable file
      with at least one line never stops; otherwise the files reported, and the height of the
      process tree grown when none is. */
  datatype Outcome = Diverges | Done(found: seq<string>, treeHeight: nat)

  /** `main` after reading the list: one search per unique file, the
      reported files in list order, and a tree as high as pat is long when
      no file is reported (also when the list names no file). */
  method Search(lines: seq<string>, fs: map<string, seq<string>>, pat: string) returns (r: Outcome)
    ensures r.Diverges? <==> |pat| == 0 && exists f :: f in fs && fs[f] != [] && f != [] && f in Names(lines)
    ensures r.Done? && |pat| >= 1 ==>
      forall f :: f in r.found <==> f != [] && f in Names(lines) && Reported(fs, f, pat)
    ensures r.Done? && |pat| == 0 ==> r.found == []
    ensures r.Done? ==> forall i, j :: 0 <= i < j < |r.found| ==> r.found[i] != r.found[j]
    ensures r.Done? ==> r.treeHeight == if |r.found| == 0 then |pat| else 0
  {
    var files := UniqueFiles(lines);
    if |pat| == 0 {
      var k := 0;
      while k < |files|
        invariant k <= |files| && forall l :: 0 <= l < k ==> files[l] !in fs || fs[files[l]] == []
      {
        if files[k] in fs && fs[files[k]] != [] {
          assert files[k] in files;
          return Diverges;
        }
        k := k + 1;
      }
      return Done([], 0);
    }
    var found := [];
    var k := 0;
    while k < |files|
      invariant k <= |files|
      invariant forall f :: f in found <==> f in files[..k] && Reported(fs, f, pat)
      invariant forall i, j :: 0 <= i < j < |found| ==> found[i] != found[j]
    {
      var count := SearchInFile(fs, files[k], pat);
      assert files[..k + 1] == files[..k] + [files[k]];
      if count > 0 && |Tokens(files[k] + [':'] + Dec(count), ':')| >= 2 {
        assert files[k] !in files[..k];
        found := found + [files[k]];
      }
      k := k + 1;
    }
    assert files[..k] == files;
    r := Done(found, if |found| == 0 then |pat| else 0);
  }

  /** An empty pattern over a listed file that is empty: `fgets` returns
      nothing, so `strstr` is never reached and the run ends. */
  method EmptyFileEnds() returns (r: Outcome)
    ensures r == Done([], 0)
  {
    BeforeJoin("a", '\n', "");
    assert Names(["a"]) == ["a"];
    r := Search(["a"], map["a" := []], "");
  }
}

=== FILE: wrappers.dfy ===
/** Failure-compatible result types shared by every module of the model. */
module Wrappers {

  /** A value that may be absent (Python's `None`, C's NULL). */
  datatype Option<+T> = None | Some(value: T) {
    predicate IsFailure() { None? }

    function PropagateFailure<U>(): Option<U>
      requires None?
    {
      None
    }

    function Extract(): T
      requires Some?
    {
      value
    }
  }

  /** Either a value or the error a source routine raises or returns instead. */
  datatype Result<+R, +E> = Success(value: R) | Failure(error: E) {
    predicate IsFailure() { Failure? }

    function PropagateFailure<U>(): Result<U, E>
      requires Failure?
    {
      Failure(error)
    }

    function Extract(): R
      requires Success?
    {
      value
    }
  }
}

=== FILE: xor_stream.dfy ===
/** OSLabs/Lab1/Task4/task4.c over an in-memory file: the byte XOR, the XOR
    of the 32-bit words holding a prime byte, and the count of words that
    cover a mask. Words are read as `fread` reads an `unsigned int` on a
    little-endian machine, and a trailing partial word is never read. */
module XorStream {
  import opened Numbers

  // ---------------------------------------------------------------------
  // xor8
  // ---------------------------------------------------------------------

  /** The XOR of all bytes, 0 for none. */
  function XorAll(s: seq<bv8>): bv8 {
    if |s| == 0 then 0 else XorAll(s[..|s| - 1]) ^ s[|s| - 1]
  }

  /** `xor8`: fold every byte of the file into an `unsigned char`. */
  method Xor8(s: seq<bv8>) returns (r: bv8)
    ensures r == XorAll(s)
  {
    r := 0;
    var i := 0;
    while i < |s|
      invariant i <= |s| && r == XorAll(s[..i])
    {
      assert s[..i + 1][..i] == s[..i];
      r := r ^ s[i];
      i := i + 1;
    }
    assert s[..i] == s;
  }

  /** The XOR of a concatenation is the XOR of the parts' XORs. */
  lemma {:induction false} XorAllAppend(a: seq<bv8>, b: seq<bv8>)
    ensures XorAll(a + b) == XorAll(a) ^ XorAll(b)
    decreases |b|
  {
    if |b| > 0 {
      var b', x := b[..|b| - 1], b[|b| - 1];
      assert (a + b)[..|a + b| - 1] == a + b';
      assert (a + b)[|a + b| - 1] == x;
      XorAllAppend(a, b');
      XorAssoc(XorAll(a), XorAll(b'), x);
    } else {
      assert a + b == a;
    }
  }

  lemma XorAssoc(p: bv8, q: bv8, x: bv8)
    ensures (p ^ q) ^ x == p ^ (q ^ x)
  {
  }

  /** Reordering two blocks of the file leaves `xor8` unchanged, and a file
      that repeats itself folds to 0. */
  lemma XorAllSwapAndCancel(a: seq<bv8>, b: seq<bv8>)
    ensures XorAll(a + b) == XorAll(b + a)
    ensures XorAll(a + a) == 0
  {
    XorAllAppend(a, b);
    XorAllAppend(b, a);
    XorAllAppend(a, a);
  }

  // ---------------------------------------------------------------------
  // Words
  // ---------------------------------------------------------------------

  /** Four bytes in file order as the `unsigned int` a little-endian
      machine reads. */
  function Pack(b0: bv8, b1: bv8, b2: bv8, b3: bv8): bv32 {
    (b0 as bv32) | (b1 as bv32 << 8) | (b2 as bv32 << 16) | (b3 as bv32 << 24)
  }

  /** `((unsigned char *)&value)[j]` on a little-endian machine. */
  function ByteOf(w: bv32, j: nat): bv8
    requires j < 4
  {
    if j == 0 then (w & 0xFF) as bv8
    else if j == 1 then ((w >> 8) & 0xFF) as bv8
    else if j == 2 then ((w >> 16) & 0xFF) as bv8
    else ((w >> 24) & 0xFF) as bv8
  }

  /** Viewing a packed word as bytes gives back the bytes in file order. */
  lemma PackBytes(b0: bv8, b1: bv8, b2: bv8, b3: bv8)
    ensures ByteOf(Pack(b0, b1, b2, b3), 0) == b0 && ByteOf(Pack(b0, b1, b2, b3), 1) == b1
    ensures ByteOf(Pack(b0, b1, b2, b3), 2) == b2 && ByteOf(Pack(b0, b1, b2, b3), 3) == b3
  {
  }

  /** The whole words `fread` delivers, one per four bytes; a trailing
      partial word is never read. */
  function Words(s: seq<bv8>): (ws: seq<bv32>)
    ensures |ws| == |s| / 4
    decreases |s|
  {
    if |s| < 4 then [] else [Pack(s[0], s[1], s[2], s[3])] + Words(s[4..])
  }

  /** Word k is made of bytes 4k to 4k + 3 of the file. */
  lemma {:induction false} WordAt(s: seq<bv8>, k: nat)
    requires k < |s| / 4
    ensures Words(s)[k] == Pack(s[4 * k], s[4 * k + 1], s[4 * k + 2], s[4 * k + 3])
    decreases k
  {
    if k > 0 {
      WordAt(s[4..], k - 1);
    }
  }

  /** Appending fewer than four bytes to a whole number of words reads the
      same words. */
  lemma {:induction false} PartialWordIgnored(s: seq<bv8>, t: seq<bv8>)
    requires |s| % 4 == 0 && |t| < 4
    ensures Words(s + t) == Words(s)
    decreases |s|
  {
    if |s| >= 4 {
      assert (s + t)[4..] == s[4..] + t;
      PartialWordIgnored(s[4..], t);
    } else {
      assert |s| == 0 && s + t == t;
    }
  }

  // ---------------------------------------------------------------------
  // xorodd
  // ---------------------------------------------------------------------

  /** Some byte of the word is prime. */
  ghost predicate HasPrimeByte(w: bv32) {
    Prime(ByteOf(w, 0) as nat) || Prime(ByteOf(w, 1) as nat) || Prime(ByteOf(w, 2) as nat) || Prime(ByteOf(w, 3) as nat)
  }

  /** `result ^= value` on an `unsigned int`. */
  function XorInto(acc: bv32, w: bv32): bv32 { acc ^ w }

  /** The XOR of the first k words whose flag is set. */
  function XorFlagged(ws: seq<bv32>, flags: seq<bool>, k: nat): bv32
    requires k <= |ws| && k <= |flags|
  {
    if k == 0 then 0
    else XorInto(XorFlagged(ws, flags, k - 1), if flags[k - 1] then ws[k - 1] else 0)
  }

  /** Which words hold a prime byte. */
  ghost function PrimeFlags(ws: seq<bv32>): (flags: seq<bool>)
    ensures |flags| == |ws|
    ensures forall k :: 0 <= k < |ws| ==> (flags[k] <==> HasPrimeByte(ws[k]))
  {
    seq(|ws|, k requires 0 <= k < |ws| => HasPrimeByte(ws[k]))
  }

  /** The XOR of the first k words that hold a prime byte. */
  ghost function OddXor(ws: seq<bv32>, k: nat): bv32
    requires k <= |ws|
  {
    XorFlagged(ws, PrimeFlags(ws), k)
  }

  /** The byte scan of one word, stopping at the first prime byte. */
  method PrimeByteIn(w: bv32) returns (has: bool)
    ensures has <==> HasPrimeByte(w)
  {
    has := false;
    var j := 0;
    while j < 4 && !has
      invariant 0 <= j <= 4
      invariant has <==> exists l :: 0 <= l < j && Prime(ByteOf(w, l) as nat)
    {
      has := IsPrime(ByteOf(w, j) as nat);
      j := j + 1;
    }
  }

  /** The loop of `xorodd` over the words read. */
  method XorOddWords(ws: seq<bv32>) returns (r: bv32)
    ensures r == OddXor(ws, |ws|)
  {
    ghost var flags := PrimeFlags(ws);
    r := 0;
    var k := 0;
    while k < |ws|
      invariant k <= |ws| && r == XorFlagged(ws, flags, k)
    {
      var has := PrimeByteIn(ws[k]);
      assert has == flags[k];
      if has {
        r := XorInto(r, ws[k]);
      }
      k := k + 1;
    }
  }

  /** `xorodd`: XOR together the whole words with a prime byte. */
  method XorOdd(s: seq<bv8>) returns (r: bv32)
    ensures r == OddXor(Words(s), |s| / 4)
  {
    r := XorOddWords(Words(s));
  }

  /** A word is selected by `xorodd` exactly when one of its four bytes in
      the file is prime. */
  lemma SelectedByFileBytes(s: seq<bv8>, k: nat)
    requires k < |s| / 4
    ensures HasPrimeByte(Words(s)[k]) <==>
      Prime(s[4 * k] as nat) || Prime(s[4 * k + 1] as nat) || Prime(s[4 * k + 2] as nat) || Prime(s[4 * k + 3] as nat)
  {
    WordAt(s, k);
    PackBytes(s[4 * k], s[4 * k + 1], s[4 * k + 2], s[4 * k + 3]);
  }

  // ---------------------------------------------------------------------
  // mask_count
  // ---------------------------------------------------------------------

  /** The word has every bit of the mask set. */
  predicate Covers(w: bv32, mask: bv32) {
    w & mask == mask
  }

  /** How many of the first k words cover the mask. */
  function MaskMatches(ws: seq<bv32>, mask: bv32, k: nat): nat
    requires k <= |ws|
  {
    if k == 0 then 0
    else MaskMatches(ws, mask, k - 1) + (if Covers(ws[k - 1], mask) then 1 else 0)
  }

  /** The loop of `mask_count` over the words read. */
  method MaskCountWords(ws: seq<bv32>, mask: bv32) returns (count: nat)
    ensures count == MaskMatches(ws, mask, |ws|)
  {
    count := 0;
    var k := 0;
    while k < |ws|
      invariant k <= |ws| && count == MaskMatches(ws, mask, k)
    {
      if ws[k] & mask == mask {
        count := count + 1;
      }
      k := k + 1;
    }
  }

  /** `mask_count`: count the whole words covering the mask. */
  method MaskCount(s: seq<bv8>, mask: bv32) returns (count: nat)
    ensures count == MaskMatches(Words(s), mask, |s| / 4)
  {
    count := MaskCountWords(Words(s), mask);
  }

  /** At most every word matches; mask 0 matches every word, and a mask
      with more bits set matches no more words. */
  lemma {:induction false} MaskMatchesBounds(ws: seq<bv32>, small: bv32, big: bv32, k: nat)
    requires k <= |ws| && small & big == small
    ensures MaskMatches(ws, big, k) <= MaskMatches(ws, small, k) <= k
    ensures MaskMatches(ws, 0, k) == k
  {
    if k > 0 {
      MaskMatchesBounds(ws, small, big, k - 1);
      CoversWeaker(ws[k - 1], small, big);
    }
  }

  /** A word covering a mask covers every mask with fewer bits, mask 0
      included. */
  lemma CoversWeaker(w: bv32, small: bv32, big: bv32)
    requires small & big == small
    ensures Covers(w, big) ==> Covers(w, small)
    ensures Covers(w, 0)
  {
  }
}
